=== FILE: README.md ===
# Fleet war-room data model

A Dafny model of the data-reconciliation core of the fleet "war room" application:

- the three Python scripts that build its data files:
  - `integrate_data.py` resolves manufacturer names (with synonyms) to ids and assigns factory ids to spreadsheet rows;
  - `consolidate_data.py` merges the facility records into the factory list by `factory_id` and sorts it;
  - `sync_war_room_data.py` projects the factories into the parent group → subsidiary → factory hierarchy, looks up coordinates and spreads out duplicate coordinates;
- the pure logic of the Angular front end:
  - `WarRoomService`: the hierarchy, its metrics, selection, edits, deletions and the activity log;
  - `ProjectService`: project mapping, filtering, status counts and the filter options with their counts;
  - the fluorescence map page and its map: filter drafts, region matching, location parsing, marker labels, pins and zoom;
  - the map assets service (logo paths and fallbacks) and the map math service (view box, zoom factor, tooltip placement, curved routes);
  - the vehicle ticket report's paging, validation and search;
  - `CompanyLocationService` and `ClientService`: addresses, slugs, seed building and client codes;
  - the war-room page (filters, status and region predicates, location parsing, hub codes), its activity log panel (latest logs, drafts, collapsing) and the client ticket statistics.

Every operation is a pure function (or a method with a loop) over immutable datatypes: JSON values are `Json = Null | Str | Int`, lists are `seq`, dictionaries are `map` or sequences of pairs where order matters, floats are exact `real`s, timestamps are `int`s. Files, the network, the clock and the DOM are not modelled: the scripts' inputs and outputs are in-memory values, and the clock is a parameter.

Modules, one per source file:

| file | module | models |
|---|---|---|
| `text.dfy` | `Wrappers`, `Text` | `Option`; ASCII case mapping, trimming, splitting and joining, substring search, slugs, decimal strings, JavaScript truthiness, code-point string order |
| `seqs.dfy` | `Seqs` | first index satisfying a predicate (`next(...)`, `find`, `findIndex`), `filter`, `map`, duplicate removal, removing and toggling a value |
| `sorting.dfy` | `Sorting` | stable sort by an integer key; insertion sort by a string key in code-point order |
| `pipeline_data.dfy` | `PipelineData` | the records of `factories.json` and `manufacturer-facilities.json` |
| `integrate.dfy` | `Integrate` | `integrate_data.py` |
| `consolidate.dfy` | `Consolidate` | `consolidate_data.py` |
| `sync_war_room.dfy` | `SyncWarRoom` | `sync_war_room_data.py` |
| `war_room_service.dfy` | `WarRoomService` | src/app/shared/services/war-room.service.ts |
| `project_service.dfy` | `ProjectService` | src/app/shared/services/project.service.ts |
| `fluorescence_map.dfy` | `FluorescenceMap` | src/app/shared/features/fluorescence-map/fluorescence-map.component.ts |
| `fluorescence_map_map.dfy` | `FluorescenceMapMap` | src/app/shared/features/fluorescence-map/components/fluorescence-map-map/fluorescence-map-map.component.ts |
| `map_assets.dfy` | `MapAssets` | src/app/shared/features/fluorescence-map/components/fluorescence-map-map/services/fluorescence-map-map-assets.service.ts |
| `map_math.dfy` | `MapMath` | src/app/shared/features/war-room/components/war-room-map/services/war-room-map-math.service.ts |
| `ticket_report.dfy` | `TicketReport` | src/app/components/admin/reports/vehicle-ticket-report/vehicle-ticket-report.component.ts |
| `company_location.dfy` | `CompanyLocation` | src/app/shared/services/company-location.service.ts |
| `client_service.dfy` | `ClientService` | src/app/shared/services/client.service.ts |
| `war_room_component.dfy` | `WarRoomComponent` | src/app/shared/features/war-room/war-room.component.ts |
| `activity_log.dfy` | `ActivityLogPanel` | src/app/shared/features/war-room/components/war-room-activity-log/war-room-activity-log.component.ts |
| `client_tickets.dfy` | `ClientTickets` | src/app/shared/data/client-tickets-assets.ts |

The coordinate table of `sync_war_room_data.py` is the constant `SyncWarRoom.CoordinateTable`. The sync functions take the table as a parameter, and the script runs them on that constant.

## Model

| member | source | states |
|---|---|---|
| Integrate.ResolveKey | integrate_data.py:51-66 | a known resolved name returns its id and leaves the registry alone; an unknown one appends one manufacturer whose id exceeds every existing id, shown under the given display name, and indexes the name to it; it fails only when there are no manufacturers to take the maximum of |
| Integrate.ResolveKeyPreservesRegistry | integrate_data.py:56-66 | a resolution keeps manufacturer ids distinct and indexed, never drops or re-points an indexed name, and only appends manufacturers |
| Integrate.SameResolvedNameSameId | integrate_data.py:15-58 | two names equal after trimming, lower-casing and synonym resolution get the same id, and the second lookup adds no manufacturer |
| Integrate.LocationName | integrate_data.py:81-83 | the location name starts with the city when it is non-empty and with the facility type otherwise, and ends with the parenthesised company |
| Integrate.NameIndex | integrate_data.py:49 | every indexed lower-cased name points at the id of some manufacturer of the list |
| Integrate.MaxManufacturerId | integrate_data.py:60 | the maximum is an id of the list and bounds every id |
| Integrate.MaxFactoryId | integrate_data.py:75 | the maximum bounds every factory id |
| Integrate.FirstFactoryWith | integrate_data.py:103 | the id found belongs to a factory holding the key, and nothing is found exactly when no factory holds it |
| Integrate.KeysOf | integrate_data.py:73 | the key set is exactly the set of (manufacturer id, lower-cased location name) pairs of the factories |
| Integrate.SeedStateValid | integrate_data.py:29-75 | the seed manufacturers and factories have distinct ids and distinct keys |
| Integrate.RecordOf | integrate_data.py:105-113 | the record has the row's columns plus the two ids, holds the ids given, and has `None` exactly where the cell was missing |
| Integrate.ProcessRow | integrate_data.py:77-83 | a row without one of the columns the loop reads raises |
| Integrate.PlaceFactoryPreservesState | integrate_data.py:85-103 | an unseen key appends one factory with id max + 1; a seen key changes nothing and reuses the id of the factory holding it; ids and keys stay distinct |
| Integrate.ProcessRowPreservesState | integrate_data.py:77-113 | a row is processed without error, the state stays valid, factories and manufacturers are only appended, and the record carries the id of its company and of the factory holding its key |
| Integrate.Step | integrate_data.py:77-113 | one iteration of the row loop, with the same guarantees |
| Integrate.IntegrateRows | integrate_data.py:68-113 | one record per row, each the row's own columns with the two ids added; the seed lists stay at the front; factory ids and manufacturer ids stay distinct; each record points at the factory of its row's key and names a manufacturer of the returned list; rows whose companies resolve alike get the same manufacturer id |
| Consolidate.MfIndexLastWins | consolidate_data.py:21 | every record id is a key of the index, and each key maps to the last record carrying it |
| Consolidate.FirstSeenIds | consolidate_data.py:42 | the index keys in first-insertion order: distinct, and exactly the record ids |
| Consolidate.Enrich | consolidate_data.py:33-39 | a factory with a record takes that record's address, facility type and notes and keeps every other field; one without a record is unchanged |
| Consolidate.EnrichAll | consolidate_data.py:29-39 | each factory is enriched in place, in order |
| Consolidate.NewLocationName | consolidate_data.py:51 | the name starts with the city when it is truthy, else the facility type, and ends with " (company)" |
| Consolidate.NewFactory | consolidate_data.py:48-58 | the new factory has the given id; its manufacturer id, city, state or province, country, full address, facility type and notes are the record's own fields; its location name is the city (or the facility type) with the company in parentheses |
| Consolidate.Consolidate | consolidate_data.py:10-67 | fails exactly when a record has no integer `factory_id`; otherwise the manufacturers pass through unchanged, the factories are sorted by id, and there are at least as many as before and at most one more per record |
| Consolidate.ConsolidateById | consolidate_data.py:29-63 | for every id, the output holds exactly the input factories with that id, enriched, in input order, followed by one new factory when the id is a record id that no input factory has |
| Consolidate.EnrichFromLastRecord | consolidate_data.py:21-38 | an enriched factory takes its fields from the last record with its id; a factory with no record is unchanged |
| Sorting.SortBy | consolidate_data.py:63 | the result is sorted by key and is a permutation of the input |
| Sorting.SortByIsStable | consolidate_data.py:63 | for every key the elements with that key keep their relative order |
| SyncWarRoom.CleanKey | sync_war_room_data.py:101-103 | the key holds only lower-case letters and digits, and a falsy value gives "" |
| SyncWarRoom.CleanKeyIdempotent | sync_war_room_data.py:101-103 | cleaning a clean key gives it back |
| SyncWarRoom.TableGet | sync_war_room_data.py:145 | a value is found exactly when the key is in the table, and it is that key's entry |
| SyncWarRoom.FirstKeyWithin | sync_war_room_data.py:147-150 | the first table key, in table order, that occurs inside the text |
| SyncWarRoom.LookupCoordsCases | sync_war_room_data.py:145-150 | the city's entry when its latitude is non-zero; else the first table key inside the lower-cased name; else a zero latitude |
| SyncWarRoom.SlugFor | sync_war_room_data.py:121-123 | only an integer id listed in the manufacturer map has a slug, and it is the listed one |
| SyncWarRoom.EnsureSubsidiaries | sync_war_room_data.py:106-117 | existing subsidiaries stay as a prefix; every slug has a subsidiary afterwards; the appended ones are new defaults for slugs that were missing |
| SyncWarRoom.SubsidiaryIndex | sync_war_room_data.py:99 | the subsidiary the id map holds for a slug is the last one with that id |
| SyncWarRoom.FindMatch | sync_war_room_data.py:136-142 | the first presentation factory whose clean name equals the factory's, or whose clean city equals its non-empty clean city |
| SyncWarRoom.DashNonAlnum | sync_war_room_data.py:155 | every non-alphanumeric character becomes '-' and the rest are kept |
| SyncWarRoom.NewFactoryId | sync_war_room_data.py:155 | the id is the slug, a '-', and one character per character of the name |
| SyncWarRoom.Refresh | sync_war_room_data.py:166-169 | address, facility type and notes are overwritten; coordinates change only to a non-zero latitude; nothing else changes |
| SyncWarRoom.SyncedFactoriesEffect | sync_war_room_data.py:136-169 | the first match is refreshed in place and nothing else changes, or else exactly one factory with the derived id is appended |
| SyncWarRoom.WithFactories | sync_war_room_data.py:125-126 | only the chosen subsidiary's factory list changes |
| SyncWarRoom.SyncFactory | sync_war_room_data.py:120-169 | subsidiary ids and order are kept and every slug keeps its subsidiary; a factory whose manufacturer has no slug changes nothing |
| SyncWarRoom.SyncFactoryEffect | sync_war_room_data.py:120-169 | a mapped factory changes only the subsidiary its slug names |
| SyncWarRoom.SyncFactoryCovers | sync_war_room_data.py:136-163 | one sync only appends presentation factories, and afterwards the factory's subsidiary holds a match for it |
| SyncWarRoom.CoversAfterGrows | sync_war_room_data.py:136-163 | a factory that has a match keeps it while factories are only appended |
| SyncWarRoom.SyncAllAsWritten | sync_war_room_data.py:120-169 | the loop as written; on success every slug still has its subsidiary |
| SyncWarRoom.NonStringCityAborts | sync_war_room_data.py:129-145 | a mapped factory whose city is JSON null aborts the loop as written |
| SyncWarRoom.SeedFactoriesAbortSync | sync_war_room_data.py:129-145 | the loop as written aborts on the seed factory list of integrate_data.py |
| SyncWarRoom.SyncAll | sync_war_room_data.py:120-169 | the corrected loop keeps subsidiary ids and order and every slug's subsidiary |
| SyncWarRoom.SyncAllGrows | sync_war_room_data.py:120-169 | the corrected loop only appends presentation factories |
| SyncWarRoom.SyncAllCoversMapped | sync_war_room_data.py:120-169 | after the corrected loop every mapped factory has a match in its subsidiary |
| SyncWarRoom.JitterShiftsDuplicates | sync_war_room_data.py:173-188 | with coordinates copied, a (0, 0) pair stays, the first factory at a pair stays, and the k-th later one is shifted by 0.005·k on both axes |
| SyncWarRoom.AliasedJitterCollapses | sync_war_room_data.py:169-188 | as written, three factories taking the same table entry end at one shared shifted point |
| SyncWarRoom.CopiedJitterSpreads | sync_war_room_data.py:173-188 | with copies, the same three factories end at three distinct points |
| SyncWarRoom.NamgIndex | sync_war_room_data.py:96-97 | the first parent group with id "namg", or none when no group has it |
| SyncWarRoom.SyncWarRoom | sync_war_room_data.py:96-188 | the corrected script fails exactly when there is no "namg" group |
| SyncWarRoom.SyncWarRoomKeepsOtherGroups | sync_war_room_data.py:96-188 | only the "namg" group changes, and the coordinates are the corrected jitter of each factory's own |
| SyncWarRoom.SyncWarRoomSyncsNamg | sync_war_room_data.py:99-169 | the "namg" subsidiaries keep their ids and order, every slug has one, and every mapped factory is matched |
| Integrate.PlaceFactory | integrate_data.py:85-103 | an unseen key appends one factory with the next id and records the key; a seen key leaves the state alone and returns the id of a factory holding it; nothing is placed only when no factory holds the key |
| Consolidate.Added | consolidate_data.py:42-60 | at most one new factory per record id, each for an id the factories lacked and built from that id's record |
| SyncWarRoom.NewSubsidiary | sync_war_room_data.py:106-117 | a new subsidiary has the slug as id, no factories, status 'ACTIVE' and parent "namg"; its name is the listed default or the upper-cased slug |
| SyncWarRoom.NewWrFactory | sync_war_room_data.py:155-162 | the new presentation factory's id starts with the slug and a dash; it belongs to the slug's subsidiary in "namg", carries the factory's name, city and country, is 'ACTIVE', takes the subsidiary's logo, and always has a description |
| SyncWarRoom.SyncWarRoomAsWritten | sync_war_room_data.py:95-185 | fails without a "namg" group; on success only the "namg" group changes and every slug has a subsidiary in it |
| SyncWarRoom.DashNonAlnumIdempotent | sync_war_room_data.py:155 | replacing a second time changes nothing |
| Integrate.LocationNameDeterminesCity | integrate_data.py:83 | two non-empty cities with the same location name for one company are the same city |
| Integrate.RecordOfRoundTrip | integrate_data.py:105-113 | every column of the row except the two ids reads back from its record unchanged |
| Consolidate.FirstSeenOrder | consolidate_data.py:42 | the keys come in the order of their first occurrence among the records |
| Consolidate.EnrichAllIdempotent | consolidate_data.py:29-39 | enriching a second time from the same records changes nothing |
| Consolidate.NewFactoryIsEnriched | consolidate_data.py:33-58 | a factory built from a record already carries what enriching from that record would set |
| SyncWarRoom.NewFactoryIdIsSlug | sync_war_room_data.py:155 | after the slug's dash, a new factory id holds only lower-case letters, digits and dashes |
| SyncWarRoom.NewFactoryIdIgnoresCase | sync_war_room_data.py:155 | names that differ only in letter case get the same factory id |
| SyncWarRoom.SyncedFactoriesKeepNames | sync_war_room_data.py:136-169 | a sync into one subsidiary only appends factories and keeps every existing factory's name and city |
| Text.Slugify | src/app/shared/services/war-room.service.ts:370-375 | the result is always a slug: lower-case letters and digits in runs joined by single dashes |
| Text.SlugifyIdempotent | src/app/shared/services/war-room.service.ts:370-375 | slugifying a slug gives it back |
| Text.SplitJoin | src/app/shared/features/fluorescence-map/fluorescence-map.component.ts:1055 | joining the pieces of a split with its separator gives back the string |
| Text.JoinSplit | src/app/shared/features/fluorescence-map/fluorescence-map.component.ts:1055 | splitting pieces joined by a separator none of them holds gives back the pieces |
| Text.NatToStringRoundTrip | src/app/shared/services/project.service.ts:167 | the decimal text of a number reads back as that number |
| Seqs.Toggle | src/app/shared/features/fluorescence-map/fluorescence-map.component.ts:1164-1170 | the list has no repetitions, the element's membership flips, and no other element's does |
| Seqs.ToggleTwiceRestores | src/app/shared/features/fluorescence-map/fluorescence-map.component.ts:1164-1170 | adding an absent element and toggling it again gives back the same list |
| Seqs.Dedup | src/app/shared/services/project.service.ts:394 | no repetitions and the same elements, each placed in the order of its first occurrence in the input |
| Seqs.FirstIndex | src/app/shared/services/project.service.ts:394 | the position of the first occurrence of an element of the list |
| Sorting.SortByName | src/app/shared/services/project.service.ts:423 | ordered by name and a permutation of the input |
| WarRoomService.Aggregate | src/app/shared/services/war-room.service.ts:430-454 | no metrics sum to zero assets, zero incidents and stability 0 |
| WarRoomService.AggregateStabilityIsPercentage | src/app/shared/services/war-room.service.ts:430-454 | with non-negative counts and percentage stabilities, the count-weighted mean stability is again between 0 and 100 |
| WarRoomService.MetricsOfFactories | src/app/shared/services/war-room.service.ts:430-441 | one metrics entry per factory, in order, taken from that factory's assets, incidents and stability |
| WarRoomService.MetricsOfSubsidiaries | src/app/shared/services/war-room.service.ts:443-454 | one metrics entry per subsidiary, in order, its own metrics |
| WarRoomService.FindGroup | src/app/shared/services/war-room.service.ts:379 | a group is found exactly when one has the id, and it is a group of the list with that id |
| WarRoomService.FindSubsidiary | src/app/shared/services/war-room.service.ts:385 | a subsidiary is found exactly when one of any group has the id, and it has that id |
| WarRoomService.FindFactory | src/app/shared/services/war-room.service.ts:396 | a factory is found exactly when one of any subsidiary has the id, and it has that id |
| WarRoomService.NormalizeSelection | src/app/shared/services/war-room.service.ts:377-412 | the selection keeps its level and id and names itself at its own level; it is dropped exactly when no entity of its level has the id |
| WarRoomService.NormalizeSelectionIdempotent | src/app/shared/services/war-room.service.ts:377-412 | normalising a normalised selection gives it back |
| WarRoomService.SelectEntity | src/app/shared/services/war-room.service.ts:567-587 | clearing empties the selection only; a subsidiary outside the subsidiary view changes nothing; otherwise the selection becomes the normalised one, and a view change goes to the selection's level, never from the subsidiary view to a factory |
| WarRoomService.SelectEntityIdempotent | src/app/shared/services/war-room.service.ts:567-587 | selecting the same entity twice is selecting it once |
| WarRoomService.FirstFactoryForSelection | src/app/shared/services/war-room.service.ts:414-428 | only a subsidiary or parent selection has a first factory |
| WarRoomService.SelectionForView | src/app/shared/services/war-room.service.ts:516-556 | a selection moved by a view change is at the new view's level |
| WarRoomService.SetMapViewMode | src/app/shared/services/war-room.service.ts:506-562 | the view becomes the mode and the factory filter is cleared; groups and logs stay; a selection already at the mode's level or absent stays, and a changed one is at the mode's level |
| WarRoomService.SetMapViewModeIdempotent | src/app/shared/services/war-room.service.ts:506-562 | switching to the same view twice is switching once |
| WarRoomService.RemoveFactoryFrom | src/app/shared/services/war-room.service.ts:813-822 | the subsidiary keeps its id and parent and loses exactly the factories with the id |
| WarRoomService.RemoveFactoryFromGroup | src/app/shared/services/war-room.service.ts:810-831 | the group keeps its id and each subsidiary loses the factory |
| WarRoomService.RemovedFactories | src/app/shared/services/war-room.service.ts:810-831 | removing the factory from every group filters it out of the flattened factory list and keeps the rest in order |
| WarRoomService.LastHolderIn | src/app/shared/services/war-room.service.ts:813-817 | a holder is recorded exactly when some subsidiary of the group held the factory, and it names that group |
| WarRoomService.RemoveFactoryFromGroups | src/app/shared/services/war-room.service.ts:810-831 | the groups keep their ids and order, no factory with the id is left, and all other factories stay in order |
| WarRoomService.FocusAfterFactoryDeleted | src/app/shared/services/war-room.service.ts:838-851 | a selection of another entity stays; a selection of the deleted factory moves to a subsidiary or a group with the view at that level, or is cleared |
| WarRoomService.DeleteFactory | src/app/shared/services/war-room.service.ts:805-852 | an unknown id changes nothing; otherwise the factory is gone everywhere, the other factories and the groups stay in order, its logs go and the other logs stay, and its selection moves up |
| WarRoomService.DeleteFactoryIdempotent | src/app/shared/services/war-room.service.ts:805-852 | deleting a factory twice is deleting it once |
| WarRoomService.FactoryIds | src/app/shared/services/war-room.service.ts:786 | every factory's id is in the id list |
| WarRoomService.RemoveSubsidiaryFromGroup | src/app/shared/services/war-room.service.ts:774-781 | the group keeps its id and loses exactly the subsidiaries with the id |
| WarRoomService.RemovedSubsidiaries | src/app/shared/services/war-room.service.ts:774-782 | removing the subsidiary from every group filters it out of the flattened subsidiary list |
| WarRoomService.RemoveSubsidiaryFromGroups | src/app/shared/services/war-room.service.ts:774-782 | the groups keep their ids and order, no subsidiary with the id is left, and the others stay in order |
| WarRoomService.FocusAfterSubsidiaryDeleted | src/app/shared/services/war-room.service.ts:791-799 | a selection of another entity stays; a selection of the deleted subsidiary moves to its parent group in the parent view, or is cleared |
| WarRoomService.LogsAfterSubsidiaryDeleted | src/app/shared/services/war-room.service.ts:786-789 | exactly the logs of neither the subsidiary nor one of its factories are kept |
| WarRoomService.DeleteSubsidiary | src/app/shared/services/war-room.service.ts:768-800 | an unknown id changes nothing; otherwise no subsidiary with the id is left, the others stay in order, the logs are filtered, and its selection moves to the parent group |
| WarRoomService.DeleteSubsidiaryIdempotent | src/app/shared/services/war-room.service.ts:768-800 | deleting a subsidiary twice is deleting it once |
| WarRoomService.ApplyUpdate | src/app/shared/services/war-room.service.ts:716-724 | the ids, assets, incidents and stability stay, and every field the update does not carry keeps its value |
| WarRoomService.ApplyUpdateIdempotent | src/app/shared/services/war-room.service.ts:716-724 | applying an update twice is applying it once |
| WarRoomService.UpdateIn | src/app/shared/services/war-room.service.ts:711-734 | a subsidiary without the factory is unchanged; otherwise the first factory with the id takes the update and the other factories stay |
| WarRoomService.UpdateInGroup | src/app/shared/services/war-room.service.ts:709-743 | the group keeps its id and each subsidiary is updated |
| WarRoomService.UpdatedFromAppend | src/app/shared/services/war-room.service.ts:709-743 | the per-factory update relation holds for concatenated lists |
| WarRoomService.UpdateFactoryDetails | src/app/shared/services/war-room.service.ts:694-763 | view, selection, filter and group ids stay; every subsidiary is updated in place; logs of other factories stay; without a description or a location label no log changes; with either, each of the factory's logs takes the new description (or keeps its own) and the new location label (or keeps its location), and nothing else of the log changes |
| WarRoomService.AddActivityLog | src/app/shared/services/war-room.service.ts:618-637 | at most 40 entries, newest first; each is the new log or an old log of another factory; the factory has one entry; the length is one more than the other factories' logs, capped at 40; below the cap the new log and every other factory's log are kept; a log the cap drops, new or old, is no newer than any entry kept |
| WarRoomService.DroppedAreOlder | src/app/shared/services/war-room.service.ts:628-634 | what keeping the first 40 of a newest-first list drops is no newer than anything it keeps, and something is dropped only when 40 are kept |
| WarRoomService.Take | src/app/shared/services/war-room.service.ts:634 | a prefix of at most n elements, the whole list when it is short |
| WarRoomService.NewestFirstOrder | src/app/shared/services/war-room.service.ts:628-634 | a prefix of the sorted log list is newest first |
| WarRoomService.AddedLogOnce | src/app/shared/services/war-room.service.ts:622-634 | after the filter and the sort, the new log is the only entry of its factory |
| WarRoomService.AddedLogKeepsAll | src/app/shared/services/war-room.service.ts:622-633 | the sorted list holds the new log and every log of another factory |
| WarRoomService.PartSlugs | src/app/shared/services/war-room.service.ts:1270-1279 | the kept slugs are non-empty slugs, and none are kept exactly when every part slugifies to nothing |
| WarRoomService.KeptSlugsAreSlugs | src/app/shared/services/war-room.service.ts:1270-1279 | non-empty slugs taken from the slugified parts are slugs |
| WarRoomService.GenerateManufacturerLocationId | src/app/shared/services/war-room.service.ts:1269-1281 | "factory-" and the clock when no part has a slug, else the part slugs joined by '-', itself a non-empty slug |
| ProjectService.MapApiStatus | src/app/shared/services/project.service.ts:135-140 | a status is recognised exactly when the text is one of the three spellings, and it is the status so spelled |
| ProjectService.MapApiStatusRoundTrip | src/app/shared/services/project.service.ts:135-140 | every status spelled out reads back as itself |
| ProjectService.NormalizeApiProject | src/app/shared/services/project.service.ts:106-123 | each snake_case field wins over its camelCase twin, missing names and types become "", the client name is trimmed, and the other fields pass through |
| ProjectService.NormalizeIgnoresCamelCase | src/app/shared/services/project.service.ts:114-118 | once the snake_case id, name and type are present the camelCase ones do not affect the result |
| ProjectService.ResolveClientId | src/app/shared/services/project.service.ts:125-133 | an explicit client id wins; a missing or blank client name gives none; otherwise the first client whose code or name matches case-insensitively, else the lower-cased name with '-' for each whitespace run |
| ProjectService.ResolveClientIdIgnoresCase | src/app/shared/services/project.service.ts:125-133 | client names equal after trimming and lower-casing resolve to the same id |
| ProjectService.PresentParts | src/app/shared/services/project.service.ts:163 | only non-empty parts are kept, and none is kept exactly when no part is filled |
| ProjectService.FactoryLocation | src/app/shared/services/project.service.ts:163-164 | the present city, state or province and country joined with ', ' in that order; the location name when none is present |
| ProjectService.FactoryLocationCases | src/app/shared/services/project.service.ts:163-164 | city, state and country give 'city, state, country'; city and country give 'city, country'; the country alone gives the country; none gives the location name |
| ProjectService.WarRoomFactoryId | src/app/shared/services/project.service.ts:75-82 | the table's id for a known factory, else the number as decimal text |
| ProjectService.WarRoomFactoryIds | src/app/shared/services/project.service.ts:75-82 | factory 3 maps to "new-flyer-winnipeg", 100 to "eastway-pembroke", and an id outside the table to its decimal text |
| ProjectService.PlacementOf | src/app/shared/services/project.service.ts:155-172 | with a factory id the location id goes through the table; an unknown factory leaves manufacturer and location empty; a known one gives the first factory with the id, its location text, and the name of the first manufacturer with its manufacturer id (none when no manufacturer has that id); without a factory id the row's own fields are used |
| ProjectService.MapApiProjectToProject | src/app/shared/services/project.service.ts:142-185 | a row is dropped exactly when its client cannot be resolved; otherwise it carries the resolved client id, the recognised status, the normalised id, name and type, the client name from the row, the client list or the id, and the manufacturer and location of the row's placement |
| ProjectService.MapApiProjectRoundTrip | src/app/shared/services/project.service.ts:142-185 | a project with a client id and a trimmed client name, written back as a camelCase row without a factory id, maps to itself |
| ProjectService.Stage | src/app/shared/services/project.service.ts:189-212 | each stage is a filter of the list by its own test |
| ProjectService.StagesCompose | src/app/shared/services/project.service.ts:187-215 | filtering the survivors of the first stages by the next stage is filtering by all of them |
| ProjectService.ApplyFilters | src/app/shared/services/project.service.ts:187-215 | the result is the projects that pass every active filter, in order |
| ProjectService.StagesMatch | src/app/shared/services/project.service.ts:187-215 | the five stages one after the other keep exactly the projects matching the filters |
| ProjectService.NoFiltersKeepAll | src/app/shared/services/project.service.ts:187-215 | without filters every project is kept |
| ProjectService.ApplyFiltersIdempotent | src/app/shared/services/project.service.ts:187-215 | filtering twice by the same filters is filtering once |
| ProjectService.ListFiltersTakePrecedence | src/app/shared/services/project.service.ts:189-212 | a non-empty list filter makes the single-value filter of its stage irrelevant |
| ProjectService.CountProjects | src/app/shared/services/project.service.ts:383-386 | the total is the number of projects, split into open, closed and delayed; no projects give all zeros |
| ProjectService.CountProjectsAppend | src/app/shared/services/project.service.ts:383-386 | one more project adds one to the total and one to the count of its status, an unset status counting as open |
| ProjectService.GetProjectCounts | src/app/shared/services/project.service.ts:380-389 | the counts add up; they are the counts of all projects without a client (or with 'all') and of exactly the client's projects otherwise |
| ProjectService.GetProjectCountsAppend | src/app/shared/services/project.service.ts:380-389 | one more project adds its count when no client is selected or it is the selected client's, and changes nothing otherwise |
| ProjectService.ClientFiltersSelect | src/app/shared/services/project.service.ts:381 | the client filter keeps everything without a client and exactly the client's projects with one |
| ProjectService.Tally | src/app/shared/services/project.service.ts:410-420 | the map built one project at a time counts every key's entries, names each key after its first entry, and has one entry per key |
| ProjectService.TallyStep | src/app/shared/services/project.service.ts:412-419 | one loop turn, a bump of a known key or a new entry, keeps the tally correct |
| ProjectService.DistinctIdsPermutation | src/app/shared/services/project.service.ts:421-423 | reordering the options keeps their ids distinct |
| ProjectService.OptionsWithCounts | src/app/shared/services/project.service.ts:407-456 | the options are sorted by name with distinct ids; each counts exactly the projects with its key and is named after the first one; every key has an option; the counts add up to the projects with a key |
| ProjectService.ClientOptionsWithCounts | src/app/shared/services/project.service.ts:407-426 | one option per client id, counting that client's projects and named after the first one's client name, or the id |
| ProjectService.ManufacturerOptionsWithCounts | src/app/shared/services/project.service.ts:428-441 | one option per manufacturer, sorted, named after itself, the counts adding up |
| ProjectService.ProjectTypeOptionsWithCounts | src/app/shared/services/project.service.ts:443-456 | one option per assessment type, sorted, named after itself, the counts adding up |
| ProjectService.DistinctValues | src/app/shared/services/project.service.ts:391-405 | the distinct non-empty values in order, each held by some project, and every project's value among them |
| ProjectService.Manufacturers | src/app/shared/services/project.service.ts:399-405 | sorted distinct manufacturers, including every project's |
| ProjectService.ProjectTypes | src/app/shared/services/project.service.ts:391-397 | sorted distinct assessment types, including every project's |
| ProjectService.RouteOf | src/app/shared/services/project.service.ts:471-486 | the route joins the client's and the factory's coordinates, takes the status (Open when missing), and is animated exactly when open |
| ProjectService.ProjectsForMap | src/app/shared/services/project.service.ts:462-493 | one route per project whose client and factory both have coordinates, in order |
| ProjectService.RoutesAnimatedWhenOpen | src/app/shared/services/project.service.ts:476-487 | every route is animated exactly when open and coloured by its status |
| ProjectService.OptionIdsSorted | src/app/shared/services/project.service.ts:407-456 | the option ids are in code-point order and distinct |
| ProjectService.OptionIdsCover | src/app/shared/services/project.service.ts:407-456 | every option has a non-empty id shared by at least one project, and every non-empty project key has an option |
| FluorescenceMap.MapFilters.WithIds | src/app/shared/features/fluorescence-map/fluorescence-map.component.ts:1162-1249 | only the named list changes, to the ids given |
| FluorescenceMap.FiltersEqual | src/app/shared/features/fluorescence-map/fluorescence-map.component.ts:314-320 | filters with the same status and lists are equal |
| FluorescenceMap.ActiveFilterCount | src/app/shared/features/fluorescence-map/fluorescence-map.component.ts:314-320 | the count is zero exactly for the default filters |
| FluorescenceMap.Chips | src/app/shared/features/fluorescence-map/fluorescence-map.component.ts:331-372 | one chip per selected id of the list, in order |
| FluorescenceMap.ActiveFilters | src/app/shared/features/fluorescence-map/fluorescence-map.component.ts:322-375 | as many chips as the active-filter count; a status chip leads when a status is chosen; every chip names a selected value and every selected value has a chip |
| FluorescenceMap.ChipsCover | src/app/shared/features/fluorescence-map/fluorescence-map.component.ts:331-372 | the chip bar holds a chip for every selected id of every list |
| FluorescenceMap.ToggleFilter | src/app/shared/features/fluorescence-map/fluorescence-map.component.ts:1162-1249 | the id's membership in the draft list flips, the list has no duplicates, the list is applied at once, and every other list and both statuses stay |
| FluorescenceMap.ToggleFilterTwice | src/app/shared/features/fluorescence-map/fluorescence-map.component.ts:1162-1249 | toggling an id twice restores which ids are selected, and restores the draft exactly when the list had no duplicates and lacked the id |
| FluorescenceMap.SetStatusFilter | src/app/shared/features/fluorescence-map/fluorescence-map.component.ts:1192-1201 | the status is set in the draft and applied, and no list changes |
| FluorescenceMap.ApplyFilters | src/app/shared/features/fluorescence-map/fluorescence-map.component.ts:1203-1216 | the applied filters become the draft |
| FluorescenceMap.ResetFilters | src/app/shared/features/fluorescence-map/fluorescence-map.component.ts:1251-1259 | no filter is active afterwards, in the draft or applied, and the chip bar is empty |
| FluorescenceMap.RemoveFilter | src/app/shared/features/fluorescence-map/fluorescence-map.component.ts:1266-1297 | a status chip resets the status; a list chip drops its value from that list only; the draft becomes the result; the selection is cleared exactly for a company chip whose company holds it while other companies stay selected |
| FluorescenceMap.RemoveChipCountsDown | src/app/shared/features/fluorescence-map/fluorescence-map.component.ts:1266-1297 | removing any chip of the bar, with no duplicates in the lists, lowers the active-filter count by one |
| FluorescenceMap.CountByDimension | src/app/shared/features/fluorescence-map/fluorescence-map.component.ts:314-320 | filters that differ in one list differ in count by that list's change of length |
| FluorescenceMap.IsActiveStatusIgnoresCase | src/app/shared/features/fluorescence-map/fluorescence-map.component.ts:1665-1669 | whether a status is active does not depend on letter case |
| FluorescenceMap.MatchesStatusComplementary | src/app/shared/features/fluorescence-map/fluorescence-map.component.ts:1671-1675 | 'all' keeps every status, and 'active' and 'inactive' split the statuses between them, 'active' keeping exactly the active ones |
| FluorescenceMap.RegionForCountry | src/app/shared/features/fluorescence-map/fluorescence-map.component.ts:1794-1841 | a region is found only for a filled value some token of the region matches, and no earlier region matches; none is found exactly when nothing matches |
| FluorescenceMap.NormalizeNormal | src/app/shared/features/fluorescence-map/fluorescence-map.component.ts:1796 | a lower-case trimmed value normalises to itself |
| FluorescenceMap.MexicoIsNorthAmerica | src/app/shared/features/fluorescence-map/fluorescence-map.component.ts:1814-1836 | 'mexico', listed under North America and LATAM, is North American |
| FluorescenceMap.ListedNorthAmerican | src/app/shared/features/fluorescence-map/fluorescence-map.component.ts:1814-1815 | a value normalising to a North American token is North American |
| FluorescenceMap.FirstRegion | src/app/shared/features/fluorescence-map/fluorescence-map.component.ts:1814-1815 | a value a North American token matches is North American |
| FluorescenceMap.AustriaIsEurope | src/app/shared/features/fluorescence-map/fluorescence-map.component.ts:1798-1824 | 'austria' contains 'us' but, since short tokens must match exactly, it is European |
| FluorescenceMap.SecondRegion | src/app/shared/features/fluorescence-map/fluorescence-map.component.ts:1814-1824 | a value no North American token matches and a European one does is European |
| FluorescenceMap.NoTokenMatches | src/app/shared/features/fluorescence-map/fluorescence-map.component.ts:1799-1811 | a value that is its own last part matches a token list only through one token |
| FluorescenceMap.ParseLocationParts | src/app/shared/features/fluorescence-map/fluorescence-map.component.ts:1054-1064 | the city is the trimmed text before the first comma, the country the trimmed text after the last one, and "Unknown" without a comma |
| FluorescenceMap.ParseLocationRoundTrip | src/app/shared/features/fluorescence-map/fluorescence-map.component.ts:1054-1064 | "city, country" with trimmed comma-free parts parses back into them |
| FluorescenceMap.StatusByFactory | src/app/shared/features/fluorescence-map/fluorescence-map.component.ts:137-152 | a factory has a status exactly when some project is placed there, and it is active exactly when one of them is open |
| FluorescenceMap.StatusIgnoresOrder | src/app/shared/features/fluorescence-map/fluorescence-map.component.ts:137-152 | reordering or repeating the projects changes no factory's status |
| FluorescenceMapMap.ZoomFactor | src/app/shared/features/fluorescence-map/components/fluorescence-map-map/fluorescence-map-map.component.ts:981-983 | the factor is the zoom over 5 or one half, whichever is larger |
| FluorescenceMapMap.ZoomFactorMonotone | src/app/shared/features/fluorescence-map/components/fluorescence-map-map/fluorescence-map-map.component.ts:981-983 | a higher zoom never gives a smaller factor |
| FluorescenceMapMap.PinLodState | src/app/shared/features/fluorescence-map/components/fluorescence-map-map/fluorescence-map-map.component.ts:985-1002 | exactly one detail level holds and the class names it; a selected marker is in full; otherwise logo only exactly below 1.2 and full exactly from 2.5 |
| FluorescenceMapMap.PinLodMonotone | src/app/shared/features/fluorescence-map/components/fluorescence-map-map/fluorescence-map-map.component.ts:985-1002 | zooming in never lowers a marker's detail, and selecting it never does either |
| FluorescenceMapMap.ZoomIn | src/app/shared/features/fluorescence-map/components/fluorescence-map-map/fluorescence-map-map.component.ts:1065-1071 | nothing without a map; otherwise one level more, at most 14, never below an in-range start |
| FluorescenceMapMap.ZoomOut | src/app/shared/features/fluorescence-map/components/fluorescence-map-map/fluorescence-map-map.component.ts:1073-1079 | nothing without a map; otherwise one level less, at least 0.5, never above an in-range start |
| FluorescenceMapMap.SetZoomTo | src/app/shared/features/fluorescence-map/components/fluorescence-map-map/fluorescence-map-map.component.ts:1082-1088 | with a map the level is clamped into [0.5, 14], and a level in range is kept |
| FluorescenceMapMap.ZoomInThenOut | src/app/shared/features/fluorescence-map/components/fluorescence-map-map/fluorescence-map-map.component.ts:1065-1079 | zooming in and then out returns to the start away from the top of the range |
| FluorescenceMapMap.ApplyStatus | src/app/shared/features/fluorescence-map/components/fluorescence-map-map/fluorescence-map-map.component.ts:1822-1832 | only the id gains a status; an active status always lands and an inactive one never replaces an active one |
| FluorescenceMapMap.StatusByNodeId | src/app/shared/features/fluorescence-map/components/fluorescence-map-map/fluorescence-map-map.component.ts:1820-1843 | a node has a status exactly when some route ends at it, and it is active exactly when one of those routes is open |
| FluorescenceMapMap.ApplyRoute | src/app/shared/features/fluorescence-map/components/fluorescence-map-map/fluorescence-map-map.component.ts:1836-1841 | both ends of a route take its status, and the other nodes keep theirs |
| FluorescenceMapMap.Hash | src/app/shared/features/fluorescence-map/components/fluorescence-map-map/fluorescence-map-map.component.ts:1805-1808 | the rolling hash stays below 6000 |
| FluorescenceMapMap.RouteBeginOffset | src/app/shared/features/fluorescence-map/components/fluorescence-map-map/fluorescence-map-map.component.ts:1803-1811 | the text is the two-decimal seconds of the route seed's hash followed by 's': five characters, 'd.dds', within half a hundredth of the hash in milliseconds |
| FluorescenceMapMap.SecondsText | src/app/shared/features/fluorescence-map/components/fluorescence-map-map/fluorescence-map-map.component.ts:1809-1810 | a hash below 6000 milliseconds becomes four characters 'd.dd' whose value in hundredths is at most 600 and within half a hundredth of the hash |
| FluorescenceMapMap.SecondsTextRoundsUp | src/app/shared/features/fluorescence-map/components/fluorescence-map-map/fluorescence-map-map.component.ts:1809-1810 | a hash from 5995 to 5999 milliseconds is shown as '6.00' |
| FluorescenceMapMap.SecondsTextOfHundredths | src/app/shared/features/fluorescence-map/components/fluorescence-map-map/fluorescence-map-map.component.ts:1809-1810 | a whole number of hundredths is shown exactly, digit by digit |
| FluorescenceMapMap.HashLoop | src/app/shared/features/fluorescence-map/components/fluorescence-map-map/fluorescence-map-map.component.ts:1805-1808 | the loop computes the hash of the seed |
| FluorescenceMapMap.HashStep | src/app/shared/features/fluorescence-map/components/fluorescence-map-map/fluorescence-map-map.component.ts:1806-1807 | one more character multiplies by 31, adds its code and reduces modulo 6000 |
| FluorescenceMapMap.Truncate | src/app/shared/features/fluorescence-map/components/fluorescence-map-map/fluorescence-map-map.component.ts:899-902 | a label longer than the bound is cut to bound - 3 characters and "...", and a shorter one is kept |
| FluorescenceMapMap.TruncateIdempotent | src/app/shared/features/fluorescence-map/components/fluorescence-map-map/fluorescence-map-map.component.ts:899-902 | truncating twice is truncating once |
| FluorescenceMapMap.TruncateKeepsHead | src/app/shared/features/fluorescence-map/components/fluorescence-map-map/fluorescence-map-map.component.ts:899-902 | the first bound - 3 characters of a label survive truncation |
| FluorescenceMapMap.DisplayName | src/app/shared/features/fluorescence-map/components/fluorescence-map-map/fluorescence-map-map.component.ts:896-898 | a name containing NOVA becomes "NOVA BUS"; one with KARZAN or KARSAN but no NOVA becomes "KARSAN"; one with none of the three is the upper-cased name |
| FluorescenceMapMap.DisplayNameIdempotent | src/app/shared/features/fluorescence-map/components/fluorescence-map-map/fluorescence-map-map.component.ts:896-898 | a display name is its own display name: "NOVA BUS", "KARSAN" and upper-cased names are fixed points |
| FluorescenceMapMap.ShortName | src/app/shared/features/fluorescence-map/components/fluorescence-map-map/fluorescence-map-map.component.ts:899 | at most 18 characters: the name itself or its first 15 characters and "..." |
| FluorescenceMapMap.ShortNameIdempotent | src/app/shared/features/fluorescence-map/components/fluorescence-map-map/fluorescence-map-map.component.ts:899 | shortening a short name changes nothing |
| FluorescenceMapMap.StatusDisplayText | src/app/shared/features/fluorescence-map/components/fluorescence-map-map/fluorescence-map-map.component.ts:371-377 | "Inactive" for a missing status, "Active" or "Inactive" for the known words in any case, else the status as given |
| FluorescenceMapMap.SubLabel | src/app/shared/features/fluorescence-map/components/fluorescence-map-map/fluorescence-map-map.component.ts:901-902 | at most 28 characters, the raw "city / status" when it fits |
| FluorescenceMapMap.SubLabelStartsWithCity | src/app/shared/features/fluorescence-map/components/fluorescence-map-map/fluorescence-map-map.component.ts:901-902 | the label starts with a city of at most 25 characters, or with "Station" without a city |
| FluorescenceMapMap.FirstLetters | src/app/shared/features/fluorescence-map/components/fluorescence-map-map/fluorescence-map-map.component.ts:905 | at most two letters, the first being the first word's first letter |
| FluorescenceMapMap.Initials | src/app/shared/features/fluorescence-map/components/fluorescence-map-map/fluorescence-map-map.component.ts:903-908 | at most two characters, empty exactly for an empty name |
| FluorescenceMapMap.MarkerClick | src/app/shared/features/fluorescence-map/components/fluorescence-map-map/fluorescence-map-map.component.ts:1004-1023 | a click without a node only clears the selection; clicking the pinned marker unpins it and any other is pinned; the selected company's marker clears the selection and any other is selected |
| FluorescenceMapMap.ClickTwiceUnpins | src/app/shared/features/fluorescence-map/components/fluorescence-map-map/fluorescence-map-map.component.ts:1004-1023 | two clicks on one marker leave it pinned exactly when it was pinned before |
| MapAssets.CompanyDisplayName | src/app/shared/features/fluorescence-map/components/fluorescence-map-map/services/fluorescence-map-map-assets.service.ts:6-8 | never empty: the company, else the name, else the city, else "Company" |
| MapAssets.TypeLabel | src/app/shared/features/fluorescence-map/components/fluorescence-map-map/services/fluorescence-map-map-assets.service.ts:29-34 | the factory label exactly for a missing level, a factory or a client |
| MapAssets.LocationText | src/app/shared/features/fluorescence-map/components/fluorescence-map-map/services/fluorescence-map-map-assets.service.ts:15-18 | empty exactly when both city and country are |
| MapAssets.CompanyDescription | src/app/shared/features/fluorescence-map/components/fluorescence-map-map/services/fluorescence-map-map-assets.service.ts:10-27 | a non-blank custom description, trimmed; otherwise a sentence starting with the display name and the facility type (or type label) in parentheses |
| MapAssets.DescriptionIsStable | src/app/shared/features/fluorescence-map/components/fluorescence-map-map/services/fluorescence-map-map-assets.service.ts:10-27 | for a trimmed display name and trimmed notes, storing the generated description as the custom one gives back the same description |
| MapAssets.CustomDescriptionWins | src/app/shared/features/fluorescence-map/components/fluorescence-map-map/services/fluorescence-map-map-assets.service.ts:11-14 | a non-empty trimmed custom description is returned as it is |
| MapAssets.Sentence | src/app/shared/features/fluorescence-map/components/fluorescence-map-map/services/fluorescence-map-map-assets.service.ts:23-26 | the generated sentence starts with its head |
| MapAssets.TooltipStatusClass | src/app/shared/features/fluorescence-map/components/fluorescence-map-map/services/fluorescence-map-map-assets.service.ts:36-42 | always a "status-" class: active for a missing, ACTIVE or ONLINE status, inactive for INACTIVE or OFFLINE in any case |
| MapAssets.StatusClassOfWord | src/app/shared/features/fluorescence-map/components/fluorescence-map-map/services/fluorescence-map-map-assets.service.ts:39-41 | the class of an upper-cased word, active or inactive for the known words |
| MapAssets.TooltipClassOfUpper | src/app/shared/features/fluorescence-map/components/fluorescence-map-map/services/fluorescence-map-map-assets.service.ts:36-42 | statuses with the same upper-cased form get the same class |
| MapAssets.TooltipClassIgnoresCase | src/app/shared/features/fluorescence-map/components/fluorescence-map-map/services/fluorescence-map-map-assets.service.ts:36-42 | the class does not depend on letter case |
| MapAssets.LogoImagePaths | src/app/shared/features/fluorescence-map/components/fluorescence-map-map/services/fluorescence-map-map-assets.service.ts:44-68 | nothing exactly for a blank source; a direct source alone, trimmed; otherwise four non-empty candidates ending in the images folder path, the first under the base URL |
| MapAssets.Candidates | src/app/shared/features/fluorescence-map/components/fluorescence-map-map/services/fluorescence-map-map-assets.service.ts:62-67 | four non-empty paths ending in "assets/images/" and the name, the first under the base URL |
| MapAssets.PreferredLogoPath | src/app/shared/features/fluorescence-map/components/fluorescence-map-map/services/fluorescence-map-map-assets.service.ts:74-78 | the first candidate not yet failed, or the fallback when all have failed |
| MapAssets.FirstUnfailed | src/app/shared/features/fluorescence-map/components/fluorescence-map-map/services/fluorescence-map-map-assets.service.ts:77 | the first unfailed path from a position on, or the fallback |
| MapAssets.NextLogoPath | src/app/shared/features/fluorescence-map/components/fluorescence-map-map/services/fluorescence-map-map-assets.service.ts:80-89 | from an index of -1 or more, the first unfailed candidate after it, or the fallback; an index of -2 or less reads before the list and gives nothing |
| MapAssets.PreferredAfterFailure | src/app/shared/features/fluorescence-map/components/fluorescence-map-map/services/fluorescence-map-map-assets.service.ts:74-89 | once the preferred path fails, the preferred path becomes the next unfailed one after it |
| MapAssets.FailingFirstAdvances | src/app/shared/features/fluorescence-map/components/fluorescence-map-map/services/fluorescence-map-map-assets.service.ts:77 | failing the first unfailed path moves the search past it |
| MapMath.ReadNumbers | src/app/shared/features/war-room/components/war-room-map/services/war-room-map-math.service.ts:44 | numbers exactly when every part reads as a finite number, one per part in order |
| MapMath.ParseViewBox | src/app/shared/features/war-room/components/war-room-map/services/war-room-map-math.service.ts:40-50 | the base view box for a missing or empty attribute or one without exactly four finite numbers, else the four numbers in order |
| MapMath.ParseViewBoxRoundTrip | src/app/shared/features/war-room/components/war-room-map/services/war-room-map-math.service.ts:40-50 | four finite numbers joined by single spaces parse back as written |
| MapMath.ZoomFactor | src/app/shared/features/war-room/components/war-room-map/services/war-room-map-math.service.ts:52-55 | the factor lies in [0.1, 10], and a zero width or height gives 10 |
| MapMath.BaseZoomIsOne | src/app/shared/features/war-room/components/war-room-map/services/war-room-map-math.service.ts:52-55 | the base view box has zoom 1 |
| MapMath.ZoomFactorGrowsInward | src/app/shared/features/war-room/components/war-room-map/services/war-room-map-math.service.ts:52-55 | a smaller view box never gives a smaller zoom |
| MapMath.TooltipPlacement | src/app/shared/features/war-room/components/war-room-map/services/war-room-map-math.service.ts:121-145 | the tooltip flips below exactly when it would stick out at the top, never sticks out at the bottom, stays inside the sides when it fits, and otherwise sits 12 pixels above the anchor |
| MapMath.ControlPoint | src/app/shared/features/war-room/components/war-room-map/services/war-room-map-math.service.ts:79-80 | the control point is halfway across and 50 above the higher end |
| MapMath.ControlPointSymmetric | src/app/shared/features/war-room/components/war-room-map/services/war-room-map-math.service.ts:79-80 | the curve bends the same way whichever end it starts from |
| MapMath.CurvedPath | src/app/shared/features/war-room/components/war-room-map/services/war-room-map-math.service.ts:77-82 | empty exactly when an end is missing, else an SVG move to the start followed by the curve |
| TicketReport.TotalPages | src/app/components/admin/reports/vehicle-ticket-report/vehicle-ticket-report.component.ts:595-597 | the fewest pages that hold every ticket, zero exactly when there are none |
| TicketReport.Range | src/app/components/admin/reports/vehicle-ticket-report/vehicle-ticket-report.component.ts:611-620 | the integers from lo to hi in order |
| TicketReport.PageNumbers | src/app/components/admin/reports/vehicle-ticket-report/vehicle-ticket-report.component.ts:602-627 | every page when there are at most five, and never more than nine entries |
| TicketReport.Lead | src/app/components/admin/reports/vehicle-ticket-report/vehicle-ticket-report.component.ts:615-616 | page 1 when the window starts later, and a gap marker when pages are skipped |
| TicketReport.Tail | src/app/components/admin/reports/vehicle-ticket-report/vehicle-ticket-report.component.ts:622-623 | a gap marker when pages are skipped, and the last page when the window stops earlier |
| TicketReport.PageNumbersShape | src/app/components/admin/reports/vehicle-ticket-report/vehicle-ticket-report.component.ts:602-627 | with more than five pages the list starts at 1, ends at the last page, holds the current page, and marks every run of skipped pages with exactly one gap |
| TicketReport.PageNumbersIncrease | src/app/components/admin/reports/vehicle-ticket-report/vehicle-ticket-report.component.ts:602-627 | the listed pages, gaps aside, rise strictly |
| TicketReport.NextPage | src/app/components/admin/reports/vehicle-ticket-report/vehicle-ticket-report.component.ts:563-569 | one page on and a fetch exactly when not on the last page; otherwise nothing changes |
| TicketReport.PreviousPage | src/app/components/admin/reports/vehicle-ticket-report/vehicle-ticket-report.component.ts:574-579 | one page back and a fetch exactly when past page 1; otherwise nothing changes |
| TicketReport.GoToPage | src/app/components/admin/reports/vehicle-ticket-report/vehicle-ticket-report.component.ts:584-590 | the page and a fetch exactly when the page exists; otherwise nothing changes |
| TicketReport.MovesStayOnAPage | src/app/components/admin/reports/vehicle-ticket-report/vehicle-ticket-report.component.ts:563-590 | no page move leaves the range of existing pages |
| TicketReport.NextThenPrevious | src/app/components/admin/reports/vehicle-ticket-report/vehicle-ticket-report.component.ts:563-579 | one page on and one back returns to the same page |
| TicketReport.Request | src/app/components/admin/reports/vehicle-ticket-report/vehicle-ticket-report.component.ts:151-157 | the choice "all" becomes the empty filter, an empty search is absent, and the page size is fixed |
| TicketReport.RunReport | src/app/components/admin/reports/vehicle-ticket-report/vehicle-ticket-report.component.ts:129-142 | rejected exactly when no project or no vehicle is chosen, with the project message first; otherwise a fetch of page 1 |
| TicketReport.RunReportFilters | src/app/components/admin/reports/vehicle-ticket-report/vehicle-ticket-report.component.ts:129-157 | a fetched report filters by project exactly when one project, not "all", was chosen, and likewise for the vehicle |
| TicketReport.FilterTickets | src/app/components/admin/reports/vehicle-ticket-report/vehicle-ticket-report.component.ts:182-194 | every ticket for an empty search; otherwise exactly the tickets whose number, description or defect type contains the lower-cased search |
| TicketReport.FilterIgnoresSearchCase | src/app/components/admin/reports/vehicle-ticket-report/vehicle-ticket-report.component.ts:182-194 | searches that differ only in case give the same tickets |
| CompanyLocation.AddressParts | src/app/shared/services/company-location.service.ts:13 | one trimmed piece per comma-separated piece, at least one |
| CompanyLocation.ParseAddress | src/app/shared/services/company-location.service.ts:12-18 | the city is the trimmed first piece; the province, present exactly when there is a comma, is the trimmed second piece; the country, present exactly when there are at least three pieces, is the trimmed last piece |
| CompanyLocation.ParseOfThree | src/app/shared/services/company-location.service.ts:12-18 | an address of three comma pieces reads as its three trimmed pieces |
| CompanyLocation.LocationId | src/app/shared/services/company-location.service.ts:34 | the id starts with the company id and a dash, and is a slug when both parts are |
| CompanyLocation.DashJoinedSlugs | src/app/shared/services/company-location.service.ts:34 | two non-empty slugs joined by a dash form a slug |
| CompanyLocation.SeedLocation | src/app/shared/services/company-location.service.ts:26-42 | the location carries its company's slug, the address as given, the parsed city, province and country, and the derived id |
| CompanyLocation.CompanyIds | src/app/shared/services/company-location.service.ts:26 | each row's company id is the slug of its company name |
| CompanyLocation.SeedStep | src/app/shared/services/company-location.service.ts:25-43 | one loop turn keeps the built companies, map and locations in step with the rows so far |
| CompanyLocation.BuildFromSeed | src/app/shared/services/company-location.service.ts:20-45 | one location per row built from it, one company per distinct company id named by the first row with it, and every location's company exists |
| CompanyLocation.AppendCompany | src/app/shared/services/company-location.service.ts:28-32 | appending a new company keeps the ids distinct and every company named by its first row |
| CompanyLocation.LocationsOf | src/app/shared/services/company-location.service.ts:60-66 | all locations without a company id, else exactly the locations with that company id (every such one, and only those) |
| CompanyLocation.LocationsOfAppend | src/app/shared/services/company-location.service.ts:60-66 | the query keeps the stored order: the result for a concatenation is the results for the parts, concatenated, and one location is kept exactly when it matches |
| CompanyLocation.AddCompany | src/app/shared/services/company-location.service.ts:68-73 | the company is appended with `Slugify(name)` as id, a valid slug, and its name; the others are kept in place |
| CompanyLocation.AddCompanyDistinct | src/app/shared/services/company-location.service.ts:68-73 | adding keeps ids distinct exactly when no company already has that slug |
| CompanyLocation.AddLocation | src/app/shared/services/company-location.service.ts:75-80 | the location is appended with the id from its company and city, and the others are kept |
| CompanyLocation.AddLocationMatchesSeed | src/app/shared/services/company-location.service.ts:34-80 | an added location of a seed company and city gets the id the seed gave it |
| CompanyLocation.ParseAddressRoundTrip | src/app/shared/services/company-location.service.ts:12-18 | a city, province and country without commas or outer whitespace, written "city, province, country", parse back into the same three values |
| ClientService.StripParentheticals | src/app/shared/services/client.service.ts:18 | the result is no longer than the text, uses only its characters, and holds no opening parenthesis with a closing one after it |
| ClientService.Initials | src/app/shared/services/client.service.ts:18 | one letter per non-empty word at most, each the first letter of some word |
| ClientService.InitialsOfWords | src/app/shared/services/client.service.ts:18 | when no word is empty there is one initial per word, its first letter |
| ClientService.InitialsAppend | src/app/shared/services/client.service.ts:18 | the initials of two word lists one after the other are the initials of each, in order |
| ClientService.DeriveCode | src/app/shared/services/client.service.ts:17-20 | no lower-case letter; when the name without parenthesised groups has initials, the first four of them (all, if fewer) upper-cased in order; otherwise the upper-cased id; empty exactly when there are no initials and no id |
| ClientService.DeriveCodeOfTwoWords | src/app/shared/services/client.service.ts:17-20 | a name of two words without whitespace or parentheses, separated by a space, has the two upper-cased first letters as its code, whatever the id |
| ClientService.DeriveCodeIgnoresSuffix | src/app/shared/services/client.service.ts:17-20 | a name with a parenthesised suffix has the code of the name without it |
| ClientService.MapApiClientToClient | src/app/shared/services/client.service.ts:22-41 | id and name are kept, the code is derived, coordinates exist exactly when both latitude and longitude do, and an empty location list becomes absent |
| ClientService.MapApiClientRoundTrip | src/app/shared/services/client.service.ts:22-41 | a client with the derived code and no empty location list is read back unchanged from its own row |
| WarRoomComponent.ActiveFilterCount | src/app/shared/features/war-room/war-room.component.ts:95-102 | the count of active filters is zero exactly when the filters are the defaults |
| WarRoomComponent.ToggleActivityLog | src/app/shared/features/war-room/war-room.component.ts:520-522 | the activity log's visibility flips and no other part of the page changes |
| WarRoomComponent.ToggleHubStatus | src/app/shared/features/war-room/war-room.component.ts:527-529 | the hub status panel's visibility flips and no other part of the page changes |
| WarRoomComponent.TogglesUndo | src/app/shared/features/war-room/war-room.component.ts:520-529 | each visibility toggle undoes itself when done twice |
| WarRoomComponent.ToggleFiltersPanel | src/app/shared/features/war-room/war-room.component.ts:534-544 | opening the panel resets the draft to the applied filters, closing keeps the draft, and the applied filters and other panels never change |
| WarRoomComponent.OpenCloseDiscardsDraft | src/app/shared/features/war-room/war-room.component.ts:534-544 | opening then closing the panel discards unapplied edits |
| WarRoomComponent.ToggleParentCompany | src/app/shared/features/war-room/war-room.component.ts:546-556 | the company's membership in the draft flips, every other company's is kept, the list stays duplicate-free, and nothing outside that list changes |
| WarRoomComponent.ToggleRegion | src/app/shared/features/war-room/war-room.component.ts:558-568 | the region's membership in the draft flips, every other region's is kept, the list stays duplicate-free, and nothing outside that list changes |
| WarRoomComponent.ToggleCountsOne | src/app/shared/features/war-room/war-room.component.ts:546-568 | on a duplicate-free draft, a toggle lowers the filter count by one for a selected value and raises it by one otherwise |
| WarRoomComponent.SetStatusFilter | src/app/shared/features/war-room/war-room.component.ts:570-572 | only the draft's status changes, to the chosen one |
| WarRoomComponent.SetStatusCount | src/app/shared/features/war-room/war-room.component.ts:95-102 | after choosing a status the count is the companies plus the regions, plus one unless the status is 'all' |
| WarRoomComponent.ApplyFilters | src/app/shared/features/war-room/war-room.component.ts:574-581 | the applied filters become the draft, the panel closes and the other panels are kept |
| WarRoomComponent.ApplyUneditedKeepsFilters | src/app/shared/features/war-room/war-room.component.ts:534-581 | opening the panel and applying it without an edit leaves the applied filters and their count unchanged |
| WarRoomComponent.ResetFilters | src/app/shared/features/war-room/war-room.component.ts:583-586 | neither the draft nor the applied filters count any active filter afterwards, and the panels are kept |
| WarRoomComponent.MatchesStatusCases | src/app/shared/features/war-room/war-room.component.ts:673-678 | 'all' passes every node; a node without a status passes neither 'active' nor 'inactive'; one with a status passes exactly one; 'inactive' passes exactly 'OFFLINE' |
| WarRoomComponent.MatchesOperationalStatusCases | src/app/shared/features/war-room/war-room.component.ts:680-684 | 'all' passes every factory, 'active' passes exactly 'ACTIVE', and 'inactive' passes exactly what 'active' rejects |
| WarRoomComponent.RegionForCountryAsWritten | src/app/shared/features/war-room/war-room.component.ts:770-862 | a region is returned only for a filled value that holds one of the region's tokens after lower-casing, and no earlier region's token; no region exactly when no token is held |
| WarRoomComponent.AsWrittenFirst | src/app/shared/features/war-room/war-room.component.ts:782-784 | a value holding a North American token is North American whatever else it holds |
| WarRoomComponent.AustriaAsWritten | src/app/shared/features/war-room/war-room.component.ts:779-805 | 'austria' is on the European list, yet 'Austria' comes out North American because it holds 'us' |
| WarRoomComponent.RegionForCountry | src/app/shared/features/war-room/war-room.component.ts:770-862 | with 'us' and 'uk' matched only whole: a region only for a filled value its tokens match and no earlier region's do; none exactly when no region matches |
| WarRoomComponent.AustriaIsEurope | src/app/shared/features/war-room/war-room.component.ts:805 | with short tokens matched whole, 'Austria' is European |
| WarRoomComponent.EuropeanOf | src/app/shared/features/war-room/war-room.component.ts:786-808 | a value no North American token matches and a European one does is European |
| WarRoomComponent.RegionForFactory | src/app/shared/features/war-room/war-room.component.ts:766-768 | the substring rule applied to the country when it is filled, else to the city: a region only when the lower-cased value holds one of its tokens and no earlier region's; a country holding a North American token is North American |
| WarRoomComponent.FactoryPlace | src/app/shared/features/war-room/war-room.component.ts:767 | the factory's country when it is filled, otherwise its city |
| WarRoomComponent.MatchesRegionsForFactory | src/app/shared/features/war-room/war-room.component.ts:700-705 | no selected region passes every factory; otherwise a factory passes exactly when it exists, has a region under the substring rule, and that region's name is selected |
| WarRoomComponent.AustrianFactoryIsNorthAmerican | src/app/shared/features/war-room/war-room.component.ts:700-705 | as written, a factory in Austria passes the North America region filter and fails the Europe one |
| WarRoomComponent.RegionForFactoryCorrected | src/app/shared/features/war-room/war-room.component.ts:766-768 | the corrected region rule applied to the country, else the city: a region only when its tokens match the normalised value and no earlier region's do |
| WarRoomComponent.MatchesRegionsForFactoryCorrected | src/app/shared/features/war-room/war-room.component.ts:700-705 | the region filter with the corrected rule: no selection passes everything, otherwise exactly a factory whose corrected region is selected |
| WarRoomComponent.AustrianFactoryIsEuropean | src/app/shared/features/war-room/war-room.component.ts:700-705 | under the corrected region rule, a factory in Austria passes the Europe region filter and fails the North America one |
| WarRoomComponent.NonBlank | src/app/shared/features/war-room/war-room.component.ts:868-871 | no more pieces than given, each one non-empty and trimmed |
| WarRoomComponent.ParseLocationParts | src/app/shared/features/war-room/war-room.component.ts:864-875 | an empty input gives an empty city and no country; the city is trimmed and is empty exactly for a blank input; a country exists exactly when there are two or more parts |
| WarRoomComponent.BlankHasNoParts | src/app/shared/features/war-room/war-room.component.ts:868-871 | a blank input has no non-empty part |
| WarRoomComponent.ParseLocationPartsRoundTrip | src/app/shared/features/war-room/war-room.component.ts:864-875 | joining clean parts with ', ' and parsing gives back the first part as the city and the rest, joined, as the country |
| WarRoomComponent.JoinedParts | src/app/shared/features/war-room/war-room.component.ts:868-871 | the parts of clean parts joined with ', ' are those parts |
| WarRoomComponent.HubCode | src/app/shared/features/war-room/war-room.component.ts:1182-1192 | the code has no lower-case letter and at most three characters; a single word gives its first three letters upper-cased, padded with 'X' |
| WarRoomComponent.WordsCode | src/app/shared/features/war-room/war-room.component.ts:1184-1189 | for two non-empty words: the first letter of the first, then the first two of the second, or its only letter twice |
| WarRoomComponent.WordCode | src/app/shared/features/war-room/war-room.component.ts:1191 | exactly three characters: the word's first three, then 'X' |
| WarRoomComponent.HubCodeOfTwoWords | src/app/shared/features/war-room/war-room.component.ts:1182-1189 | two words separated by a space give the first word's initial and the second word's first two letters, upper-cased |
| WarRoomComponent.PadEnd | src/app/shared/features/war-room/war-room.component.ts:1191 | the result is the string followed by the padding character, up to the requested length |
| ActivityLogPanel.LatestLogByFactory | src/app/shared/features/war-room/components/war-room-activity-log/war-room-activity-log.component.ts:63-81 | every factory the map holds maps to one of the logs, and to one of its own |
| ActivityLogPanel.LatestLogByFactoryIsLatest | src/app/shared/features/war-room/components/war-room-activity-log/war-room-activity-log.component.ts:63-81 | for every factory with a log the map holds its latest log, the first one among equal timestamps, and it holds no other factory |
| ActivityLogPanel.LatestAtUnique | src/app/shared/features/war-room/components/war-room-activity-log/war-room-activity-log.component.ts:75 | a factory has at most one latest log position |
| ActivityLogPanel.LatestLogIsLatest | src/app/shared/features/war-room/components/war-room-activity-log/war-room-activity-log.component.ts:446-448 | a factory has a latest log exactly when it has a log, and that log is the latest one |
| ActivityLogPanel.Get | src/app/shared/features/war-room/components/war-room-activity-log/war-room-activity-log.component.ts:289-301 | a draft is found exactly for a key of the map, and it is the draft stored under it |
| ActivityLogPanel.Put | src/app/shared/features/war-room/components/war-room-activity-log/war-room-activity-log.component.ts:289-301 | setting an existing key keeps the map's size, a new key adds one entry |
| ActivityLogPanel.PutEffect | src/app/shared/features/war-room/components/war-room-activity-log/war-room-activity-log.component.ts:289-301 | after a set, the key holds the new draft, every other key its old draft, and keys keep their insertion order with a new key last |
| ActivityLogPanel.Delete | src/app/shared/features/war-room/components/war-room-activity-log/war-room-activity-log.component.ts:426-436 | after a delete the key has no draft, every other key keeps its own, and the remaining keys keep their order |
| ActivityLogPanel.Merge | src/app/shared/features/war-room/components/war-room-activity-log/war-room-activity-log.component.ts:289-301 | each field the update sets is taken from it and every other field is kept |
| ActivityLogPanel.UpdateDraft | src/app/shared/features/war-room/components/war-room-activity-log/war-room-activity-log.component.ts:289-301 | the id's draft, or a blank one, takes the update's fields; other drafts are untouched; a new id goes last |
| ActivityLogPanel.UpdateTwice | src/app/shared/features/war-room/components/war-room-activity-log/war-room-activity-log.component.ts:289-301 | of two updates to one draft, a field the second sets wins and otherwise the first one's value stays |
| ActivityLogPanel.FirstUpdateFromBlank | src/app/shared/features/war-room/components/war-room-activity-log/war-room-activity-log.component.ts:289-294 | the first update of a factory without a draft starts from the blank draft and adds the factory last |
| ActivityLogPanel.UpdateKeepsDistinct | src/app/shared/features/war-room/components/war-room-activity-log/war-room-activity-log.component.ts:289-301 | updating a draft never repeats a key |
| ActivityLogPanel.ClearAllDrafts | src/app/shared/features/war-room/components/war-room-activity-log/war-room-activity-log.component.ts:419-424 | no factory or subsidiary draft is left and no editor is open |
| ActivityLogPanel.Named | src/app/shared/features/war-room/components/war-room-activity-log/war-room-activity-log.component.ts:400-406 | the batch has no more updates than there are drafts |
| ActivityLogPanel.NamedCarries | src/app/shared/features/war-room/components/war-room-activity-log/war-room-activity-log.component.ts:400-406 | the batch holds exactly the drafts with a non-blank name, and is empty exactly when every name is blank |
| ActivityLogPanel.NamedInOrder | src/app/shared/features/war-room/components/war-room-activity-log/war-room-activity-log.component.ts:400-406 | the batch keeps the drafts' order: it equals the drafts filtered by a non-blank trimmed name, then mapped to (id, draft) updates |
| ActivityLogPanel.SaveAllDrafts | src/app/shared/features/war-room/components/war-room-activity-log/war-room-activity-log.component.ts:399-417 | nothing goes out exactly when every draft name is blank, and then every draft and editor is cleared; otherwise the batch carries the named drafts of both kinds and the panel is unchanged |
| ActivityLogPanel.SaveFactoryDetails | src/app/shared/features/war-room/components/war-room-activity-log/war-room-activity-log.component.ts:349-365 | nothing happens without a draft or with a blank name; otherwise the trimmed fields go out, that draft is dropped and its editor closes, and every other draft is kept |
| ActivityLogPanel.SavedFactoryLeavesBatch | src/app/shared/features/war-room/components/war-room-activity-log/war-room-activity-log.component.ts:349-417 | a factory whose details were saved is absent from the next batch |
| ActivityLogPanel.NamedAvoids | src/app/shared/features/war-room/components/war-room-activity-log/war-room-activity-log.component.ts:400-406 | an id without a draft is in no batch update |
| ActivityLogPanel.GetOfEntry | src/app/shared/features/war-room/components/war-room-activity-log/war-room-activity-log.component.ts:289-301 | in drafts with distinct keys, every entry is what a lookup of its key returns |
| ActivityLogPanel.VisibleFactories | src/app/shared/features/war-room/components/war-room-activity-log/war-room-activity-log.component.ts:483-488 | the visible factories are a prefix of the list: all of an expanded or short list, at most three of a collapsed one |
| ActivityLogPanel.CollapsedAccountsForAll | src/app/shared/features/war-room/components/war-room-activity-log/war-room-activity-log.component.ts:479-493 | a collapsed list's visible and hidden factories add up to the whole list; none is hidden exactly when the list does not collapse |
| ActivityLogPanel.ToggleFactoryList | src/app/shared/features/war-room/components/war-room-activity-log/war-room-activity-log.component.ts:154-159 | the subsidiary's list changes between expanded and collapsed; every other list keeps its state |
| ActivityLogPanel.ToggleExpanded | src/app/shared/features/war-room/components/war-room-activity-log/war-room-activity-log.component.ts:161-173 | the id is expanded afterwards exactly when it was not, and every other id keeps its state |
| ActivityLogPanel.ToggleExpandedTwice | src/app/shared/features/war-room/components/war-room-activity-log/war-room-activity-log.component.ts:161-173 | toggling an absent id twice gives back the original list |
| ActivityLogPanel.FormatLocation | src/app/shared/features/war-room/components/war-room-activity-log/war-room-activity-log.component.ts:456-460 | never empty: 'Unknown' without city or country, the country alone without a city, otherwise the city followed by ', ' and the country when there is one |
| ActivityLogPanel.FormatThenParse | src/app/shared/features/war-room/components/war-room-activity-log/war-room-activity-log.component.ts:456-460 | a clean city and country, once formatted, parse back into the same city and country |
| ClientTickets.ProjectStatsOf | src/app/shared/data/client-tickets-assets.ts:343-345 | the result is from the table: the first project with the id when one has it, otherwise the table's first entry |
| ClientTickets.ProjectVehicleStats | src/app/shared/data/client-tickets-assets.ts:348-373 | the id, name and vehicles are the project's; for 'all' or an unknown vehicle the project is returned as is; otherwise the figures and name are those of a vehicle with the id |
| ClientTickets.VehicleFiguresOfFirst | src/app/shared/data/client-tickets-assets.ts:357-370 | a known vehicle other than 'all' gives the figures and name of the first vehicle with its id |
| ClientTickets.VehicleViewKeepsProject | src/app/shared/data/client-tickets-assets.ts:348-373 | a vehicle's view differs from its project's stats only in the figures and the vehicle name |

## Left out

- File and JSON reading and writing, `print` and `exit`: the scripts' inputs and outputs are in-memory values.
- `pd.read_excel`: a row is a map from column name to a cell that is missing (NaN), text or an integer. Cell values are kept as text; `str()` of numbers is not modelled.
- Integrate.IntegrateRows: requires every row to carry the columns the loop reads; the script raises on the first row without one and writes nothing. The per-row error itself is modelled by `ProcessRow`.
- Consolidate.Consolidate: a record whose `factory_id` is not an integer is treated like a missing key (`None`); Python would still index a string or `None` id.
- JSON `null` and an absent key are both `Null`, so `dict.get(key, default)` on a key holding `null` is not distinguished from a missing key. For `sync_war_room_data.py:160`, a `null` facility type gives "Manufacturing Facility" rather than `None`.
- Case mapping and whitespace are ASCII only; Python's and JavaScript's Unicode `lower()`, `upper()` and `strip()` also map other characters.
- Floats are exact reals, so `0.005 * k` and the sums in the jitter pass have no rounding.
- Presentation factories loaded from the document are assumed to carry `coordinates`; the `{0, 0}` default of `sync_war_room_data.py:169` is applied only to newly created ones.
- `metrics`, `quantumChart` and `hubs` of a new subsidiary are constants that nothing reads, so they are not modelled.
- ProjectService.OptionsWithCounts: the options are ordered by code point, not by `localeCompare` (project.service.ts:423, 438, 453); the two orders differ for letter case, accents and punctuation ("Banana" before "apple" here). The same holds for `ClientOptionsWithCounts`, `ManufacturerOptionsWithCounts`, `ProjectTypeOptionsWithCounts` and `Sorting.SortByName`.
- ClientTickets.ProjectStatsOf: the statistics table of client-tickets-assets.ts is a parameter rather than the literal data; both lookups are stated for every table that has a first entry, as the literal one does.
- ActivityLogPanel.LatestLogByFactory: timestamps are integers. A string timestamp that `new Date` cannot parse gives `NaN`, which never compares greater, so such a log is never taken over an earlier one; this is not modelled.
- The activity log's hover, click, scroll, edit-mode and refresh handlers, `shouldShowFactoryLocation`, `getFactoryLocationLabel`, `normalizeLocation` and the status class, label and icon helpers are presentation only and are not modelled.
- ActivityLogPanel.UpdateDraft: `updateSubsidiaryDraft` is the same code on the subsidiary map, so both maps use this one function.
- ActivityLogPanel.SaveFactoryDetails: `saveSubsidiaryDetails` (war-room-activity-log.component.ts:367-383) is the same code on the subsidiary map and editor and has no function of its own; `cancelEditFactory` and `cancelEditSubsidiary` (lines 385-397) drop the edited draft, which `Delete` models, and close the editor.
- MapMath.ParseViewBox: JavaScript's `Number` and the number formatting of the curved path are parameters (`toNumber`, `show`); their own behaviour is not modelled.
- FluorescenceMapMap.RouteBeginOffset: a hash ending in 5 ms lies exactly between two hundredths; `toFixed(2)` rounds the nearest double of `hash / 1000`, which can fall on either side, while the model always rounds up. The contract only promises the text is within half a hundredth, which holds either way.
- WarRoomService.GenerateManufacturerLocationId: `Date.now()` is the parameter `now`.
- MapMath.TooltipPlacement: pixel values are exact reals, so floating-point rounding is not modelled.
- The war-room page's data loading, the map and panel layout, hover and selection handling and the subsidiary, factory and log editing it forwards to `WarRoomService` are not modelled beyond the service itself.

## Findings

| source | as written | input that shows it | evidently intended | confidence | as-written member | corrected member |
|---|---|---|---|---|---|---|
| sync_war_room_data.py:169 | the factory's `coordinates` is the coordinate table's own dict, so factories that took the same table entry share one object and the jitter at lines 183-185 shifts that shared object | three factories whose city is "Winnipeg", in three different subsidiaries: all three end at (49.9021, -97.0221) | each factory holds a copy, so the three end at (49.8971, -97.0271), (49.9021, -97.0221) and (49.9071, -97.0171) | not executed | SyncWarRoom.AliasedJitterCollapses | SyncWarRoom.JitterShiftsDuplicates |
| sync_war_room_data.py:129 | `f_data.get('city', '')` returns `None` for a JSON `null` city, and `city.lower()` at line 145 raises | the seed factory 7 "TAM Facility" of integrate_data.py:42 has city `None` and manufacturer 4, which maps to "tam" | a `null` city reads as "" and the factory is synced by its name | not executed | SyncWarRoom.SeedFactoriesAbortSync | SyncWarRoom.SyncAllCoversMapped |
| src/app/shared/features/war-room/war-room.component.ts:770-862 | every token is searched for as a plain substring of the lower-cased value and North America is tried first, so the short token 'us' matches inside other country names; the region filter of lines 700-705 inherits this through `getRegionForFactory` | "Austria", which is on the European list (line 805), holds "us" and is filed under North America, so an Austrian factory passes the North America filter and fails the Europe one (`WarRoomComponent.AustrianFactoryIsNorthAmerican`) | the short tokens 'us' and 'uk' match only a whole value or the text after its last comma, as the fluorescence map's copy of the function does, so "Austria" is European and an Austrian factory passes the Europe filter (`WarRoomComponent.AustrianFactoryIsEuropean`) | not executed | WarRoomComponent.AustriaAsWritten | WarRoomComponent.AustriaIsEurope |

=== FILE: activity_log.dfy ===
/**
 * The war room's activity log panel
 * (src/app/shared/features/war-room/components/war-room-activity-log/war-room-activity-log.component.ts):
 * the latest log of each factory, the editor's drafts and how they are saved or
 * cleared, the collapsed factory lists and the location label.
 */
module ActivityLogPanel {
  import opened Wrappers
  import opened Text
  import Seqs
  import WarRoomService
  import WarRoomComponent

  type ActivityLog = WarRoomService.ActivityLog

  // ------------------------------------------------------ latest log by factory

  /** Some log of the list belongs to the factory. */
  ghost predicate Logged(logs: seq<ActivityLog>, id: string)
  {
    exists i :: 0 <= i < |logs| && logs[i].factoryId == id
  }

  /**
   * The log at `i` is the factory's latest: no log of the factory is later, and
   * every earlier log of the factory is strictly earlier, so the first of several
   * equally late logs is the one kept.
   */
  ghost predicate LatestAt(logs: seq<ActivityLog>, id: string, i: int)
  {
    && 0 <= i < |logs|
    && logs[i].factoryId == id
    && (forall j :: 0 <= j < |logs| && logs[j].factoryId == id ==> logs[j].timestamp <= logs[i].timestamp)
    && (forall j :: 0 <= j < i && logs[j].factoryId == id ==> logs[j].timestamp < logs[i].timestamp)
  }

  /** The map holds one log per logged factory, its latest one. */
  ghost predicate LatestMap(logs: seq<ActivityLog>, m: map<string, ActivityLog>)
  {
    && (forall id :: id in m <==> Logged(logs, id))
    && (forall id :: id in m ==> exists i :: LatestAt(logs, id, i) && m[id] == logs[i])
  }

  /** One turn of the loop of `latestLogByFactory`: a first or a strictly later log replaces the stored one. */
  function Record(m: map<string, ActivityLog>, log: ActivityLog): map<string, ActivityLog>
  {
    if log.factoryId !in m || log.timestamp > m[log.factoryId].timestamp then m[log.factoryId := log] else m
  }

  /** `latestLogByFactory`: the loop over the logs, in order. */
  function LatestLogByFactory(logs: seq<ActivityLog>): (r: map<string, ActivityLog>)
    ensures forall id :: id in r ==> r[id] in logs && r[id].factoryId == id
  {
    if logs == [] then map[]
    else Record(LatestLogByFactory(logs[..|logs| - 1]), logs[|logs| - 1])
  }

  /** `latestLogByFactory` keeps, for every factory with a log, its latest log, the first one on a tie. */
  lemma {:induction false} LatestLogByFactoryIsLatest(logs: seq<ActivityLog>)
    ensures LatestMap(logs, LatestLogByFactory(logs))
  {
    if logs != [] {
      var prefix := logs[..|logs| - 1];
      LatestLogByFactoryIsLatest(prefix);
      assert prefix + [logs[|logs| - 1]] == logs;
      RecordKeepsLatest(prefix, logs[|logs| - 1], LatestLogByFactory(prefix));
    }
  }

  /** At most one position is the factory's latest log. */
  lemma LatestAtUnique(logs: seq<ActivityLog>, id: string, i: int, j: int)
    requires LatestAt(logs, id, i) && LatestAt(logs, id, j)
    ensures i == j
  {
  }

  /** `getLatestLog`: the latest log of the factory, or nothing when it has none. */
  lemma LatestLogIsLatest(logs: seq<ActivityLog>, id: string)
    ensures id in LatestLogByFactory(logs) <==> Logged(logs, id)
    ensures forall i :: LatestAt(logs, id, i) ==> LatestLogByFactory(logs)[id] == logs[i]
  {
    var r := LatestLogByFactory(logs);
    LatestLogByFactoryIsLatest(logs);
    forall i | LatestAt(logs, id, i) ensures r[id] == logs[i] {
      assert Logged(logs, id);
      var k :| LatestAt(logs, id, k) && r[id] == logs[k];
      LatestAtUnique(logs, id, i, k);
    }
  }

  lemma RecordKeepsLatest(prefix: seq<ActivityLog>, log: ActivityLog, m: map<string, ActivityLog>)
    requires LatestMap(prefix, m)
    ensures LatestMap(prefix + [log], Record(m, log))
  {
    var logs := prefix + [log];
    var r := Record(m, log);
    forall id ensures id in r <==> Logged(logs, id) {
      LoggedAppend(prefix, log, id);
    }
    forall id | id in r ensures exists i :: LatestAt(logs, id, i) && r[id] == logs[i] {
      if id != log.factoryId {
        var i :| LatestAt(prefix, id, i) && m[id] == prefix[i];
        LatestOtherAppend(prefix, log, id, i);
      } else if id !in m {
        LatestFirstAppend(prefix, log);
      } else {
        var i :| LatestAt(prefix, id, i) && m[id] == prefix[i];
        if log.timestamp > m[id].timestamp {
          LatestLaterAppend(prefix, log, i);
        } else {
          LatestKeptAppend(prefix, log, i);
        }
      }
    }
  }

  lemma LoggedAppend(prefix: seq<ActivityLog>, log: ActivityLog, id: string)
    ensures Logged(prefix + [log], id) <==> Logged(prefix, id) || log.factoryId == id
  {
    var logs := prefix + [log];
    if Logged(prefix, id) {
      var i :| 0 <= i < |prefix| && prefix[i].factoryId == id;
      assert logs[i] == prefix[i];
    }
    if log.factoryId == id {
      assert logs[|prefix|] == log;
    }
    if Logged(logs, id) {
      var i :| 0 <= i < |logs| && logs[i].factoryId == id;
      if i < |prefix| {
        assert logs[i] == prefix[i];
      }
    }
  }

  lemma LatestOtherAppend(prefix: seq<ActivityLog>, log: ActivityLog, id: string, i: int)
    requires LatestAt(prefix, id, i) && log.factoryId != id
    ensures LatestAt(prefix + [log], id, i) && (prefix + [log])[i] == prefix[i]
  {
    var logs := prefix + [log];
    forall j | 0 <= j < |logs| && logs[j].factoryId == id ensures logs[j].timestamp <= logs[i].timestamp {
      assert logs[j] == prefix[j];
    }
    forall j | 0 <= j < i && logs[j].factoryId == id ensures logs[j].timestamp < logs[i].timestamp {
      assert logs[j] == prefix[j];
    }
  }

  lemma LatestFirstAppend(prefix: seq<ActivityLog>, log: ActivityLog)
    requires !Logged(prefix, log.factoryId)
    ensures LatestAt(prefix + [log], log.factoryId, |prefix|) && (prefix + [log])[|prefix|] == log
  {
    var logs := prefix + [log];
    forall j | 0 <= j < |prefix| ensures logs[j] == prefix[j] {
    }
  }

  lemma LatestLaterAppend(prefix: seq<ActivityLog>, log: ActivityLog, i: int)
    requires LatestAt(prefix, log.factoryId, i) && log.timestamp > prefix[i].timestamp
    ensures LatestAt(prefix + [log], log.factoryId, |prefix|) && (prefix + [log])[|prefix|] == log
  {
    var logs := prefix + [log];
    forall j | 0 <= j < |prefix| && logs[j].factoryId == log.factoryId ensures logs[j].timestamp < log.timestamp {
      assert logs[j] == prefix[j];
    }
  }

  lemma LatestKeptAppend(prefix: seq<ActivityLog>, log: ActivityLog, i: int)
    requires LatestAt(prefix, log.factoryId, i) && log.timestamp <= prefix[i].timestamp
    ensures LatestAt(prefix + [log], log.factoryId, i) && (prefix + [log])[i] == prefix[i]
  {
    var logs := prefix + [log];
    forall j | 0 <= j < |prefix| ensures logs[j] == prefix[j] {
    }
  }

  // ------------------------------------------------------------------ drafts

  /** A draft of the editor: the fields typed so far. */
  datatype Draft = Draft(name: string, location: string, description: string, status: string)

  /** `Partial<...>`: the fields an input event sets, the others absent. */
  datatype DraftUpdate = DraftUpdate(
    name: Option<string>,
    location: Option<string>,
    description: Option<string>,
    status: Option<string>)

  /** A key and its draft in a JavaScript `Map`, which keeps its keys in insertion order. */
  datatype Entry = Entry(id: string, draft: Draft)

  /** The ids of the entries, in order. */
  function Ids(drafts: seq<Entry>): (r: seq<string>)
    ensures |r| == |drafts| && forall k :: 0 <= k < |r| ==> r[k] == drafts[k].id
  {
    if drafts == [] then [] else [drafts[0].id] + Ids(drafts[1..])
  }

  /** `drafts.get(id)`. */
  function Get(drafts: seq<Entry>, id: string): (r: Option<Draft>)
    ensures r.Some? <==> id in Ids(drafts)
    ensures r.Some? ==> Entry(id, r.value) in drafts
  {
    if drafts == [] then None
    else if drafts[0].id == id then Some(drafts[0].draft)
    else
      var rest := Get(drafts[1..], id);
      assert Ids(drafts) == [drafts[0].id] + Ids(drafts[1..]);
      assert forall x :: x in drafts[1..] ==> x in drafts;
      rest
  }

  /**
   * `drafts.set(id, d)`: an existing key keeps its place and takes the new draft, a
   * new key goes last.
   */
  function Put(drafts: seq<Entry>, id: string, d: Draft): (r: seq<Entry>)
    ensures |r| == if id in Ids(drafts) then |drafts| else |drafts| + 1
  {
    if drafts == [] then [Entry(id, d)]
    else if drafts[0].id == id then [Entry(id, d)] + drafts[1..]
    else
      EntryCons(drafts);
      [drafts[0]] + Put(drafts[1..], id, d)
  }

  /** After `set`, `get` finds the new draft under `id` and the old ones elsewhere; the key order is kept. */
  lemma PutEffect(drafts: seq<Entry>, id: string, d: Draft)
    ensures Ids(Put(drafts, id, d)) == if id in Ids(drafts) then Ids(drafts) else Ids(drafts) + [id]
    ensures Get(Put(drafts, id, d), id) == Some(d)
    ensures forall other :: other != id ==> Get(Put(drafts, id, d), other) == Get(drafts, other)
  {
    PutIds(drafts, id, d);
    PutGet(drafts, id, d, id);
    forall other | other != id ensures Get(Put(drafts, id, d), other) == Get(drafts, other) {
      PutGet(drafts, id, d, other);
    }
  }

  lemma {:induction false} PutIds(drafts: seq<Entry>, id: string, d: Draft)
    ensures Ids(Put(drafts, id, d)) == if id in Ids(drafts) then Ids(drafts) else Ids(drafts) + [id]
  {
    if drafts != [] {
      EntryCons(drafts);
      if drafts[0].id == id {
        ConsEntry(Entry(id, d), drafts[1..]);
      } else {
        PutIds(drafts[1..], id, d);
        ConsEntry(drafts[0], Put(drafts[1..], id, d));
      }
    }
  }

  lemma {:induction false} PutGet(drafts: seq<Entry>, id: string, d: Draft, x: string)
    ensures Get(Put(drafts, id, d), x) == if x == id then Some(d) else Get(drafts, x)
  {
    if drafts != [] {
      EntryCons(drafts);
      if drafts[0].id == id {
        ConsEntry(Entry(id, d), drafts[1..]);
      } else {
        PutGet(drafts[1..], id, d, x);
        ConsEntry(drafts[0], Put(drafts[1..], id, d));
      }
    }
  }

  /** The ids and lookups of an entry put in front of others. */
  lemma ConsEntry(e: Entry, rest: seq<Entry>)
    ensures Ids([e] + rest) == [e.id] + Ids(rest)
    ensures forall x :: Get([e] + rest, x) == if e.id == x then Some(e.draft) else Get(rest, x)
  {
    assert ([e] + rest)[0] == e && ([e] + rest)[1..] == rest;
  }

  /** The ids and lookups of non-empty drafts, from their first entry and the rest. */
  lemma EntryCons(drafts: seq<Entry>)
    requires drafts != []
    ensures Ids(drafts) == [drafts[0].id] + Ids(drafts[1..])
    ensures forall x :: Get(drafts, x) == if drafts[0].id == x then Some(drafts[0].draft) else Get(drafts[1..], x)
  {
  }

  /** `drafts.delete(id)`: the entry of `id` goes, the others keep their order. */
  function Delete(drafts: seq<Entry>, id: string): (r: seq<Entry>)
    ensures Get(r, id) == None
    ensures forall other :: other != id ==> Get(r, other) == Get(drafts, other)
    ensures Ids(r) == Seqs.Without(Ids(drafts), id)
  {
    if drafts == [] then []
    else
      var rest := Delete(drafts[1..], id);
      var r := if drafts[0].id == id then rest else [drafts[0]] + rest;
      assert Ids(drafts) == [drafts[0].id] + Ids(drafts[1..]);
      assert Ids(drafts)[1..] == Ids(drafts[1..]);
      assert drafts[0].id != id ==> r[1..] == rest && Ids(r) == [drafts[0].id] + Ids(rest);
      r
  }

  /** The draft a new id starts from: empty fields and the status 'ACTIVE'. */
  function BlankDraft(): Draft
  {
    Draft("", "", "", "ACTIVE")
  }

  /** `{ ...existing, ...updates }`: every field the update sets, and the others kept. */
  function Merge(d: Draft, u: DraftUpdate): (r: Draft)
    ensures r.name == u.name.GetOr(d.name) && r.location == u.location.GetOr(d.location)
    ensures r.description == u.description.GetOr(d.description) && r.status == u.status.GetOr(d.status)
  {
    Draft(u.name.GetOr(d.name), u.location.GetOr(d.location),
          u.description.GetOr(d.description), u.status.GetOr(d.status))
  }

  /**
   * `updateFactoryDraft` (and `updateSubsidiaryDraft`, which is the same): the
   * draft of `id`, or a blank one, takes the fields of the update; the other drafts
   * are untouched and the id is added last when it had no draft.
   */
  function UpdateDraft(drafts: seq<Entry>, id: string, u: DraftUpdate): (r: seq<Entry>)
    ensures Ids(r) == if id in Ids(drafts) then Ids(drafts) else Ids(drafts) + [id]
    ensures Get(r, id) == Some(Merge(Get(drafts, id).GetOr(BlankDraft()), u))
    ensures forall other :: other != id ==> Get(r, other) == Get(drafts, other)
  {
    PutEffect(drafts, id, Merge(Get(drafts, id).GetOr(BlankDraft()), u));
    Put(drafts, id, Merge(Get(drafts, id).GetOr(BlankDraft()), u))
  }

  /** Two updates of the same draft: a field the second one sets wins, otherwise the first one's stays. */
  lemma UpdateTwice(drafts: seq<Entry>, id: string, u: DraftUpdate, v: DraftUpdate)
    ensures Get(UpdateDraft(UpdateDraft(drafts, id, u), id, v), id)
            == Some(Merge(Get(drafts, id).GetOr(BlankDraft()), DraftUpdate(
                 Or2(v.name, u.name), Or2(v.location, u.location),
                 Or2(v.description, u.description), Or2(v.status, u.status))))
  {
  }

  /** The first of two optional values that is present. */
  function Or2<T>(a: Option<T>, b: Option<T>): (r: Option<T>)
    ensures r.Some? <==> a.Some? || b.Some?
  {
    if a.Some? then a else b
  }

  /** Typing into the editor of a factory without a draft starts from the blank draft. */
  lemma FirstUpdateFromBlank(drafts: seq<Entry>, id: string, u: DraftUpdate)
    requires id !in Ids(drafts)
    ensures Get(UpdateDraft(drafts, id, u), id) == Some(Merge(BlankDraft(), u))
    ensures Ids(UpdateDraft(drafts, id, u)) == Ids(drafts) + [id]
  {
  }

  /** The drafts of the panel and the editors that are open. */
  datatype Panel = Panel(
    factoryDrafts: seq<Entry>,
    subsidiaryDrafts: seq<Entry>,
    editingFactoryId: Option<string>,
    editingSubsidiaryId: Option<string>)

  /** `clearAllDrafts`: no draft left and no editor open. */
  function ClearAllDrafts(p: Panel): (r: Panel)
    ensures Ids(r.factoryDrafts) == [] && Ids(r.subsidiaryDrafts) == []
    ensures forall id :: Get(r.factoryDrafts, id).None? && Get(r.subsidiaryDrafts, id).None?
    ensures r.editingFactoryId.None? && r.editingSubsidiaryId.None?
  {
    Panel([], [], None, None)
  }

  /** One entry of the batch: the id and the draft's fields as typed, not trimmed. */
  datatype Update = Update(id: string, draft: Draft)

  /** Every update is an entry of the drafts whose name is not blank. */
  predicate FromDrafts(drafts: seq<Entry>, updates: seq<Update>)
  {
    forall k :: 0 <= k < |updates| ==>
      !IsBlank(updates[k].draft.name) && Entry(updates[k].id, updates[k].draft) in drafts
  }

  /** Every entry of the drafts whose name is not blank is among the updates. */
  predicate CoversNamed(drafts: seq<Entry>, updates: seq<Update>)
  {
    forall k :: 0 <= k < |drafts| && !IsBlank(drafts[k].draft.name) ==>
      Update(drafts[k].id, drafts[k].draft) in updates
  }

  /** The updates are exactly the drafts with a non-blank name. */
  predicate Carries(drafts: seq<Entry>, updates: seq<Update>)
  {
    FromDrafts(drafts, updates) && CoversNamed(drafts, updates)
  }

  /** `.filter(([_, draft]) => draft.name.trim().length > 0).map(...)`: the drafts with a name, in order. */
  function Named(drafts: seq<Entry>): (r: seq<Update>)
    ensures |r| <= |drafts|
  {
    if drafts == [] then []
    else
      var e := drafts[0];
      (if IsBlank(e.draft.name) then [] else [Update(e.id, e.draft)]) + Named(drafts[1..])
  }

  /** The named updates are the drafts with a non-blank name; there are none exactly when every name is blank. */
  lemma {:induction false} NamedCarries(drafts: seq<Entry>)
    ensures Carries(drafts, Named(drafts))
    ensures Named(drafts) == [] <==> AllBlank(drafts)
  {
    if drafts != [] {
      NamedCarries(drafts[1..]);
      CarriesCons(drafts);
    }
  }

  /** The `.filter` test: the draft's trimmed name is not empty. */
  predicate HasName(e: Entry)
  {
    !IsBlank(e.draft.name)
  }

  /** The `.map` step: the id beside the draft's fields. */
  function UpdateOf(e: Entry): Update
  {
    Update(e.id, e.draft)
  }

  /** The batch keeps the drafts' order: it is the drafts filtered by name, then mapped to updates. */
  lemma {:induction false} NamedInOrder(drafts: seq<Entry>)
    ensures Named(drafts) == Seqs.Map(Seqs.Filter(drafts, HasName), UpdateOf)
  {
    if drafts != [] {
      NamedInOrder(drafts[1..]);
      var head := if HasName(drafts[0]) then [drafts[0]] else [];
      var rest := Seqs.Filter(drafts[1..], HasName);
      assert Seqs.Filter(drafts, HasName) == head + rest;
      Seqs.MapAppend(head, rest, UpdateOf);
      assert Seqs.Map(head, UpdateOf) == if IsBlank(drafts[0].draft.name) then [] else [Update(drafts[0].id, drafts[0].draft)];
    }
  }

  lemma CarriesCons(drafts: seq<Entry>)
    requires drafts != []
    requires Carries(drafts[1..], Named(drafts[1..]))
    requires Named(drafts[1..]) == [] <==> AllBlank(drafts[1..])
    ensures Carries(drafts, Named(drafts))
    ensures Named(drafts) == [] <==> AllBlank(drafts)
  {
    var e := drafts[0];
    var head := if IsBlank(e.draft.name) then [] else [Update(e.id, e.draft)];
    assert Named(drafts) == head + Named(drafts[1..]);
    FromDraftsCons(drafts, head, Named(drafts[1..]));
    CoversNamedCons(drafts, head, Named(drafts[1..]));
    AllBlankCons(drafts);
  }

  lemma FromDraftsCons(drafts: seq<Entry>, head: seq<Update>, rest: seq<Update>)
    requires drafts != [] && FromDrafts(drafts[1..], rest)
    requires head == [] || (head == [Update(drafts[0].id, drafts[0].draft)] && !IsBlank(drafts[0].draft.name))
    ensures FromDrafts(drafts, head + rest)
  {
    FromDraftsGrow(drafts, rest);
    if head != [] {
      assert Entry(head[0].id, head[0].draft) == drafts[0];
    }
    FromDraftsAppend(drafts, head, rest);
  }

  lemma FromDraftsGrow(drafts: seq<Entry>, rest: seq<Update>)
    requires drafts != [] && FromDrafts(drafts[1..], rest)
    ensures FromDrafts(drafts, rest)
  {
    forall k | 0 <= k < |rest| ensures Entry(rest[k].id, rest[k].draft) in drafts {
      var x := Entry(rest[k].id, rest[k].draft);
      var j :| 0 <= j < |drafts| - 1 && drafts[1..][j] == x;
      assert drafts[j + 1] == x;
    }
  }

  lemma FromDraftsAppend(drafts: seq<Entry>, a: seq<Update>, b: seq<Update>)
    requires FromDrafts(drafts, a) && FromDrafts(drafts, b)
    ensures FromDrafts(drafts, a + b)
  {
    forall k | 0 <= k < |a + b| ensures (a + b)[k] == if k < |a| then a[k] else b[k - |a|] {
    }
  }

  lemma CoversNamedCons(drafts: seq<Entry>, head: seq<Update>, rest: seq<Update>)
    requires drafts != [] && CoversNamed(drafts[1..], rest)
    requires head == if IsBlank(drafts[0].draft.name) then [] else [Update(drafts[0].id, drafts[0].draft)]
    ensures CoversNamed(drafts, head + rest)
  {
    var r := head + rest;
    forall k | 0 <= k < |drafts| && !IsBlank(drafts[k].draft.name) ensures Update(drafts[k].id, drafts[k].draft) in r {
      if k == 0 {
        assert r[0] == head[0];
      } else {
        assert drafts[k] == drafts[1..][k - 1];
        var u := Update(drafts[k].id, drafts[k].draft);
        var j :| 0 <= j < |rest| && rest[j] == u;
        assert r[|head| + j] == u;
      }
    }
  }

  lemma AllBlankCons(drafts: seq<Entry>)
    requires drafts != []
    ensures AllBlank(drafts) <==> IsBlank(drafts[0].draft.name) && AllBlank(drafts[1..])
  {
    assert forall k :: 1 <= k < |drafts| ==> drafts[k] == drafts[1..][k - 1];
  }

  /** The batch `saveAllDrafts` emits. */
  datatype Batch = Batch(factories: seq<Update>, subsidiaries: seq<Update>)

  /** The panel after `saveAllDrafts`, and the batch it emits, if any. */
  datatype Saved = Saved(panel: Panel, batch: Option<Batch>)

  /** No draft has a non-blank name. */
  predicate AllBlank(drafts: seq<Entry>)
  {
    forall k :: 0 <= k < |drafts| ==> IsBlank(drafts[k].draft.name)
  }

  /**
   * `saveAllDrafts`: the drafts with a non-blank name, factories and subsidiaries,
   * go out as one batch and every draft stays until the page confirms; when no
   * draft has a name nothing goes out and every draft is dropped.
   */
  function SaveAllDrafts(p: Panel): (r: Saved)
    ensures r.batch.None? <==> AllBlank(p.factoryDrafts) && AllBlank(p.subsidiaryDrafts)
    ensures r.batch.None? ==> Ids(r.panel.factoryDrafts) == [] && Ids(r.panel.subsidiaryDrafts) == []
    ensures r.batch.None? ==> r.panel.editingFactoryId.None? && r.panel.editingSubsidiaryId.None?
    ensures r.batch.Some? ==> r.panel == p
    ensures r.batch.Some? ==> Carries(p.factoryDrafts, r.batch.value.factories)
    ensures r.batch.Some? ==> Carries(p.subsidiaryDrafts, r.batch.value.subsidiaries)
  {
    var factories := Named(p.factoryDrafts);
    var subsidiaries := Named(p.subsidiaryDrafts);
    NamedCarries(p.factoryDrafts);
    NamedCarries(p.subsidiaryDrafts);
    if factories == [] && subsidiaries == [] then Saved(ClearAllDrafts(p), None)
    else Saved(p, Some(Batch(factories, subsidiaries)))
  }

  /** The details `saveFactoryDetails` emits: the draft's fields, trimmed. */
  datatype Details = Details(id: string, name: string, location: string, description: string, status: string)

  /** The panel after `saveFactoryDetails`, and the details it emits, if any. */
  datatype SavedOne = SavedOne(panel: Panel, details: Option<Details>)

  /**
   * `saveFactoryDetails`: a factory whose draft has a non-blank name goes out with
   * its fields trimmed, its draft is dropped and its editor closes; without a draft
   * or a name nothing happens.
   */
  function SaveFactoryDetails(p: Panel, id: string): (r: SavedOne)
    ensures r.details.None? <==> Get(p.factoryDrafts, id).None? || IsBlank(Get(p.factoryDrafts, id).value.name)
    ensures r.details.None? ==> r.panel == p
    ensures r.details.Some? ==>
              var d := Get(p.factoryDrafts, id).value;
              r.details.value == Details(id, Trim(d.name), Trim(d.location), Trim(d.description), d.status)
    ensures r.details.Some? ==> Get(r.panel.factoryDrafts, id).None? && r.panel.editingFactoryId.None?
    ensures r.details.Some? ==> forall other :: other != id ==> Get(r.panel.factoryDrafts, other) == Get(p.factoryDrafts, other)
    ensures r.panel.subsidiaryDrafts == p.subsidiaryDrafts && r.panel.editingSubsidiaryId == p.editingSubsidiaryId
  {
    match Get(p.factoryDrafts, id)
    case None => SavedOne(p, None)
    case Some(d) =>
      if IsBlank(d.name) then SavedOne(p, None)
      else
        var details := Details(id, Trim(d.name), Trim(d.location), Trim(d.description), d.status);
        SavedOne(p.(factoryDrafts := Delete(p.factoryDrafts, id), editingFactoryId := None), Some(details))
  }

  /** A saved factory is left out of the next batch of `saveAllDrafts`, whose other entries are unchanged. */
  lemma SavedFactoryLeavesBatch(p: Panel, id: string)
    requires SaveFactoryDetails(p, id).details.Some?
    ensures forall k :: 0 <= k < |Named(SaveFactoryDetails(p, id).panel.factoryDrafts)| ==>
              Named(SaveFactoryDetails(p, id).panel.factoryDrafts)[k].id != id
  {
    NamedAvoids(SaveFactoryDetails(p, id).panel.factoryDrafts, id);
  }

  /** No update of the batch carries an id without a draft. */
  lemma NamedAvoids(drafts: seq<Entry>, id: string)
    requires Get(drafts, id).None?
    ensures forall k :: 0 <= k < |Named(drafts)| ==> Named(drafts)[k].id != id
  {
    NamedCarries(drafts);
    forall k | 0 <= k < |Named(drafts)| ensures Named(drafts)[k].id in Ids(drafts) {
      var u := Named(drafts)[k];
      IdOfEntry(drafts, Entry(u.id, u.draft));
    }
  }

  lemma IdOfEntry(drafts: seq<Entry>, e: Entry)
    requires e in drafts
    ensures e.id in Ids(drafts)
  {
    var j :| 0 <= j < |drafts| && drafts[j] == e;
    assert Ids(drafts)[j] == e.id;
  }

  /** In drafts with distinct ids, as a `Map` keeps them, an entry is what `get` finds under its id. */
  lemma GetOfEntry(drafts: seq<Entry>, e: Entry)
    requires Seqs.Distinct(Ids(drafts)) && e in drafts
    ensures Get(drafts, e.id) == Some(e.draft)
  {
    var k :| 0 <= k < |drafts| && drafts[k] == e;
    var d := Get(drafts, e.id).value;
    var j :| 0 <= j < |drafts| && drafts[j] == Entry(e.id, d);
    var ids := Ids(drafts);
    assert ids[j] == e.id == ids[k];
    assert j == k;
  }

  /** Updating a draft keeps the ids distinct. */
  lemma UpdateKeepsDistinct(drafts: seq<Entry>, id: string, u: DraftUpdate)
    requires Seqs.Distinct(Ids(drafts))
    ensures Seqs.Distinct(Ids(UpdateDraft(drafts, id, u)))
  {
    var ids := Ids(drafts);
    if id !in ids {
      var t := ids + [id];
      forall i, j | 0 <= i < j < |t| ensures t[i] != t[j] {
        if j == |ids| {
          assert t[i] == ids[i];
        }
      }
    }
  }

  // -------------------------------------------------------- collapsed lists

  /** `factoryCollapseThreshold`. */
  const CollapseThreshold: nat := 3

  /** `shouldCollapseFactories`: more factories than the threshold. */
  predicate ShouldCollapse(factories: seq<WarRoomService.FactoryLocation>)
  {
    |factories| > CollapseThreshold
  }

  /** `getVisibleFactories`: every factory of an expanded or short list, else the first three. */
  function VisibleFactories(factories: seq<WarRoomService.FactoryLocation>, expanded: bool): (r: seq<WarRoomService.FactoryLocation>)
    ensures r <= factories
    ensures expanded || !ShouldCollapse(factories) ==> r == factories
    ensures !expanded ==> |r| <= CollapseThreshold
  {
    if !ShouldCollapse(factories) || expanded then factories else factories[..CollapseThreshold]
  }

  /** `getHiddenFactoryCount`: how many factories lie beyond the threshold. */
  function HiddenFactoryCount(factories: seq<WarRoomService.FactoryLocation>): (r: nat)
  {
    if !ShouldCollapse(factories) then 0 else |factories| - CollapseThreshold
  }

  /** A collapsed list shows at most three factories and counts the rest as hidden. */
  lemma CollapsedAccountsForAll(factories: seq<WarRoomService.FactoryLocation>)
    ensures |VisibleFactories(factories, false)| + HiddenFactoryCount(factories) == |factories|
    ensures HiddenFactoryCount(factories) == 0 <==> !ShouldCollapse(factories)
    ensures VisibleFactories(factories, false) + factories[|VisibleFactories(factories, false)|..] == factories
  {
  }

  /** `isFactoryListExpanded`: a subsidiary never toggled is collapsed. */
  function IsExpanded(expanded: map<string, bool>, id: string): bool
  {
    if id in expanded then expanded[id] else false
  }

  /** `toggleFactoryList`: the subsidiary's list expands or collapses; no other list changes. */
  function ToggleFactoryList(expanded: map<string, bool>, id: string): (r: map<string, bool>)
    ensures IsExpanded(r, id) != IsExpanded(expanded, id)
    ensures forall other :: other != id ==> IsExpanded(r, other) == IsExpanded(expanded, other)
  {
    expanded[id := !IsExpanded(expanded, id)]
  }

  /**
   * `toggleParent` and `toggleSubsidiary`: an expanded id is removed, another one
   * added last.
   */
  function ToggleExpanded(current: seq<string>, id: string): (r: seq<string>)
    ensures id in r <==> id !in current
    ensures forall other :: other != id ==> (other in r <==> other in current)
  {
    if id in current then Seqs.Without(current, id) else current + [id]
  }

  /** Toggling an id twice gives back a list without repetitions that did not hold it. */
  lemma ToggleExpandedTwice(current: seq<string>, id: string)
    requires id !in current
    ensures ToggleExpanded(ToggleExpanded(current, id), id) == current
  {
    Seqs.WithoutAppended(current, id);
  }

  // ------------------------------------------------------------------ location

  /**
   * `formatLocation`: 'City, Country', or whichever of the two is there, and
   * 'Unknown' when neither is.
   */
  function FormatLocation(city: string, country: Option<string>): (r: string)
    ensures r != []
    ensures city == [] && !Filled(country) ==> r == "Unknown"
    ensures city == [] && Filled(country) ==> r == country.value
    ensures city != [] ==> |r| >= |city| && r[..|city|] == city
    ensures city != [] && !Filled(country) ==> r == city
    ensures city != [] && Filled(country) ==> r[|city|..] == ", " + country.value
  {
    if city == [] && !Filled(country) then "Unknown"
    else if city == [] then country.value
    else if Filled(country) then city + ", " + country.value
    else city
  }

  /**
   * A clean city and country, formatted, parse back into themselves with the war
   * room's location parser.
   */
  lemma FormatThenParse(city: string, country: string)
    requires WarRoomComponent.CleanParts([city, country])
    ensures WarRoomComponent.ParseLocationParts(FormatLocation(city, Some(country)))
            == WarRoomComponent.CityCountry(city, Some(country))
  {
    var parts := [city, country];
    assert parts[0] == city && parts[1] == country;
    TwoParts(city, country, parts);
    WarRoomComponent.ParseLocationPartsRoundTrip(parts);
  }

  lemma TwoParts(city: string, country: string, parts: seq<string>)
    requires parts == [city, country] && city != [] && country != []
    ensures FormatLocation(city, Some(country)) == Join(parts, ", ")
    ensures |parts| > 1 && parts[0] == city && Join(parts[1..], ", ") == country
  {
    assert parts[1..] == [country];
  }
}

=== FILE: client_service.dfy ===
/**
 * `ClientService` (src/app/shared/services/client.service.ts): rows of the clients
 * document become `Client` records, each with a short display code derived from
 * its name.
 */
module ClientService {
  import opened Wrappers
  import opened Text
  import WarRoomService

  /** `ClientLocation`; the field `type` is called `kind` here. */
  datatype ClientLocation = ClientLocation(locationName: string, address: string, kind: string)

  /** `Client`, without the optional logo, e-mail and phone, which no helper reads. */
  datatype Client = Client(
    id: string,
    name: string,
    code: string,
    coordinates: Option<WarRoomService.Coordinates>,
    locations: Option<seq<ClientLocation>>)

  /** `ApiClient`: one row of the clients document. */
  datatype ApiClient = ApiClient(
    clientId: string,
    clientName: string,
    latitude: Option<real>,
    longitude: Option<real>,
    locations: Option<seq<ClientLocation>>)

  // -------------------------------------------------------------- deriveCode

  /**
   * `s.replace(/\s*\([^)]*\)/g, '')`: every parenthesised group, together with the
   * whitespace before it, is removed; an opening parenthesis with no closing one
   * after it stays.
   */
  function StripParentheticals(s: string): (r: string)
    ensures |r| <= |s|
    ensures forall c :: c in r ==> c in s
    ensures forall i :: 0 <= i < |r| && r[i] == '(' ==> ')' !in r[i + 1..]
    decreases |s|
  {
    if s == [] then []
    else
      var n := WhitespaceRun(s);
      if n < |s| && s[n] == '(' && ')' in s[n + 1..] then
        StripParentheticals(s[n + 1 + IndexOf(s[n + 1..], ')') + 1..])
      else
        var rest := StripParentheticals(s[1..]);
        var r := [s[0]] + rest;
        assert forall i :: 1 <= i < |r| ==> r[i + 1..] == rest[i..];
        assert s[0] == '(' ==> ')' !in rest by {
          if s[0] == '(' {
            assert n == 0;
          }
        }
        r
  }

  /** A string without parentheses is left as it is. */
  lemma {:induction false} StripWithoutParentheses(s: string)
    requires '(' !in s
    ensures StripParentheticals(s) == s
    decreases |s|
  {
    if s != [] {
      assert s[WhitespaceRun(s)..] == [] || s[WhitespaceRun(s)] in s;
      StripWithoutParentheses(s[1..]);
    }
  }

  /**
   * A trailing group such as `" (YRT)"` is cut off together with all the
   * whitespace before it.
   */
  lemma {:induction false} StripParentheticalSuffix(a: string, x: string)
    requires '(' !in a && ')' !in a && ')' !in x
    ensures StripParentheticals(a + " (" + x + ")") == TrimEnd(a)
    decreases |a|
  {
    if forall i :: 0 <= i < |a| ==> IsWhitespace(a[i]) {
      StripBlankBeforeSuffix(a, x);
    } else {
      var s := a + " (" + x + ")";
      FirstNonWhitespace(a, x);
      assert s[0] == a[0] && a[0] in a;
      assert s[1..] == a[1..] + " (" + x + ")";
      StripParentheticalSuffix(a[1..], x);
      TrimEndCons(a);
    }
  }

  lemma StripBlankBeforeSuffix(a: string, x: string)
    requires forall i :: 0 <= i < |a| ==> IsWhitespace(a[i])
    requires ')' !in x
    ensures StripParentheticals(a + " (" + x + ")") == TrimEnd(a)
  {
    var s := a + " (" + x + ")";
    WhitespaceRunOver(a, x);
    var n := |a| + 1;
    assert s[n] == '(';
    assert s[n + 1..] == x + ")";
    var j := IndexOf(s[n + 1..], ')');
    assert j == |x| by {
      assert (x + ")")[|x|] == ')';
    }
    assert s[n + 1 + j + 1..] == [];
    AllWhitespaceTrimsAway(a);
  }

  lemma WhitespaceRunOver(a: string, x: string)
    requires forall i :: 0 <= i < |a| ==> IsWhitespace(a[i])
    ensures WhitespaceRun(a + " (" + x + ")") == |a| + 1
  {
    var s := a + " (" + x + ")";
    var n := WhitespaceRun(s);
    assert forall i :: 0 <= i <= |a| ==> IsWhitespace(s[i]);
    assert s[|a| + 1] == '(';
  }

  lemma FirstNonWhitespace(a: string, x: string)
    requires exists i :: 0 <= i < |a| && !IsWhitespace(a[i])
    ensures WhitespaceRun(a + " (" + x + ")") < |a|
  {
    var s := a + " (" + x + ")";
    var i :| 0 <= i < |a| && !IsWhitespace(a[i]);
    assert s[i] == a[i];
  }

  lemma {:induction false} AllWhitespaceTrimsAway(a: string)
    requires forall i :: 0 <= i < |a| ==> IsWhitespace(a[i])
    ensures TrimEnd(a) == []
    decreases |a|
  {
    if a != [] {
      AllWhitespaceTrimsAway(a[..|a| - 1]);
    }
  }

  /** Trimming the end of a string that goes on past a non-blank character keeps its head. */
  lemma {:induction false} TrimEndCons(a: string)
    requires a != [] && exists i :: 0 <= i < |a| && !IsWhitespace(a[i])
    ensures TrimEnd(a) == [a[0]] + TrimEnd(a[1..])
    decreases |a|
  {
    var i :| 0 <= i < |a| && !IsWhitespace(a[i]);
    if IsWhitespace(a[|a| - 1]) {
      assert i < |a| - 1;
      var b := a[..|a| - 1];
      assert b[i] == a[i];
      assert a[1..][..|a[1..]| - 1] == b[1..];
      if i == 0 {
        TrimEndKeepsFirst(b);
      } else {
        assert b[1..][i - 1] == a[i];
        TrimEndCons(b);
      }
    } else {
      assert a[1..] == [] || a[1..][|a[1..]| - 1] == a[|a| - 1];
    }
  }

  lemma {:induction false} TrimEndKeepsFirst(b: string)
    requires b != [] && !IsWhitespace(b[0])
    ensures TrimEnd(b) == [b[0]] + TrimEnd(b[1..])
    decreases |b|
  {
    if IsWhitespace(b[|b| - 1]) {
      var c := b[..|b| - 1];
      assert b[1..][..|b[1..]| - 1] == c[1..];
      TrimEndKeepsFirst(c);
    } else {
      assert b[1..] == [] || b[1..][|b[1..]| - 1] == b[|b| - 1];
    }
  }

  /**
   * `words.map(w => w[0]).join('')`: the first letter of every non-empty word, in
   * order; an empty word contributes `undefined`, which joins as nothing.
   */
  function Initials(words: seq<string>): (r: string)
    ensures |r| <= |words|
    ensures forall i :: 0 <= i < |r| ==> exists k :: 0 <= k < |words| && words[k] != [] && r[i] == words[k][0]
  {
    if words == [] then []
    else
      var rest := Initials(words[1..]);
      var r := (if words[0] == [] then [] else [words[0][0]]) + rest;
      assert forall k :: 0 <= k < |words| - 1 ==> words[1..][k] == words[k + 1];
      r
  }

  /** When no word is empty, there is one initial per word: its first letter. */
  lemma {:induction false} InitialsOfWords(words: seq<string>)
    requires forall k :: 0 <= k < |words| ==> words[k] != []
    ensures |Initials(words)| == |words|
    ensures forall i :: 0 <= i < |words| ==> Initials(words)[i] == words[i][0]
  {
    if words != [] {
      var rest := words[1..];
      forall k | 0 <= k < |rest|
        ensures rest[k] != []
      {
        assert rest[k] == words[k + 1];
      }
      InitialsOfWords(rest);
      var ir := Initials(rest);
      var iw := Initials(words);
      InitialsCons(words);
      forall i | 0 <= i < |words|
        ensures iw[i] == words[i][0]
      {
        if i == 0 {
          assert iw[0] == words[0][0];
        } else {
          assert iw[i] == ir[i - 1] == rest[i - 1][0];
        }
      }
    }
  }

  lemma InitialsCons(words: seq<string>)
    requires words != [] && words[0] != []
    ensures Initials(words) == [words[0][0]] + Initials(words[1..])
  {
  }

  /** The initials of two lists of words, one after the other, are the initials of each. */
  lemma {:induction false} InitialsAppend(a: seq<string>, b: seq<string>)
    ensures Initials(a + b) == Initials(a) + Initials(b)
  {
    if a == [] {
      assert a + b == b;
    } else {
      assert (a + b)[0] == a[0] && (a + b)[1..] == a[1..] + b;
      InitialsAppend(a[1..], b);
    }
  }

  /** The words `deriveCode` takes the initials of: the name split at whitespace, groups removed. */
  function NameWords(name: string): seq<string>
  {
    SplitWhitespace(StripParentheticals(name))
  }

  /**
   * `deriveCode`: the first four initials of the name's words, parenthesised groups
   * dropped, upper-cased; the upper-cased id when the name has no initials.
   */
  function DeriveCode(name: string, id: string): (r: string)
    ensures forall i :: 0 <= i < |r| ==> !IsLower(r[i])
    ensures Initials(NameWords(name)) == [] ==> r == ToUpper(id)
    ensures var initials := Initials(NameWords(name));
            initials != [] ==>
              && |r| == (if |initials| <= 4 then |initials| else 4)
              && forall i :: 0 <= i < |r| ==> r[i] == UpperChar(initials[i])
    ensures r == [] <==> Initials(NameWords(name)) == [] && id == []
  {
    var initials := ToUpper(Initials(NameWords(name)));
    var fromName := if |initials| <= 4 then initials else initials[..4];
    if fromName != [] then fromName else ToUpper(id)
  }

  /**
   * A name of two words without parentheses, such as `"Metrolinx Transit"`, has the
   * code of their two upper-cased first letters, whatever the id.
   */
  lemma DeriveCodeOfTwoWords(a: string, b: string, id: string)
    requires a != [] && b != [] && NoWhitespace(a) && NoWhitespace(b)
    requires '(' !in a && '(' !in b
    ensures DeriveCode(a + " " + b, id) == [UpperChar(a[0]), UpperChar(b[0])]
  {
    NameWordsOfTwo(a, b);
    var words := [a, b];
    InitialsOfWords(words);
    var initials := Initials(words);
    assert initials == [a[0], b[0]];
    assert ToUpper(initials) == [UpperChar(a[0]), UpperChar(b[0])];
  }

  lemma NameWordsOfTwo(a: string, b: string)
    requires a != [] && b != [] && NoWhitespace(a) && NoWhitespace(b)
    requires '(' !in a && '(' !in b
    ensures NameWords(a + " " + b) == [a, b]
  {
    var name := a + " " + b;
    assert '(' !in name by {
      assert forall i :: 0 <= i < |name| ==> name[i] == if i < |a| then a[i] else if i == |a| then ' ' else b[i - |a| - 1];
    }
    StripWithoutParentheses(name);
    SplitTwoWords(a, b);
    OneWordSplit(b);
  }

  /**
   * The code of a name with a parenthesised suffix, such as `"York Region Transit (YRT)"`,
   * is the code of the name without it.
   */
  lemma DeriveCodeIgnoresSuffix(a: string, x: string, id: string)
    requires '(' !in a && ')' !in a && ')' !in x
    ensures DeriveCode(a + " (" + x + ")", id) == DeriveCode(TrimEnd(a), id)
  {
    StripParentheticalSuffix(a, x);
    var t := TrimEnd(a);
    assert '(' !in t by {
      assert t == a[..|t|];
    }
    StripWithoutParentheses(t);
  }

  // ---------------------------------------------------- mapApiClientToClient

  /**
   * `mapApiClientToClient`: id and name are kept, coordinates exist exactly when
   * both latitude and longitude do, and an empty location list becomes absent.
   */
  function MapApiClientToClient(api: ApiClient): (r: Client)
    ensures r.id == api.clientId && r.name == api.clientName
    ensures r.code == DeriveCode(api.clientName, api.clientId)
    ensures r.coordinates.Some? <==> api.latitude.Some? && api.longitude.Some?
    ensures r.coordinates.Some? ==>
              r.coordinates.value.latitude == api.latitude.value
              && r.coordinates.value.longitude == api.longitude.value
    ensures r.locations.Some? ==> r.locations == api.locations && r.locations.value != []
    ensures r.locations.None? ==> api.locations.GetOr([]) == []
  {
    var locations := api.locations.GetOr([]);
    var coordinates :=
      if api.latitude.Some? && api.longitude.Some? then
        Some(WarRoomService.Coordinates(api.latitude.value, api.longitude.value))
      else None;
    Client(api.clientId, api.clientName, DeriveCode(api.clientName, api.clientId), coordinates,
           if |locations| > 0 then Some(locations) else None)
  }
  /** The clients-document row a client would be read from. */
  function ApiOf(c: Client): ApiClient
  {
    ApiClient(c.id, c.name,
              if c.coordinates.Some? then Some(c.coordinates.value.latitude) else None,
              if c.coordinates.Some? then Some(c.coordinates.value.longitude) else None,
              c.locations)
  }

  /**
   * A client whose code is the derived one and whose location list is absent or
   * non-empty is read back unchanged from its own row.
   */
  lemma MapApiClientRoundTrip(c: Client)
    requires c.code == DeriveCode(c.name, c.id)
    requires c.locations != Some([])
    ensures MapApiClientToClient(ApiOf(c)) == c
  {
    var r := MapApiClientToClient(ApiOf(c));
    assert r.coordinates == c.coordinates by {
      if c.coordinates.Some? {
        assert r.coordinates.value == c.coordinates.value;
      }
    }
  }
}

=== FILE: client_tickets.dfy ===
/**
 * The ticket and asset statistics of the client pages
 * (src/app/shared/data/client-tickets-assets.ts): looking up a project's figures,
 * and a vehicle's figures under its project's name.
 */
module ClientTickets {
  import opened Wrappers
  import Seqs

  /** `'increased' | 'decreased'`. */
  datatype Trend = Increased | Decreased

  /** The figures a project and a vehicle both carry. */
  datatype Figures = Figures(
    totalTickets: int,
    totalAssets: int,
    ticketsChangePercentage: int,
    assetsChangePercentage: int,
    ticketsStatus: Trend,
    assetsStatus: Trend)

  /** `VehicleStats`. */
  datatype VehicleStats = VehicleStats(vehicleId: string, vehicleName: string, figures: Figures)

  /** `ProjectStats`; `vehicleName` is set only on a vehicle's view of its project. */
  datatype ProjectStats = ProjectStats(
    projectId: string,
    projectName: string,
    figures: Figures,
    vehicleName: Option<string>,
    vehicles: seq<VehicleStats>)

  /** The vehicle id that stands for every vehicle of a project. */
  const AllVehicles := "all"

  function ProjectIs(id: string): ProjectStats -> bool { (p: ProjectStats) => p.projectId == id }

  function VehicleIs(id: string): VehicleStats -> bool { (v: VehicleStats) => v.vehicleId == id }

  /**
   * `getProjectStats`: the first project with the id, or the table's first entry
   * (the 'all' totals) when no project has it.
   */
  function ProjectStatsOf(table: seq<ProjectStats>, projectId: string): (r: ProjectStats)
    requires table != []
    ensures r in table
    ensures (exists k :: 0 <= k < |table| && table[k].projectId == projectId) ==>
              r.projectId == projectId
              && exists k :: 0 <= k < |table| && table[k] == r && forall j :: 0 <= j < k ==> table[j].projectId != projectId
    ensures (forall k :: 0 <= k < |table| ==> table[k].projectId != projectId) ==> r == table[0]
  {
    match Seqs.FindFirst(table, ProjectIs(projectId))
    case Some(k) => table[k]
    case None => table[0]
  }

  /**
   * `getProjectVehicleStats`: the project as `getProjectStats` finds it; for a
   * vehicle id other than 'all' that one of its vehicles has, the first such
   * vehicle's figures and name replace the project's, and everything else is the
   * project's own.
   */
  function ProjectVehicleStats(table: seq<ProjectStats>, projectId: string, vehicleId: string): (r: ProjectStats)
    requires table != []
    ensures var p := ProjectStatsOf(table, projectId);
            r.projectId == p.projectId && r.projectName == p.projectName && r.vehicles == p.vehicles
    ensures var p := ProjectStatsOf(table, projectId);
            vehicleId == AllVehicles || (forall k :: 0 <= k < |p.vehicles| ==> p.vehicles[k].vehicleId != vehicleId)
            ==> r == p
    ensures var p := ProjectStatsOf(table, projectId);
            vehicleId != AllVehicles && r != p ==>
              exists k :: 0 <= k < |p.vehicles| && p.vehicles[k].vehicleId == vehicleId
                          && r.figures == p.vehicles[k].figures && r.vehicleName == Some(p.vehicles[k].vehicleName)
  {
    var project := ProjectStatsOf(table, projectId);
    if vehicleId == AllVehicles then project
    else
      match Seqs.FindFirst(project.vehicles, VehicleIs(vehicleId))
      case Some(k) =>
        var v := project.vehicles[k];
        project.(figures := v.figures, vehicleName := Some(v.vehicleName))
      case None => project
  }

  /**
   * A vehicle of the project, other than 'all', comes back with the figures and
   * the name of the first of the project's vehicles with its id.
   */
  lemma VehicleFiguresOfFirst(table: seq<ProjectStats>, projectId: string, vehicleId: string, k: nat)
    requires table != [] && vehicleId != AllVehicles
    requires var p := ProjectStatsOf(table, projectId);
             k < |p.vehicles| && p.vehicles[k].vehicleId == vehicleId
             && forall j :: 0 <= j < k ==> p.vehicles[j].vehicleId != vehicleId
    ensures var p := ProjectStatsOf(table, projectId);
            ProjectVehicleStats(table, projectId, vehicleId)
            == p.(figures := p.vehicles[k].figures, vehicleName := Some(p.vehicles[k].vehicleName))
  {
    var p := ProjectStatsOf(table, projectId);
    assert VehicleIs(vehicleId)(p.vehicles[k]);
  }

  /** Whatever the vehicle id, its view differs from its project's stats in the figures and the vehicle name only. */
  lemma VehicleViewKeepsProject(table: seq<ProjectStats>, projectId: string, vehicleId: string)
    requires table != []
    ensures ProjectVehicleStats(table, projectId, vehicleId)
            .(figures := ProjectStatsOf(table, projectId).figures,
              vehicleName := ProjectStatsOf(table, projectId).vehicleName)
            == ProjectStatsOf(table, projectId)
  {
  }
}

=== FILE: company_location.dfy ===
/**
 * `CompanyLocationService` (src/app/shared/services/company-location.service.ts):
 * companies and their locations built from the spreadsheet seed, address parsing,
 * and the ids given to added companies and locations.
 */
module CompanyLocation {
  import opened Wrappers
  import opened Text
  import Seqs

  /** `Company`, without the optional fields nothing here sets. */
  datatype Company = Company(id: string, name: string)

  /** `Location`, without the optional fields nothing here sets. */
  datatype Location = Location(
    id: string,
    companyId: string,
    fullStreetAddress: string,
    city: string,
    provinceState: Option<string>,
    country: Option<string>)

  /** `CompanyAddressSeed`: one spreadsheet row. */
  datatype SeedRow = SeedRow(companyName: string, fullStreetAddress: string)

  /** What `parseAddress` reads out of an address. */
  datatype Address = Address(city: string, provinceState: Option<string>, country: Option<string>)

  // ------------------------------------------------------------ addresses

  /** The comma-separated pieces of `full`, trimmed. */
  function AddressParts(full: string): (r: seq<string>)
    ensures |r| == |Split(full, ',')| && |r| >= 1
    ensures forall k :: 0 <= k < |r| ==> r[k] == Trim(Split(full, ',')[k])
  {
    Seqs.Map(Split(full, ','), Trim)
  }

  /**
   * `parseAddress`: the city is the first comma-separated piece, the province the
   * second when there is one, and the country the last when there are at least three.
   */
  function ParseAddress(full: string): (r: Address)
    ensures r.city == Trim(if ',' in full then full[..IndexOf(full, ',')] else full)
    ensures r.provinceState.Some? <==> ',' in full
    ensures r.country.Some? <==> |Split(full, ',')| >= 3
    ensures r.provinceState.Some? ==> r.provinceState.value == Trim(Split(full, ',')[1])
    ensures r.country.Some? ==> r.country.value == Trim(LastPiece(full, ','))
    ensures ',' !in r.city && Trimmed(r.city)
    ensures r.provinceState.Some? ==> ',' !in r.provinceState.value && Trimmed(r.provinceState.value)
  {
    var raw := Split(full, ',');
    var parts := AddressParts(full);
    TrimKeepsChars(raw[0]);
    TrimKeepsChars(raw[if |raw| >= 2 then 1 else 0]);
    var province := if |parts| >= 2 then Some(parts[1]) else None;
    var country := if |parts| >= 3 then Some(Trim(LastPiece(full, ','))) else None;
    Address(parts[0], province, country)
  }

  /** No comma and no outer whitespace: a piece an address can be written from. */
  predicate Piece(s: string)
  {
    ',' !in s && Trimmed(s)
  }

  /** `"city, province, country"` parses back into its three pieces. */
  lemma {:induction false} ParseAddressRoundTrip(city: string, province: string, country: string)
    requires Piece(city) && Piece(province) && Piece(country)
    ensures ParseAddress(city + ", " + province + ", " + country) == Address(city, Some(province), Some(country))
  {
    var s := city + ", " + province + ", " + country;
    var b, c := " " + province, " " + country;
    assert s == city + [','] + b + [','] + c;
    ThreePieces(city, b, c);
    ThreeLast(city, b, c);
    ParseOfThree(s, city, b, c);
    TrimUntrimmed(city);
    TrimAfterSpace(province);
    TrimAfterSpace(country);
  }

  /** The pieces of `a,b,c` when no piece holds a comma. */
  lemma ThreePieces(a: string, b: string, c: string)
    requires ',' !in a && ',' !in b && ',' !in c
    ensures Split(a + [','] + b + [','] + c, ',') == [a, b, c]
  {
    assert a + [','] + b + [','] + c == a + [','] + (b + [','] + c);
    SplitAfterPiece(a, b + [','] + c, ',');
    SplitAfterPiece(b, c, ',');
  }

  /** The last comma piece of `a,b,c` is `c`. */
  lemma ThreeLast(a: string, b: string, c: string)
    requires ',' !in c
    ensures LastPiece(a + [','] + b + [','] + c, ',') == c
  {
    var s := a + [','] + b + [','] + c;
    assert s[|s| - |c| - 1] == ',';
    assert s[|s| - |c|..] == c;
    LastPieceUnique(s, ',', c);
  }

  /** An address of three comma pieces reads as its trimmed pieces. */
  lemma ParseOfThree(s: string, a: string, b: string, c: string)
    requires Split(s, ',') == [a, b, c] && LastPiece(s, ',') == c
    ensures ParseAddress(s) == Address(Trim(a), Some(Trim(b)), Some(Trim(c)))
  {
  }

  // ------------------------------------------------------------ ids

  /** The id of a location: the company id, a dash, and the slug of the city. */
  function LocationId(companyId: string, city: string): (r: string)
    ensures StartsWith(r, companyId + "-")
    ensures IsSlug(companyId) && companyId != [] && Slugify(city) != [] ==> IsSlug(r)
  {
    var r := companyId + "-" + Slugify(city);
    assert r[..|companyId| + 1] == companyId + "-";
    DashJoinedSlugs(companyId, Slugify(city));
    r
  }

  /** Two non-empty slugs joined by a dash are a slug. */
  lemma DashJoinedSlugs(a: string, b: string)
    ensures IsSlug(a) && IsSlug(b) && a != [] && b != [] ==> IsSlug(a + "-" + b)
  {
    if IsSlug(a) && IsSlug(b) && a != [] && b != [] {
      var r := a + "-" + b;
      assert forall i :: 0 <= i < |a| ==> r[i] == a[i];
      assert forall i :: |a| < i < |r| ==> r[i] == b[i - |a| - 1];
    }
  }

  /** The location a seed row becomes, with its address read by `parse`. */
  function SeedLocation(row: SeedRow, parse: string -> Address): (r: Location)
    ensures r.companyId == Slugify(row.companyName) && r.fullStreetAddress == row.fullStreetAddress
    ensures r.id == LocationId(r.companyId, r.city)
    ensures parse(row.fullStreetAddress) == Address(r.city, r.provinceState, r.country)
  {
    var companyId := Slugify(row.companyName);
    var a := parse(row.fullStreetAddress);
    Location(LocationId(companyId, a.city), companyId, row.fullStreetAddress, a.city, a.provinceState, a.country)
  }

  /** The company id of every row: the slug of its company name. */
  function CompanyIds(rows: seq<SeedRow>): (ids: seq<string>)
    ensures |ids| == |rows|
    ensures forall k :: 0 <= k < |rows| ==> ids[k] == Slugify(rows[k].companyName)
  {
    Seqs.Map(rows, (row: SeedRow) => Slugify(row.companyName))
  }

  /** No id before position `k` equals the one at `k`. */
  predicate FirstOf(ids: seq<string>, k: nat)
    requires k < |ids|
  {
    forall j :: 0 <= j < k ==> ids[j] != ids[k]
  }

  /** `c` is the company of one of the first `n` rows, the first row with its id. */
  predicate NamedByFirstRow(rows: seq<SeedRow>, ids: seq<string>, n: nat, c: Company)
    requires |ids| == |rows| && n <= |rows|
  {
    exists k :: 0 <= k < n && FirstOf(ids, k) && c == Company(ids[k], rows[k].companyName)
  }

  /** Company ids are pairwise distinct. */
  predicate DistinctIds(companies: seq<Company>)
  {
    forall a, b :: 0 <= a < b < |companies| ==> companies[a].id != companies[b].id
  }

  /** Some company has id `id`. */
  predicate HasCompany(companies: seq<Company>, id: string)
  {
    exists c :: 0 <= c < |companies| && companies[c].id == id
  }

  /** What `buildFromSeed` holds between rows: the companies, the locations, and the companies by id. */
  datatype SeedState = SeedState(companies: seq<Company>, locations: seq<Location>, byId: map<string, Company>)

  /** The locations are those of the first `i` rows. */
  predicate LocationsBuilt(rows: seq<SeedRow>, parse: string -> Address, i: nat, locations: seq<Location>)
    requires i <= |rows|
  {
    |locations| == i && forall k :: 0 <= k < i ==> locations[k] == SeedLocation(rows[k], parse)
  }

  /** The companies are those of the first rows with each id among the first `i` rows, once each. */
  predicate CompaniesBuilt(rows: seq<SeedRow>, ids: seq<string>, i: nat, companies: seq<Company>)
    requires |ids| == |rows| && i <= |rows|
  {
    && DistinctIds(companies)
    && (forall c :: 0 <= c < |companies| ==> NamedByFirstRow(rows, ids, i, companies[c]))
    && (forall k :: 0 <= k < i ==> HasCompany(companies, ids[k]))
  }

  /** The map holds exactly the companies, each under its id. */
  ghost predicate Indexed(companies: seq<Company>, byId: map<string, Company>)
  {
    && (forall id :: id in byId <==> HasCompany(companies, id))
    && (forall id :: id in byId ==> byId[id].id == id)
  }

  ghost predicate Built(rows: seq<SeedRow>, parse: string -> Address, i: nat, st: SeedState)
    requires i <= |rows|
  {
    LocationsBuilt(rows, parse, i, st.locations) && CompaniesBuilt(rows, CompanyIds(rows), i, st.companies) && Indexed(st.companies, st.byId)
  }

  /** One row of the loop: look its company up by id, adding it when new, and append its location. */
  function SeedStep(rows: seq<SeedRow>, parse: string -> Address, i: nat, st: SeedState): (r: SeedState)
    requires i < |rows| && Built(rows, parse, i, st)
    ensures Built(rows, parse, i + 1, r)
  {
    var companyId := Slugify(rows[i].companyName);
    var isNew := companyId !in st.byId;
    var company := if isNew then Company(companyId, rows[i].companyName) else st.byId[companyId];
    var companies := if isNew then st.companies + [company] else st.companies;
    var byId := if isNew then st.byId[companyId := company] else st.byId;
    var location := SeedLocation(rows[i], parse);
    SeedStepBuilt(rows, parse, i, st, company, companies, byId, location);
    SeedState(companies, st.locations + [location], byId)
  }

  lemma SeedStepBuilt(rows: seq<SeedRow>, parse: string -> Address, i: nat, st: SeedState,
                      company: Company, companies: seq<Company>, byId: map<string, Company>, location: Location)
    requires i < |rows| && Built(rows, parse, i, st)
    requires company.id == Slugify(rows[i].companyName)
    requires companies == if company.id !in st.byId then st.companies + [Company(company.id, rows[i].companyName)] else st.companies
    requires byId == if company.id !in st.byId then st.byId[company.id := company] else st.byId
    requires company.id !in st.byId ==> company == Company(company.id, rows[i].companyName)
    requires location == SeedLocation(rows[i], parse)
    ensures Built(rows, parse, i + 1, SeedState(companies, st.locations + [location], byId))
  {
    var ids := CompanyIds(rows);
    AppendLocation(rows, parse, st.locations, location);
    if company.id !in st.byId {
      NewCompanyBuilt(rows, ids, i, st.companies, st.byId, company);
    } else {
      KnownCompanyBuilt(rows, ids, i, st.companies, st.byId, company.id);
    }
  }

  /** A row whose company id is new appends its company, keeping the companies and the map in step. */
  lemma NewCompanyBuilt(rows: seq<SeedRow>, ids: seq<string>, i: nat, companies: seq<Company>, byId: map<string, Company>, company: Company)
    requires |ids| == |rows| && i < |rows| && CompaniesBuilt(rows, ids, i, companies) && Indexed(companies, byId)
    requires company == Company(ids[i], rows[i].companyName) && company.id !in byId
    ensures CompaniesBuilt(rows, ids, i + 1, companies + [company])
    ensures Indexed(companies + [company], byId[company.id := company])
  {
    NamedLater(rows, ids, i, companies);
    AppendCompany(rows, ids, i, companies);
  }

  /** A row whose company id is known leaves the companies and the map as they are. */
  lemma KnownCompanyBuilt(rows: seq<SeedRow>, ids: seq<string>, i: nat, companies: seq<Company>, byId: map<string, Company>, id: string)
    requires |ids| == |rows| && i < |rows| && CompaniesBuilt(rows, ids, i, companies) && Indexed(companies, byId)
    requires id == ids[i] && id in byId
    ensures CompaniesBuilt(rows, ids, i + 1, companies)
  {
    NamedLater(rows, ids, i, companies);
    assert HasCompany(companies, ids[i]);
  }

  /**
   * `buildFromSeed`, with the address reader as a parameter (the source uses
   * `parseAddress`): one company per distinct company id, named by the first row
   * with that id, and one location per row, pointing at its company.
   */
  method BuildFromSeed(rows: seq<SeedRow>, parse: string -> Address) returns (companies: seq<Company>, locations: seq<Location>)
    ensures |locations| == |rows|
    ensures forall k :: 0 <= k < |rows| ==> locations[k] == SeedLocation(rows[k], parse)
    ensures DistinctIds(companies)
    ensures forall c :: 0 <= c < |companies| ==> NamedByFirstRow(rows, CompanyIds(rows), |rows|, companies[c])
    ensures forall k :: 0 <= k < |rows| ==> HasCompany(companies, locations[k].companyId)
  {
    var st := SeedState([], [], map[]);
    BuiltEmpty(rows, parse);
    for i := 0 to |rows|
      invariant Built(rows, parse, i, st)
    {
      st := SeedStep(rows, parse, i, st);
    }
    BuiltAll(rows, parse, st);
    companies, locations := st.companies, st.locations;
  }

  lemma BuiltEmpty(rows: seq<SeedRow>, parse: string -> Address)
    ensures Built(rows, parse, 0, SeedState([], [], map[]))
  {
  }

  /** After the last row: every location's company exists. */
  lemma BuiltAll(rows: seq<SeedRow>, parse: string -> Address, st: SeedState)
    requires Built(rows, parse, |rows|, st)
    ensures |st.locations| == |rows|
    ensures forall k :: 0 <= k < |rows| ==> st.locations[k] == SeedLocation(rows[k], parse)
    ensures DistinctIds(st.companies)
    ensures forall c :: 0 <= c < |st.companies| ==> NamedByFirstRow(rows, CompanyIds(rows), |rows|, st.companies[c])
    ensures forall k :: 0 <= k < |rows| ==> HasCompany(st.companies, st.locations[k].companyId)
  {
    var ids := CompanyIds(rows);
    forall k | 0 <= k < |rows| ensures HasCompany(st.companies, st.locations[k].companyId) {
      assert st.locations[k].companyId == ids[k];
    }
  }

  /** Appending the location of the next row keeps the locations those of the rows so far. */
  lemma AppendLocation(rows: seq<SeedRow>, parse: string -> Address, locations: seq<Location>, location: Location)
    requires |locations| < |rows| && location == SeedLocation(rows[|locations|], parse)
    requires forall k :: 0 <= k < |locations| ==> locations[k] == SeedLocation(rows[k], parse)
    ensures forall k :: 0 <= k <= |locations| ==> (locations + [location])[k] == SeedLocation(rows[k], parse)
  {
  }

  /** Companies named by a first row among the first `i` rows are so among the first `i + 1`. */
  lemma NamedLater(rows: seq<SeedRow>, ids: seq<string>, i: nat, companies: seq<Company>)
    requires |ids| == |rows| && i < |rows|
    requires forall c :: 0 <= c < |companies| ==> NamedByFirstRow(rows, ids, i, companies[c])
    ensures forall c :: 0 <= c < |companies| ==> NamedByFirstRow(rows, ids, i + 1, companies[c])
  {
    forall c | 0 <= c < |companies|
      ensures NamedByFirstRow(rows, ids, i + 1, companies[c])
    {
      var k :| 0 <= k < i && FirstOf(ids, k) && companies[c] == Company(ids[k], rows[k].companyName);
    }
  }

  /** Appending the company of a row whose id no company has yet keeps the loop's facts about companies. */
  lemma AppendCompany(rows: seq<SeedRow>, ids: seq<string>, i: nat, companies: seq<Company>)
    requires |ids| == |rows| && i < |rows|
    requires DistinctIds(companies) && !HasCompany(companies, ids[i])
    requires forall k :: 0 <= k < i ==> HasCompany(companies, ids[k])
    requires forall c :: 0 <= c < |companies| ==> NamedByFirstRow(rows, ids, i + 1, companies[c])
    ensures var r := companies + [Company(ids[i], rows[i].companyName)];
            && DistinctIds(r)
            && (forall c :: 0 <= c < |r| ==> NamedByFirstRow(rows, ids, i + 1, r[c]))
            && (forall id :: HasCompany(r, id) <==> HasCompany(companies, id) || id == ids[i])
  {
    var company := Company(ids[i], rows[i].companyName);
    var r := companies + [company];
    assert FirstOf(ids, i) by {
      forall j | 0 <= j < i ensures ids[j] != ids[i] {
        assert HasCompany(companies, ids[j]);
      }
    }
    assert NamedByFirstRow(rows, ids, i + 1, company);
    forall c | 0 <= c < |r| ensures NamedByFirstRow(rows, ids, i + 1, r[c]) {
      if c < |companies| {
        assert r[c] == companies[c];
      }
    }
    assert HasCompany(r, company.id) by { assert r[|companies|] == company; }
    forall id | HasCompany(companies, id) ensures HasCompany(r, id) {
      var c :| 0 <= c < |companies| && companies[c].id == id;
      assert r[c] == companies[c];
    }
    forall id | HasCompany(r, id) ensures HasCompany(companies, id) || id == ids[i] {
      var c :| 0 <= c < |r| && r[c].id == id;
      if c < |companies| {
        assert r[c] == companies[c];
      }
    }
  }

  // ------------------------------------------------------------ queries and additions

  /** `getLocations`: the locations of one company, or every location without a (truthy) company id. */
  function LocationsOf(locations: seq<Location>, companyId: Option<string>): (r: seq<Location>)
    ensures !Filled(companyId) ==> r == locations
    ensures Filled(companyId) ==> forall i :: 0 <= i < |r| ==> r[i] in locations && r[i].companyId == companyId.value
    ensures Filled(companyId) ==> forall i :: 0 <= i < |locations| && locations[i].companyId == companyId.value ==> locations[i] in r
  {
    if Filled(companyId) then Seqs.Filter(locations, (l: Location) => l.companyId == companyId.value) else locations
  }

  /** The query keeps the stored order: querying a concatenation queries each part, and one location is kept exactly when it matches. */
  lemma LocationsOfAppend(a: seq<Location>, b: seq<Location>, companyId: Option<string>)
    ensures LocationsOf(a + b, companyId) == LocationsOf(a, companyId) + LocationsOf(b, companyId)
    ensures forall l: Location :: LocationsOf([l], companyId) == if !Filled(companyId) || l.companyId == companyId.value then [l] else []
  {
    if Filled(companyId) {
      Seqs.FilterAppend(a, b, (l: Location) => l.companyId == companyId.value);
    }
  }

  /** `addCompany`: the company is appended with the slug of its name as id; the others are kept. */
  function AddCompany(companies: seq<Company>, name: string): (r: seq<Company>)
    ensures |r| == |companies| + 1 && r[..|companies|] == companies
    ensures r[|companies|].name == name && r[|companies|].id == Slugify(name) && IsSlug(r[|companies|].id)
  {
    companies + [Company(Slugify(name), name)]
  }

  /** Adding a company keeps ids distinct exactly when no company already has the slug of its name. */
  lemma AddCompanyDistinct(companies: seq<Company>, name: string)
    requires DistinctIds(companies)
    ensures DistinctIds(AddCompany(companies, name)) <==> !HasCompany(companies, Slugify(name))
  {
    var r := AddCompany(companies, name);
    if HasCompany(companies, Slugify(name)) {
      var c :| 0 <= c < |companies| && companies[c].id == Slugify(name);
      assert r[c].id == r[|companies|].id;
    }
  }

  /** `addLocation`: the location is appended with the id made of its company id and city; the others are kept. */
  function AddLocation(locations: seq<Location>, location: Location): (r: seq<Location>)
    ensures |r| == |locations| + 1 && r[..|locations|] == locations
    ensures r[|locations|] == location.(id := LocationId(location.companyId, location.city))
  {
    locations + [location.(id := LocationId(location.companyId, location.city))]
  }

  /** An added location of a seed company and city gets the id the seed gave it. */
  lemma AddLocationMatchesSeed(locations: seq<Location>, row: SeedRow, parse: string -> Address, location: Location)
    requires location.companyId == Slugify(row.companyName) && location.city == parse(row.fullStreetAddress).city
    ensures AddLocation(locations, location)[|locations|].id == SeedLocation(row, parse).id
  {
  }
}

=== FILE: consolidate.dfy ===
/**
 * `consolidate_data.py`: enriches the factories of `factories.json` with the
 * address, facility type and notes of the facility records, appends a factory for
 * every record id the list lacks, and sorts the result by `factory_id`.
 */
module Consolidate {
  import opened Wrappers
  import opened Text
  import opened PipelineData
  import opened Sorting

  /** A facility record usable as a key of `mf_map`: it carries an integer `factory_id`. */
  predicate HasIntId(item: FacilityRecord)
  {
    Field(item, "factory_id").Int?
  }

  predicate AllIntIds(items: seq<FacilityRecord>)
  {
    forall i :: 0 <= i < |items| ==> HasIntId(items[i])
  }

  function IdOf(item: FacilityRecord): int
    requires HasIntId(item)
  {
    Field(item, "factory_id").i
  }

  function FactoryIdOf(f: Factory): int
  {
    f.factoryId
  }

  /** `i` is the last position of `items` whose record has id `k`. */
  predicate IsLastWithId(items: seq<FacilityRecord>, i: int, k: int)
    requires AllIntIds(items)
  {
    0 <= i < |items| && IdOf(items[i]) == k && forall j :: i < j < |items| ==> IdOf(items[j]) != k
  }

  /** `mf_map = {item['factory_id']: item for item in mf_list}`, built insertion by insertion. */
  function MfIndex(items: seq<FacilityRecord>): (m: map<int, FacilityRecord>)
    requires AllIntIds(items)
    decreases |items|
  {
    if items == [] then map[]
    else
      var n := |items| - 1;
      MfIndex(items[..n])[IdOf(items[n]) := items[n]]
  }

  /** Every record id is a key of `mf_map`, and a key maps to the LAST record carrying it. */
  lemma {:induction false} MfIndexLastWins(items: seq<FacilityRecord>)
    requires AllIntIds(items)
    ensures forall i :: 0 <= i < |items| ==> IdOf(items[i]) in MfIndex(items)
    ensures forall k :: k in MfIndex(items) ==> exists i :: IsLastWithId(items, i, k) && MfIndex(items)[k] == items[i]
    decreases |items|
  {
    if items != [] {
      var n := |items| - 1;
      var init := items[..n];
      assert AllIntIds(init) by {
        forall i | 0 <= i < n ensures HasIntId(init[i]) { assert init[i] == items[i]; }
      }
      MfIndexLastWins(init);
      var prev := MfIndex(init);
      var m := MfIndex(items);
      assert m == prev[IdOf(items[n]) := items[n]];
      forall i | 0 <= i < |items| ensures IdOf(items[i]) in m {
        if i < n { assert init[i] == items[i]; }
      }
      forall k | k in m ensures exists i :: IsLastWithId(items, i, k) && m[k] == items[i] {
        if k == IdOf(items[n]) {
          assert IsLastWithId(items, n, k);
        } else {
          var i :| IsLastWithId(init, i, k) && prev[k] == init[i];
          assert init[i] == items[i];
          forall j | i < j < |items| ensures IdOf(items[j]) != k {
            if j < n { assert init[j] == items[j]; }
          }
          assert IsLastWithId(items, i, k);
        }
      }
    }
  }

  /** The keys of `mf_map` in the order `dict.items()` yields them: first insertion. */
  function FirstSeenIds(items: seq<FacilityRecord>): (ids: seq<int>)
    requires AllIntIds(items)
    ensures forall a, b :: 0 <= a < b < |ids| ==> ids[a] != ids[b]
    ensures forall i :: 0 <= i < |items| ==> IdOf(items[i]) in ids
    ensures forall a :: 0 <= a < |ids| ==> exists i :: 0 <= i < |items| && IdOf(items[i]) == ids[a]
    decreases |items|
  {
    if items == [] then []
    else
      var n := |items| - 1;
      var prev := FirstSeenIds(items[..n]);
      assert forall i :: 0 <= i < n ==> items[..n][i] == items[i];
      if IdOf(items[n]) in prev then prev else prev + [IdOf(items[n])]
  }

  /** Some record before position `i` carries the id `x`. */
  ghost predicate SeenBy(items: seq<FacilityRecord>, x: int, i: int)
    requires AllIntIds(items)
  {
    exists j :: 0 <= j < i && j < |items| && IdOf(items[j]) == x
  }

  /** Every record carrying `y` comes after some record carrying `x`: `x` was inserted first. */
  ghost predicate SeenBefore(items: seq<FacilityRecord>, x: int, y: int)
    requires AllIntIds(items)
  {
    forall i :: 0 <= i < |items| && IdOf(items[i]) == y ==> SeenBy(items, x, i)
  }

  /** The keys come in the order of their first insertion. */
  lemma {:induction false} FirstSeenOrder(items: seq<FacilityRecord>)
    requires AllIntIds(items)
    ensures forall a, b :: 0 <= a < b < |FirstSeenIds(items)| ==>
              SeenBefore(items, FirstSeenIds(items)[a], FirstSeenIds(items)[b])
    decreases |items|
  {
    if items != [] {
      var n := |items| - 1;
      var prefix := items[..n];
      var prev := FirstSeenIds(prefix);
      var ids := FirstSeenIds(items);
      FirstSeenOrder(prefix);
      assert forall i :: 0 <= i < n ==> prefix[i] == items[i];
      forall a, b | 0 <= a < b < |ids| ensures SeenBefore(items, ids[a], ids[b]) {
        assert ids[a] == prev[a];
        SeenInPrefix(prefix, prev, a);
        if b < |prev| {
          assert ids[b] == prev[b];
          SeenBeforeGrows(items, ids[a], ids[b]);
        } else {
          NewIdSeenLast(items, ids[a], ids[b], prev);
        }
      }
    }
  }

  /** A key of the prefix is carried by some record of it. */
  lemma SeenInPrefix(prefix: seq<FacilityRecord>, prev: seq<int>, a: int)
    requires AllIntIds(prefix) && prev == FirstSeenIds(prefix) && 0 <= a < |prev|
    ensures SeenBy(prefix, prev[a], |prefix|)
  {
  }

  lemma SeenBeforeGrows(items: seq<FacilityRecord>, x: int, y: int)
    requires items != [] && AllIntIds(items)
    requires SeenBefore(items[..|items| - 1], x, y) && SeenBy(items[..|items| - 1], x, |items| - 1)
    ensures SeenBefore(items, x, y)
  {
    var n := |items| - 1;
    forall i | 0 <= i < |items| && IdOf(items[i]) == y ensures SeenBy(items, x, i) {
      if i < n {
        assert items[..n][i] == items[i];
        var j :| 0 <= j < i && j < n && IdOf(items[..n][j]) == x;
        assert items[j] == items[..n][j];
      } else {
        var j :| 0 <= j < n && j < n && IdOf(items[..n][j]) == x;
        assert items[j] == items[..n][j];
      }
    }
  }

  lemma NewIdSeenLast(items: seq<FacilityRecord>, x: int, y: int, prev: seq<int>)
    requires items != [] && AllIntIds(items)
    requires prev == FirstSeenIds(items[..|items| - 1]) && y !in prev
    requires SeenBy(items[..|items| - 1], x, |items| - 1)
    ensures SeenBefore(items, x, y)
  {
    var n := |items| - 1;
    forall i | 0 <= i < n ensures IdOf(items[i]) != y {
      assert items[..n][i] == items[i];
    }
    forall i | 0 <= i < |items| && IdOf(items[i]) == y ensures SeenBy(items, x, i) {
      var j :| 0 <= j < n && j < n && IdOf(items[..n][j]) == x;
      assert items[j] == items[..n][j];
    }
  }

  lemma IdsInIndex(items: seq<FacilityRecord>)
    requires AllIntIds(items)
    ensures forall a :: 0 <= a < |FirstSeenIds(items)| ==> FirstSeenIds(items)[a] in MfIndex(items)
  {
    MfIndexLastWins(items);
  }

  lemma EnrichAllCons(fs: seq<Factory>, m: map<int, FacilityRecord>)
    requires fs != []
    ensures EnrichAll(fs, m) == [Enrich(fs[0], m)] + EnrichAll(fs[1..], m)
  {
    assert forall i :: 0 <= i < |fs| ==> EnrichAll(fs, m)[i] == Enrich(fs[i], m);
    assert forall i :: 0 <= i < |fs| - 1 ==> EnrichAll(fs[1..], m)[i] == Enrich(fs[i + 1], m);
  }

  lemma EnrichAllAppend(a: seq<Factory>, b: seq<Factory>, m: map<int, FacilityRecord>)
    ensures EnrichAll(a + b, m) == EnrichAll(a, m) + EnrichAll(b, m)
  {
    assert forall i :: 0 <= i < |a| + |b| ==> EnrichAll(a + b, m)[i] == Enrich((a + b)[i], m);
    assert forall i :: 0 <= i < |a| ==> EnrichAll(a, m)[i] == Enrich(a[i], m);
    assert forall i :: 0 <= i < |b| ==> EnrichAll(b, m)[i] == Enrich(b[i], m);
  }

  /** Enriching twice from the same records changes nothing more. */
  lemma EnrichAllIdempotent(fs: seq<Factory>, m: map<int, FacilityRecord>)
    ensures EnrichAll(EnrichAll(fs, m), m) == EnrichAll(fs, m)
  {
  }

  /** A factory built from its record already carries what enriching from that record would set. */
  lemma NewFactoryIsEnriched(k: int, item: FacilityRecord)
    ensures Enrich(NewFactory(k, item), map[k := item]) == NewFactory(k, item)
  {
  }

  function FactoryIds(fs: seq<Factory>): set<int>
  {
    set f | f in fs :: f.factoryId
  }

  /**
   * Lines 33-39: a factory whose id has a record takes that record's address, facility
   * type and notes (`None` where the record lacks them); every other field, and every
   * factory without a record, is left as it was.
   */
  function Enrich(f: Factory, m: map<int, FacilityRecord>): (r: Factory)
    ensures r.factoryId == f.factoryId && r.manufacturerId == f.manufacturerId
    ensures r.locationName == f.locationName && r.city == f.city
    ensures r.stateProvince == f.stateProvince && r.country == f.country
    ensures f.factoryId !in m ==> r == f
    ensures f.factoryId in m ==>
              && r.fullAddress == Field(m[f.factoryId], "Full Address")
              && r.facilityType == Field(m[f.factoryId], "Facility Type")
              && r.notes == Field(m[f.factoryId], "Notes")
  {
    if f.factoryId in m then
      var item := m[f.factoryId];
      f.(fullAddress := Field(item, "Full Address"),
         facilityType := Field(item, "Facility Type"),
         notes := Field(item, "Notes"))
    else f
  }

  /**
   * Lines 29-39: every factory stays in its place with its id, name and place; the
   * ones with a record take its address, type and notes, the others are unchanged.
   */
  function EnrichAll(fs: seq<Factory>, m: map<int, FacilityRecord>): (r: seq<Factory>)
    ensures |r| == |fs|
    ensures forall i :: 0 <= i < |fs| ==> r[i].factoryId == fs[i].factoryId
    ensures forall i :: 0 <= i < |fs| ==>
              r[i].(fullAddress := fs[i].fullAddress, facilityType := fs[i].facilityType, notes := fs[i].notes) == fs[i]
    ensures forall i :: 0 <= i < |fs| && fs[i].factoryId !in m ==> r[i] == fs[i]
    ensures forall i :: 0 <= i < |fs| && fs[i].factoryId in m ==>
              && r[i].fullAddress == Field(m[fs[i].factoryId], "Full Address")
              && r[i].facilityType == Field(m[fs[i].factoryId], "Facility Type")
              && r[i].notes == Field(m[fs[i].factoryId], "Notes")
  {
    seq(|fs|, i requires 0 <= i < |fs| => Enrich(fs[i], m))
  }

  /** Line 51: "{city} ({company})" when the record's city is truthy, else "{facility type} ({company})". */
  function NewLocationName(item: FacilityRecord): (r: string)
    ensures var head := if Truthy(Field(item, "City")) then PyStr(Field(item, "City"))
                        else PyStr(Field(item, "Facility Type"));
            && |r| == |head| + |PyStr(Field(item, "Company"))| + 3
            && r[..|head|] == head
            && r[|head|..] == " (" + PyStr(Field(item, "Company")) + ")"
  {
    var head := if Truthy(Field(item, "City")) then PyStr(Field(item, "City")) else PyStr(Field(item, "Facility Type"));
    WithCompany(head, PyStr(Field(item, "Company")))
  }

  /**
   * Lines 48-58: the factory built for a record id missing from `factories.json`:
   * the record's manufacturer, the derived location name, and the record's city,
   * state, country, address, type and notes (`None` where the record lacks one).
   */
  function NewFactory(k: int, item: FacilityRecord): (f: Factory)
    ensures f.factoryId == k && f.manufacturerId == Field(item, "manufacturer_id")
    ensures f.locationName == NewLocationName(item)
    ensures f.city == Field(item, "City") && f.stateProvince == Field(item, "State/Province")
    ensures f.country == Field(item, "Country")
    ensures f.fullAddress == Field(item, "Full Address") && f.facilityType == Field(item, "Facility Type")
    ensures f.notes == Field(item, "Notes")
  {
    Factory(k, Field(item, "manufacturer_id"), NewLocationName(item), Field(item, "City"),
            Field(item, "State/Province"), Field(item, "Country"),
            Field(item, "Full Address"), Field(item, "Facility Type"), Field(item, "Notes"))
  }

  /** Lines 42-60: one new factory per id of `ids` that `existing` lacks, in the order of `ids`. */
  function Added(ids: seq<int>, m: map<int, FacilityRecord>, existing: set<int>): (r: seq<Factory>)
    requires forall a :: 0 <= a < |ids| ==> ids[a] in m
    ensures |r| <= |ids|
    ensures forall i :: 0 <= i < |r| ==> r[i].factoryId in ids && r[i].factoryId !in existing
    ensures forall i :: 0 <= i < |r| ==> r[i].factoryId in m && r[i] == NewFactory(r[i].factoryId, m[r[i].factoryId])
  {
    if ids == [] then []
    else
      (if ids[0] in existing then [] else [NewFactory(ids[0], m[ids[0]])]) + Added(ids[1..], m, existing)
  }

  datatype Consolidated = Consolidated(manufacturers: seq<Manufacturer>, factories: seq<Factory>)

  /**
   * `consolidate()` on in-memory lists. `None` stands for a facility record without an
   * integer `factory_id`: Python raises `KeyError` when the key is missing.
   */
  function Consolidate(manufacturers: seq<Manufacturer>, factories: seq<Factory>, items: seq<FacilityRecord>)
    : (r: Option<Consolidated>)
    ensures r.None? <==> !AllIntIds(items)
    ensures r.Some? ==> && r.value.manufacturers == manufacturers
                        && SortedBy(r.value.factories, FactoryIdOf)
                        && |factories| <= |r.value.factories| <= |factories| + |items|
  {
    if !AllIntIds(items) then None
    else
      var m := MfIndex(items);
      var ids := FirstSeenIds(items);
      IdsInIndex(items);
      var merged := EnrichAll(factories, m) + Added(ids, m, FactoryIds(factories));
      AddedLength(ids, m, FactoryIds(factories));
      DistinctIdsBound(items, ids);
      Some(Consolidated(manufacturers, SortBy(merged, FactoryIdOf)))
  }

  lemma {:induction false} AddedLength(ids: seq<int>, m: map<int, FacilityRecord>, existing: set<int>)
    requires forall a :: 0 <= a < |ids| ==> ids[a] in m
    ensures |Added(ids, m, existing)| <= |ids|
  {
    if ids != [] {
      AddedLength(ids[1..], m, existing);
    }
  }

  /** Distinct ids drawn from `items` are no more numerous than `items`. */
  lemma DistinctIdsBound(items: seq<FacilityRecord>, ids: seq<int>)
    requires AllIntIds(items)
    requires forall a, b :: 0 <= a < b < |ids| ==> ids[a] != ids[b]
    requires forall a :: 0 <= a < |ids| ==> exists i :: 0 <= i < |items| && IdOf(items[i]) == ids[a]
    ensures |ids| <= |items|
  {
    var idSet := set a | 0 <= a < |ids| :: ids[a];
    var itemIds := set i | 0 <= i < |items| :: IdOf(items[i]);
    assert idSet <= itemIds;
    SetOfDistinct(ids);
    SetOfIndexBound(items);
    SubsetCard(idSet, itemIds);
  }

  lemma {:induction false} SetOfDistinct(ids: seq<int>)
    requires forall a, b :: 0 <= a < b < |ids| ==> ids[a] != ids[b]
    ensures |set a | 0 <= a < |ids| :: ids[a]| == |ids|
  {
    if ids != [] {
      var rest := ids[1..];
      SetOfDistinct(rest);
      var s := set a | 0 <= a < |ids| :: ids[a];
      var t := set a | 0 <= a < |rest| :: rest[a];
      assert s == t + {ids[0]} by {
        forall x | x in s ensures x in t + {ids[0]} {
          var a :| 0 <= a < |ids| && ids[a] == x;
          if a > 0 { assert rest[a - 1] == x; }
        }
        forall x | x in t ensures x in s {
          var a :| 0 <= a < |rest| && rest[a] == x;
          assert ids[a + 1] == x;
        }
      }
      assert ids[0] !in t;
    }
  }

  lemma {:induction false} SetOfIndexBound(items: seq<FacilityRecord>)
    requires AllIntIds(items)
    ensures |set i | 0 <= i < |items| :: IdOf(items[i])| <= |items|
  {
    if items != [] {
      var n := |items| - 1;
      var init := items[..n];
      SetOfIndexBound(init);
      var s := set i | 0 <= i < |items| :: IdOf(items[i]);
      var t := set i | 0 <= i < |init| :: IdOf(init[i]);
      assert s <= t + {IdOf(items[n])} by {
        forall x | x in s ensures x in t + {IdOf(items[n])} {
          var i :| 0 <= i < |items| && IdOf(items[i]) == x;
          if i < n { assert init[i] == items[i]; }
        }
      }
      SubsetCard(s, t + {IdOf(items[n])});
    }
  }

  lemma SubsetCard(a: set<int>, b: set<int>)
    requires a <= b
    ensures |a| <= |b|
  {
    assert b == a + (b - a);
  }

  // --------------------------------------------------------- per-id contents

  lemma {:induction false} WithKeyAppend(a: seq<Factory>, b: seq<Factory>, k: int)
    ensures WithKey(a + b, FactoryIdOf, k) == WithKey(a, FactoryIdOf, k) + WithKey(b, FactoryIdOf, k)
  {
    if a == [] {
      assert a + b == b;
    } else {
      assert (a + b)[0] == a[0];
      assert (a + b)[1..] == a[1..] + b;
      WithKeyAppend(a[1..], b, k);
      var head := if a[0].factoryId == k then [a[0]] else [];
      assert WithKey(a + b, FactoryIdOf, k) == head + WithKey(a[1..] + b, FactoryIdOf, k);
      assert WithKey(a, FactoryIdOf, k) == head + WithKey(a[1..], FactoryIdOf, k);
    }
  }

  lemma {:induction false} WithKeyEnrich(fs: seq<Factory>, m: map<int, FacilityRecord>, k: int)
    ensures WithKey(EnrichAll(fs, m), FactoryIdOf, k) == EnrichAll(WithKey(fs, FactoryIdOf, k), m)
  {
    if fs != [] {
      WithKeyEnrich(fs[1..], m, k);
      EnrichAllCons(fs, m);
      var head := if fs[0].factoryId == k then [fs[0]] else [];
      var rest := WithKey(fs[1..], FactoryIdOf, k);
      EnrichAllAppend(head, rest, m);
    }
  }

  lemma {:induction false} WithKeyAdded(ids: seq<int>, m: map<int, FacilityRecord>, existing: set<int>, k: int)
    requires forall a :: 0 <= a < |ids| ==> ids[a] in m
    requires forall a, b :: 0 <= a < b < |ids| ==> ids[a] != ids[b]
    ensures WithKey(Added(ids, m, existing), FactoryIdOf, k)
         == if k in ids && k !in existing then [NewFactory(k, m[k])] else []
  {
    if ids != [] {
      WithKeyAdded(ids[1..], m, existing, k);
      var head := if ids[0] in existing then [] else [NewFactory(ids[0], m[ids[0]])];
      WithKeyAppend(head, Added(ids[1..], m, existing), k);
      assert k in ids <==> k == ids[0] || k in ids[1..];
      if k == ids[0] {
        assert k !in ids[1..] by {
          forall a | 0 <= a < |ids| - 1 ensures ids[1..][a] != k {
            assert ids[a + 1] != ids[0];
          }
        }
      }
    }
  }

  lemma {:induction false} WithKeyAbsent(fs: seq<Factory>, k: int)
    requires k !in FactoryIds(fs)
    ensures WithKey(fs, FactoryIdOf, k) == []
  {
    if fs != [] {
      assert fs[0] in fs;
      assert FactoryIds(fs[1..]) <= FactoryIds(fs) by {
        forall f | f in fs[1..] ensures f in fs { }
      }
      WithKeyAbsent(fs[1..], k);
    }
  }

  /**
   * What the output holds for one id `k`, in output order: the input factories with
   * that id, enriched from the last record carrying it, in input order (so every
   * input factory appears exactly once); then, when `k` is a record id no input
   * factory has, exactly one new factory built from its last record; nothing else.
   */
  lemma ConsolidateById(manufacturers: seq<Manufacturer>, factories: seq<Factory>, items: seq<FacilityRecord>, k: int)
    requires AllIntIds(items)
    ensures var out := Consolidate(manufacturers, factories, items).value.factories;
            var m := MfIndex(items);
            && WithKey(out, FactoryIdOf, k)
               == EnrichAll(WithKey(factories, FactoryIdOf, k), m)
                  + (if k in m && k !in FactoryIds(factories) then [NewFactory(k, m[k])] else [])
  {
    var m := MfIndex(items);
    var ids := FirstSeenIds(items);
    var existing := FactoryIds(factories);
    var enriched := EnrichAll(factories, m);
    IdsInIndex(items);
    var added := Added(ids, m, existing);
    SortByIsStable(enriched + added, FactoryIdOf, k);
    WithKeyAppend(enriched, added, k);
    WithKeyEnrich(factories, m, k);
    WithKeyAdded(ids, m, existing, k);
    MfIndexLastWins(items);
    if k in m {
      var i :| IsLastWithId(items, i, k) && m[k] == items[i];
      assert k in ids;
    }
    if k in ids {
      var a :| 0 <= a < |ids| && ids[a] == k;
      var i :| 0 <= i < |items| && IdOf(items[i]) == ids[a];
      assert k in m;
    }
  }

  /** A factory whose id has records takes its enrichment from the last of them. */
  lemma EnrichFromLastRecord(items: seq<FacilityRecord>, f: Factory)
    requires AllIntIds(items)
    ensures var r := Enrich(f, MfIndex(items));
            && ((exists i :: 0 <= i < |items| && IdOf(items[i]) == f.factoryId) ==>
                  exists i :: IsLastWithId(items, i, f.factoryId)
                    && r.fullAddress == Field(items[i], "Full Address")
                    && r.facilityType == Field(items[i], "Facility Type")
                    && r.notes == Field(items[i], "Notes"))
            && ((forall i :: 0 <= i < |items| ==> IdOf(items[i]) != f.factoryId) ==> r == f)
  {
    var m := MfIndex(items);
    MfIndexLastWins(items);
    if f.factoryId in m {
      var i :| IsLastWithId(items, i, f.factoryId) && m[f.factoryId] == items[i];
    }
  }
}

=== FILE: fluorescence_map.dfy ===
/**
 * The filter panel of the fluorescence map page and the helpers it filters with
 * (src/app/shared/features/fluorescence-map/fluorescence-map.component.ts): the draft
 * and applied filters, the active-filter chips, the status and region predicates,
 * the location parser and the per-factory project status.
 */
module FluorescenceMap {
  import opened Wrappers
  import opened Text
  import Seqs
  import WarRoomService
  import ProjectService
  import MapAssets

  // ----------------------------------------------------------------- filters

  /** `FilterStatus`: `'all' | 'active' | 'inactive'`. */
  datatype FilterStatus = All | ActiveOnly | InactiveOnly

  /** The five id lists of the filters. */
  datatype Dimension = Companies | Regions | Clients | Manufacturers | ProjectTypes

  /** `WarRoomFilters`. */
  datatype MapFilters = MapFilters(
    parentCompanyIds: seq<string>,
    status: FilterStatus,
    regions: seq<string>,
    clientIds: seq<string>,
    manufacturerIds: seq<string>,
    projectTypeIds: seq<string>)
  {
    /** The list of one dimension. */
    function Ids(d: Dimension): seq<string>
    {
      match d
      case Companies => parentCompanyIds
      case Regions => regions
      case Clients => clientIds
      case Manufacturers => manufacturerIds
      case ProjectTypes => projectTypeIds
    }

    /** `{ ...filters, <dimension>: ids }`. */
    function WithIds(d: Dimension, ids: seq<string>): (r: MapFilters)
      ensures r.Ids(d) == ids && r.status == status
      ensures forall e :: e != d ==> r.Ids(e) == Ids(e)
    {
      match d
      case Companies => this.(parentCompanyIds := ids)
      case Regions => this.(regions := ids)
      case Clients => this.(clientIds := ids)
      case Manufacturers => this.(manufacturerIds := ids)
      case ProjectTypes => this.(projectTypeIds := ids)
    }
  }

  /** `createDefaultFilters`: every list empty and every status shown. */
  function DefaultFilters(): MapFilters
  {
    MapFilters([], All, [], [], [], [])
  }

  /** Two filters with the same status and the same lists are the same filters. */
  lemma FiltersEqual(f: MapFilters, g: MapFilters)
    requires f.status == g.status && forall d: Dimension :: f.Ids(d) == g.Ids(d)
    ensures f == g
  {
    assert f.Ids(Companies) == g.Ids(Companies) && f.Ids(Regions) == g.Ids(Regions);
    assert f.Ids(Clients) == g.Ids(Clients) && f.Ids(Manufacturers) == g.Ids(Manufacturers);
    assert f.Ids(ProjectTypes) == g.Ids(ProjectTypes);
  }

  /**
   * `activeFilterCount`: one per selected id in every list, and one for a status
   * other than 'all'. It is zero exactly for the default filters.
   */
  function ActiveFilterCount(f: MapFilters): (r: nat)
    ensures r == 0 <==> f == DefaultFilters()
  {
    |f.parentCompanyIds| + |f.regions| + (if f.status != All then 1 else 0)
    + |f.clientIds| + |f.manufacturerIds| + |f.projectTypeIds|
  }

  /** What a chip of the active-filter bar stands for. */
  datatype FilterKind = StatusKind | ListKind(d: Dimension)

  /** `ActiveFilterItem`, without the display label. */
  datatype FilterItem = FilterItem(kind: FilterKind, value: string)

  /** The value a status chip carries. */
  function StatusValue(s: FilterStatus): string
  {
    match s
    case All => "all"
    case ActiveOnly => "active"
    case InactiveOnly => "inactive"
  }

  function ItemOf(d: Dimension): string -> FilterItem
  {
    (id: string) => FilterItem(ListKind(d), id)
  }

  function Chips(f: MapFilters, d: Dimension): (r: seq<FilterItem>)
    ensures |r| == |f.Ids(d)|
    ensures forall i :: 0 <= i < |r| ==> r[i] == FilterItem(ListKind(d), f.Ids(d)[i])
  {
    Seqs.Map(f.Ids(d), ItemOf(d))
  }

  /**
   * `activeFilters`: a status chip first when a status is chosen, then one chip per
   * region, company, client, manufacturer and project type, in that order. There are
   * as many chips as `activeFilterCount` says, and every chip names a selected value.
   */
  function ActiveFilters(f: MapFilters): (r: seq<FilterItem>)
    ensures |r| == ActiveFilterCount(f)
    ensures forall i :: 0 <= i < |r| && r[i].kind == StatusKind ==> f.status != All && r[i].value == StatusValue(f.status)
    ensures forall i :: 0 <= i < |r| && r[i].kind.ListKind? ==> r[i].value in f.Ids(r[i].kind.d)
    ensures forall d: Dimension, id :: id in f.Ids(d) ==> FilterItem(ListKind(d), id) in r
    ensures f.status != All ==> r[0] == FilterItem(StatusKind, StatusValue(f.status))
  {
    var status := if f.status != All then [FilterItem(StatusKind, StatusValue(f.status))] else [];
    var r := status + Chips(f, Regions) + Chips(f, Companies) + Chips(f, Clients)
             + Chips(f, Manufacturers) + Chips(f, ProjectTypes);
    ChipsCover(f, r, status);
    r
  }

  lemma ChipsCover(f: MapFilters, r: seq<FilterItem>, status: seq<FilterItem>)
    requires r == status + Chips(f, Regions) + Chips(f, Companies) + Chips(f, Clients)
                  + Chips(f, Manufacturers) + Chips(f, ProjectTypes)
    ensures forall d: Dimension, id :: id in f.Ids(d) ==> FilterItem(ListKind(d), id) in r
  {
    forall d: Dimension, id | id in f.Ids(d) ensures FilterItem(ListKind(d), id) in r {
      var k :| 0 <= k < |f.Ids(d)| && f.Ids(d)[k] == id;
      assert Chips(f, d)[k] == FilterItem(ListKind(d), id);
    }
  }

  // ------------------------------------------------------------ filter panel

  /** The `filterDraft` and `filterApplied` signals. */
  datatype FilterPanel = FilterPanel(draft: MapFilters, applied: MapFilters)

  /**
   * `toggleParentCompany`, `toggleRegion`, `toggleClient`, `toggleManufacturer` and
   * `toggleProjectType`: the id's membership in the draft list flips, the list holds
   * no duplicates afterwards, and the new list is applied at once; every other list
   * and both statuses stay as they were.
   */
  function ToggleFilter(p: FilterPanel, d: Dimension, id: string): (r: FilterPanel)
    ensures Seqs.Distinct(r.draft.Ids(d))
    ensures id in r.draft.Ids(d) <==> id !in p.draft.Ids(d)
    ensures forall x :: x != id ==> (x in r.draft.Ids(d) <==> x in p.draft.Ids(d))
    ensures r.applied.Ids(d) == r.draft.Ids(d)
    ensures r.draft.status == p.draft.status && r.applied.status == p.applied.status
    ensures forall e :: e != d ==> r.draft.Ids(e) == p.draft.Ids(e) && r.applied.Ids(e) == p.applied.Ids(e)
  {
    var ids := Seqs.Toggle(p.draft.Ids(d), id);
    FilterPanel(p.draft.WithIds(d, ids), p.applied.WithIds(d, ids))
  }

  /**
   * Toggling the same id twice restores which ids are selected; when the list had no
   * duplicates and lacked the id, it restores the panel's draft exactly.
   */
  lemma ToggleFilterTwice(p: FilterPanel, d: Dimension, id: string)
    ensures forall x :: x in ToggleFilter(ToggleFilter(p, d, id), d, id).draft.Ids(d) <==> x in p.draft.Ids(d)
    ensures Seqs.Distinct(p.draft.Ids(d)) && id !in p.draft.Ids(d) ==>
              ToggleFilter(ToggleFilter(p, d, id), d, id).draft == p.draft
  {
    var q := ToggleFilter(ToggleFilter(p, d, id), d, id);
    if Seqs.Distinct(p.draft.Ids(d)) && id !in p.draft.Ids(d) {
      Seqs.ToggleTwiceRestores(p.draft.Ids(d), id);
      FiltersEqual(q.draft, p.draft);
    }
  }

  /** `setStatusFilter`: the status is set in the draft and applied at once; nothing else changes. */
  function SetStatusFilter(p: FilterPanel, s: FilterStatus): (r: FilterPanel)
    ensures r.draft.status == s && r.applied.status == s
    ensures forall d: Dimension :: r.draft.Ids(d) == p.draft.Ids(d) && r.applied.Ids(d) == p.applied.Ids(d)
  {
    FilterPanel(p.draft.(status := s), p.applied.(status := s))
  }

  /** `applyFilters`: the applied filters become a copy of the draft. */
  function ApplyFilters(p: FilterPanel): (r: FilterPanel)
    ensures r.draft == p.draft && r.applied == p.draft
    ensures ActiveFilterCount(r.applied) == ActiveFilterCount(p.draft)
  {
    FilterPanel(p.draft, p.draft)
  }

  /** `resetFilters`: both the draft and the applied filters go back to the defaults, so no filter is active. */
  function ResetFilters(p: FilterPanel): (r: FilterPanel)
    ensures ActiveFilterCount(r.draft) == 0 && ActiveFilterCount(r.applied) == 0
    ensures ActiveFilters(r.applied) == []
  {
    FilterPanel(DefaultFilters(), DefaultFilters())
  }

  /** The outcome of `removeFilter`: the new panel and whether the selection is cleared. */
  datatype Removal = Removal(panel: FilterPanel, clearsSelection: bool)

  /** The selection shows the company, or belongs to it. */
  predicate SelectionOf(selection: Option<WarRoomService.Selection>, company: string)
  {
    selection.Some? && (selection.value.id == company || selection.value.parentGroupId == Some(company))
  }

  /**
   * `removeFilter`: a status chip resets the status to 'all'; a list chip drops its
   * value from that list. Only that part of the applied filters changes, and the draft
   * becomes a copy of the result. Removing a company chip while other companies stay
   * selected clears a selection of, or inside, that company.
   */
  function RemoveFilter(p: FilterPanel, item: FilterItem, selection: Option<WarRoomService.Selection>): (r: Removal)
    ensures r.panel.draft == r.panel.applied
    ensures item.kind == StatusKind ==>
              r.panel.applied.status == All
              && forall d: Dimension :: r.panel.applied.Ids(d) == p.applied.Ids(d)
    ensures item.kind.ListKind? ==>
              r.panel.applied.status == p.applied.status
              && (forall x :: x in r.panel.applied.Ids(item.kind.d) <==> x in p.applied.Ids(item.kind.d) && x != item.value)
              && forall e :: e != item.kind.d ==> r.panel.applied.Ids(e) == p.applied.Ids(e)
    ensures r.clearsSelection <==>
              item.kind == ListKind(Companies) && r.panel.applied.parentCompanyIds != [] && SelectionOf(selection, item.value)
  {
    match item.kind
    case StatusKind =>
      var next := p.applied.(status := All);
      Removal(FilterPanel(next, next), false)
    case ListKind(d) =>
      var next := p.applied.WithIds(d, Seqs.Without(p.applied.Ids(d), item.value));
      var clears := d == Companies && next.parentCompanyIds != [] && SelectionOf(selection, item.value);
      Removal(FilterPanel(next, next), clears)
  }

  /**
   * Removing any chip of the active-filter bar, when no list holds a duplicate,
   * lowers the active-filter count by exactly one.
   */
  lemma RemoveChipCountsDown(p: FilterPanel, item: FilterItem, selection: Option<WarRoomService.Selection>)
    requires forall d: Dimension :: Seqs.Distinct(p.applied.Ids(d))
    requires item in ActiveFilters(p.applied)
    ensures ActiveFilterCount(RemoveFilter(p, item, selection).panel.applied) == ActiveFilterCount(p.applied) - 1
  {
    var f := p.applied;
    var g := RemoveFilter(p, item, selection).panel.applied;
    var k :| 0 <= k < |ActiveFilters(f)| && ActiveFilters(f)[k] == item;
    if item.kind.ListKind? {
      var d := item.kind.d;
      Seqs.WithoutDistinctLength(f.Ids(d), item.value);
      CountByDimension(f, g, d);
    }
  }

  /** Only the list `d` differs: the counts differ by its change of length. */
  lemma CountByDimension(f: MapFilters, g: MapFilters, d: Dimension)
    requires f.status == g.status
    requires forall e :: e != d ==> g.Ids(e) == f.Ids(e)
    ensures ActiveFilterCount(g) - |g.Ids(d)| == ActiveFilterCount(f) - |f.Ids(d)|
  {
    assert d == Companies || g.Ids(Companies) == f.Ids(Companies);
    assert d == Regions || g.Ids(Regions) == f.Ids(Regions);
    assert d == Clients || g.Ids(Clients) == f.Ids(Clients);
    assert d == Manufacturers || g.Ids(Manufacturers) == f.Ids(Manufacturers);
    assert d == ProjectTypes || g.Ids(ProjectTypes) == f.Ids(ProjectTypes);
  }

  // ---------------------------------------------------------------- statuses

  /**
   * `isActiveStatus`: 'ACTIVE' and 'ONLINE', in any case and with surrounding
   * whitespace, are active; anything else, and a missing status, is not.
   */
  predicate IsActiveStatus(status: Option<string>)
  {
    Filled(status) && MapAssets.IsActiveWord(Trim(ToUpper(status.value)))
  }

  /** Whether a status is active does not depend on its letter case. */
  lemma IsActiveStatusIgnoresCase(s: string)
    ensures IsActiveStatus(Some(ToLower(s))) == IsActiveStatus(Some(s))
    ensures IsActiveStatus(Some(ToUpper(s))) == IsActiveStatus(Some(s))
  {
    UpperOfLower(s);
    UpperOfUpper(s);
  }

  /**
   * `matchesStatus` and `matchesOperationalStatus` (the two are the same test):
   * 'all' keeps every status, 'active' the active ones, 'inactive' the others.
   */
  predicate MatchesStatus(status: Option<string>, filter: FilterStatus)
  {
    match filter
    case All => true
    case ActiveOnly => IsActiveStatus(status)
    case InactiveOnly => !IsActiveStatus(status)
  }

  /** 'all' keeps everything, and 'active' and 'inactive' split every status between them. */
  lemma MatchesStatusComplementary(status: Option<string>)
    ensures MatchesStatus(status, All)
    ensures MatchesStatus(status, ActiveOnly) != MatchesStatus(status, InactiveOnly)
    ensures MatchesStatus(status, ActiveOnly) <==> IsActiveStatus(status)
  {
  }

  // ----------------------------------------------------------------- regions

  /** The regions of the region filter. */
  datatype Region = NorthAmerica | Europe | AsiaPacific | Latam
  {
    function Name(): string
    {
      match this
      case NorthAmerica => "North America"
      case Europe => "Europe"
      case AsiaPacific => "Asia Pacific"
      case Latam => "LATAM"
    }

    /** Position in the order the regions are tried. */
    function Rank(): nat
    {
      match this
      case NorthAmerica => 0
      case Europe => 1
      case AsiaPacific => 2
      case Latam => 3
    }

    predicate Earlier(other: Region) { Rank() < other.Rank() }
  }

  const NorthAmericaTokens: seq<string> :=
    ["canada", "united states", "usa", "u.s.a.", "us", "u.s.", "mexico", "toronto", "quebec", "montreal",
     "winnipeg", "alabama", "florida", "ontario"]

  const EuropeTokens: seq<string> :=
    ["france", "turkey", "germany", "italy", "spain", "sweden", "norway", "finland",
     "united kingdom", "uk", "england", "scotland", "wales", "ireland", "netherlands",
     "belgium", "poland", "czech", "austria", "switzerland", "romania", "greece", "portugal",
     "istanbul", "bursa", "adana", "ankara", "le mans", "london", "berlin", "paris", "madrid", "rome"]

  const AsiaPacificTokens: seq<string> :=
    ["china", "japan", "korea", "south korea", "north korea", "india", "singapore", "malaysia",
     "indonesia", "philippines", "vietnam", "thailand", "australia", "new zealand", "taiwan", "hong kong",
     "beijing", "shanghai", "zhengzhou", "tokyo", "seoul", "mumbai", "delhi", "sydney"]

  const LatamTokens: seq<string> :=
    ["brazil", "argentina", "chile", "colombia", "peru", "ecuador", "venezuela", "uruguay",
     "paraguay", "bolivia", "guatemala", "honduras", "el salvador", "nicaragua", "costa rica",
     "panama", "dominican", "puerto rico", "mexico",
     "sao paulo", "rio de janeiro", "caxias do sul", "buenos aires", "lima", "bogota"]

  /** The tokens of a region, in the order the regions are tried. */
  function Tokens(region: Region): seq<string>
  {
    match region
    case NorthAmerica => NorthAmericaTokens
    case Europe => EuropeTokens
    case AsiaPacific => AsiaPacificTokens
    case Latam => LatamTokens
  }

  /** `text.split(',').pop()?.trim()`: the trimmed text after the last comma. */
  function LastPart(text: string): string
  {
    Trim(LastPiece(text, ','))
  }

  /**
   * One token against a value whose last comma part is `lastPart`: a token shorter
   * than three characters must be the whole value or that last part; a longer one
   * may occur anywhere in the value.
   */
  predicate TokenMatches(text: string, lastPart: string, token: string)
  {
    if |token| < 3 then text == token || lastPart == token
    else Contains(text, token)
  }

  /** `matchesToken`: the whole value, its last comma part, or one token as above. */
  predicate MatchesTokens(text: string, tokens: seq<string>)
  {
    var lastPart := LastPart(text);
    text in tokens
    || (lastPart != [] && lastPart in tokens)
    || exists t :: t in tokens && TokenMatches(text, lastPart, t)
  }

  /** The value as `getRegionForCountry` compares it: lower-cased and trimmed. */
  function Normalize(value: string): string
  {
    Trim(ToLower(value))
  }

  /** The value matches no region tried before position `n`. */
  predicate NoneBefore(text: string, tokens: Region -> seq<string>, n: nat)
  {
    (n > 0 ==> !MatchesTokens(text, tokens(NorthAmerica)))
    && (n > 1 ==> !MatchesTokens(text, tokens(Europe)))
    && (n > 2 ==> !MatchesTokens(text, tokens(AsiaPacific)))
    && (n > 3 ==> !MatchesTokens(text, tokens(Latam)))
  }

  /**
   * `getRegionForCountry`: the first region, in the order North America, Europe,
   * Asia Pacific, LATAM, one of whose tokens the normalised value matches; none
   * for a missing or empty value or when no token matches. The component's token
   * lists are `Tokens`; they are a parameter here so that the contract holds for
   * any lists.
   */
  function RegionForCountry(value: Option<string>, tokens: Region -> seq<string>): (r: Option<Region>)
    ensures r.Some? ==> Filled(value) && MatchesTokens(Normalize(value.value), tokens(r.value))
    ensures r.Some? ==> NoneBefore(Normalize(value.value), tokens, r.value.Rank())
    ensures r.None? ==> !Filled(value) || NoneBefore(Normalize(value.value), tokens, 4)
  {
    if !Filled(value) then None
    else
      var text := Normalize(value.value);
      if MatchesTokens(text, tokens(NorthAmerica)) then Some(NorthAmerica)
      else if MatchesTokens(text, tokens(Europe)) then Some(Europe)
      else if MatchesTokens(text, tokens(AsiaPacific)) then Some(AsiaPacific)
      else if MatchesTokens(text, tokens(Latam)) then Some(Latam)
      else None
  }

  /** A value already lower-case and trimmed normalises to itself. */
  lemma NormalizeNormal(v: string)
    requires HasNoUpper(v) && (v == [] || (!IsWhitespace(v[0]) && !IsWhitespace(v[|v| - 1])))
    ensures Normalize(v) == v
  {
    ToLowerOnLower(v);
    TrimUntrimmed(v);
  }

  /** 'Mexico', listed under both North America and LATAM, is North American: that region is tried first. */
  lemma MexicoIsNorthAmerica()
    ensures RegionForCountry(Some("mexico"), Tokens) == Some(NorthAmerica)
  {
    MexicoNormal();
    ListedNorthAmerican("mexico", 6);
  }

  /** 'Mexico' is in both the North American and the LATAM lists. */
  lemma MexicoListed()
    ensures "mexico" in Tokens(NorthAmerica) && "mexico" in Tokens(Latam)
  {
    assert NorthAmericaTokens[6] == "mexico";
    assert LatamTokens[18] == "mexico";
  }

  lemma MexicoNormal()
    ensures Normalize("mexico") == NorthAmericaTokens[6]
  {
    NormalizeNormal("mexico");
  }

  /** A value that normalises to a North American token is North American. */
  lemma ListedNorthAmerican(value: string, k: nat)
    requires value != [] && k < |NorthAmericaTokens| && Normalize(value) == NorthAmericaTokens[k]
    ensures RegionForCountry(Some(value), Tokens) == Some(NorthAmerica)
  {
    ExactTokenMatches(Normalize(value), NorthAmericaTokens);
    FirstRegion(Some(value), Tokens);
  }

  /** A value matched by a North American token is North American. */
  lemma FirstRegion(value: Option<string>, tokens: Region -> seq<string>)
    requires Filled(value)
    requires MatchesTokens(Normalize(value.value), tokens(NorthAmerica))
    ensures RegionForCountry(value, tokens) == Some(NorthAmerica)
  {
  }

  /**
   * 'austria' holds the short token 'us' but is neither 'us' nor ends in ', us', so
   * it is not North American; it is European.
   */
  lemma AustriaIsEurope()
    ensures Contains("austria", "us")
    ensures RegionForCountry(Some("austria"), Tokens) == Some(Europe)
  {
    assert "austria"[1..] == "ustria" && StartsWith("ustria", "us");
    NormalizeNormal("austria");
    AustriaNotNorthAmerican();
    AustriaEuropean();
    SecondRegion(Some("austria"), Tokens);
  }

  lemma AustriaNotNorthAmerican()
    ensures !MatchesTokens("austria", NorthAmericaTokens)
  {
    AustriaLastPart();
    AustriaLetters();
    UsaNotInAustria();
    NoNorthAmericanToken("austria");
    NoTokenMatches("austria", NorthAmericaTokens);
  }

  lemma AustriaEuropean()
    ensures MatchesTokens("austria", EuropeTokens)
  {
    assert EuropeTokens[18] == "austria";
    ExactTokenMatches("austria", EuropeTokens);
  }

  /** A value matched by no North American token but by a European one is European. */
  lemma SecondRegion(value: Option<string>, tokens: Region -> seq<string>)
    requires Filled(value)
    requires !MatchesTokens(Normalize(value.value), tokens(NorthAmerica))
    requires MatchesTokens(Normalize(value.value), tokens(Europe))
    ensures RegionForCountry(value, tokens) == Some(Europe)
  {
  }

  /** A value that is itself one of the tokens matches them. */
  lemma ExactTokenMatches(text: string, tokens: seq<string>)
    requires text in tokens
    ensures MatchesTokens(text, tokens)
  {
  }

  /** 'austria' has no comma and no outer whitespace, so it is its own last part. */
  lemma AustriaLastPart()
    ensures LastPart("austria") == "austria"
  {
    assert ',' !in "austria";
    TrimUntrimmed("austria");
  }

  /** The letters of 'austria' rule out every long North American token but 'usa'. */
  lemma AustriaLetters()
    ensures 'c' !in "austria" && 'n' !in "austria" && '.' !in "austria" && 'm' !in "austria"
    ensures 'o' !in "austria" && 'q' !in "austria" && 'w' !in "austria" && 'l' !in "austria"
    ensures 'f' !in "austria"
  {
  }

  /** The letters of 'usa' all occur in 'austria', but never in a row. */
  lemma UsaNotInAustria()
    ensures !Contains("austria", "usa")
  {
    var a := "austria";
    forall i: nat ensures !OccursAt(a, "usa", i) {
      if i + 3 <= |a| {
        assert a[i..i + 3][0] == a[i] && a[i..i + 3][2] == a[i + 2];
      }
    }
    NoWindowNotContained(a, "usa");
  }

  lemma LongTokenAbsent(a: string, t: string, c: char)
    requires |t| >= 3 && c in t && c !in a
    ensures !TokenMatches(a, a, t)
  {
    MissingCharNotContained(a, t, c);
  }

  /**
   * A value that is its own last part matches a token list only through a single
   * token: the exact and last-part checks find nothing the per-token check misses.
   */
  lemma NoTokenMatches(text: string, tokens: seq<string>)
    requires LastPart(text) == text
    requires forall k :: 0 <= k < |tokens| ==> !TokenMatches(text, text, tokens[k])
    ensures !MatchesTokens(text, tokens)
  {
    ContainsSelf(text);
  }

  /**
   * No North American token matches a value that is not 'us', lacks one letter of
   * every long token but 'usa' and does not contain 'usa', when the value is its
   * own last part.
   */
  lemma NoNorthAmericanToken(a: string)
    requires a != "us"
    requires 'c' !in a && 'n' !in a && '.' !in a && 'm' !in a && 'o' !in a
    requires 'q' !in a && 'w' !in a && 'l' !in a && 'f' !in a
    requires !Contains(a, "usa")
    ensures forall k :: 0 <= k < |NorthAmericaTokens| ==> !TokenMatches(a, a, NorthAmericaTokens[k])
  {
    EarlyNorthAmericanTokens(a);
    LateNorthAmericanTokens(a);
  }

  lemma EarlyNorthAmericanTokens(a: string)
    requires a != "us" && 'c' !in a && 'n' !in a && '.' !in a && 'm' !in a
    requires !Contains(a, "usa")
    ensures forall k :: 0 <= k < 7 ==> !TokenMatches(a, a, NorthAmericaTokens[k])
  {
    var t := NorthAmericaTokens;
    LongTokenAbsent(a, t[0], 'c');
    LongTokenAbsent(a, t[1], 'n');
    LongTokenAbsent(a, t[3], '.');
    LongTokenAbsent(a, t[5], '.');
    LongTokenAbsent(a, t[6], 'm');
  }

  lemma LateNorthAmericanTokens(a: string)
    requires 'm' !in a && 'o' !in a && 'q' !in a && 'w' !in a && 'l' !in a && 'f' !in a
    ensures forall k :: 7 <= k < |NorthAmericaTokens| ==> !TokenMatches(a, a, NorthAmericaTokens[k])
  {
    var t := NorthAmericaTokens;
    LongTokenAbsent(a, t[7], 'o');
    LongTokenAbsent(a, t[8], 'q');
    LongTokenAbsent(a, t[9], 'm');
    LongTokenAbsent(a, t[10], 'w');
    LongTokenAbsent(a, t[11], 'l');
    LongTokenAbsent(a, t[12], 'f');
    LongTokenAbsent(a, t[13], 'o');
  }

  // --------------------------------------------------------- location parts

  /** The parts `parseLocationParts` returns. */
  datatype LocationParts = LocationParts(city: string, country: string, fullLocation: string)

  /** The country of a location without a comma. */
  const UnknownCountry: string := "Unknown"

  /**
   * `parseLocationParts`: the trimmed text before the first comma is the city, the
   * trimmed text after the last comma is the country, and a location without a
   * comma has the country "Unknown".
   */
  function ParseLocationParts(location: string): (r: LocationParts)
    ensures r.fullLocation == location
    ensures r.city == Trim(if ',' in location then location[..IndexOf(location, ',')] else location)
    ensures ',' !in r.city && Trimmed(r.city)
    ensures ',' in location ==> r.country == Trim(LastPiece(location, ',')) && ',' !in r.country
    ensures ',' !in location ==> r.country == UnknownCountry
  {
    LocationParts(CityPart(location), CountryPart(location), location)
  }

  /** The trimmed text before the first comma. */
  function CityPart(location: string): (r: string)
    ensures r == Trim(if ',' in location then location[..IndexOf(location, ',')] else location)
    ensures ',' !in r && Trimmed(r)
  {
    var first := Split(location, ',')[0];
    TrimKeepsChars(first);
    Trim(first)
  }

  /** The trimmed text after the last comma, or "Unknown" without a comma. */
  function CountryPart(location: string): (r: string)
    ensures ',' in location ==> r == Trim(LastPiece(location, ',')) && ',' !in r
    ensures ',' !in location ==> r == UnknownCountry
  {
    if |Split(location, ',')| > 1 then
      var last := LastPiece(location, ',');
      TrimKeepsChars(last);
      Trim(last)
    else UnknownCountry
  }

  /** `"City, Country"` parses back into its city and its country. */
  lemma ParseLocationRoundTrip(city: string, country: string)
    requires ',' !in city && ',' !in country && Trimmed(city) && Trimmed(country)
    ensures ParseLocationParts(city + ", " + country) == LocationParts(city, country, city + ", " + country)
  {
    var s := city + ", " + country;
    assert s[|city|] == ',';
    assert IndexOf(s, ',') == |city| by {
      assert forall k :: 0 <= k < |city| ==> s[k] == city[k];
    }
    assert s[..|city|] == city;
    TrimUntrimmed(city);
    var tail := " " + country;
    assert s[|s| - |tail|..] == tail;
    LastPieceUnique(s, ',', tail);
    TrimAfterSpace(country);
  }

  // ------------------------------------------------------ status by factory

  /** Whether a place on the map has an open project; a place without projects has no entry. */
  datatype ProjectActivity = Active | Inactive

  /** A project placed at factory `f`. */
  predicate PlacedAt(p: ProjectService.Project, f: string)
  {
    p.manufacturerLocationId == Some(f) && f != []
  }

  /** An open project, a missing status counting as open. */
  predicate IsOpen(p: ProjectService.Project)
  {
    p.status.GetOr(ProjectService.Open) == ProjectService.Open
  }

  /** Some project is placed at factory `f`. */
  predicate HasProjects(projects: seq<ProjectService.Project>, f: string)
  {
    exists i :: 0 <= i < |projects| && PlacedAt(projects[i], f)
  }

  /** Some open project is placed at factory `f`. */
  predicate HasOpenProjects(projects: seq<ProjectService.Project>, f: string)
  {
    exists i :: 0 <= i < |projects| && PlacedAt(projects[i], f) && IsOpen(projects[i])
  }

  /**
   * `projectStatusByFactoryId`: every factory some project is placed at, active when
   * one of its projects is open and inactive otherwise, whatever the projects' order.
   */
  function StatusByFactory(projects: seq<ProjectService.Project>): (r: map<string, ProjectActivity>)
    ensures forall f :: f in r <==> HasProjects(projects, f)
    ensures forall f :: f in r ==> (r[f] == Active <==> HasOpenProjects(projects, f))
  {
    if projects == [] then map[]
    else
      var m := StatusByFactory(projects[..|projects| - 1]);
      var p := projects[|projects| - 1];
      LastProject(projects);
      if !Filled(p.manufacturerLocationId) then m
      else
        var f := p.manufacturerLocationId.value;
        if IsOpen(p) then m[f := Active]
        else if f in m && m[f] == Active then m
        else m[f := Inactive]
  }

  /** The projects placed at a factory are those before the last one and perhaps the last one. */
  lemma LastProject(projects: seq<ProjectService.Project>)
    requires projects != []
    ensures forall f :: HasProjects(projects, f) <==>
              HasProjects(projects[..|projects| - 1], f) || PlacedAt(projects[|projects| - 1], f)
    ensures forall f :: HasOpenProjects(projects, f) <==>
              HasOpenProjects(projects[..|projects| - 1], f)
              || (PlacedAt(projects[|projects| - 1], f) && IsOpen(projects[|projects| - 1]))
  {
    var before := projects[..|projects| - 1];
    assert forall i :: 0 <= i < |before| ==> before[i] == projects[i];
  }

  /** Reordering or repeating the projects changes no factory's status. */
  lemma StatusIgnoresOrder(ps: seq<ProjectService.Project>, qs: seq<ProjectService.Project>)
    requires forall p :: p in ps <==> p in qs
    ensures StatusByFactory(ps) == StatusByFactory(qs)
  {
    var m, n := StatusByFactory(ps), StatusByFactory(qs);
    forall f ensures HasProjects(ps, f) <==> HasProjects(qs, f) {
      SameProjects(ps, qs, f);
      SameProjects(qs, ps, f);
    }
    forall f | f in m ensures m[f] == n[f] {
      SameProjects(ps, qs, f);
      SameProjects(qs, ps, f);
    }
  }

  lemma SameProjects(ps: seq<ProjectService.Project>, qs: seq<ProjectService.Project>, f: string)
    requires forall p :: p in ps ==> p in qs
    ensures HasProjects(ps, f) ==> HasProjects(qs, f)
    ensures HasOpenProjects(ps, f) ==> HasOpenProjects(qs, f)
  {
    if HasProjects(ps, f) {
      var i :| 0 <= i < |ps| && PlacedAt(ps[i], f);
      assert ps[i] in qs;
    }
    if HasOpenProjects(ps, f) {
      var i :| 0 <= i < |ps| && PlacedAt(ps[i], f) && IsOpen(ps[i]);
      assert ps[i] in qs;
    }
  }
}

=== FILE: fluorescence_map_map.dfy ===
/**
 * The map of the fluorescence map page
 * (src/app/shared/features/fluorescence-map/components/fluorescence-map-map/fluorescence-map-map.component.ts):
 * the marker zoom factor and level of detail, the zoom buttons and slider, the
 * per-node project status, the animation offset of a route, the marker labels
 * and the pin toggled by a marker click.
 */
module FluorescenceMapMap {
  import opened Wrappers
  import opened Text
  import Seqs
  import WarRoomService
  import ProjectService
  import MapAssets
  import FluorescenceMap

  // ------------------------------------------------------- level of detail

  /** `getZoomFactor`: the map zoom divided by 5, never below one half. */
  function ZoomFactor(zoom: real): (r: real)
    ensures r >= 1.0 / 2.0 && r >= zoom / 5.0
    ensures r == 1.0 / 2.0 || r == zoom / 5.0
  {
    if zoom / 5.0 > 1.0 / 2.0 then zoom / 5.0 else 1.0 / 2.0
  }

  /** A higher zoom never gives a smaller factor. */
  lemma ZoomFactorMonotone(a: real, b: real)
    requires a <= b
    ensures ZoomFactor(a) <= ZoomFactor(b)
  {
  }

  /** The marker detail classes `lod-low`, `lod-medium` and `lod-high`. */
  datatype LodClass = Low | Medium | High
  {
    function Rank(): nat
    {
      match this
      case Low => 0
      case Medium => 1
      case High => 2
    }
  }

  /** The detail flags of a marker and its class. */
  datatype PinLod = PinLod(isLogoOnly: bool, isCompactLogo: bool, isFullDetail: bool, lodClass: LodClass)

  const LogoOnlyThreshold: real := 1.2
  const FullDetailThreshold: real := 2.5

  /**
   * `getPinLodState`: a selected marker is shown in full; otherwise a factor below
   * 1.2 shows the logo only, one below 2.5 a compact logo, and the rest in full.
   */
  function PinLodState(zoomFactor: real, isSelected: bool): (r: PinLod)
    ensures (r.isLogoOnly && !r.isCompactLogo && !r.isFullDetail)
            || (!r.isLogoOnly && r.isCompactLogo && !r.isFullDetail)
            || (!r.isLogoOnly && !r.isCompactLogo && r.isFullDetail)
    ensures r.isLogoOnly <==> r.lodClass == Low
    ensures r.isCompactLogo <==> r.lodClass == Medium
    ensures r.isFullDetail <==> r.lodClass == High
    ensures isSelected ==> r.lodClass == High
    ensures !isSelected ==> (r.lodClass == Low <==> zoomFactor < LogoOnlyThreshold)
    ensures !isSelected ==> (r.lodClass == High <==> zoomFactor >= FullDetailThreshold)
  {
    if isSelected then PinLod(false, false, true, High)
    else if zoomFactor < LogoOnlyThreshold then PinLod(true, false, false, Low)
    else if zoomFactor < FullDetailThreshold then PinLod(false, true, false, Medium)
    else PinLod(false, false, true, High)
  }

  /** Zooming in never lowers a marker's detail, and selecting it never does either. */
  lemma PinLodMonotone(a: real, b: real, isSelected: bool)
    requires a <= b
    ensures PinLodState(a, isSelected).lodClass.Rank() <= PinLodState(b, isSelected).lodClass.Rank()
    ensures PinLodState(a, false).lodClass.Rank() <= PinLodState(a, true).lodClass.Rank()
  {
  }

  // ------------------------------------------------------------------- zoom

  const MinZoom: real := 0.5
  const MaxZoom: real := 14.0

  /** The zoom range the map is created with (`minZoom` and `maxZoom`). */
  predicate InZoomRange(z: real) { MinZoom <= z <= MaxZoom }

  /**
   * `zoomIn`: one level more than the map's zoom, at most 14; nothing happens
   * without a map.
   */
  function ZoomIn(mapZoom: Option<real>): (r: Option<real>)
    ensures r.Some? <==> mapZoom.Some?
    ensures r.Some? ==> r.value <= MaxZoom
    ensures r.Some? && InZoomRange(mapZoom.value) ==> InZoomRange(r.value) && r.value >= mapZoom.value
    ensures r.Some? && mapZoom.value + 1.0 <= MaxZoom ==> r.value == mapZoom.value + 1.0
  {
    match mapZoom
    case None => None
    case Some(z) => Some(if z + 1.0 < MaxZoom then z + 1.0 else MaxZoom)
  }

  /** `zoomOut`: one level less than the map's zoom, at least 0.5. */
  function ZoomOut(mapZoom: Option<real>): (r: Option<real>)
    ensures r.Some? <==> mapZoom.Some?
    ensures r.Some? ==> r.value >= MinZoom
    ensures r.Some? && InZoomRange(mapZoom.value) ==> InZoomRange(r.value) && r.value <= mapZoom.value
    ensures r.Some? && mapZoom.value - 1.0 >= MinZoom ==> r.value == mapZoom.value - 1.0
  {
    match mapZoom
    case None => None
    case Some(z) => Some(if z - 1.0 > MinZoom then z - 1.0 else MinZoom)
  }

  /** `setZoomTo`: the requested level clamped into [0.5, 14]. */
  function SetZoomTo(hasMap: bool, level: real): (r: Option<real>)
    ensures r.Some? <==> hasMap
    ensures r.Some? ==> InZoomRange(r.value)
    ensures r.Some? && InZoomRange(level) ==> r.value == level
  {
    if !hasMap then None
    else Some(if level < MinZoom then MinZoom else if level > MaxZoom then MaxZoom else level)
  }

  /** Zooming out after zooming in, away from the top of the range, returns to the start. */
  lemma ZoomInThenOut(z: real)
    requires MinZoom <= z && z + 1.0 <= MaxZoom
    ensures ZoomOut(ZoomIn(Some(z))) == Some(z)
  {
  }

  // --------------------------------------------------- status by node id

  /** A route that ends at node `id`, at either end. */
  predicate Touches(route: ProjectService.ProjectRoute, id: string)
  {
    id != [] && (route.toNodeId == id || route.fromNodeId == id)
  }

  predicate HasRoutes(routes: seq<ProjectService.ProjectRoute>, id: string)
  {
    exists i :: 0 <= i < |routes| && Touches(routes[i], id)
  }

  predicate HasOpenRoutes(routes: seq<ProjectService.ProjectRoute>, id: string)
  {
    exists i :: 0 <= i < |routes| && Touches(routes[i], id) && routes[i].status == ProjectService.Open
  }

  /** The activity a route's status stands for: open is active, closed and delayed are not. */
  function RouteActivity(s: ProjectService.ProjectStatus): FluorescenceMap.ProjectActivity
  {
    if s == ProjectService.Open then FluorescenceMap.Active else FluorescenceMap.Inactive
  }

  /** `applyStatus`: an active status always lands; an inactive one never replaces an active one. */
  function ApplyStatus(m: map<string, FluorescenceMap.ProjectActivity>, id: string, status: FluorescenceMap.ProjectActivity)
    : (r: map<string, FluorescenceMap.ProjectActivity>)
    ensures r.Keys == if id == [] then m.Keys else m.Keys + {id}
    ensures forall k :: k in m && k != id ==> r[k] == m[k]
    ensures id != [] ==> (r[id] == FluorescenceMap.Active <==> status == FluorescenceMap.Active || (id in m && m[id] == FluorescenceMap.Active))
  {
    if id == [] then m
    else if status == FluorescenceMap.Active || id !in m then m[id := status]
    else if m[id] != FluorescenceMap.Active then m[id := status]
    else m
  }

  /**
   * `buildProjectStatusByNodeId`: every node some route ends at, active when one of
   * its routes is open, whatever the order of the routes.
   */
  function StatusByNodeId(routes: seq<ProjectService.ProjectRoute>): (r: map<string, FluorescenceMap.ProjectActivity>)
    ensures forall id :: id in r <==> HasRoutes(routes, id)
    ensures forall id :: id in r ==> (r[id] == FluorescenceMap.Active <==> HasOpenRoutes(routes, id))
  {
    if routes == [] then map[]
    else
      var m := StatusByNodeId(routes[..|routes| - 1]);
      var route := routes[|routes| - 1];
      LastRoute(routes);
      ApplyRoute(m, route)
  }

  /** Both ends of one route take its status. */
  function ApplyRoute(m: map<string, FluorescenceMap.ProjectActivity>, route: ProjectService.ProjectRoute)
    : (r: map<string, FluorescenceMap.ProjectActivity>)
    ensures forall id :: id in r <==> id in m || Touches(route, id)
    ensures forall id :: id in r ==>
              (r[id] == FluorescenceMap.Active <==>
               (id in m && m[id] == FluorescenceMap.Active) || (Touches(route, id) && route.status == ProjectService.Open))
  {
    var status := RouteActivity(route.status);
    ApplyStatus(ApplyStatus(m, route.toNodeId, status), route.fromNodeId, status)
  }

  lemma LastRoute(routes: seq<ProjectService.ProjectRoute>)
    requires routes != []
    ensures forall id :: HasRoutes(routes, id) <==>
              HasRoutes(routes[..|routes| - 1], id) || Touches(routes[|routes| - 1], id)
    ensures forall id :: HasOpenRoutes(routes, id) <==>
              HasOpenRoutes(routes[..|routes| - 1], id)
              || (Touches(routes[|routes| - 1], id) && routes[|routes| - 1].status == ProjectService.Open)
  {
    var before := routes[..|routes| - 1];
    assert forall i :: 0 <= i < |before| ==> before[i] == routes[i];
  }

  // ---------------------------------------------------------- route offset

  /** The animation seed of a route: its id, or "route" without one, a dash and its index. */
  function RouteSeed(routeId: string, index: nat): string
  {
    (if routeId != [] then routeId else "route") + "-" + IntToString(index)
  }

  /** The rolling hash `hash * 31 + code`, kept below 6000 after every character. */
  function Hash(s: string): (h: nat)
    ensures h < 6000
  {
    if s == [] then 0 else (Hash(s[..|s| - 1]) * 31 + s[|s| - 1] as int) % 6000
  }

  /**
   * `(ms / 1000).toFixed(2)` for a whole number of milliseconds below 6000: the
   * hundredths, rounded half up, written as one digit, a point and two digits.
   */
  function SecondsText(ms: nat): (r: string)
    requires ms < 6000
    ensures |r| == 4 && r[1] == '.' && IsDigit(r[0]) && IsDigit(r[2]) && IsDigit(r[3])
    ensures var hundredths := DigitValue(r[0]) * 100 + DigitValue(r[2]) * 10 + DigitValue(r[3]);
            hundredths <= 600 && ms - 5 < hundredths * 10 <= ms + 5
  {
    var hundredths := (ms + 5) / 10;
    [DigitChar(hundredths / 100), '.', DigitChar(hundredths / 10 % 10), DigitChar(hundredths % 10)]
  }

  /** The last five milliseconds before six seconds read as six seconds. */
  lemma SecondsTextRoundsUp(ms: nat)
    requires 5995 <= ms < 6000
    ensures SecondsText(ms) == "6.00"
  {
  }

  /** A whole number of hundredths is written exactly. */
  lemma SecondsTextOfHundredths(c: nat)
    requires c < 600
    ensures SecondsText(c * 10) == [DigitChar(c / 100), '.', DigitChar(c / 10 % 10), DigitChar(c % 10)]
  {
    assert (c * 10 + 5) / 10 == c;
  }

  /**
   * `getRouteBeginOffset`: the hash of the route's seed, read as milliseconds and
   * written as seconds with two decimals and an `s`; the text never goes past "6.00s".
   */
  method RouteBeginOffset(routeId: string, index: nat) returns (text: string)
    ensures text == SecondsText(Hash(RouteSeed(routeId, index))) + "s"
    ensures |text| == 5 && text[4] == 's'
  {
    var hash := HashLoop(RouteSeed(routeId, index));
    var seconds := SecondsText(hash % 6000);
    assert hash % 6000 == hash;
    text := seconds + "s";
    assert text[4] == "s"[0];
  }

  /** The loop computing `Hash` character by character. */
  method HashLoop(seed: string) returns (hash: nat)
    ensures hash == Hash(seed)
  {
    hash := 0;
    var i := 0;
    while i < |seed|
      invariant 0 <= i <= |seed|
      invariant hash == Hash(seed[..i])
    {
      HashStep(seed, i);
      hash := (hash * 31 + seed[i] as int) % 6000;
      i := i + 1;
    }
    assert seed[..|seed|] == seed;
  }

  lemma HashStep(seed: string, i: nat)
    requires i < |seed|
    ensures Hash(seed[..i + 1]) == (Hash(seed[..i]) * 31 + seed[i] as int) % 6000
  {
    assert seed[..i + 1][..i] == seed[..i];
  }

  // ----------------------------------------------------------------- labels

  /** A label longer than `max` is cut to `max - 3` characters followed by "...". */
  function Truncate(s: string, max: nat): (r: string)
    requires max >= 3
    ensures |r| <= max
    ensures |s| <= max ==> r == s
    ensures |s| > max ==> |r| == max && r[..max - 3] == s[..max - 3] && r[max - 3..] == "..."
  {
    if |s| > max then s[..max - 3] + "..." else s
  }

  /** A truncated label stays as it is when truncated again. */
  lemma TruncateIdempotent(s: string, max: nat)
    requires max >= 3
    ensures Truncate(Truncate(s, max), max) == Truncate(s, max)
  {
  }

  /** The first `max - 3` characters of a label, or all of a shorter one, survive truncation. */
  lemma TruncateKeepsHead(s: string, max: nat, k: nat)
    requires max >= 3 && k <= max - 3 && k <= |s|
    ensures k <= |Truncate(s, max)| && Truncate(s, max)[..k] == s[..k]
  {
    if |s| > max {
      assert Truncate(s, max)[..k] == s[..max - 3][..k];
    }
  }

  /** The marker's name in capitals, with the NOVA and Karsan brands spelled one way. */
  function DisplayName(companyName: string): (r: string)
    ensures Contains(ToUpper(companyName), "NOVA") ==> r == "NOVA BUS"
    ensures (!Contains(ToUpper(companyName), "NOVA")
             && (Contains(ToUpper(companyName), "KARZAN") || Contains(ToUpper(companyName), "KARSAN"))) ==> r == "KARSAN"
    ensures (!Contains(ToUpper(companyName), "NOVA") && !Contains(ToUpper(companyName), "KARZAN")
             && !Contains(ToUpper(companyName), "KARSAN")) ==> r == ToUpper(companyName)
  {
    var upper := ToUpper(companyName);
    if Contains(upper, "NOVA") then "NOVA BUS"
    else if Contains(upper, "KARZAN") || Contains(upper, "KARSAN") then "KARSAN"
    else upper
  }

  /** A display name is its own display name: the brand spellings and capitals are fixed points. */
  lemma DisplayNameIdempotent(companyName: string)
    ensures DisplayName(DisplayName(companyName)) == DisplayName(companyName)
  {
    var upper := ToUpper(companyName);
    if Contains(upper, "NOVA") {
      NovaBusIsDisplayName();
    } else if Contains(upper, "KARZAN") || Contains(upper, "KARSAN") {
      KarsanIsDisplayName();
    } else {
      UpperOfUpper(companyName);
    }
  }

  lemma NovaBusIsDisplayName()
    ensures DisplayName("NOVA BUS") == "NOVA BUS"
  {
    assert ToUpper("NOVA BUS") == "NOVA BUS";
    assert StartsWith("NOVA BUS", "NOVA");
  }

  lemma KarsanIsDisplayName()
    ensures DisplayName("KARSAN") == "KARSAN"
  {
    assert ToUpper("KARSAN") == "KARSAN";
    assert "NOVA"[1] == 'O';
    MissingCharNotContained("KARSAN", "NOVA", 'O');
    ContainsSelf("KARSAN");
  }

  /** `shortName`: the display name cut to at most 18 characters. */
  function ShortName(displayName: string): (r: string)
    ensures |r| <= 18
    ensures |displayName| <= 18 ==> r == displayName
    ensures |displayName| > 18 ==> r == displayName[..15] + "..."
  {
    Truncate(displayName, 18)
  }

  /** Shortening a short name again changes nothing. */
  lemma ShortNameIdempotent(displayName: string)
    ensures ShortName(ShortName(displayName)) == ShortName(displayName)
  {
    TruncateIdempotent(displayName, 18);
  }

  /**
   * `getStatusDisplayText`: "Inactive" for a missing status, "Active" and "Inactive"
   * for the known words in any case, and otherwise the status as given.
   */
  function StatusDisplayText(status: Option<string>): (r: string)
    ensures !Filled(status) ==> r == "Inactive"
    ensures Filled(status) && MapAssets.IsActiveWord(Trim(ToUpper(status.value))) ==> r == "Active"
    ensures Filled(status) && MapAssets.IsInactiveWord(Trim(ToUpper(status.value))) ==> r == "Inactive"
    ensures (Filled(status) && !MapAssets.IsActiveWord(Trim(ToUpper(status.value)))
             && !MapAssets.IsInactiveWord(Trim(ToUpper(status.value)))) ==> r == status.value
  {
    if !Filled(status) then "Inactive"
    else
      var s := Trim(ToUpper(status.value));
      if MapAssets.IsActiveWord(s) then "Active"
      else if MapAssets.IsInactiveWord(s) then "Inactive"
      else status.value
  }

  /** `subLabel`: the city (or "Station") and the status text, cut to at most 28 characters. */
  function SubLabel(city: Option<string>, status: Option<string>): (r: string)
    ensures |r| <= 28
    ensures var raw := Or(city, Some("Station")).value + " / " + StatusDisplayText(status);
            |raw| <= 28 ==> r == raw
  {
    Truncate(Or(city, Some("Station")).value + " / " + StatusDisplayText(status), 28)
  }

  /**
   * The label starts with the whole city when the city has at most 25 characters,
   * and with "Station" when there is no city.
   */
  lemma SubLabelStartsWithCity(city: Option<string>, status: Option<string>)
    ensures Filled(city) && |city.value| <= 25 ==>
              |city.value| <= |SubLabel(city, status)| && SubLabel(city, status)[..|city.value|] == city.value
    ensures !Filled(city) ==> 7 <= |SubLabel(city, status)| && SubLabel(city, status)[..7] == "Station"
  {
    var name := Or(city, Some("Station")).value;
    LabelHead(name, StatusDisplayText(status));
  }

  /** A label made of a name of at most 25 characters and a tail starts with the name. */
  lemma LabelHead(name: string, tail: string)
    ensures |name| <= 25 ==>
              |name| <= |Truncate(name + " / " + tail, 28)| && Truncate(name + " / " + tail, 28)[..|name|] == name
  {
    var raw := name + " / " + tail;
    assert raw[..|name|] == name;
    if |name| <= 25 {
      TruncateKeepsHead(raw, 28, |name|);
    }
  }

  /** Capitals, digits and spaces stay; every other character becomes a space. */
  function CleanChar(c: char): char
  {
    if IsUpper(c) || IsDigit(c) || c == ' ' then c else ' '
  }

  /** The first letters of at most the first two words. */
  function FirstLetters(words: seq<string>): (r: string)
    requires forall k :: 0 <= k < |words| ==> words[k] != []
    ensures |r| <= 2 && |r| <= |words|
    ensures words != [] ==> r != [] && r[0] == words[0][0]
  {
    if words == [] then []
    else if |words| == 1 then [words[0][0]]
    else [words[0][0], words[1][0]]
  }

  /**
   * `initials`: the first letters of the first two words of the display name once
   * everything but capitals, digits and spaces is blanked out; the first two
   * characters of the name when there are no such words.
   */
  function Initials(displayName: string): (r: string)
    ensures |r| <= 2
    ensures r == [] <==> displayName == []
  {
    var cleaned := Seqs.Map(displayName, CleanChar);
    var words := Seqs.Filter(Split(cleaned, ' '), (w: string) => w != []);
    var initials := FirstLetters(words);
    if initials != [] then
      assert displayName != [] by {
        SplitOfEmpty(cleaned);
      }
      initials
    else displayName[..if |displayName| < 2 then |displayName| else 2]
  }

  /** An empty string splits into one empty piece, which the filter drops. */
  lemma SplitOfEmpty(cleaned: string)
    ensures cleaned == [] ==> Seqs.Filter(Split(cleaned, ' '), (w: string) => w != []) == []
  {
  }

  // ------------------------------------------------------------ marker click

  /** What a marker click reads of the clicked node. */
  datatype ClickedNode = ClickedNode(id: string, companyId: string, level: Option<WarRoomService.Level>)

  /** The node a click hands to the page, if any, and the pinned node afterwards. */
  datatype ClickOutcome = ClickOutcome(emitted: Option<ClickedNode>, pinned: Option<string>)

  /**
   * `handleMarkerClick`: clicking the selected company clears the selection and
   * clicking any other selects it; clicking the pinned marker unpins it and clicking
   * any other pins that one. A click without a node clears the selection only.
   */
  function MarkerClick(selected: Option<WarRoomService.Selection>, pinned: Option<string>, node: Option<ClickedNode>)
    : (r: ClickOutcome)
    ensures node.None? ==> r == ClickOutcome(None, pinned)
    ensures node.Some? ==> (r.pinned == None <==> pinned == Some(node.value.id))
    ensures node.Some? && r.pinned.Some? ==> r.pinned.value == node.value.id
    ensures node.Some? ==>
              (r.emitted.None? <==>
               selected.Some? && node.value.companyId == selected.value.id
               && selected.value.level == node.value.level.GetOr(WarRoomService.Factory))
    ensures r.emitted.Some? ==> r.emitted == node
  {
    match node
    case None => ClickOutcome(None, pinned)
    case Some(n) =>
      var isSelected := selected.Some? && n.companyId == selected.value.id
                        && selected.value.level == n.level.GetOr(WarRoomService.Factory);
      ClickOutcome(if isSelected then None else Some(n), if pinned == Some(n.id) then None else Some(n.id))
  }

  /** Two clicks on the same marker toggle its pin twice: it ends pinned if it was pinned before, unpinned otherwise. */
  lemma ClickTwiceUnpins(selected: Option<WarRoomService.Selection>, pinned: Option<string>, n: ClickedNode)
    ensures var first := MarkerClick(selected, pinned, Some(n));
            var second := MarkerClick(selected, first.pinned, Some(n));
            second.pinned == (if pinned == Some(n.id) then Some(n.id) else None)
  {
  }
}

=== FILE: integrate.dfy ===
/**
 * `integrate_data.py`: reads the facilities spreadsheet row by row, resolves each
 * company to a manufacturer id (creating manufacturers on first sight), derives a
 * location name, creates a factory for every unseen (manufacturer, location) pair,
 * and emits one facility record per row.
 */
module Integrate {
  import opened Wrappers
  import opened Text
  import opened PipelineData

  // ------------------------------------------------------------------- input

  /** A spreadsheet cell as pandas yields it: `NaN`, text, or a whole number. */
  datatype Cell = Missing | CellStr(t: string) | CellInt(n: int)

  /** One spreadsheet row, by column name. */
  type Row = map<string, Cell>

  /** `str(cell)`: pandas' `NaN` prints as "nan". */
  function CellText(c: Cell): string
  {
    match c
    case Missing => "nan"
    case CellStr(t) => t
    case CellInt(n) => IntToString(n)
  }

  /** `str(cell) if pd.notna(cell) else None`. */
  function CellOrNull(c: Cell): (r: Json)
    ensures r.Null? <==> c.Missing?
  {
    if c.Missing? then Null else Str(CellText(c))
  }

  /** The value a cell takes in a facility record once `NaN` has become `None`. */
  function CellJson(c: Cell): (r: Json)
    ensures r.Null? <==> c.Missing?
  {
    match c
    case Missing => Null
    case CellStr(t) => Str(t)
    case CellInt(n) => Int(n)
  }

  /** The columns a row is read through. */
  predicate HasColumns(row: Row)
  {
    "Company" in row && "Facility Type" in row && "City" in row
    && "State/Province" in row && "Country" in row
  }

  // ----------------------------------------------------------- manufacturers

  /** Spellings that name the same manufacturer, after trimming and lower-casing. */
  const Synonyms: map<string, string> := map[
    "nova bus" := "nova",
    "arboc specialty vehicles" := "arboc",
    "nfi / arboc" := "arboc",
    "eldorado national" := "enc (eldorado national)",
    "enc" := "enc (eldorado national)"
  ]

  const SeedManufacturers: seq<Manufacturer> := [
    Manufacturer(1, "Nova"),
    Manufacturer(2, "New Flyer"),
    Manufacturer(3, "Arboc"),
    Manufacturer(4, "TAM")
  ]

  /** The lookup key of a company name: trimmed, lower-cased, synonyms resolved. */
  function ResolvedName(name: string): string
  {
    var clean := ToLower(Trim(name));
    if clean in Synonyms then Synonyms[clean] else clean
  }

  /** The lower-cased-name index built from a manufacturer list; a later entry wins. */
  function NameIndex(ms: seq<Manufacturer>): (idx: map<string, int>)
    ensures forall n :: n in idx ==> exists i :: 0 <= i < |ms| && ms[i].manufacturerId == idx[n]
  {
    if ms == [] then map[]
    else
      var last := ms[|ms| - 1];
      var idx := NameIndex(ms[..|ms| - 1]);
      assert forall i :: 0 <= i < |ms| - 1 ==> ms[..|ms| - 1][i] == ms[i];
      idx[ToLower(last.manufacturerName) := last.manufacturerId]
  }

  function MaxManufacturerId(ms: seq<Manufacturer>): (m: int)
    requires ms != []
    ensures forall i :: 0 <= i < |ms| ==> ms[i].manufacturerId <= m
    ensures exists i :: 0 <= i < |ms| && ms[i].manufacturerId == m
  {
    if |ms| == 1 then ms[0].manufacturerId
    else
      var m := MaxManufacturerId(ms[1..]);
      assert forall i :: 1 <= i < |ms| ==> ms[i] == ms[1..][i - 1];
      if ms[0].manufacturerId >= m then ms[0].manufacturerId else m
  }

  datatype Registry = Registry(manufacturers: seq<Manufacturer>, nameToId: map<string, int>)

  /** Distinct manufacturer ids, and every indexed name points at one of them. */
  predicate RegistryValid(reg: Registry)
  {
    && reg.manufacturers != []
    && (forall i, j :: 0 <= i < j < |reg.manufacturers| ==>
          reg.manufacturers[i].manufacturerId != reg.manufacturers[j].manufacturerId)
    && (forall n :: n in reg.nameToId ==>
          exists i :: 0 <= i < |reg.manufacturers| && reg.manufacturers[i].manufacturerId == reg.nameToId[n])
  }

  function SeedRegistry(): Registry
  {
    Registry(SeedManufacturers, NameIndex(SeedManufacturers))
  }

  lemma SeedRegistryValid()
    ensures RegistryValid(SeedRegistry())
  {
  }

  /**
   * `get_m_id` once the name has been resolved to `key`: the id of a known key, or a
   * new manufacturer with id max + 1 shown as `display`. `None` when the list is
   * empty, where `max()` raises.
   */
  function ResolveKey(reg: Registry, key: string, display: string): (r: Option<(int, Registry)>)
    ensures key in reg.nameToId ==> r == Some((reg.nameToId[key], reg))
    ensures r.None? <==> (key !in reg.nameToId && reg.manufacturers == [])
    ensures r.Some? ==> (key in r.value.1.nameToId && r.value.1.nameToId[key] == r.value.0)
    ensures r.Some? && key !in reg.nameToId ==>
              && r.value.1.manufacturers == reg.manufacturers + [Manufacturer(r.value.0, display)]
              && r.value.1.nameToId == reg.nameToId[key := r.value.0]
              && (forall i :: 0 <= i < |reg.manufacturers| ==> reg.manufacturers[i].manufacturerId < r.value.0)
  {
    if key in reg.nameToId then Some((reg.nameToId[key], reg))
    else if reg.manufacturers == [] then None
    else
      var newId := MaxManufacturerId(reg.manufacturers) + 1;
      Some((newId, Registry(reg.manufacturers + [Manufacturer(newId, display)], reg.nameToId[key := newId])))
  }

  /** `get_m_id(name)`: the new manufacturer keeps the trimmed, not the lower-cased, name. */
  function ResolveManufacturer(reg: Registry, name: string): Option<(int, Registry)>
  {
    ResolveKey(reg, ResolvedName(name), Trim(name))
  }

  /** A resolution keeps the registry valid, and never forgets or changes an indexed name. */
  lemma {:induction false} ResolveKeyPreservesRegistry(reg: Registry, key: string, display: string)
    requires RegistryValid(reg)
    ensures ResolveKey(reg, key, display).Some?
    ensures var reg' := ResolveKey(reg, key, display).value.1;
            && RegistryValid(reg')
            && (forall n :: n in reg.nameToId ==> n in reg'.nameToId && reg'.nameToId[n] == reg.nameToId[n])
            && reg.manufacturers <= reg'.manufacturers
  {
    if key !in reg.nameToId {
      var (newId, reg') := ResolveKey(reg, key, display).value;
      var ms := reg'.manufacturers;
      assert ms[|ms| - 1].manufacturerId == newId;
      forall n | n in reg'.nameToId
        ensures exists i :: 0 <= i < |ms| && ms[i].manufacturerId == reg'.nameToId[n]
      {
        if n == key {
          assert ms[|ms| - 1].manufacturerId == reg'.nameToId[n];
        } else {
          var i :| 0 <= i < |reg.manufacturers| && reg.manufacturers[i].manufacturerId == reg.nameToId[n];
          assert ms[i] == reg.manufacturers[i];
        }
      }
    }
  }

  /**
   * Two names with the same resolved key (equal up to case and surrounding
   * whitespace, or synonyms) get the same id, and the second lookup adds nothing.
   */
  lemma SameResolvedNameSameId(reg: Registry, a: string, b: string)
    requires ResolvedName(a) == ResolvedName(b)
    requires ResolveManufacturer(reg, a).Some?
    ensures var r := ResolveManufacturer(reg, a).value;
            ResolveManufacturer(r.1, b) == Some(r)
  {
  }

  // --------------------------------------------------------------- factories

  const SeedFactories: seq<Factory> := [
    Factory(1, Int(1), "St. Eustache (Nova)", Str("St. Eustache"), Str("Quebec"), Str("Canada"), Null, Null, Null),
    Factory(2, Int(2), "Crookston (New Flyer)", Str("Crookston"), Str("Minnesota"), Str("USA"), Null, Null, Null),
    Factory(3, Int(2), "Winnipeg (New Flyer)", Str("Winnipeg"), Str("Manitoba"), Str("Canada"), Null, Null, Null),
    Factory(4, Int(3), "Middlebury IN (NFI / Arboc)", Str("Middlebury"), Str("Indiana"), Str("USA"), Null, Null, Null),
    Factory(7, Int(4), "TAM Facility", Null, Null, Str("China"), Null, Null, Null)
  ]

  /**
   * `f"{city} ({company})"` when the city is non-empty, else the facility type in its
   * place: the city (or type), then " (", the company and ")".
   */
  function LocationName(city: string, facilityType: string, company: string): (r: string)
    ensures city != [] ==> StartsWith(r, city)
    ensures city == [] ==> StartsWith(r, facilityType)
    ensures |r| >= |company| + 3 && r[|r| - |company| - 3..] == " (" + company + ")"
  {
    var head := if city != [] then city else facilityType;
    var r := WithCompany(head, company);
    assert r[|r| - |company| - 3..] == r[|head|..];
    r
  }

  /** Two factories of one company with non-empty cities get the same location name only for the same city. */
  lemma LocationNameDeterminesCity(a: string, b: string, facilityType: string, company: string)
    requires a != [] && b != []
    requires LocationName(a, facilityType, company) == LocationName(b, facilityType, company)
    ensures a == b
  {
    WithCompanyInjective(a, b, company);
  }

  /** The dedup key of a factory: manufacturer id and lower-cased location name. */
  function FactoryKey(f: Factory): (Json, string)
  {
    (f.manufacturerId, ToLower(f.locationName))
  }

  function MaxFactoryId(fs: seq<Factory>): (m: int)
    requires fs != []
    ensures forall i :: 0 <= i < |fs| ==> fs[i].factoryId <= m
  {
    if |fs| == 1 then fs[0].factoryId
    else
      var m := MaxFactoryId(fs[1..]);
      assert forall i :: 1 <= i < |fs| ==> fs[i] == fs[1..][i - 1];
      if fs[0].factoryId >= m then fs[0].factoryId else m
  }

  /** The id of the first factory with the given key: `next(...)` at line 103. */
  function FirstFactoryWith(fs: seq<Factory>, key: (Json, string)): (r: Option<int>)
    ensures r.Some? ==> exists i :: 0 <= i < |fs| && FactoryKey(fs[i]) == key && fs[i].factoryId == r.value
    ensures r.None? <==> forall i :: 0 <= i < |fs| ==> FactoryKey(fs[i]) != key
  {
    if fs == [] then None
    else if FactoryKey(fs[0]) == key then Some(fs[0].factoryId)
    else
      var r := FirstFactoryWith(fs[1..], key);
      assert forall i :: 1 <= i < |fs| ==> fs[i] == fs[1..][i - 1];
      assert r.Some? ==> exists i :: 1 <= i < |fs| && FactoryKey(fs[i]) == key && fs[i].factoryId == r.value;
      r
  }

  /** The key set of a factory list, as line 73 builds it. */
  function KeysOf(fs: seq<Factory>): (keys: set<(Json, string)>)
    ensures forall i :: 0 <= i < |fs| ==> FactoryKey(fs[i]) in keys
    ensures forall k :: k in keys ==> exists i :: 0 <= i < |fs| && FactoryKey(fs[i]) == k
  {
    if fs == [] then {}
    else
      var init := fs[..|fs| - 1];
      assert forall i :: 0 <= i < |fs| - 1 ==> init[i] == fs[i];
      KeysOf(init) + {FactoryKey(fs[|fs| - 1])}
  }

  datatype State = State(registry: Registry, factories: seq<Factory>, keys: set<(Json, string)>, maxFactoryId: int)

  /**
   * The invariant of the row loop: a valid registry; factory ids and keys pairwise
   * distinct; the key set is exactly the factories' keys; and every id is at most
   * the running maximum.
   */
  predicate StateValid(st: State)
  {
    && RegistryValid(st.registry)
    && (forall i, j :: 0 <= i < j < |st.factories| ==> st.factories[i].factoryId != st.factories[j].factoryId)
    && (forall i, j :: 0 <= i < j < |st.factories| ==> FactoryKey(st.factories[i]) != FactoryKey(st.factories[j]))
    && st.keys == KeysOf(st.factories)
    && (forall i :: 0 <= i < |st.factories| ==> st.factories[i].factoryId <= st.maxFactoryId)
  }

  function SeedState(): State
  {
    State(SeedRegistry(), SeedFactories, KeysOf(SeedFactories), MaxFactoryId(SeedFactories))
  }

  lemma SeedStateValid()
    ensures StateValid(SeedState())
  {
    SeedRegistryValid();
    SeedKeysDistinct();
    var fs := SeedFactories;
    assert fs[0].factoryId == 1 && fs[1].factoryId == 2 && fs[2].factoryId == 3;
    assert fs[3].factoryId == 4 && fs[4].factoryId == 7;
    StateOfValid(SeedRegistry(), fs);
  }

  lemma StateOfValid(reg: Registry, fs: seq<Factory>)
    requires RegistryValid(reg) && fs != []
    requires forall i, j :: 0 <= i < j < |fs| ==> fs[i].factoryId != fs[j].factoryId
    requires forall i, j :: 0 <= i < j < |fs| ==> FactoryKey(fs[i]) != FactoryKey(fs[j])
    ensures StateValid(State(reg, fs, KeysOf(fs), MaxFactoryId(fs)))
  {
  }

  lemma SeedKeysDistinct()
    ensures forall i, j :: 0 <= i < j < |SeedFactories| ==> FactoryKey(SeedFactories[i]) != FactoryKey(SeedFactories[j])
  {
    var fs := SeedFactories;
    assert fs[0].manufacturerId == Int(1) && fs[1].manufacturerId == Int(2) && fs[2].manufacturerId == Int(2);
    assert fs[3].manufacturerId == Int(3) && fs[4].manufacturerId == Int(4);
    assert |fs[1].locationName| != |fs[2].locationName|;
    assert FactoryKey(fs[1]).1 != FactoryKey(fs[2]).1 by {
      assert |FactoryKey(fs[1]).1| == |fs[1].locationName|;
      assert |FactoryKey(fs[2]).1| == |fs[2].locationName|;
    }
  }

  /** The facility record of a row: every column with `NaN` as `None`, plus the two ids. */
  function RecordOf(row: Row, manufacturerId: int, factoryId: int): (r: FacilityRecord)
    ensures r.Keys == row.Keys + {"manufacturer_id", "factory_id"}
    ensures r["manufacturer_id"] == Int(manufacturerId) && r["factory_id"] == Int(factoryId)
    ensures forall k :: k in row && k != "manufacturer_id" && k != "factory_id" ==>
              && (r[k].Null? <==> row[k].Missing?)
              && (row[k].CellStr? ==> r[k] == Str(row[k].t))
              && (row[k].CellInt? ==> r[k] == Int(row[k].n))
  {
    (map k | k in row :: CellJson(row[k]))["manufacturer_id" := Int(manufacturerId)]["factory_id" := Int(factoryId)]
  }

  /** A JSON value back as a spreadsheet cell: `None` is the empty cell. */
  function CellOf(v: Json): (c: Cell)
  {
    match v
    case Null => Missing
    case Str(t) => CellStr(t)
    case Int(n) => CellInt(n)
  }

  /** Every column of the row but the two ids can be read back from its facility record. */
  lemma RecordOfRoundTrip(row: Row, manufacturerId: int, factoryId: int)
    ensures forall k :: k in row && k != "manufacturer_id" && k != "factory_id" ==>
              CellOf(RecordOf(row, manufacturerId, factoryId)[k]) == row[k]
  {
  }

  /** The location name the loop derives for a row. */
  function RowLocation(row: Row): string
    requires HasColumns(row)
  {
    var company := RowCompany(row);
    var facilityType := if row["Facility Type"].Missing? then "" else CellText(row["Facility Type"]);
    var city := if row["City"].Missing? then "" else CellText(row["City"]);
    LocationName(city, facilityType, company)
  }

  /**
   * Lines 85-103 for a row resolved to manufacturer `mId`: an unseen key appends a
   * factory with the next id; a seen key reuses the id of its first factory, or is
   * `None` where `next()` would find none.
   */
  function PlaceFactory(st: State, mId: int, location: string, city: Json, stateProvince: Json, country: Json)
    : (r: Option<(State, int)>)
    ensures (Int(mId), ToLower(location)) !in st.keys ==>
              && r.Some? && r.value.1 == st.maxFactoryId + 1
              && r.value.0.factories == st.factories + [Factory(r.value.1, Int(mId), location, city, stateProvince, country, Null, Null, Null)]
              && r.value.0.keys == st.keys + {(Int(mId), ToLower(location))}
    ensures (Int(mId), ToLower(location)) in st.keys && r.Some? ==>
              && r.value.0 == st
              && exists i :: 0 <= i < |st.factories| && FactoryKey(st.factories[i]) == (Int(mId), ToLower(location))
                             && st.factories[i].factoryId == r.value.1
    ensures r.None? ==> forall i :: 0 <= i < |st.factories| ==> FactoryKey(st.factories[i]) != (Int(mId), ToLower(location))
  {
    var key := (Int(mId), ToLower(location));
    if key !in st.keys then
      var fId := st.maxFactoryId + 1;
      var f := Factory(fId, Int(mId), location, city, stateProvince, country, Null, Null, Null);
      Some((State(st.registry, st.factories + [f], st.keys + {key}, fId), fId))
    else
      match FirstFactoryWith(st.factories, key)
      case None => None
      case Some(fId) => Some((st, fId))
  }

  /** The company name a row is resolved by: `str(row['Company']).strip()`. */
  function RowCompany(row: Row): string
  {
    Trim(CellText(if "Company" in row then row["Company"] else Missing))
  }

  /** The resolved manufacturer key of a row's company. */
  function CompanyKey(row: Row): string
  {
    ResolvedName(RowCompany(row))
  }

  /**
   * One iteration of the row loop. `None` stands for the exceptions the script
   * would raise: a missing column, `max()` of no manufacturers, or `next()` finding
   * no factory for a key it has seen.
   */
  function ProcessRow(st: State, row: Row): (r: Option<(State, FacilityRecord)>)
    ensures !HasColumns(row) ==> r.None?
  {
    if !HasColumns(row) then None
    else
      var resolved := ResolveManufacturer(st.registry, RowCompany(row));
      if resolved.None? then None
      else
        var mId := resolved.value.0;
        var city := if row["City"].Missing? then Null else Str(CellText(row["City"]));
        var placed := PlaceFactory(st.(registry := resolved.value.1), mId, RowLocation(row), city,
                                   CellOrNull(row["State/Province"]), CellOrNull(row["Country"]));
        if placed.None? then None
        else Some((placed.value.0, RecordOf(row, mId, placed.value.1)))
  }

  lemma WithRegistryValid(st: State, registry: Registry)
    requires StateValid(st) && RegistryValid(registry)
    ensures StateValid(st.(registry := registry))
  {
  }

  /** Appending a factory with an unseen key and the next id keeps the loop invariant. */
  lemma {:induction false} AppendFactoryValid(st: State, f: Factory)
    requires StateValid(st)
    requires FactoryKey(f) !in st.keys && f.factoryId == st.maxFactoryId + 1
    ensures StateValid(State(st.registry, st.factories + [f], st.keys + {FactoryKey(f)}, f.factoryId))
  {
    var fs := st.factories;
    var fs' := fs + [f];
    assert fs'[..|fs'| - 1] == fs;
    assert KeysOf(fs') == KeysOf(fs) + {FactoryKey(f)};
    forall i, j | 0 <= i < j < |fs'|
      ensures fs'[i].factoryId != fs'[j].factoryId && FactoryKey(fs'[i]) != FactoryKey(fs'[j])
    {
      assert fs'[i] == fs[i];
      if j == |fs| {
        assert fs'[j] == f;
        assert FactoryKey(fs[i]) in st.keys;
      } else {
        assert fs'[j] == fs[j];
      }
    }
  }

  /**
   * From a valid state, an unseen key appends exactly one factory with id previous
   * max + 1 and a seen key appends nothing; either way the returned id is that of
   * the factory carrying the key, and the state stays valid.
   */
  lemma {:induction false} PlaceFactoryPreservesState(st: State, mId: int, location: string, city: Json, stateProvince: Json, country: Json)
    requires StateValid(st)
    ensures PlaceFactory(st, mId, location, city, stateProvince, country).Some?
    ensures var placed := PlaceFactory(st, mId, location, city, stateProvince, country).value;
            var st', fId := placed.0, placed.1;
            var key := (Int(mId), ToLower(location));
            && StateValid(st')
            && st'.registry == st.registry
            && st.factories <= st'.factories
            && (key !in st.keys ==> && st'.factories == st.factories + [Factory(fId, Int(mId), location, city, stateProvince, country, Null, Null, Null)]
                                    && fId == st.maxFactoryId + 1)
            && (key in st.keys ==> st' == st)
            && (exists i :: 0 <= i < |st'.factories| && FactoryKey(st'.factories[i]) == key && st'.factories[i].factoryId == fId)
  {
    var key := (Int(mId), ToLower(location));
    var placed := PlaceFactory(st, mId, location, city, stateProvince, country);
    if key !in st.keys {
      var f := Factory(st.maxFactoryId + 1, Int(mId), location, city, stateProvince, country, Null, Null, Null);
      assert FactoryKey(f) == key;
      AppendFactoryValid(st, f);
      var fs' := st.factories + [f];
      assert placed == Some((State(st.registry, fs', st.keys + {key}, f.factoryId), f.factoryId));
      assert fs'[|fs'| - 1] == f;
    } else {
      var fId := FirstFactoryWith(st.factories, key);
      assert fId.Some?;
      assert placed == Some((st, fId.value));
    }
  }

  /** The record's factory id names a factory of `fs` whose key is (record's manufacturer id, `location`). */
  predicate PointsAtFactory(rec: FacilityRecord, location: string, fs: seq<Factory>)
  {
    exists k :: 0 <= k < |fs|
      && Field(rec, "factory_id") == Int(fs[k].factoryId)
      && FactoryKey(fs[k]) == (Field(rec, "manufacturer_id"), location)
  }

  /** The record's manufacturer id is the one the registry holds for `company`. */
  predicate PointsAtManufacturer(rec: FacilityRecord, company: string, reg: Registry)
  {
    company in reg.nameToId && Field(rec, "manufacturer_id") == Int(reg.nameToId[company])
  }

  /** The record's factory id names a factory of `fs` holding the row's (manufacturer, location) key. */
  predicate RecordInFactories(rec: FacilityRecord, row: Row, fs: seq<Factory>)
  {
    HasColumns(row) && PointsAtFactory(rec, ToLower(RowLocation(row)), fs)
  }

  /** The record's manufacturer id is the one the registry holds for the row's company key. */
  predicate RecordInRegistry(rec: FacilityRecord, row: Row, reg: Registry)
  {
    PointsAtManufacturer(rec, CompanyKey(row), reg)
  }

  lemma PointsAtLongerFactories(rec: FacilityRecord, location: string, fs: seq<Factory>, fs': seq<Factory>)
    requires PointsAtFactory(rec, location, fs) && fs <= fs'
    ensures PointsAtFactory(rec, location, fs')
  {
    var k :| 0 <= k < |fs|
      && Field(rec, "factory_id") == Int(fs[k].factoryId)
      && FactoryKey(fs[k]) == (Field(rec, "manufacturer_id"), location);
    assert fs'[k] == fs[k];
  }

  /**
   * From a valid state a row with all columns is processed without error, the state
   * stays valid, existing factories and manufacturers are kept, indexed names keep
   * their ids, and the record carries the id of its company's key and of the factory
   * holding its (manufacturer, location) key.
   */
  lemma {:induction false} ProcessRowPreservesState(st: State, row: Row)
    requires StateValid(st) && HasColumns(row)
    ensures ProcessRow(st, row).Some?
    ensures var st', rec := ProcessRow(st, row).value.0, ProcessRow(st, row).value.1;
            && StateValid(st')
            && st.factories <= st'.factories
            && st.registry.manufacturers <= st'.registry.manufacturers
            && (forall n :: n in st.registry.nameToId ==>
                  n in st'.registry.nameToId && st'.registry.nameToId[n] == st.registry.nameToId[n])
            && RecordInRegistry(rec, row, st'.registry)
            && RecordInFactories(rec, row, st'.factories)
            && IsRecordOf(rec, row)
  {
    var company := RowCompany(row);
    var resolved := ResolveManufacturer(st.registry, company);
    ResolveKeyPreservesRegistry(st.registry, ResolvedName(company), Trim(company));
    var mId := resolved.value.0;
    var mid := st.(registry := resolved.value.1);
    WithRegistryValid(st, resolved.value.1);
    var city := if row["City"].Missing? then Null else Str(CellText(row["City"]));
    var location := RowLocation(row);
    var placed := PlaceFactory(mid, mId, location, city, CellOrNull(row["State/Province"]), CellOrNull(row["Country"]));
    PlaceFactoryPreservesState(mid, mId, location, city, CellOrNull(row["State/Province"]), CellOrNull(row["Country"]));
    var rec := RecordOf(row, mId, placed.value.1);
    assert ProcessRow(st, row) == Some((placed.value.0, rec));
    assert Field(rec, "manufacturer_id") == Int(mId);
    assert Field(rec, "factory_id") == Int(placed.value.1);
  }

  // -------------------------------------------------------------------- loop

  /**
   * Every record so far points at the factory of its row's location key `locations[j]`
   * and at the manufacturer of its row's company key `companies[j]`.
   */
  predicate RecordsAccounted(records: seq<FacilityRecord>, locations: seq<string>, companies: seq<string>,
                             fs: seq<Factory>, reg: Registry)
  {
    && |records| <= |locations|
    && |locations| == |companies|
    && (forall j :: 0 <= j < |records| ==> PointsAtFactory(records[j], locations[j], fs))
    && (forall j :: 0 <= j < |records| ==> PointsAtManufacturer(records[j], companies[j], reg))
  }

  lemma ExtendRecords(records: seq<FacilityRecord>, locations: seq<string>, companies: seq<string>,
                      rec: FacilityRecord, fs: seq<Factory>, fs': seq<Factory>, reg: Registry, reg': Registry)
    requires RecordsAccounted(records, locations, companies, fs, reg) && |records| < |locations|
    requires fs <= fs'
    requires forall n :: n in reg.nameToId ==> n in reg'.nameToId && reg'.nameToId[n] == reg.nameToId[n]
    requires PointsAtFactory(rec, locations[|records|], fs')
    requires PointsAtManufacturer(rec, companies[|records|], reg')
    ensures RecordsAccounted(records + [rec], locations, companies, fs', reg')
  {
    var records' := records + [rec];
    forall j | 0 <= j < |records'|
      ensures PointsAtFactory(records'[j], locations[j], fs')
    {
      if j < |records| {
        assert records'[j] == records[j];
        PointsAtLongerFactories(records[j], locations[j], fs, fs');
      }
    }
    forall j | 0 <= j < |records'|
      ensures PointsAtManufacturer(records'[j], companies[j], reg')
    {
      if j < |records| {
        assert records'[j] == records[j];
      }
    }
  }

  /** The record is the row with some manufacturer and factory id added. */
  ghost predicate IsRecordOf(rec: FacilityRecord, row: Row)
  {
    exists m, f :: rec == RecordOf(row, m, f)
  }

  /** Each record is the record of the row at its position. */
  ghost predicate RecordsOfRows(records: seq<FacilityRecord>, rows: seq<Row>)
  {
    && |records| <= |rows|
    && forall j :: 0 <= j < |records| ==> IsRecordOf(records[j], rows[j])
  }

  lemma ExtendRecordsOfRows(records: seq<FacilityRecord>, rows: seq<Row>, rec: FacilityRecord)
    requires RecordsOfRows(records, rows) && |records| < |rows|
    requires IsRecordOf(rec, rows[|records|])
    ensures RecordsOfRows(records + [rec], rows)
  {
    var records' := records + [rec];
    assert forall j :: 0 <= j < |records| ==> records'[j] == records[j];
    assert records'[|records|] == rec;
  }

  /** The record's manufacturer id is the id of a manufacturer of the list. */
  predicate NamesManufacturer(rec: FacilityRecord, manufacturers: seq<Manufacturer>)
  {
    exists k :: 0 <= k < |manufacturers| && Field(rec, "manufacturer_id") == Int(manufacturers[k].manufacturerId)
  }

  lemma RecordsNameManufacturers(records: seq<FacilityRecord>, locations: seq<string>, companies: seq<string>,
                                 fs: seq<Factory>, reg: Registry)
    requires RecordsAccounted(records, locations, companies, fs, reg) && RegistryValid(reg)
    ensures forall i :: 0 <= i < |records| ==> NamesManufacturer(records[i], reg.manufacturers)
  {
    forall i | 0 <= i < |records| ensures NamesManufacturer(records[i], reg.manufacturers) {
      assert PointsAtManufacturer(records[i], companies[i], reg);
    }
  }

  /** One row of the loop, from a valid state. */
  method Step(st: State, row: Row) returns (st': State, rec: FacilityRecord)
    requires StateValid(st) && HasColumns(row)
    ensures ProcessRow(st, row) == Some((st', rec))
    ensures StateValid(st')
    ensures st.factories <= st'.factories
    ensures st.registry.manufacturers <= st'.registry.manufacturers
    ensures forall n :: n in st.registry.nameToId ==>
              n in st'.registry.nameToId && st'.registry.nameToId[n] == st.registry.nameToId[n]
    ensures RecordInRegistry(rec, row, st'.registry)
    ensures RecordInFactories(rec, row, st'.factories)
    ensures IsRecordOf(rec, row)
  {
    ProcessRowPreservesState(st, row);
    st' := ProcessRow(st, row).value.0;
    rec := ProcessRow(st, row).value.1;
  }

  /**
   * The row loop of `process_data`, over a spreadsheet whose rows all carry the
   * columns it reads: one record per row; seed manufacturers and factories kept at
   * the front; distinct ids; each record pointing at the factory of its key; and
   * rows whose companies resolve to the same name sharing a manufacturer id.
   */
  method IntegrateRows(rows: seq<Row>) returns (manufacturers: seq<Manufacturer>, factories: seq<Factory>, records: seq<FacilityRecord>)
    requires forall i :: 0 <= i < |rows| ==> HasColumns(rows[i])
    ensures |records| == |rows|
    ensures SeedManufacturers <= manufacturers
    ensures SeedFactories <= factories
    ensures forall i, j :: 0 <= i < j < |factories| ==> factories[i].factoryId != factories[j].factoryId
    ensures forall i, j :: 0 <= i < j < |manufacturers| ==> manufacturers[i].manufacturerId != manufacturers[j].manufacturerId
    ensures forall i :: 0 <= i < |records| ==> RecordInFactories(records[i], rows[i], factories)
    ensures RecordsOfRows(records, rows)
    ensures forall i :: 0 <= i < |records| ==> NamesManufacturer(records[i], manufacturers)
    ensures forall i, j :: 0 <= i < |rows| && 0 <= j < |rows| && CompanyKey(rows[i]) == CompanyKey(rows[j]) ==>
              Field(records[i], "manufacturer_id") == Field(records[j], "manufacturer_id")
  {
    ghost var locations := LocationKeys(rows);
    ghost var companies := CompanyKeys(rows);
    SeedStateValid();
    var st := SeedState();
    records := [];
    var i := 0;
    while i < |rows|
      invariant 0 <= i <= |rows|
      invariant StateValid(st)
      invariant |records| == i
      invariant SeedManufacturers <= st.registry.manufacturers
      invariant SeedFactories <= st.factories
      invariant RecordsAccounted(records, locations, companies, st.factories, st.registry)
      invariant RecordsOfRows(records, rows)
    {
      st, records := Advance(rows, locations, companies, st, records);
      i := i + 1;
    }
    manufacturers := st.registry.manufacturers;
    factories := st.factories;
    RecordsOfAllRows(rows, records, locations, companies, factories, st.registry);
  }

  /** The lower-cased location of every row, the key its factory is found by. */
  ghost function LocationKeys(rows: seq<Row>): (r: seq<string>)
    requires forall i :: 0 <= i < |rows| ==> HasColumns(rows[i])
    ensures |r| == |rows| && forall i :: 0 <= i < |rows| ==> r[i] == ToLower(RowLocation(rows[i]))
  {
    seq(|rows|, i requires 0 <= i < |rows| => ToLower(RowLocation(rows[i])))
  }

  /** The company key of every row, the key its manufacturer is found by. */
  ghost function CompanyKeys(rows: seq<Row>): (r: seq<string>)
    ensures |r| == |rows| && forall i :: 0 <= i < |rows| ==> r[i] == CompanyKey(rows[i])
  {
    seq(|rows|, i requires 0 <= i < |rows| => CompanyKey(rows[i]))
  }

  /** One turn of the row loop: process the next row and account for its record. */
  method Advance(rows: seq<Row>, ghost locations: seq<string>, ghost companies: seq<string>,
                 st: State, records: seq<FacilityRecord>) returns (st': State, records': seq<FacilityRecord>)
    requires forall i :: 0 <= i < |rows| ==> HasColumns(rows[i])
    requires |records| < |rows| == |locations| == |companies|
    requires locations[|records|] == ToLower(RowLocation(rows[|records|]))
    requires companies[|records|] == CompanyKey(rows[|records|])
    requires StateValid(st)
    requires RecordsAccounted(records, locations, companies, st.factories, st.registry)
    requires RecordsOfRows(records, rows)
    ensures StateValid(st')
    ensures |records'| == |records| + 1 && records <= records'
    ensures st.factories <= st'.factories
    ensures st.registry.manufacturers <= st'.registry.manufacturers
    ensures RecordsAccounted(records', locations, companies, st'.factories, st'.registry)
    ensures RecordsOfRows(records', rows)
  {
    var row := rows[|records|];
    var rec;
    st', rec := Step(st, row);
    ExtendRecords(records, locations, companies, rec, st.factories, st'.factories, st.registry, st'.registry);
    ExtendRecordsOfRows(records, rows, rec);
    records' := records + [rec];
  }

  /** What the accounting invariant gives once every row has its record. */
  lemma RecordsOfAllRows(rows: seq<Row>, records: seq<FacilityRecord>, locations: seq<string>, companies: seq<string>,
                         fs: seq<Factory>, reg: Registry)
    requires forall i :: 0 <= i < |rows| ==> HasColumns(rows[i])
    requires |locations| == |companies| == |records| == |rows|
    requires forall i :: 0 <= i < |rows| ==> locations[i] == ToLower(RowLocation(rows[i]))
    requires forall i :: 0 <= i < |rows| ==> companies[i] == CompanyKey(rows[i])
    requires RecordsAccounted(records, locations, companies, fs, reg) && RegistryValid(reg)
    ensures forall i :: 0 <= i < |records| ==> RecordInFactories(records[i], rows[i], fs)
    ensures forall i :: 0 <= i < |records| ==> NamesManufacturer(records[i], reg.manufacturers)
    ensures forall i, j :: 0 <= i < |rows| && 0 <= j < |rows| && CompanyKey(rows[i]) == CompanyKey(rows[j]) ==>
              Field(records[i], "manufacturer_id") == Field(records[j], "manufacturer_id")
  {
    forall i | 0 <= i < |records|
      ensures RecordInFactories(records[i], rows[i], fs)
    {
      assert locations[i] == ToLower(RowLocation(rows[i]));
    }
    RecordsNameManufacturers(records, locations, companies, fs, reg);
    forall i, j | 0 <= i < |rows| && 0 <= j < |rows| && CompanyKey(rows[i]) == CompanyKey(rows[j])
      ensures Field(records[i], "manufacturer_id") == Field(records[j], "manufacturer_id")
    {
      assert companies[i] == companies[j];
      assert PointsAtManufacturer(records[i], companies[i], reg);
      assert PointsAtManufacturer(records[j], companies[j], reg);
    }
  }
}

=== FILE: map_assets.dfy ===
/**
 * `WarRoomMapAssetsService`
 * (src/app/shared/features/fluorescence-map/components/fluorescence-map-map/services/fluorescence-map-map-assets.service.ts):
 * the display name, description, type label and tooltip status class of a map
 * node, and the candidate paths of a company logo with the fallback used once
 * every candidate has failed to load.
 */
module MapAssets {
  import opened Wrappers
  import opened Text
  import WarRoomService

  /** The fields of a map `Node` the helpers read. */
  datatype MapNode = MapNode(
    id: string,
    company: Option<string>,
    name: Option<string>,
    city: Option<string>,
    country: Option<string>,
    level: Option<WarRoomService.Level>,
    description: Option<string>,
    facilityType: Option<string>,
    notes: Option<string>,
    status: Option<string>)

  // ------------------------------------------------------------------ labels

  /** `getCompanyDisplayName`: the company, else the name, else the city, else "Company". */
  function CompanyDisplayName(node: MapNode): (r: string)
    ensures r != []
    ensures Filled(node.company) ==> r == node.company.value
    ensures !Filled(node.company) && Filled(node.name) ==> r == node.name.value
    ensures !Filled(node.company) && !Filled(node.name) && !Filled(node.city) ==> r == "Company"
  {
    Or(node.company, Or(node.name, Or(node.city, Some("Company")))).value
  }

  const FactoryLabel: string := "Factory / Production Site"

  /** `getTypeLabel`: a missing level counts as a factory, and so does a client. */
  function TypeLabel(level: Option<WarRoomService.Level>): (r: string)
    ensures r == FactoryLabel <==>
              level.None? || level == Some(WarRoomService.Factory) || level == Some(WarRoomService.Client)
  {
    match level.GetOr(WarRoomService.Factory)
    case Parent => "Hub / Group HQ"
    case Subsidiary => "Subsidiary / Regional Hub"
    case _ => FactoryLabel
  }

  /** `city, country`, or whichever of the two is non-empty. */
  function LocationText(city: string, country: string): (r: string)
    ensures r == [] <==> city == [] && country == []
  {
    if city != [] && country != [] then city + ", " + country
    else if country != [] then country
    else city
  }

  /**
   * `getCompanyDescription`: a non-blank custom description, trimmed; otherwise a
   * sentence naming the company, its facility type and its location (or that the
   * location is pending), followed by the notes.
   */
  function CompanyDescription(node: MapNode): (r: string)
    ensures Trim(node.description.GetOr("")) != [] ==> r == Trim(node.description.value)
    ensures Trim(node.description.GetOr("")) == [] ==>
              StartsWith(r, CompanyDisplayName(node) + " (" + Or(node.facilityType, Some(TypeLabel(node.level))).value + ")")
  {
    var custom := Trim(node.description.GetOr(""));
    if custom != [] then custom
    else
      var location := LocationText(Trim(node.city.GetOr("")), Trim(node.country.GetOr("")));
      var head := CompanyDisplayName(node) + " (" + Or(node.facilityType, Some(TypeLabel(node.level))).value + ")";
      var notes := if Filled(node.notes) then " // " + node.notes.value else "";
      Sentence(head, location, notes)
  }

  /**
   * A description kept as the node's own is given back as it is: saving the shown
   * description as the custom one changes nothing, when the display name and the
   * notes carry no outer whitespace.
   */
  lemma DescriptionIsStable(node: MapNode)
    requires Trimmed(CompanyDisplayName(node))
    requires !Filled(node.notes) || Trimmed(node.notes.value)
    ensures CompanyDescription(node.(description := Some(CompanyDescription(node)))) == CompanyDescription(node)
  {
    var r := CompanyDescription(node);
    if Trim(node.description.GetOr("")) == [] {
      GeneratedDescriptionTrimmed(node);
    }
    CustomDescriptionWins(node, r);
  }

  lemma GeneratedDescriptionTrimmed(node: MapNode)
    requires Trim(node.description.GetOr("")) == []
    requires Trimmed(CompanyDisplayName(node))
    requires !Filled(node.notes) || Trimmed(node.notes.value)
    ensures CompanyDescription(node) != [] && Trimmed(CompanyDescription(node))
  {
    var name := CompanyDisplayName(node);
    var head := name + " (" + Or(node.facilityType, Some(TypeLabel(node.level))).value + ")";
    var notes := if Filled(node.notes) then " // " + node.notes.value else "";
    assert head[0] == name[0];
    assert notes != [] ==> notes[|notes| - 1] == node.notes.value[|node.notes.value| - 1];
    SentenceTrimmed(head, LocationText(Trim(node.city.GetOr("")), Trim(node.country.GetOr(""))), notes);
  }

  /** A non-empty description without outer whitespace is shown as it is. */
  lemma CustomDescriptionWins(node: MapNode, d: string)
    requires d != [] && Trimmed(d)
    ensures CompanyDescription(node.(description := Some(d))) == d
  {
    TrimUntrimmed(d);
  }

  /** A sentence whose head starts and whose notes end with a visible character is trimmed. */
  lemma SentenceTrimmed(head: string, location: string, notes: string)
    requires head != [] && !IsWhitespace(head[0])
    requires notes == [] || !IsWhitespace(notes[|notes| - 1])
    ensures Sentence(head, location, notes) != [] && Trimmed(Sentence(head, location, notes))
  {
    var r := Sentence(head, location, notes);
    assert r[0] == head[0];
    if notes != [] {
      assert r[|r| - 1] == notes[|notes| - 1];
    } else {
      assert r[|r| - 1] == '.';
    }
  }

  /** The generated description: the head, where the company is, and the notes. */
  function Sentence(head: string, location: string, notes: string): (r: string)
    ensures StartsWith(r, head)
  {
    var rest := if location == [] then " location pending." + notes else " located in " + location + "." + notes;
    assert (head + rest)[..|head|] == head;
    head + rest
  }

  /** The status words shown as active and as inactive. */
  predicate IsActiveWord(w: string) { w == "ACTIVE" || w == "ONLINE" }
  predicate IsInactiveWord(w: string) { w == "INACTIVE" || w == "OFFLINE" }

  /**
   * `getTooltipStatusClass`: "status-active" for a missing status and for ACTIVE or
   * ONLINE in any case, "status-inactive" for INACTIVE or OFFLINE, and otherwise
   * the lower-cased status with its whitespace runs turned into dashes.
   */
  function TooltipStatusClass(status: Option<string>): (r: string)
    ensures StartsWith(r, "status-")
    ensures !Filled(status) ==> r == "status-active"
    ensures Filled(status) && IsActiveWord(Trim(ToUpper(status.value))) ==> r == "status-active"
    ensures Filled(status) && IsInactiveWord(Trim(ToUpper(status.value))) ==> r == "status-inactive"
  {
    if !Filled(status) then "status-active" else StatusClassOfWord(Trim(ToUpper(status.value)))
  }

  /** The class of a trimmed, upper-cased status word. */
  function StatusClassOfWord(s: string): (r: string)
    ensures StartsWith(r, "status-")
    ensures IsActiveWord(s) ==> r == "status-active"
    ensures IsInactiveWord(s) ==> r == "status-inactive"
  {
    if IsActiveWord(s) then "status-active"
    else if IsInactiveWord(s) then "status-inactive"
    else
      var r := "status-" + ReplaceWhitespaceRuns(ToLower(s), "-");
      assert r[..7] == "status-";
      r
  }

  /** The class of a status depends only on its upper-cased form. */
  lemma TooltipClassOfUpper(a: string, b: string)
    requires ToUpper(a) == ToUpper(b)
    ensures TooltipStatusClass(Some(a)) == TooltipStatusClass(Some(b))
  {
    assert |a| == |ToUpper(a)|;
  }

  /** The class of a status does not depend on its letter case. */
  lemma TooltipClassIgnoresCase(s: string)
    ensures TooltipStatusClass(Some(ToUpper(s))) == TooltipStatusClass(Some(s))
    ensures TooltipStatusClass(Some(ToLower(s))) == TooltipStatusClass(Some(s))
  {
    UpperOfUpper(s);
    TooltipClassOfUpper(ToUpper(s), s);
    UpperOfLower(s);
    TooltipClassOfUpper(ToLower(s), s);
  }

  // ------------------------------------------------------------------- logos

  /** The image shown when no logo candidate loads. */
  const LogoFallbackPath: string := "/assets/images/svgs/user.svg"

  /** A source used as it is: a data or blob URL, an absolute URL, or a rooted or relative path. */
  predicate IsDirectSource(t: string)
  {
    StartsWith(t, "data:") || StartsWith(t, "blob:")
    || StartsWith(t, "http://") || StartsWith(t, "https://")
    || StartsWith(t, "/") || StartsWith(t, "./") || StartsWith(t, "../")
  }

  predicate EndsWith(s: string, suffix: string)
  {
    |suffix| <= |s| && s[|s| - |suffix|..] == suffix
  }

  /**
   * `getLogoImagePaths`: nothing for a blank source, the trimmed source alone when
   * it is a direct source, and otherwise four candidates under the images folder,
   * the first of them under the base URL.
   */
  function LogoImagePaths(logoSource: string, baseUrl: string): (r: seq<string>)
    ensures Trim(logoSource) == [] <==> r == []
    ensures Trim(logoSource) != [] && IsDirectSource(Trim(logoSource)) ==> r == [Trim(logoSource)]
    ensures Trim(logoSource) != [] && !IsDirectSource(Trim(logoSource)) ==>
              |r| == 4 && StartsWith(r[0], baseUrl)
              && forall k :: 0 <= k < |r| ==> EndsWith(r[k], "assets/images/" + Trim(logoSource))
    ensures forall k :: 0 <= k < |r| ==> r[k] != []
  {
    var trimmed := Trim(logoSource);
    if trimmed == [] then []
    else if IsDirectSource(trimmed) then [trimmed]
    else Candidates(baseUrl, trimmed)
  }

  /** The four places a bare logo file name is looked for. */
  function Candidates(baseUrl: string, name: string): (r: seq<string>)
    ensures |r| == 4 && StartsWith(r[0], baseUrl)
    ensures forall k :: 0 <= k < |r| ==> EndsWith(r[k], "assets/images/" + name) && r[k] != []
  {
    var tail := "assets/images/" + name;
    Suffix(baseUrl + "/", tail);
    Suffix("/", tail);
    Suffix("./", tail);
    Suffix([], tail);
    assert (baseUrl + "/" + tail)[..|baseUrl|] == baseUrl;
    [baseUrl + "/" + tail, "/" + tail, "./" + tail, tail]
  }

  lemma Suffix(a: string, b: string)
    ensures EndsWith(a + b, b)
  {
    assert (a + b)[|a|..] == b;
  }

  /** The first of `paths` that has not failed, from position `from` on. */
  predicate FirstUnfailedFrom(paths: seq<string>, failures: set<string>, from: nat, i: nat)
  {
    from <= i < |paths| && paths[i] !in failures
    && forall j :: from <= j < i ==> paths[j] in failures
  }

  /** Every one of `paths` from position `from` on has failed. */
  predicate AllFailedFrom(paths: seq<string>, failures: set<string>, from: nat)
  {
    forall j :: from <= j < |paths| ==> paths[j] in failures
  }

  /**
   * `getPreferredLogoPath`: the first candidate that has not failed, or the
   * fallback when every one has; missing failures count as none.
   */
  function PreferredLogoPath(logoSource: string, baseUrl: string, failures: Option<set<string>>): (r: string)
    ensures var paths := LogoImagePaths(logoSource, baseUrl);
            (exists i: nat :: FirstUnfailedFrom(paths, failures.GetOr({}), 0, i) && r == paths[i])
            || (AllFailedFrom(paths, failures.GetOr({}), 0) && r == LogoFallbackPath)
  {
    var paths := LogoImagePaths(logoSource, baseUrl);
    FirstUnfailed(paths, failures.GetOr({}), 0)
  }

  /** The first unfailed path from position `from` on, else the fallback. */
  function FirstUnfailed(paths: seq<string>, failures: set<string>, from: nat): (r: string)
    ensures (exists i: nat :: FirstUnfailedFrom(paths, failures, from, i) && r == paths[i])
            || (AllFailedFrom(paths, failures, from) && r == LogoFallbackPath)
    decreases |paths| - from
  {
    if from >= |paths| then LogoFallbackPath
    else if paths[from] !in failures then
      assert FirstUnfailedFrom(paths, failures, from, from);
      paths[from]
    else
      var r := FirstUnfailed(paths, failures, from + 1);
      if AllFailedFrom(paths, failures, from + 1) then
        assert AllFailedFrom(paths, failures, from);
        r
      else
        var i: nat :| FirstUnfailedFrom(paths, failures, from + 1, i) && r == paths[i];
        assert FirstUnfailedFrom(paths, failures, from, i);
        r
  }

  /**
   * `getNextLogoPath`: the first candidate after position `currentIndex` that has
   * not failed, or the fallback. A `currentIndex` of -2 or less makes the loop read
   * before the start of the list, where it finds `undefined` and returns it: that
   * case is `None`.
   */
  method NextLogoPath(logoSource: string, baseUrl: string, currentIndex: int, failures: Option<set<string>>)
    returns (r: Option<string>)
    ensures currentIndex <= -2 <==> r.None?
    ensures currentIndex >= -1 ==>
              var paths := LogoImagePaths(logoSource, baseUrl);
              var from := currentIndex + 1;
              (exists i: nat :: FirstUnfailedFrom(paths, failures.GetOr({}), from, i) && r == Some(paths[i]))
              || (AllFailedFrom(paths, failures.GetOr({}), from) && r == Some(LogoFallbackPath))
  {
    var paths := LogoImagePaths(logoSource, baseUrl);
    var failureSet := failures.GetOr({});
    if currentIndex + 1 < 0 {
      return None;
    }
    var i: nat := currentIndex + 1;
    while i < |paths|
      invariant currentIndex + 1 <= i
      invariant forall j :: currentIndex + 1 <= j < i && j < |paths| ==> paths[j] in failureSet
      decreases |paths| - i
    {
      if paths[i] !in failureSet {
        assert FirstUnfailedFrom(paths, failureSet, currentIndex + 1, i);
        return Some(paths[i]);
      }
      i := i + 1;
    }
    return Some(LogoFallbackPath);
  }

  /** Positions that have all failed are skipped over. */
  lemma {:induction false} SkipFailed(paths: seq<string>, failures: set<string>, from: nat, to: nat)
    requires from <= to && forall j :: from <= j < to && j < |paths| ==> paths[j] in failures
    ensures FirstUnfailed(paths, failures, from) == FirstUnfailed(paths, failures, to)
    decreases if from <= to then to - from else 0
  {
    if from < to && from < |paths| {
      SkipFailed(paths, failures, from + 1, to);
    } else if from < to {
      SkipPastEnd(paths, failures, from, to);
    }
  }

  lemma SkipPastEnd(paths: seq<string>, failures: set<string>, from: nat, to: nat)
    requires |paths| <= from <= to
    ensures FirstUnfailed(paths, failures, from) == FirstUnfailed(paths, failures, to)
  {
  }

  /**
   * Once the preferred path has failed too, the preferred path is the first
   * unfailed one after it.
   */
  lemma PreferredAfterFailure(logoSource: string, baseUrl: string, failures: set<string>, i: nat)
    requires FirstUnfailedFrom(LogoImagePaths(logoSource, baseUrl), failures, 0, i)
    ensures var paths := LogoImagePaths(logoSource, baseUrl);
            PreferredLogoPath(logoSource, baseUrl, Some(failures)) == paths[i]
            && PreferredLogoPath(logoSource, baseUrl, Some(failures + {paths[i]}))
               == FirstUnfailed(paths, failures + {paths[i]}, i + 1)
  {
    FailingFirstAdvances(LogoImagePaths(logoSource, baseUrl), failures, i);
  }

  lemma FailingFirstAdvances(paths: seq<string>, failures: set<string>, i: nat)
    requires FirstUnfailedFrom(paths, failures, 0, i)
    ensures FirstUnfailed(paths, failures, 0) == paths[i]
    ensures FirstUnfailed(paths, failures + {paths[i]}, 0) == FirstUnfailed(paths, failures + {paths[i]}, i + 1)
  {
    SkipFailed(paths, failures, 0, i);
    FailedPrefixGrows(paths, failures, i);
  }

  lemma FailedPrefixGrows(paths: seq<string>, failures: set<string>, i: nat)
    requires FirstUnfailedFrom(paths, failures, 0, i)
    ensures FirstUnfailed(paths, failures + {paths[i]}, 0) == FirstUnfailed(paths, failures + {paths[i]}, i + 1)
  {
    var g := failures + {paths[i]};
    assert forall j :: 0 <= j < i + 1 && j < |paths| ==> paths[j] in g;
    SkipFailed(paths, g, 0, i + 1);
  }
}

=== FILE: map_math.dfy ===
/**
 * `WarRoomMapMathService`
 * (src/app/shared/features/war-room/components/war-room-map/services/war-room-map-math.service.ts):
 * reading an SVG view box, the zoom factor it stands for, the tooltip placement
 * beside a marker, and the guard of the curved route path.
 */
module MapMath {
  import opened Wrappers
  import opened Text

  /** `ViewBoxMetrics`. */
  datatype ViewBox = ViewBox(x: real, y: real, width: real, height: real)

  const BaseWidth: real := 950.0
  const BaseHeight: real := 550.0

  /** The view box used when none can be read: the whole base map. */
  const DefaultViewBox: ViewBox := ViewBox(0.0, 0.0, BaseWidth, BaseHeight)

  /**
   * The numbers of the space-separated parts, when every part reads as a finite
   * number under `toNumber` (JavaScript's `Number`, which is not modelled and is a
   * parameter here: it answers `None` for NaN and the infinities).
   */
  function ReadNumbers(parts: seq<string>, toNumber: string -> Option<real>): (r: Option<seq<real>>)
    ensures r.Some? <==> forall k :: 0 <= k < |parts| ==> toNumber(parts[k]).Some?
    ensures r.Some? ==> |r.value| == |parts| && forall k :: 0 <= k < |parts| ==> r.value[k] == toNumber(parts[k]).value
  {
    if parts == [] then Some([])
    else
      match (toNumber(parts[0]), ReadNumbers(parts[1..], toNumber))
      case (Some(v), Some(rest)) =>
        assert forall k :: 1 <= k < |parts| ==> parts[k] == parts[1..][k - 1];
        Some([v] + rest)
      case (None, _) => None
      case (_, None) =>
        assert forall k :: 1 <= k < |parts| ==> parts[k] == parts[1..][k - 1];
        None
  }

  /**
   * `parseViewBox`: the four numbers of the attribute, or the base view box when
   * the attribute is missing or empty, or does not hold exactly four finite numbers.
   */
  function ParseViewBox(viewBox: Option<string>, toNumber: string -> Option<real>): (r: ViewBox)
    ensures !Filled(viewBox) ==> r == DefaultViewBox
    ensures Filled(viewBox) ==>
              var parts := Split(viewBox.value, ' ');
              if |parts| == 4 && forall k :: 0 <= k < 4 ==> toNumber(parts[k]).Some? then
                r == ViewBox(toNumber(parts[0]).value, toNumber(parts[1]).value,
                             toNumber(parts[2]).value, toNumber(parts[3]).value)
              else r == DefaultViewBox
  {
    if !Filled(viewBox) then DefaultViewBox
    else
      var numbers := ReadNumbers(Split(viewBox.value, ' '), toNumber);
      if numbers.Some? && |numbers.value| == 4 then
        ViewBox(numbers.value[0], numbers.value[1], numbers.value[2], numbers.value[3])
      else DefaultViewBox
  }

  /** Four finite numbers written without spaces and joined by single spaces read back as written. */
  lemma ParseViewBoxRoundTrip(parts: seq<string>, toNumber: string -> Option<real>)
    requires |parts| == 4
    requires forall k :: 0 <= k < 4 ==> ' ' !in parts[k] && toNumber(parts[k]).Some?
    ensures ParseViewBox(Some(Join(parts, " ")), toNumber)
            == ViewBox(toNumber(parts[0]).value, toNumber(parts[1]).value, toNumber(parts[2]).value, toNumber(parts[3]).value)
  {
    JoinSplit(parts, ' ');
    JoinNotEmpty(parts, " ");
    ParseOfFourParts(Join(parts, " "), parts, toNumber);
  }

  lemma JoinNotEmpty(parts: seq<string>, sep: string)
    requires |parts| >= 2 && sep != []
    ensures Join(parts, sep) != []
  {
  }

  lemma ParseOfFourParts(text: string, parts: seq<string>, toNumber: string -> Option<real>)
    requires text != [] && Split(text, ' ') == parts && |parts| == 4
    requires forall k :: 0 <= k < 4 ==> toNumber(parts[k]).Some?
    ensures ParseViewBox(Some(text), toNumber)
            == ViewBox(toNumber(parts[0]).value, toNumber(parts[1]).value, toNumber(parts[2]).value, toNumber(parts[3]).value)
  {
  }

  /**
   * `getZoomFactor`: the mean of how many times the view box fits into the base
   * width and base height, clamped into [0.1, 10]. A zero width or height divides
   * the base by zero, which JavaScript makes infinite, and so gives 10.
   */
  function ZoomFactor(vb: ViewBox): (r: real)
    ensures 0.1 <= r <= 10.0
    ensures vb.width == 0.0 || vb.height == 0.0 ==> r == 10.0
  {
    if vb.width == 0.0 || vb.height == 0.0 then 10.0
    else
      var zoom := (BaseWidth / vb.width + BaseHeight / vb.height) / 2.0;
      if zoom < 0.1 then 0.1 else if zoom > 10.0 then 10.0 else zoom
  }

  /** The base view box is zoom 1. */
  lemma BaseZoomIsOne()
    ensures ZoomFactor(DefaultViewBox) == 1.0
  {
  }

  /** A smaller view box (zooming in) never gives a smaller zoom factor. */
  lemma ZoomFactorGrowsInward(a: ViewBox, b: ViewBox)
    requires 0.0 < b.width <= a.width && 0.0 < b.height <= a.height
    ensures ZoomFactor(a) <= ZoomFactor(b)
  {
    ShareShrinks(BaseWidth, a.width, b.width);
    ShareShrinks(BaseHeight, a.height, b.height);
  }

  lemma ShareShrinks(base: real, big: real, small: real)
    requires base > 0.0 && 0.0 < small <= big
    ensures base / big <= base / small
  {
  }

  // -------------------------------------------------------------- tooltip

  datatype Bounds = Bounds(left: real, right: real, top: real, bottom: real)
  datatype Anchor = Anchor(left: real, top: real, width: real, height: real)
  datatype Size = Size(width: real, height: real)

  /** `TooltipPosition`: the tooltip's centre-left, its top, and whether it sits below the anchor. */
  datatype TooltipPosition = TooltipPosition(top: real, left: real, flipped: bool)

  const Spacing: real := 12.0

  /**
   * `computeTooltipPosition`: centred above the anchor, 12 pixels away; pushed back
   * inside the bounds on the right and then the left; put below the anchor when it
   * would stick out at the top; and lifted when it would stick out at the bottom.
   */
  function TooltipPlacement(anchor: Anchor, bounds: Bounds, size: Size): (r: TooltipPosition)
    ensures r.flipped <==> anchor.top - Spacing - size.height < bounds.top
    ensures r.top + size.height <= bounds.bottom
    ensures size.width <= bounds.right - bounds.left ==>
              bounds.left <= r.left - size.width / 2.0 && r.left + size.width / 2.0 <= bounds.right
    ensures r.left - size.width / 2.0 >= bounds.left
    ensures !r.flipped && anchor.top - Spacing + size.height <= bounds.bottom ==> r.top == anchor.top - Spacing
  {
    var centre := anchor.left + anchor.width / 2.0;
    var left1 := if centre + size.width / 2.0 > bounds.right then bounds.right - size.width / 2.0 else centre;
    var left := if left1 - size.width / 2.0 < bounds.left then bounds.left + size.width / 2.0 else left1;
    var above := anchor.top - Spacing;
    var flipped := above - size.height < bounds.top;
    var top1 := if flipped then anchor.top + anchor.height + Spacing else above;
    var top := if top1 + size.height > bounds.bottom then bounds.bottom - size.height else top1;
    TooltipPosition(top, left, flipped)
  }

  // ----------------------------------------------------------- curved path

  datatype Point = Point(x: real, y: real)

  /** The control point of a route's curve: halfway across, 50 above the higher end. */
  function ControlPoint(start: Point, end: Point): (r: Point)
    ensures r.y <= start.y - 50.0 && r.y <= end.y - 50.0
    ensures r.y == start.y - 50.0 || r.y == end.y - 50.0
    ensures r.x - start.x == end.x - r.x
  {
    Point((start.x + end.x) / 2.0, (if start.y < end.y then start.y else end.y) - 50.0)
  }

  /** The curve bends the same way whichever end it is drawn from. */
  lemma ControlPointSymmetric(a: Point, b: Point)
    ensures ControlPoint(a, b) == ControlPoint(b, a)
  {
  }

  /**
   * `createCurvedPath`: the SVG quadratic curve from `start` to `end`, with numbers
   * written by `show` (JavaScript's number formatting, a parameter here); the empty
   * string when either end is missing.
   */
  function CurvedPath(start: Option<Point>, end: Option<Point>, show: real -> string): (r: string)
    ensures r == [] <==> start.None? || end.None?
    ensures start.Some? && end.Some? ==> StartsWith(r, "M " + show(start.value.x) + " ")
  {
    if start.None? || end.None? then ""
    else
      var s, e := start.value, end.value;
      var c := ControlPoint(s, e);
      var head := "M " + show(s.x) + " ";
      var r := head + show(s.y) + " Q " + show(c.x) + " " + show(c.y) + " " + show(e.x) + " " + show(e.y);
      assert r[..|head|] == head;
      r
  }
}

=== FILE: pipeline_data.dfy ===
/**
 * The JSON documents the Python data scripts read and write: the manufacturer and
 * factory lists of `factories.json` and the per-row facility records of
 * `manufacturer-facilities.json`.
 */
module PipelineData {
  import opened Text

  /** A JSON scalar as the scripts see it; a missing dict key reads as `Null` (`dict.get`). */
  datatype Json = Null | Str(s: string) | Int(i: int)

  /** Python's `str(v)`, as used inside f-strings. */
  function PyStr(v: Json): (r: string)
    ensures v.Str? ==> r == v.s
    ensures v.Null? ==> r == "None"
  {
    match v
    case Null => "None"
    case Str(s) => s
    case Int(i) => IntToString(i)
  }

  /** Python truthiness of a scalar: `None`, `""` and `0` are false. */
  predicate Truthy(v: Json)
  {
    match v
    case Null => false
    case Str(s) => s != []
    case Int(i) => i != 0
  }

  datatype Manufacturer = Manufacturer(manufacturerId: int, manufacturerName: string)

  /**
   * One entry of the `factories` list. `fullAddress`, `facilityType` and `notes` are
   * only filled in by the consolidation step and are `Null` before it.
   */
  datatype Factory = Factory(
    factoryId: int,
    manufacturerId: Json,
    locationName: string,
    city: Json,
    stateProvince: Json,
    country: Json,
    fullAddress: Json,
    facilityType: Json,
    notes: Json)

  /** One facility record: the spreadsheet row's columns plus `manufacturer_id` and `factory_id`. */
  type FacilityRecord = map<string, Json>

  /**
   * `f"{head} ({company})"`, the location name both scripts give a factory: the
   * head, then the company in parentheses after a space.
   */
  function WithCompany(head: string, company: string): (r: string)
    ensures |r| == |head| + |company| + 3
    ensures r[..|head|] == head
    ensures r[|head|..] == " (" + company + ")"
  {
    var r := head + " (" + company + ")";
    assert r[..|head|] == head;
    assert r[|head|..] == " (" + company + ")";
    r
  }

  /** The company being fixed, a location name gives back its head. */
  lemma WithCompanyInjective(a: string, b: string, company: string)
    requires WithCompany(a, company) == WithCompany(b, company)
    ensures a == b
  {
    assert |a| == |b|;
    assert a == WithCompany(a, company)[..|a|];
  }

  /** `record.get(key)`. */
  function Field(record: FacilityRecord, key: string): Json
  {
    if key in record then record[key] else Null
  }
}

=== FILE: project_service.dfy ===
/**
 * The pure helpers of `ProjectService` (src/app/shared/services/project.service.ts):
 * API rows become `Project`s, filters narrow them, and the status counts, the filter
 * options with counts and the map routes are derived from a list of projects.
 * Fetching, caching and the mock fallback are not modelled.
 */
module ProjectService {
  import opened Wrappers
  import opened Text
  import Seqs
  import Sorting
  import WarRoomService
  import ClientService

  type Coordinates = WarRoomService.Coordinates
  type Client = ClientService.Client

  // -------------------------------------------------------------------- data

  /** `ProjectStatus`. */
  datatype ProjectStatus = Open | Closed | Delayed

  /** The status as the API spells it. */
  function StatusName(s: ProjectStatus): string
  {
    match s
    case Open => "Open"
    case Closed => "Closed"
    case Delayed => "Delayed"
  }

  /** A project id: the API sends numbers or strings. */
  datatype ProjectId = NumId(n: int) | StrId(s: string)

  /** `String(id)`; a missing id prints as `undefined`. */
  function IdString(id: Option<ProjectId>): string
  {
    match id
    case None => "undefined"
    case Some(NumId(n)) => IntToString(n)
    case Some(StrId(s)) => s
  }

  /** `ApiProject`: an API row, with both the snake_case and the camelCase spellings. */
  datatype ApiProject = ApiProject(
    id: Option<ProjectId>,
    project_id: Option<ProjectId>,
    projectName: Option<string>,
    project_name: Option<string>,
    client: Option<string>,
    clientId: Option<string>,
    assessmentType: Option<string>,
    assessment_type: Option<string>,
    location: Option<string>,
    status: Option<string>,
    manufacturer: Option<string>,
    manufacturerLocationId: Option<string>,
    manufacturer_id: Option<int>,
    factory_id: Option<int>)

  /** `ApiManufacturer`. */
  datatype ApiManufacturer = ApiManufacturer(manufacturer_id: int, manufacturer_name: string)

  /** `ApiFactory`, without the address and notes fields no helper reads. */
  datatype ApiFactory = ApiFactory(
    factory_id: int,
    manufacturer_id: int,
    factory_location_name: string,
    city: Option<string>,
    state_province: Option<string>,
    country: Option<string>)

  /** `Project`, without the optional asset totals and progress, which no helper reads. */
  datatype Project = Project(
    id: Option<ProjectId>,
    projectName: string,
    clientId: string,
    clientName: Option<string>,
    assessmentType: string,
    location: Option<string>,
    manufacturer: Option<string>,
    manufacturerLocationId: Option<string>,
    status: Option<ProjectStatus>)

  // --------------------------------------------------------- API row mapping

  /** `mapApiStatus`: exactly the three spellings of a status are recognised. */
  function MapApiStatus(apiStatus: Option<string>): (r: Option<ProjectStatus>)
    ensures r.Some? ==> apiStatus == Some(StatusName(r.value))
    ensures r.None? ==> forall s: ProjectStatus :: apiStatus != Some(StatusName(s))
  {
    if apiStatus == Some("Closed") then Some(Closed)
    else if apiStatus == Some("Delayed") then Some(Delayed)
    else if apiStatus == Some("Open") then Some(Open)
    else None
  }

  /** Every status survives being spelled out and read back. */
  lemma MapApiStatusRoundTrip(s: ProjectStatus)
    ensures MapApiStatus(Some(StatusName(s))) == Some(s)
  {
    assert StatusName(s)[0] == StatusName(s)[0];
  }

  /** The result of `normalizeApiProject`. */
  datatype NormalizedProject = NormalizedProject(
    id: Option<ProjectId>,
    projectName: string,
    client: Option<string>,
    assessmentType: string,
    status: Option<string>,
    manufacturerId: Option<int>,
    factoryId: Option<int>)

  /**
   * `normalizeApiProject`: a snake_case field wins over its camelCase twin, the
   * client name is trimmed, and missing names and types become empty.
   */
  function NormalizeApiProject(api: ApiProject): (r: NormalizedProject)
    ensures r.id == if api.project_id.Some? then api.project_id else api.id
    ensures api.project_name.Some? ==> r.projectName == api.project_name.value
    ensures api.project_name.None? ==> r.projectName == api.projectName.GetOr("")
    ensures api.assessment_type.Some? ==> r.assessmentType == api.assessment_type.value
    ensures api.assessment_type.None? ==> r.assessmentType == api.assessmentType.GetOr("")
    ensures r.client.Some? <==> api.client.Some?
    ensures r.client.Some? ==> r.client.value == Trim(api.client.value)
    ensures r.status == api.status && r.manufacturerId == api.manufacturer_id && r.factoryId == api.factory_id
  {
    NormalizedProject(
      if api.project_id.Some? then api.project_id else api.id,
      if api.project_name.Some? then api.project_name.value else api.projectName.GetOr(""),
      if api.client.Some? then Some(Trim(api.client.value)) else None,
      if api.assessment_type.Some? then api.assessment_type.value else api.assessmentType.GetOr(""),
      api.status,
      api.manufacturer_id,
      api.factory_id)
  }

  /** Once the snake_case fields are present, the camelCase ones no longer matter. */
  lemma NormalizeIgnoresCamelCase(api: ApiProject, id: Option<ProjectId>, name: Option<string>, kind: Option<string>)
    requires api.project_id.Some? && api.project_name.Some? && api.assessment_type.Some?
    ensures NormalizeApiProject(api.(id := id, projectName := name, assessmentType := kind))
            == NormalizeApiProject(api)
  {
  }

  /** The case-insensitive test `resolveClientId` applies to a client, given the lower-cased name. */
  predicate NamesClient(c: Client, lowered: string)
  {
    ToLower(c.code) == lowered || ToLower(c.name) == lowered
  }

  function NamingClient(lowered: string): Client -> bool
  {
    (c: Client) => NamesClient(c, lowered)
  }

  /**
   * `resolveClientId`: an explicit client id wins; otherwise the trimmed client
   * name picks the first client whose code or name matches it case-insensitively,
   * and failing that becomes a lower-case slug with `-` for every whitespace run.
   */
  function ResolveClientId(api: ApiProject, clients: seq<Client>): (r: Option<string>)
    ensures Filled(api.clientId) ==> r == api.clientId
    ensures !Filled(api.clientId) && (api.client.None? || Trim(api.client.value) == []) ==> r.None?
    ensures !Filled(api.clientId) && api.client.Some? && Trim(api.client.value) != [] ==>
              var lowered := ToLower(Trim(api.client.value));
              && r.Some?
              && ((exists i :: 0 <= i < |clients| && NamesClient(clients[i], lowered)
                     && r.value == clients[i].id
                     && forall j :: 0 <= j < i ==> !NamesClient(clients[j], lowered))
                  || ((forall i :: 0 <= i < |clients| ==> !NamesClient(clients[i], lowered))
                      && r.value == ReplaceWhitespaceRuns(lowered, "-")))
  {
    if Filled(api.clientId) then api.clientId
    else if api.client.None? || Trim(api.client.value) == [] then None
    else
      var lowered := ToLower(Trim(api.client.value));
      match Seqs.FindFirst(clients, NamingClient(lowered))
      case Some(i) => Some(clients[i].id)
      case None => Some(ReplaceWhitespaceRuns(lowered, "-"))
  }

  /** Client names that differ only in case and surrounding whitespace resolve alike. */
  lemma ResolveClientIdIgnoresCase(a: ApiProject, b: ApiProject, clients: seq<Client>)
    requires a.clientId == b.clientId && a.client.Some? && b.client.Some?
    requires ToLower(Trim(a.client.value)) == ToLower(Trim(b.client.value))
    ensures ResolveClientId(a, clients) == ResolveClientId(b, clients)
  {
    assert |Trim(a.client.value)| == |ToLower(Trim(a.client.value))|;
  }

  /** `FACTORY_ID_TO_WAR_ROOM`: the War Room factory ids of the API factories that have one. */
  function FactoryIdToWarRoom(factoryId: int): Option<string>
  {
    if factoryId == 1 then Some("nova-saint-eustache")
    else if factoryId == 2 then Some("new-flyer-crookston")
    else if factoryId == 3 then Some("new-flyer-winnipeg")
    else if factoryId == 4 then Some("new-flyer-anniston")
    else if factoryId == 7 then Some("tam-facility")
    else if factoryId == 100 then Some("eastway-pembroke")
    else None
  }

  /** `[city, state, country].filter(Boolean)`: the present, non-empty parts. */
  function PresentParts(parts: seq<Option<string>>): (r: seq<string>)
    ensures |r| <= |parts|
    ensures forall i :: 0 <= i < |r| ==> r[i] != []
    ensures r == [] <==> forall i :: 0 <= i < |parts| ==> !Filled(parts[i])
  {
    if parts == [] then []
    else (if Filled(parts[0]) then [parts[0].value] else []) + PresentParts(parts[1..])
  }

  /** The location title of an API factory: its address parts joined, or its name. */
  function FactoryLocation(f: ApiFactory): (r: string)
    ensures PresentParts([f.city, f.state_province, f.country]) == [] ==> r == f.factory_location_name
    ensures PresentParts([f.city, f.state_province, f.country]) != [] ==>
              r == Join(PresentParts([f.city, f.state_province, f.country]), ", ")
  {
    var parts := PresentParts([f.city, f.state_province, f.country]);
    if |parts| > 0 then Join(parts, ", ") else f.factory_location_name
  }

  /**
   * The address parts a factory has are joined with ", " in the order city, state,
   * country; the name is used only without any of them.
   */
  lemma FactoryLocationCases(f: ApiFactory)
    ensures Filled(f.city) && Filled(f.state_province) && Filled(f.country) ==>
              FactoryLocation(f) == f.city.value + ", " + f.state_province.value + ", " + f.country.value
    ensures Filled(f.city) && !Filled(f.state_province) && Filled(f.country) ==>
              FactoryLocation(f) == f.city.value + ", " + f.country.value
    ensures !Filled(f.city) && !Filled(f.state_province) && Filled(f.country) ==>
              FactoryLocation(f) == f.country.value
    ensures !Filled(f.city) && !Filled(f.state_province) && !Filled(f.country) ==>
              FactoryLocation(f) == f.factory_location_name
  {
    var parts := [f.city, f.state_province, f.country];
    assert parts[1..] == [f.state_province, f.country] && parts[1..][1..] == [f.country];
    assert parts[1..][1..][1..] == [];
    var present := PresentParts(parts);
    var last := PresentParts([f.country]);
    assert [f.country][1..] == [];
    assert last == PartIfFilled(f.country) + PresentParts([]);
    var tail := PresentParts([f.state_province, f.country]);
    assert tail == PartIfFilled(f.state_province) + last;
    assert present == PartIfFilled(f.city) + tail;
    if Filled(f.city) && Filled(f.state_province) && Filled(f.country) {
      var x, y, z := f.city.value, f.state_province.value, f.country.value;
      assert present == [x, y, z];
      assert [x, y, z][1..] == [y, z] && [y, z][1..] == [z];
      assert Join([y, z], ", ") == y + ", " + z;
    } else if Filled(f.city) && !Filled(f.state_province) && Filled(f.country) {
      var x, z := f.city.value, f.country.value;
      assert present == [x, z];
      assert [x, z][1..] == [z];
      assert Join([x, z], ", ") == x + ", " + Join([z], ", ");
    }
  }

  function PartIfFilled(part: Option<string>): seq<string>
  {
    if Filled(part) then [part.value] else []
  }

  function FactoryWithId(factoryId: int): ApiFactory -> bool
  {
    (f: ApiFactory) => f.factory_id == factoryId
  }

  function ManufacturerWithId(manufacturerId: int): ApiManufacturer -> bool
  {
    (m: ApiManufacturer) => m.manufacturer_id == manufacturerId
  }

  function ClientWithId(id: string): Client -> bool
  {
    (c: Client) => c.id == id
  }

  /** The War Room factory id of an API factory id: from the table, or the number itself. */
  function WarRoomFactoryId(factoryId: int): (r: string)
    ensures FactoryIdToWarRoom(factoryId).None? ==> r == IntToString(factoryId)
    ensures FactoryIdToWarRoom(factoryId).Some? ==> r == FactoryIdToWarRoom(factoryId).value
  {
    FactoryIdToWarRoom(factoryId).GetOr(IntToString(factoryId))
  }

  /** `k` is the position of the first factory with the id. */
  predicate FactoryFoundAt(factories: seq<ApiFactory>, factoryId: int, k: nat)
  {
    k < |factories| && factories[k].factory_id == factoryId
    && forall j :: 0 <= j < k ==> factories[j].factory_id != factoryId
  }

  /** `j` is the position of the first manufacturer with the id. */
  predicate ManufacturerFoundAt(manufacturers: seq<ApiManufacturer>, manufacturerId: int, j: nat)
  {
    j < |manufacturers| && manufacturers[j].manufacturer_id == manufacturerId
    && forall i :: 0 <= i < j ==> manufacturers[i].manufacturer_id != manufacturerId
  }

  /** The manufacturer, location and War Room factory id a project row points at. */
  datatype Placement = Placement(manufacturer: Option<string>, location: Option<string>, manufacturerLocationId: Option<string>)

  /**
   * With a `factory_id`, the factory and its manufacturer are looked up and the id
   * goes through the table; without one, the row's own fields are used.
   */
  function PlacementOf(api: ApiProject, manufacturers: seq<ApiManufacturer>, factories: seq<ApiFactory>): (r: Placement)
    ensures api.factory_id.Some? ==> r.manufacturerLocationId == Some(WarRoomFactoryId(api.factory_id.value))
    ensures api.factory_id.Some? && Seqs.FindFirst(factories, FactoryWithId(api.factory_id.value)).None? ==>
              r.manufacturer.None? && r.location.None?
    ensures api.factory_id.Some? && r.location.Some? ==>
              exists k :: 0 <= k < |factories| && FactoryFoundAt(factories, api.factory_id.value, k)
                && r.location == Some(FactoryLocation(factories[k]))
                && (r.manufacturer.Some? <==> exists j :: 0 <= j < |manufacturers| && manufacturers[j].manufacturer_id == factories[k].manufacturer_id)
                && (r.manufacturer.Some? ==> exists j :: 0 <= j < |manufacturers| && ManufacturerFoundAt(manufacturers, factories[k].manufacturer_id, j)
                                                && r.manufacturer.value == manufacturers[j].manufacturer_name)
    ensures api.factory_id.Some? && Seqs.FindFirst(factories, FactoryWithId(api.factory_id.value)).Some? ==> r.location.Some?
    ensures api.factory_id.None? ==>
              r == Placement(api.manufacturer, api.location, api.manufacturerLocationId)
  {
    match api.factory_id
    case None => Placement(api.manufacturer, api.location, api.manufacturerLocationId)
    case Some(factoryId) =>
      var mlid := Some(WarRoomFactoryId(factoryId));
      match Seqs.FindFirst(factories, FactoryWithId(factoryId))
      case None => Placement(None, None, mlid)
      case Some(k) =>
        var factory := factories[k];
        var manufacturer :=
          match Seqs.FindFirst(manufacturers, ManufacturerWithId(factory.manufacturer_id))
          case Some(m) => Some(manufacturers[m].manufacturer_name)
          case None => None;
        Placement(manufacturer, Some(FactoryLocation(factory)), mlid)
  }

  /**
   * `mapApiProjectToProject`: a row whose client cannot be resolved is dropped;
   * otherwise the project carries the resolved client id, a recognised status,
   * and a client name taken from the row, the client list, or the id.
   */
  function MapApiProjectToProject(
    api: ApiProject, clients: seq<Client>, manufacturers: seq<ApiManufacturer>, factories: seq<ApiFactory>
  ): (r: Option<Project>)
    ensures r.None? <==> !Filled(ResolveClientId(api, clients))
    ensures r.Some? ==>
              && r.value.clientId == ResolveClientId(api, clients).value
              && r.value.clientId != []
              && r.value.clientName.Some?
              && r.value.status == MapApiStatus(api.status)
              && r.value.id == NormalizeApiProject(api).id
              && r.value.projectName == NormalizeApiProject(api).projectName
              && r.value.assessmentType == NormalizeApiProject(api).assessmentType
    ensures r.Some? && api.client.Some? ==> r.value.clientName == Some(Trim(api.client.value))
    ensures r.Some? && api.client.None? && Seqs.FindFirst(clients, ClientWithId(r.value.clientId)).None? ==>
              r.value.clientName == Some(r.value.clientId)
    ensures r.Some? ==>
              && r.value.manufacturer == PlacementOf(api, manufacturers, factories).manufacturer
              && r.value.location == PlacementOf(api, manufacturers, factories).location
    ensures r.Some? && api.factory_id.Some? ==>
              r.value.manufacturerLocationId == Some(WarRoomFactoryId(api.factory_id.value))
    ensures r.Some? && api.factory_id.None? ==>
              && r.value.manufacturer == api.manufacturer
              && r.value.location == api.location
              && r.value.manufacturerLocationId == api.manufacturerLocationId
  {
    var norm := NormalizeApiProject(api);
    var clientId := ResolveClientId(api, clients);
    if !Filled(clientId) then None
    else
      var client := Seqs.FindFirst(clients, ClientWithId(clientId.value));
      var clientName :=
        if norm.client.Some? then norm.client.value
        else if client.Some? then clients[client.value].name
        else clientId.value;
      var placement := PlacementOf(api, manufacturers, factories);
      Some(Project(norm.id, norm.projectName, clientId.value, Some(clientName), norm.assessmentType,
                   placement.location, placement.manufacturer, placement.manufacturerLocationId,
                   MapApiStatus(norm.status)))
  }

  /**
   * The API row a project would be read from: camelCase fields only, the status
   * spelled out, and no factory id.
   */
  function ApiRowOf(p: Project): ApiProject
  {
    ApiProject(p.id, None, Some(p.projectName), None, p.clientName, Some(p.clientId),
               Some(p.assessmentType), None, p.location,
               if p.status.Some? then Some(StatusName(p.status.value)) else None,
               p.manufacturer, p.manufacturerLocationId, None, None)
  }

  /**
   * A project with a client id and a trimmed client name is read back unchanged from
   * its own API row, whatever the client, manufacturer and factory lists.
   */
  lemma MapApiProjectRoundTrip(p: Project, clients: seq<Client>, manufacturers: seq<ApiManufacturer>, factories: seq<ApiFactory>)
    requires p.clientId != [] && p.clientName.Some? && Trimmed(p.clientName.value)
    ensures MapApiProjectToProject(ApiRowOf(p), clients, manufacturers, factories) == Some(p)
  {
    TrimUntrimmed(p.clientName.value);
    if p.status.Some? {
      MapApiStatusRoundTrip(p.status.value);
    }
  }

  /** The table sends the six known API factories to their War Room ids, and no other. */
  lemma WarRoomFactoryIds(factoryId: int)
    ensures factoryId == 3 ==> WarRoomFactoryId(factoryId) == "new-flyer-winnipeg"
    ensures factoryId == 100 ==> WarRoomFactoryId(factoryId) == "eastway-pembroke"
    ensures factoryId !in {1, 2, 3, 4, 7, 100} ==> WarRoomFactoryId(factoryId) == IntToString(factoryId)
  {
  }

  // ----------------------------------------------------------------- filters

  /** `ProjectFilters`; an absent list is the empty list. */
  datatype ProjectFilters = ProjectFilters(
    clientId: Option<string>,
    projectType: Option<string>,
    manufacturer: Option<string>,
    manufacturerLocationId: Option<string>,
    status: Option<ProjectStatus>,
    projectStatuses: seq<ProjectStatus>,
    clientIds: seq<string>,
    manufacturerIds: seq<string>,
    projectTypeIds: seq<string>)

  function NoFilters(): ProjectFilters
  {
    ProjectFilters(None, None, None, None, None, [], [], [], [])
  }

  /** A single-value filter that is set and is not `'all'`. */
  predicate Selects(v: Option<string>)
  {
    Filled(v) && v.value != "all"
  }

  /** The client stage: a non-empty id list wins over a single id. */
  predicate ClientKeeps(ids: seq<string>, id: Option<string>, p: Project)
  {
    if |ids| > 0 then p.clientId in ids
    else Selects(id) ==> p.clientId == id.value
  }

  /** The factory stage. */
  predicate LocationKeeps(locationId: Option<string>, p: Project)
  {
    Filled(locationId) ==> p.manufacturerLocationId == locationId
  }

  /** The manufacturer stage: a non-empty list wins over a single manufacturer. */
  predicate ManufacturerKeeps(ids: seq<string>, manufacturer: Option<string>, p: Project)
  {
    if |ids| > 0 then Filled(p.manufacturer) && p.manufacturer.value in ids
    else Selects(manufacturer) ==> p.manufacturer == manufacturer
  }

  /** The assessment type stage: a non-empty list wins over a single type. */
  predicate TypeKeeps(ids: seq<string>, projectType: Option<string>, p: Project)
  {
    if |ids| > 0 then p.assessmentType != [] && p.assessmentType in ids
    else Selects(projectType) ==> p.assessmentType == projectType.value
  }

  /** The status stage: a non-empty list wins over a single status and drops projects without one. */
  predicate StatusKeeps(statuses: seq<ProjectStatus>, status: Option<ProjectStatus>, p: Project)
  {
    if |statuses| > 0 then p.status.Some? && p.status.value in statuses
    else status.Some? ==> p.status == status
  }

  /** The test of each of the five stages of `applyFilters`, in the order they run. */
  predicate StageKeeps(f: ProjectFilters, stage: nat, p: Project)
  {
    if stage == 0 then ClientKeeps(f.clientIds, f.clientId, p)
    else if stage == 1 then LocationKeeps(f.manufacturerLocationId, p)
    else if stage == 2 then ManufacturerKeeps(f.manufacturerIds, f.manufacturer, p)
    else if stage == 3 then TypeKeeps(f.projectTypeIds, f.projectType, p)
    else StatusKeeps(f.projectStatuses, f.status, p)
  }

  /** Whether a stage filters at all; an inactive stage keeps every project. */
  predicate StageActive(f: ProjectFilters, stage: nat)
  {
    if stage == 0 then |f.clientIds| > 0 || Selects(f.clientId)
    else if stage == 1 then Filled(f.manufacturerLocationId)
    else if stage == 2 then |f.manufacturerIds| > 0 || Selects(f.manufacturer)
    else if stage == 3 then |f.projectTypeIds| > 0 || Selects(f.projectType)
    else |f.projectStatuses| > 0 || f.status.Some?
  }

  function StageTest(f: ProjectFilters, stage: nat): Project -> bool
  {
    (p: Project) => StageKeeps(f, stage, p)
  }

  /** A project passes every stage: the reference meaning of `applyFilters`. */
  predicate Matches(f: ProjectFilters, p: Project)
  {
    && ClientKeeps(f.clientIds, f.clientId, p)
    && LocationKeeps(f.manufacturerLocationId, p)
    && ManufacturerKeeps(f.manufacturerIds, f.manufacturer, p)
    && TypeKeeps(f.projectTypeIds, f.projectType, p)
    && StatusKeeps(f.projectStatuses, f.status, p)
  }

  function Matching(f: ProjectFilters): Project -> bool
  {
    (p: Project) => Matches(f, p)
  }

  /** One stage: a `filter` when the stage is active, the list unchanged otherwise. */
  function Stage(projects: seq<Project>, f: ProjectFilters, stage: nat): (r: seq<Project>)
    ensures r == Seqs.Filter(projects, StageTest(f, stage))
  {
    if StageActive(f, stage) then Seqs.Filter(projects, StageTest(f, stage))
    else
      assert forall i :: 0 <= i < |projects| ==> StageTest(f, stage)(projects[i]);
      projects
  }

  /** Passing the first `n` stages. */
  predicate Passed(f: ProjectFilters, n: nat, p: Project)
  {
    n == 0 || (Passed(f, n - 1, p) && StageKeeps(f, n - 1, p))
  }

  function PassedStages(f: ProjectFilters, n: nat): Project -> bool
  {
    (p: Project) => Passed(f, n, p)
  }

  lemma StagesCompose(projects: seq<Project>, f: ProjectFilters, n: nat)
    ensures Seqs.Filter(Seqs.Filter(projects, PassedStages(f, n)), StageTest(f, n))
            == Seqs.Filter(projects, PassedStages(f, n + 1))
  {
    forall p: Project ensures PassedStages(f, n + 1)(p) == (PassedStages(f, n)(p) && StageTest(f, n)(p)) {
    }
    Seqs.FilterFilter(projects, PassedStages(f, n), StageTest(f, n), PassedStages(f, n + 1));
  }

  lemma StageStep(projects: seq<Project>, f: ProjectFilters, n: nat, m: nat, passed: seq<Project>)
    requires m == n + 1
    requires passed == Seqs.Filter(projects, PassedStages(f, n))
    ensures Stage(passed, f, n) == Seqs.Filter(projects, PassedStages(f, m))
  {
    StagesCompose(projects, f, n);
  }

  /** `applyFilters`: the five stages one after the other. */
  function ApplyFilters(projects: seq<Project>, f: ProjectFilters): (r: seq<Project>)
    ensures r == Seqs.Filter(projects, Matching(f))
  {
    var r := Stage(Stage(Stage(Stage(Stage(projects, f, 0), f, 1), f, 2), f, 3), f, 4);
    StagesMatch(projects, f);
    r
  }

  lemma StagesMatch(projects: seq<Project>, f: ProjectFilters)
    ensures Stage(Stage(Stage(Stage(Stage(projects, f, 0), f, 1), f, 2), f, 3), f, 4)
            == Seqs.Filter(projects, Matching(f))
  {
    assert forall i :: 0 <= i < |projects| ==> PassedStages(f, 0)(projects[i]);
    var s1 := Stage(projects, f, 0);
    StageStep(projects, f, 0, 1, projects);
    var s2 := Stage(s1, f, 1);
    StageStep(projects, f, 1, 2, s1);
    var s3 := Stage(s2, f, 2);
    StageStep(projects, f, 2, 3, s2);
    var s4 := Stage(s3, f, 3);
    StageStep(projects, f, 3, 4, s3);
    StageStep(projects, f, 4, 5, s4);
    PassingAllStages(f);
    Seqs.FilterExtensional(projects, PassedStages(f, 5), Matching(f));
  }

  lemma PassingAllStages(f: ProjectFilters)
    ensures forall p: Project :: PassedStages(f, 5)(p) == Matching(f)(p)
  {
    forall p: Project ensures PassedStages(f, 5)(p) == Matching(f)(p) {
      assert Passed(f, 5, p) == (Passed(f, 4, p) && StageKeeps(f, 4, p));
      assert Passed(f, 4, p) == (Passed(f, 3, p) && StageKeeps(f, 3, p));
      assert Passed(f, 3, p) == (Passed(f, 2, p) && StageKeeps(f, 2, p));
      assert Passed(f, 2, p) == (Passed(f, 1, p) && StageKeeps(f, 1, p));
      assert Passed(f, 1, p) == StageKeeps(f, 0, p);
    }
  }

  /** Without filters every project is kept. */
  lemma NoFiltersKeepAll(projects: seq<Project>)
    ensures ApplyFilters(projects, NoFilters()) == projects
  {
    assert forall i :: 0 <= i < |projects| ==> Matching(NoFilters())(projects[i]);
  }

  /** Filtering twice by the same filters changes nothing more. */
  lemma ApplyFiltersIdempotent(projects: seq<Project>, f: ProjectFilters)
    ensures ApplyFilters(ApplyFilters(projects, f), f) == ApplyFilters(projects, f)
  {
    var r := ApplyFilters(projects, f);
    assert forall i :: 0 <= i < |r| ==> Matching(f)(r[i]);
  }

  /** A non-empty list filter makes the single-value filter of its stage irrelevant. */
  lemma ListFiltersTakePrecedence(projects: seq<Project>, f: ProjectFilters, v: Option<string>, s: Option<ProjectStatus>)
    ensures |f.clientIds| > 0 ==> ApplyFilters(projects, f.(clientId := v)) == ApplyFilters(projects, f)
    ensures |f.manufacturerIds| > 0 ==> ApplyFilters(projects, f.(manufacturer := v)) == ApplyFilters(projects, f)
    ensures |f.projectTypeIds| > 0 ==> ApplyFilters(projects, f.(projectType := v)) == ApplyFilters(projects, f)
    ensures |f.projectStatuses| > 0 ==> ApplyFilters(projects, f.(status := s)) == ApplyFilters(projects, f)
  {
    if |f.clientIds| > 0 {
      forall p: Project ensures Matching(f.(clientId := v))(p) == Matching(f)(p) {
      }
      Seqs.FilterExtensional(projects, Matching(f.(clientId := v)), Matching(f));
    }
    if |f.manufacturerIds| > 0 {
      forall p: Project ensures Matching(f.(manufacturer := v))(p) == Matching(f)(p) {
      }
      Seqs.FilterExtensional(projects, Matching(f.(manufacturer := v)), Matching(f));
    }
    if |f.projectTypeIds| > 0 {
      forall p: Project ensures Matching(f.(projectType := v))(p) == Matching(f)(p) {
      }
      Seqs.FilterExtensional(projects, Matching(f.(projectType := v)), Matching(f));
    }
    if |f.projectStatuses| > 0 {
      forall p: Project ensures Matching(f.(status := s))(p) == Matching(f)(p) {
      }
      Seqs.FilterExtensional(projects, Matching(f.(status := s)), Matching(f));
    }
  }

  // ------------------------------------------------------------------ counts

  /** `ProjectCounts`. */
  datatype ProjectCounts = ProjectCounts(total: nat, open: nat, closed: nat, delayed: nat)

  /** `(p.status ?? 'Open') === 'Open'`: a project without a status counts as open. */
  function OpenOrUnset(): Project -> bool
  {
    (p: Project) => p.status.GetOr(Open) == Open
  }

  function HasStatus(s: ProjectStatus): Project -> bool
  {
    (p: Project) => p.status == Some(s)
  }

  lemma {:induction false} StatusesPartition(projects: seq<Project>)
    ensures |Seqs.Filter(projects, OpenOrUnset())| + |Seqs.Filter(projects, HasStatus(Closed))|
            + |Seqs.Filter(projects, HasStatus(Delayed))| == |projects|
  {
    if projects != [] {
      StatusesPartition(projects[1..]);
    }
  }

  /** The counts of a list of projects: every project is open, closed or delayed. */
  function CountProjects(projects: seq<Project>): (r: ProjectCounts)
    ensures r.total == |projects|
    ensures r.open + r.closed + r.delayed == r.total
    ensures projects == [] ==> r == ProjectCounts(0, 0, 0, 0)
  {
    StatusesPartition(projects);
    ProjectCounts(
      |projects|,
      |Seqs.Filter(projects, OpenOrUnset())|,
      |Seqs.Filter(projects, HasStatus(Closed))|,
      |Seqs.Filter(projects, HasStatus(Delayed))|)
  }

  /** The counts one project adds: to `open` when its status is Open or missing. */
  function CountOf(p: Project): ProjectCounts
  {
    match p.status
    case None => ProjectCounts(1, 1, 0, 0)
    case Some(Open) => ProjectCounts(1, 1, 0, 0)
    case Some(Closed) => ProjectCounts(1, 0, 1, 0)
    case Some(Delayed) => ProjectCounts(1, 0, 0, 1)
  }

  function Plus(a: ProjectCounts, b: ProjectCounts): ProjectCounts
  {
    ProjectCounts(a.total + b.total, a.open + b.open, a.closed + b.closed, a.delayed + b.delayed)
  }

  /**
   * One more project raises the total and exactly one bucket by one: `open` for a
   * project whose status is Open or missing, else `closed` or `delayed`.
   */
  lemma CountProjectsAppend(projects: seq<Project>, p: Project)
    ensures CountProjects(projects + [p]) == Plus(CountProjects(projects), CountOf(p))
  {
    var s := projects + [p];
    assert s[..|s| - 1] == projects && s[|s| - 1] == p;
    Seqs.FilterLast(s, OpenOrUnset());
    Seqs.FilterLast(s, HasStatus(Closed));
    Seqs.FilterLast(s, HasStatus(Delayed));
  }

  function OfClient(id: string): Project -> bool
  {
    (p: Project) => p.clientId == id
  }

  /**
   * `getProjectCounts`: the counts over the projects of one client, or over all
   * projects when no client (or `'all'`) is given.
   */
  function GetProjectCounts(projects: seq<Project>, clientId: Option<string>): (r: ProjectCounts)
    ensures r.open + r.closed + r.delayed == r.total
    ensures !Selects(clientId) ==> r == CountProjects(projects)
    ensures Selects(clientId) ==> r == CountProjects(Seqs.Filter(projects, OfClient(clientId.value)))
  {
    ClientFiltersSelect(projects, clientId);
    CountProjects(ApplyFilters(projects, ClientFilters(clientId)))
  }

  /**
   * A project appended to the list changes a client's counts by its own counts when
   * it belongs to that client (or no client is chosen), and leaves them alone otherwise.
   */
  lemma GetProjectCountsAppend(projects: seq<Project>, clientId: Option<string>, p: Project)
    ensures !Selects(clientId) || p.clientId == clientId.value ==>
              GetProjectCounts(projects + [p], clientId) == Plus(GetProjectCounts(projects, clientId), CountOf(p))
    ensures Selects(clientId) && p.clientId != clientId.value ==>
              GetProjectCounts(projects + [p], clientId) == GetProjectCounts(projects, clientId)
  {
    if Selects(clientId) {
      var q := OfClient(clientId.value);
      Seqs.FilterAppend(projects, [p], q);
      assert [p][1..] == [];
      if q(p) {
        assert Seqs.Filter([p], q) == [p];
        CountProjectsAppend(Seqs.Filter(projects, q), p);
      } else {
        assert Seqs.Filter([p], q) == [];
        assert Seqs.Filter(projects, q) + [] == Seqs.Filter(projects, q);
      }
    } else {
      CountProjectsAppend(projects, p);
    }
  }

  /** `clientId ? { clientId } : {}`. */
  function ClientFilters(clientId: Option<string>): ProjectFilters
  {
    if Filled(clientId) then NoFilters().(clientId := clientId) else NoFilters()
  }

  lemma ClientFiltersSelect(projects: seq<Project>, clientId: Option<string>)
    ensures !Selects(clientId) ==> ApplyFilters(projects, ClientFilters(clientId)) == projects
    ensures Selects(clientId) ==>
              ApplyFilters(projects, ClientFilters(clientId)) == Seqs.Filter(projects, OfClient(clientId.value))
  {
    var f := ClientFilters(clientId);
    if Selects(clientId) {
      forall p: Project ensures Matching(f)(p) == OfClient(clientId.value)(p) {
      }
      Seqs.FilterExtensional(projects, Matching(f), OfClient(clientId.value));
    } else {
      assert forall i :: 0 <= i < |projects| ==> Matching(f)(projects[i]);
    }
  }

  // ------------------------------------------------------ options with counts

  /** `FilterOptionWithCount`. */
  datatype OptionCount = OptionCount(id: string, name: string, count: nat)

  /** One project's contribution to an option list: its key and the name to show. */
  type Entry = (string, string)

  function OptionHasId(id: string): OptionCount -> bool
  {
    (o: OptionCount) => o.id == id
  }

  function OptionName(): OptionCount -> string
  {
    (o: OptionCount) => o.name
  }

  function OptionId(): OptionCount -> string
  {
    (o: OptionCount) => o.id
  }

  /** How many entries carry `id`. */
  function Count(entries: seq<Entry>, id: string): nat
  {
    if entries == [] then 0
    else Count(entries[..|entries| - 1], id) + if entries[|entries| - 1].0 == id then 1 else 0
  }

  /** Whether an option list has an option for `id`. */
  predicate HasOption(t: seq<OptionCount>, id: string)
  {
    Seqs.FindFirst(t, OptionHasId(id)).Some?
  }

  lemma HasOptionAt(t: seq<OptionCount>, id: string, k: nat)
    requires k < |t| && t[k].id == id
    ensures HasOption(t, id)
  {
    assert OptionHasId(id)(t[k]);
  }

  predicate DistinctIds(t: seq<OptionCount>)
  {
    forall i, j :: 0 <= i < j < |t| ==> t[i].id != t[j].id
  }

  /** The sum of the counts. */
  function Total(t: seq<OptionCount>): nat
  {
    if t == [] then 0 else Total(t[..|t| - 1]) + t[|t| - 1].count
  }

  /** The name of the first entry for `id`. */
  function FirstName(entries: seq<Entry>, id: string): Option<string>
  {
    if entries == [] then None
    else
      var earlier := FirstName(entries[..|entries| - 1], id);
      var e := entries[|entries| - 1];
      if earlier.Some? then earlier else if e.0 == id then Some(e.1) else None
  }

  /** Each option counts the entries with its key. */
  predicate CountsEntries(t: seq<OptionCount>, entries: seq<Entry>)
  {
    forall k :: 0 <= k < |t| ==> t[k].count == Count(entries, t[k].id)
  }

  /** Each option is named after the first entry with its key. */
  predicate NamedByFirst(t: seq<OptionCount>, entries: seq<Entry>)
  {
    forall k :: 0 <= k < |t| ==> FirstName(entries, t[k].id) == Some(t[k].name)
  }

  /** Every entry's key has an option. */
  predicate CoversEntries(t: seq<OptionCount>, entries: seq<Entry>)
  {
    forall i :: 0 <= i < |entries| ==> HasOption(t, entries[i].0)
  }

  /**
   * `t` is what the `Map` of the options methods holds after `entries`: one option
   * per key, named after its first entry and counting all of them.
   */
  predicate TallyOf(t: seq<OptionCount>, entries: seq<Entry>)
  {
    && DistinctIds(t)
    && CountsEntries(t, entries)
    && NamedByFirst(t, entries)
    && CoversEntries(t, entries)
    && Total(t) == |entries|
  }

  /** Count one more entry: a known key counts once more, a new one is appended. */
  function Bump(t: seq<OptionCount>, e: Entry): seq<OptionCount>
  {
    match Seqs.FindFirst(t, OptionHasId(e.0))
    case Some(k) => t[k := t[k].(count := t[k].count + 1)]
    case None => t + [OptionCount(e.0, e.1, 1)]
  }

  lemma CountAppend(entries: seq<Entry>, e: Entry, id: string)
    ensures Count(entries + [e], id) == Count(entries, id) + if e.0 == id then 1 else 0
  {
    assert (entries + [e])[..|entries|] == entries;
  }

  lemma FirstNameAppend(entries: seq<Entry>, e: Entry, id: string)
    ensures FirstName(entries + [e], id)
            == if FirstName(entries, id).Some? then FirstName(entries, id) else if e.0 == id then Some(e.1) else None
  {
    assert (entries + [e])[..|entries|] == entries;
  }

  /** An id no entry carries is counted zero times and has no name. */
  lemma {:induction false} AbsentKey(entries: seq<Entry>, id: string)
    requires forall i :: 0 <= i < |entries| ==> entries[i].0 != id
    ensures Count(entries, id) == 0 && FirstName(entries, id).None?
  {
    if entries != [] {
      AbsentKey(entries[..|entries| - 1], id);
    }
  }

  /** A counted or named id is carried by some entry. */
  lemma {:induction false} PresentKey(entries: seq<Entry>, id: string)
    requires Count(entries, id) > 0 || FirstName(entries, id).Some?
    ensures exists i :: 0 <= i < |entries| && entries[i].0 == id
  {
    var prefix := entries[..|entries| - 1];
    if entries[|entries| - 1].0 != id {
      PresentKey(prefix, id);
      var i :| 0 <= i < |prefix| && prefix[i].0 == id;
      assert entries[i] == prefix[i];
    }
  }

  /** An id some entry carries is counted. */
  lemma {:induction false} CountPositive(entries: seq<Entry>, id: string, i: nat)
    requires i < |entries| && entries[i].0 == id
    ensures Count(entries, id) > 0
  {
    if i < |entries| - 1 {
      var prefix := entries[..|entries| - 1];
      assert prefix[i] == entries[i];
      CountPositive(prefix, id, i);
    }
  }

  /** The first name is the name of some entry with the id. */
  lemma {:induction false} TotalBumped(t: seq<OptionCount>, k: nat)
    requires k < |t|
    ensures Total(t[k := t[k].(count := t[k].count + 1)]) == Total(t) + 1
  {
    var u := t[k := t[k].(count := t[k].count + 1)];
    if k < |t| - 1 {
      assert u[..|u| - 1] == t[..|t| - 1][k := t[k].(count := t[k].count + 1)];
      TotalBumped(t[..|t| - 1], k);
    } else {
      assert u[..|u| - 1] == t[..|t| - 1];
    }
  }

  lemma KnownCounts(t: seq<OptionCount>, entries: seq<Entry>, e: Entry, k: nat)
    requires DistinctIds(t) && CountsEntries(t, entries)
    requires k < |t| && t[k].id == e.0
    ensures CountsEntries(t[k := t[k].(count := t[k].count + 1)], entries + [e])
  {
    var u := t[k := t[k].(count := t[k].count + 1)];
    forall j | 0 <= j < |u| ensures u[j].count == Count(entries + [e], u[j].id) {
      CountAppend(entries, e, u[j].id);
    }
  }

  lemma KnownNames(t: seq<OptionCount>, entries: seq<Entry>, e: Entry, k: nat)
    requires NamedByFirst(t, entries)
    requires k < |t|
    ensures NamedByFirst(t[k := t[k].(count := t[k].count + 1)], entries + [e])
  {
    var u := t[k := t[k].(count := t[k].count + 1)];
    forall j | 0 <= j < |u| ensures FirstName(entries + [e], u[j].id) == Some(u[j].name) {
      FirstNameAppend(entries, e, u[j].id);
    }
  }

  lemma KnownCovers(t: seq<OptionCount>, entries: seq<Entry>, e: Entry, k: nat)
    requires CoversEntries(t, entries)
    requires k < |t| && t[k].id == e.0
    ensures CoversEntries(t[k := t[k].(count := t[k].count + 1)], entries + [e])
  {
    var es := entries + [e];
    var u := t[k := t[k].(count := t[k].count + 1)];
    forall i | 0 <= i < |es| ensures HasOption(u, es[i].0) {
      if i < |entries| {
        assert es[i] == entries[i];
        var j := Seqs.FindFirst(t, OptionHasId(entries[i].0)).value;
        HasOptionAt(u, es[i].0, j);
      } else {
        HasOptionAt(u, e.0, k);
      }
    }
  }

  lemma BumpKnown(t: seq<OptionCount>, entries: seq<Entry>, e: Entry, k: nat)
    requires TallyOf(t, entries)
    requires Seqs.FindFirst(t, OptionHasId(e.0)) == Some(k)
    ensures TallyOf(t[k := t[k].(count := t[k].count + 1)], entries + [e])
  {
    KnownCounts(t, entries, e, k);
    KnownNames(t, entries, e, k);
    KnownCovers(t, entries, e, k);
    TotalBumped(t, k);
  }

  lemma NewCounts(t: seq<OptionCount>, entries: seq<Entry>, e: Entry)
    requires CountsEntries(t, entries)
    requires Seqs.FindFirst(t, OptionHasId(e.0)).None?
    requires Count(entries, e.0) == 0
    ensures CountsEntries(t + [OptionCount(e.0, e.1, 1)], entries + [e])
  {
    var u := t + [OptionCount(e.0, e.1, 1)];
    forall j | 0 <= j < |u| ensures u[j].count == Count(entries + [e], u[j].id) {
      CountAppend(entries, e, u[j].id);
    }
  }

  lemma NewNames(t: seq<OptionCount>, entries: seq<Entry>, e: Entry)
    requires NamedByFirst(t, entries)
    requires FirstName(entries, e.0).None?
    ensures NamedByFirst(t + [OptionCount(e.0, e.1, 1)], entries + [e])
  {
    var u := t + [OptionCount(e.0, e.1, 1)];
    forall j | 0 <= j < |u| ensures FirstName(entries + [e], u[j].id) == Some(u[j].name) {
      FirstNameAppend(entries, e, u[j].id);
    }
  }

  lemma NewCovers(t: seq<OptionCount>, entries: seq<Entry>, e: Entry)
    requires CoversEntries(t, entries)
    ensures CoversEntries(t + [OptionCount(e.0, e.1, 1)], entries + [e])
  {
    var es := entries + [e];
    var u := t + [OptionCount(e.0, e.1, 1)];
    forall i | 0 <= i < |es| ensures HasOption(u, es[i].0) {
      if i < |entries| {
        assert es[i] == entries[i];
        var j := Seqs.FindFirst(t, OptionHasId(entries[i].0)).value;
        HasOptionAt(u, es[i].0, j);
      } else {
        HasOptionAt(u, e.0, |t|);
      }
    }
  }

  /** A key without an option has no entries. */
  lemma UnseenKey(t: seq<OptionCount>, entries: seq<Entry>, id: string)
    requires CoversEntries(t, entries)
    requires Seqs.FindFirst(t, OptionHasId(id)).None?
    ensures Count(entries, id) == 0 && FirstName(entries, id).None?
  {
    forall i | 0 <= i < |entries| ensures entries[i].0 != id {
      assert HasOption(t, entries[i].0);
    }
    AbsentKey(entries, id);
  }

  lemma BumpNew(t: seq<OptionCount>, entries: seq<Entry>, e: Entry)
    requires TallyOf(t, entries)
    requires Seqs.FindFirst(t, OptionHasId(e.0)).None?
    ensures TallyOf(t + [OptionCount(e.0, e.1, 1)], entries + [e])
  {
    var u := t + [OptionCount(e.0, e.1, 1)];
    NewDistinct(t, e);
    UnseenKey(t, entries, e.0);
    NewCounts(t, entries, e);
    NewNames(t, entries, e);
    NewCovers(t, entries, e);
    assert u[..|u| - 1] == t;
  }

  lemma NewDistinct(t: seq<OptionCount>, e: Entry)
    requires DistinctIds(t)
    requires Seqs.FindFirst(t, OptionHasId(e.0)).None?
    ensures DistinctIds(t + [OptionCount(e.0, e.1, 1)])
  {
    assert forall j :: 0 <= j < |t| ==> !OptionHasId(e.0)(t[j]);
  }

  lemma TallyStep(t: seq<OptionCount>, entries: seq<Entry>)
    requires entries != []
    requires TallyOf(t, entries[..|entries| - 1])
    ensures TallyOf(Bump(t, entries[|entries| - 1]), entries)
  {
    var prefix := entries[..|entries| - 1];
    var e := entries[|entries| - 1];
    assert prefix + [e] == entries;
    match Seqs.FindFirst(t, OptionHasId(e.0))
    case Some(k) => BumpKnown(t, prefix, e, k);
    case None => BumpNew(t, prefix, e);
  }

  /** The option list built from `entries` one at a time. */
  function Tally(entries: seq<Entry>): (r: seq<OptionCount>)
    ensures TallyOf(r, entries)
  {
    if entries == [] then []
    else
      var t := Tally(entries[..|entries| - 1]);
      TallyStep(t, entries);
      Bump(t, entries[|entries| - 1])
  }

  /** The total does not depend on the order of the options. */
  lemma {:induction false} TotalPermutation(a: seq<OptionCount>, b: seq<OptionCount>)
    requires multiset(a) == multiset(b)
    ensures Total(a) == Total(b)
    decreases |a|
  {
    if a != [] {
      var prefix := a[..|a| - 1];
      var x := a[|a| - 1];
      Seqs.RemoveAt(a, |a| - 1);
      assert a[..|a| - 1] + a[|a|..] == prefix;
      assert x in multiset(b);
      var k :| 0 <= k < |b| && b[k] == x;
      var rest := b[..k] + b[k + 1..];
      Seqs.RemoveAt(b, k);
      TotalPermutation(prefix, rest);
      TotalRemove(b, k);
    } else {
      assert |b| == |multiset(b)|;
    }
  }

  lemma {:induction false} TotalRemove(b: seq<OptionCount>, k: nat)
    requires k < |b|
    ensures Total(b) == Total(b[..k] + b[k + 1..]) + b[k].count
    decreases |b|
  {
    if k < |b| - 1 {
      var c := b[..|b| - 1];
      TotalRemove(c, k);
      assert (b[..k] + b[k + 1..])[..|b| - 2] == c[..k] + c[k + 1..];
    } else {
      assert b[..k] + b[k + 1..] == b[..|b| - 1];
    }
  }

  /** A reordering of options without repeated ids has none either. */
  lemma DistinctIdsPermutation(a: seq<OptionCount>, b: seq<OptionCount>)
    requires DistinctIds(a) && multiset(a) == multiset(b)
    ensures DistinctIds(b)
  {
    forall i, j | 0 <= i < j < |b| ensures b[i].id != b[j].id {
      assert b[i] in multiset(a) && b[j] in multiset(a);
      var x :| 0 <= x < |a| && a[x] == b[i];
      var y :| 0 <= y < |a| && a[y] == b[j];
      if x == y {
        Seqs.TwoPositionsCountTwice(b, i, j);
        Seqs.DistinctOccursOnce(a, b[i]);
      }
    }
  }

  function KeyIs(key: Project -> string, id: string): Project -> bool
  {
    (p: Project) => key(p) == id
  }

  function HasKey(key: Project -> string): Project -> bool
  {
    (p: Project) => key(p) != []
  }

  /** The entries of the projects whose `key` is non-empty, with the names `title` gives. */
  /** The index of the first project whose key is `id`. */
  function FirstProject(projects: seq<Project>, key: Project -> string, id: string): Option<nat>
  {
    Seqs.FindFirst(projects, KeyIs(key, id))
  }

  function Entries(projects: seq<Project>, key: Project -> string, title: Project -> string): (r: seq<Entry>)
    ensures forall i :: 0 <= i < |r| ==> r[i].0 != []
  {
    if projects == [] then []
    else
      var p := projects[|projects| - 1];
      Entries(projects[..|projects| - 1], key, title) + if key(p) != [] then [(key(p), title(p))] else []
  }

  /** An entry's count is the number of projects with that key. */
  lemma {:induction false} EntriesCount(projects: seq<Project>, key: Project -> string, title: Project -> string, id: string)
    requires id != []
    ensures Count(Entries(projects, key, title), id) == |Seqs.Filter(projects, KeyIs(key, id))|
  {
    if projects != [] {
      EntriesCount(projects[..|projects| - 1], key, title, id);
      EntriesCountLast(projects, key, title, id);
      Seqs.FilterLast(projects, KeyIs(key, id));
    }
  }

  lemma EntriesCountLast(projects: seq<Project>, key: Project -> string, title: Project -> string, id: string)
    requires projects != [] && id != []
    ensures Count(Entries(projects, key, title), id)
            == Count(Entries(projects[..|projects| - 1], key, title), id) + if key(projects[|projects| - 1]) == id then 1 else 0
  {
    var p := projects[|projects| - 1];
    var e := Entries(projects[..|projects| - 1], key, title);
    if key(p) != [] {
      assert Entries(projects, key, title) == e + [(key(p), title(p))];
      CountAppend(e, (key(p), title(p)), id);
    } else {
      assert Entries(projects, key, title) == e;
    }
  }

  /** There is one entry per project with a key. */
  lemma {:induction false} EntriesLength(projects: seq<Project>, key: Project -> string, title: Project -> string)
    ensures |Entries(projects, key, title)| == |Seqs.Filter(projects, HasKey(key))|
  {
    if projects != [] {
      var prefix := projects[..|projects| - 1];
      var p := projects[|projects| - 1];
      EntriesLength(prefix, key, title);
      assert prefix + [p] == projects;
      Seqs.FilterAppend(prefix, [p], HasKey(key));
      assert [p][1..] == [];
    }
  }

  /** Entries named by their own key. */
  /** The first entry with an id is made from the first project with that key. */
  lemma {:induction false} EntriesFirstName(projects: seq<Project>, key: Project -> string, title: Project -> string, id: string)
    requires id != []
    ensures FirstName(Entries(projects, key, title), id)
            == if FirstProject(projects, key, id).Some? then Some(title(projects[FirstProject(projects, key, id).value])) else None
  {
    if projects != [] {
      var prefix := projects[..|projects| - 1];
      var p := projects[|projects| - 1];
      EntriesFirstName(prefix, key, title, id);
      assert prefix + [p] == projects;
      Seqs.FindFirstAppend(prefix, p, KeyIs(key, id));
      var e := Entries(prefix, key, title);
      if key(p) != [] {
        assert (e + [(key(p), title(p))])[..|e|] == e;
      } else {
        assert Entries(projects, key, title) == e;
      }
      if FirstProject(prefix, key, id).Some? {
        assert projects[FirstProject(prefix, key, id).value] == prefix[FirstProject(prefix, key, id).value];
      }
    }
  }

  lemma OptionNames(projects: seq<Project>, key: Project -> string, title: Project -> string, t: seq<OptionCount>, r: seq<OptionCount>)
    requires TallyOf(t, Entries(projects, key, title))
    requires multiset(r) == multiset(t)
    requires forall k :: 0 <= k < |r| ==> r[k].id != []
    ensures forall k :: 0 <= k < |r| ==>
              FirstProject(projects, key, r[k].id).Some? && r[k].name == title(projects[FirstProject(projects, key, r[k].id).value])
  {
    var entries := Entries(projects, key, title);
    forall k | 0 <= k < |r|
      ensures FirstProject(projects, key, r[k].id).Some? && r[k].name == title(projects[FirstProject(projects, key, r[k].id).value])
    {
      assert r[k] in multiset(t);
      var j :| 0 <= j < |t| && t[j] == r[k];
      assert FirstName(entries, t[j].id) == Some(t[j].name);
      EntriesFirstName(projects, key, title, t[j].id);
    }
  }

  lemma OptionCounts(projects: seq<Project>, key: Project -> string, title: Project -> string, t: seq<OptionCount>, r: seq<OptionCount>)
    requires TallyOf(t, Entries(projects, key, title))
    requires multiset(r) == multiset(t)
    ensures forall k :: 0 <= k < |r| ==> r[k].id != [] && r[k].count == |Seqs.Filter(projects, KeyIs(key, r[k].id))| > 0
  {
    var entries := Entries(projects, key, title);
    forall k | 0 <= k < |r| ensures r[k].id != [] && r[k].count == |Seqs.Filter(projects, KeyIs(key, r[k].id))| > 0 {
      assert r[k] in multiset(t);
      var j :| 0 <= j < |t| && t[j] == r[k];
      assert FirstName(entries, t[j].id).Some?;
      PresentKey(entries, t[j].id);
      var i :| 0 <= i < |entries| && entries[i].0 == t[j].id;
      CountPositive(entries, t[j].id, i);
      EntriesCount(projects, key, title, t[j].id);
    }
  }

  lemma OptionsCover(projects: seq<Project>, key: Project -> string, title: Project -> string, t: seq<OptionCount>, r: seq<OptionCount>)
    requires TallyOf(t, Entries(projects, key, title))
    requires multiset(r) == multiset(t)
    ensures forall i :: 0 <= i < |projects| && key(projects[i]) != [] ==> exists k :: 0 <= k < |r| && r[k].id == key(projects[i])
  {
    var entries := Entries(projects, key, title);
    forall i | 0 <= i < |projects| && key(projects[i]) != [] ensures exists k :: 0 <= k < |r| && r[k].id == key(projects[i]) {
      var id := key(projects[i]);
      assert KeyIs(key, id)(projects[i]);
      assert projects[i] in Seqs.Filter(projects, KeyIs(key, id));
      EntriesCount(projects, key, title, id);
      PresentKey(entries, id);
      var n :| 0 <= n < |entries| && entries[n].0 == id;
      assert HasOption(t, entries[n].0);
      var j := Seqs.FindFirst(t, OptionHasId(id)).value;
      assert t[j] in multiset(r);
      var k :| 0 <= k < |r| && r[k] == t[j];
    }
  }

  /**
   * Options with counts: the tally of the entries, sorted by name. Each option
   * counts the projects with its key, every key has an option, no key has two,
   * and the counts add up to the number of projects with a key.
   */
  function OptionsWithCounts(projects: seq<Project>, key: Project -> string, title: Project -> string): (r: seq<OptionCount>)
    ensures Sorting.SortedByName(r, OptionName())
    ensures DistinctIds(r)
    ensures forall k :: 0 <= k < |r| ==> r[k].id != [] && r[k].count == |Seqs.Filter(projects, KeyIs(key, r[k].id))| > 0
    ensures forall i :: 0 <= i < |projects| && key(projects[i]) != [] ==> exists k :: 0 <= k < |r| && r[k].id == key(projects[i])
    ensures Total(r) == |Seqs.Filter(projects, HasKey(key))|
    ensures forall k :: 0 <= k < |r| ==>
              FirstProject(projects, key, r[k].id).Some? && r[k].name == title(projects[FirstProject(projects, key, r[k].id).value])
  {
    var t := Tally(Entries(projects, key, title));
    var r := Sorting.SortByName(t, OptionName());
    EntriesLength(projects, key, title);
    TotalPermutation(t, r);
    DistinctIdsPermutation(t, r);
    OptionCounts(projects, key, title, t, r);
    OptionNames(projects, key, title, t, r);
    OptionsCover(projects, key, title, t, r);
    r
  }

  function ClientKey(): Project -> string { (p: Project) => p.clientId }
  function ClientTitle(): Project -> string { (p: Project) => p.clientName.GetOr(p.clientId) }
  function ManufacturerKey(): Project -> string { (p: Project) => p.manufacturer.GetOr("") }
  function TypeKey(): Project -> string { (p: Project) => p.assessmentType }

  /** `getClientOptionsWithCounts`: one option per client id, named after the client. */
  function ClientOptionsWithCounts(projects: seq<Project>): (r: seq<OptionCount>)
    ensures Sorting.SortedByName(r, OptionName())
    ensures DistinctIds(r)
    ensures forall k :: 0 <= k < |r| ==> r[k].count == |Seqs.Filter(projects, OfClient(r[k].id))|
    ensures Total(r) == |Seqs.Filter(projects, HasKey(ClientKey()))|
    ensures forall k :: 0 <= k < |r| ==>
              var first := FirstProject(projects, ClientKey(), r[k].id);
              first.Some? && r[k].name == projects[first.value].clientName.GetOr(r[k].id)
  {
    var r := OptionsWithCounts(projects, ClientKey(), ClientTitle());
    forall k | 0 <= k < |r| ensures r[k].count == |Seqs.Filter(projects, OfClient(r[k].id))| {
      Seqs.FilterExtensional(projects, KeyIs(ClientKey(), r[k].id), OfClient(r[k].id));
    }
    r
  }

  /** `getManufacturerOptionsWithCounts`: one option per manufacturer, named after it. */
  function ManufacturerOptionsWithCounts(projects: seq<Project>): (r: seq<OptionCount>)
    ensures Sorting.SortedByName(r, OptionName())
    ensures DistinctIds(r)
    ensures forall k :: 0 <= k < |r| ==> r[k].name == r[k].id
    ensures Total(r) == |Seqs.Filter(projects, HasKey(ManufacturerKey()))|
  {
    OptionsWithCounts(projects, ManufacturerKey(), ManufacturerKey())
  }

  /** `getProjectTypeOptionsWithCounts`: one option per assessment type, named after it. */
  function ProjectTypeOptionsWithCounts(projects: seq<Project>): (r: seq<OptionCount>)
    ensures Sorting.SortedByName(r, OptionName())
    ensures DistinctIds(r)
    ensures forall k :: 0 <= k < |r| ==> r[k].name == r[k].id
    ensures Total(r) == |Seqs.Filter(projects, HasKey(TypeKey()))|
  {
    OptionsWithCounts(projects, TypeKey(), TypeKey())
  }

  function Same(): string -> string { (s: string) => s }

  /**
   * `[...new Set(values)].sort()`: the distinct non-empty values of `key`, in
   * code-point order.
   */
  function DistinctValues(projects: seq<Project>, key: Project -> string): (r: seq<string>)
    ensures Sorting.SortedByName(r, Same())
    ensures Seqs.Distinct(r)
    ensures forall i :: 0 <= i < |r| ==> r[i] != [] && |Seqs.Filter(projects, KeyIs(key, r[i]))| > 0
    ensures forall i :: 0 <= i < |projects| && key(projects[i]) != [] ==> key(projects[i]) in r
  {
    var options := OptionsWithCounts(projects, key, key);
    OptionIdsSorted(projects, key, options);
    OptionIdsCover(projects, key, options);
    Seqs.Map(options, OptionId())
  }

  lemma OptionIdsSorted(projects: seq<Project>, key: Project -> string, options: seq<OptionCount>)
    requires options == OptionsWithCounts(projects, key, key)
    ensures Sorting.SortedByName(Seqs.Map(options, OptionId()), Same())
    ensures Seqs.Distinct(Seqs.Map(options, OptionId()))
  {
    var r := Seqs.Map(options, OptionId());
    forall i | 0 <= i < |r| ensures r[i] == options[i].name {
      var first := FirstProject(projects, key, options[i].id);
      assert key(projects[first.value]) == options[i].id;
    }
  }

  lemma OptionIdsCover(projects: seq<Project>, key: Project -> string, options: seq<OptionCount>)
    requires options == OptionsWithCounts(projects, key, key)
    ensures forall i :: 0 <= i < |options| ==> options[i].id != [] && |Seqs.Filter(projects, KeyIs(key, options[i].id))| > 0
    ensures forall i :: 0 <= i < |projects| && key(projects[i]) != [] ==> key(projects[i]) in Seqs.Map(options, OptionId())
  {
    var r := Seqs.Map(options, OptionId());
    forall i | 0 <= i < |projects| && key(projects[i]) != [] ensures key(projects[i]) in r {
      var k :| 0 <= k < |options| && options[k].id == key(projects[i]);
      assert r[k] == options[k].id;
    }
  }

  /** `getManufacturers`. */
  function Manufacturers(projects: seq<Project>): (r: seq<string>)
    ensures Sorting.SortedByName(r, Same()) && Seqs.Distinct(r)
    ensures forall i :: 0 <= i < |projects| && Filled(projects[i].manufacturer) ==> projects[i].manufacturer.value in r
  {
    var r := DistinctValues(projects, ManufacturerKey());
    assert forall i :: 0 <= i < |projects| ==> ManufacturerKey()(projects[i]) == projects[i].manufacturer.GetOr("");
    r
  }

  /** `getProjectTypes`. */
  function ProjectTypes(projects: seq<Project>): (r: seq<string>)
    ensures Sorting.SortedByName(r, Same()) && Seqs.Distinct(r)
    ensures forall i :: 0 <= i < |projects| && projects[i].assessmentType != [] ==> projects[i].assessmentType in r
  {
    DistinctValues(projects, TypeKey())
  }

  // -------------------------------------------------------------- map routes

  /** `ProjectRoute`. */
  datatype ProjectRoute = ProjectRoute(
    id: string,
    projectId: string,
    fromNodeId: string,
    toNodeId: string,
    status: ProjectStatus,
    fromCoordinates: Coordinates,
    toCoordinates: Coordinates,
    animated: bool,
    strokeColor: string)

  /** Whether both ends of a project's route have coordinates. */
  predicate Routable(p: Project, clientCoordinates: map<string, Coordinates>, factoryCoordinates: map<string, Coordinates>)
  {
    && p.clientId != [] && p.clientId in clientCoordinates
    && Filled(p.manufacturerLocationId) && p.manufacturerLocationId.value in factoryCoordinates
  }

  /** The route colour of a status: green when open, red when delayed, grey when closed. */
  function StrokeColor(s: ProjectStatus): string
  {
    match s
    case Open => "#5ad85a"
    case Delayed => "#ef4444"
    case Closed => "#94a3b8"
  }

  /** The route drawn for a project whose ends both have coordinates. */
  function RouteOf(p: Project, clientCoordinates: map<string, Coordinates>, factoryCoordinates: map<string, Coordinates>): (r: ProjectRoute)
    requires Routable(p, clientCoordinates, factoryCoordinates)
    ensures r.fromNodeId == p.clientId && r.toNodeId == p.manufacturerLocationId.value
    ensures r.fromCoordinates == clientCoordinates[r.fromNodeId] && r.toCoordinates == factoryCoordinates[r.toNodeId]
    ensures r.status == p.status.GetOr(Open)
    ensures r.animated <==> r.status == Open
  {
    var status := p.status.GetOr(Open);
    ProjectRoute(
      "project-route-" + IdString(p.id), IdString(p.id), p.clientId, p.manufacturerLocationId.value, status,
      clientCoordinates[p.clientId], factoryCoordinates[p.manufacturerLocationId.value],
      status == Open, StrokeColor(status))
  }

  function RoutableIn(clientCoordinates: map<string, Coordinates>, factoryCoordinates: map<string, Coordinates>): Project -> bool
  {
    (p: Project) => Routable(p, clientCoordinates, factoryCoordinates)
  }

  /**
   * `getProjectsForMap`, after the projects are fetched: one route per project
   * whose client and factory both have coordinates, in the projects' order.
   */
  function ProjectsForMap(projects: seq<Project>, clientCoordinates: map<string, Coordinates>, factoryCoordinates: map<string, Coordinates>): (r: seq<ProjectRoute>)
    ensures |r| == |Seqs.Filter(projects, RoutableIn(clientCoordinates, factoryCoordinates))|
    ensures forall i :: 0 <= i < |r| ==>
              var p := Seqs.Filter(projects, RoutableIn(clientCoordinates, factoryCoordinates))[i];
              Routable(p, clientCoordinates, factoryCoordinates) && r[i] == RouteOf(p, clientCoordinates, factoryCoordinates)
  {
    if projects == [] then []
    else
      var p := projects[0];
      var rest := ProjectsForMap(projects[1..], clientCoordinates, factoryCoordinates);
      if Routable(p, clientCoordinates, factoryCoordinates) then
        var r := [RouteOf(p, clientCoordinates, factoryCoordinates)] + rest;
        RoutesCons(projects, clientCoordinates, factoryCoordinates, rest, r);
        r
      else
        assert Seqs.Filter(projects, RoutableIn(clientCoordinates, factoryCoordinates))
               == Seqs.Filter(projects[1..], RoutableIn(clientCoordinates, factoryCoordinates));
        rest
  }

  lemma RoutesCons(projects: seq<Project>, clientCoordinates: map<string, Coordinates>, factoryCoordinates: map<string, Coordinates>,
                   rest: seq<ProjectRoute>, r: seq<ProjectRoute>)
    requires projects != [] && Routable(projects[0], clientCoordinates, factoryCoordinates)
    requires |rest| == |Seqs.Filter(projects[1..], RoutableIn(clientCoordinates, factoryCoordinates))|
    requires forall i :: 0 <= i < |rest| ==>
               var p := Seqs.Filter(projects[1..], RoutableIn(clientCoordinates, factoryCoordinates))[i];
               Routable(p, clientCoordinates, factoryCoordinates) && rest[i] == RouteOf(p, clientCoordinates, factoryCoordinates)
    requires r == [RouteOf(projects[0], clientCoordinates, factoryCoordinates)] + rest
    ensures |r| == |Seqs.Filter(projects, RoutableIn(clientCoordinates, factoryCoordinates))|
    ensures forall i :: 0 <= i < |r| ==>
              var p := Seqs.Filter(projects, RoutableIn(clientCoordinates, factoryCoordinates))[i];
              Routable(p, clientCoordinates, factoryCoordinates) && r[i] == RouteOf(p, clientCoordinates, factoryCoordinates)
  {
    var routed := Seqs.Filter(projects, RoutableIn(clientCoordinates, factoryCoordinates));
    var tail := Seqs.Filter(projects[1..], RoutableIn(clientCoordinates, factoryCoordinates));
    assert routed == [projects[0]] + tail;
    forall i | 0 <= i < |r|
      ensures Routable(routed[i], clientCoordinates, factoryCoordinates)
      ensures r[i] == RouteOf(routed[i], clientCoordinates, factoryCoordinates)
    {
      if i > 0 {
        assert routed[i] == tail[i - 1] && r[i] == rest[i - 1];
      }
    }
  }

  /** Every route drawn is animated exactly when it is open, and coloured by its status. */
  lemma RoutesAnimatedWhenOpen(projects: seq<Project>, clientCoordinates: map<string, Coordinates>, factoryCoordinates: map<string, Coordinates>)
    ensures forall r <- ProjectsForMap(projects, clientCoordinates, factoryCoordinates) ::
              (r.animated <==> r.status == Open) && r.strokeColor == StrokeColor(r.status)
              && r.fromCoordinates == clientCoordinates[r.fromNodeId] && r.toCoordinates == factoryCoordinates[r.toNodeId]
  {
    var routes := ProjectsForMap(projects, clientCoordinates, factoryCoordinates);
    forall r <- routes
      ensures (r.animated <==> r.status == Open) && r.strokeColor == StrokeColor(r.status)
      ensures r.fromCoordinates == clientCoordinates[r.fromNodeId] && r.toCoordinates == factoryCoordinates[r.toNodeId]
    {
      var i :| 0 <= i < |routes| && routes[i] == r;
    }
  }
}

=== FILE: seqs.dfy ===
/**
 * Sequence helpers shared by the modules: `next(...)`, `find` and `findIndex`;
 * `filter` and `map`; duplicate removal; removing and toggling a value.
 */
module Seqs {
  import opened Wrappers

  /** The position of the first element satisfying `p`, if any. */
  function FindFirst<T>(s: seq<T>, p: T -> bool): (r: Option<nat>)
    ensures r.Some? ==> r.value < |s| && p(s[r.value])
    ensures r.Some? ==> forall j :: 0 <= j < r.value ==> !p(s[j])
    ensures r.None? ==> forall j :: 0 <= j < |s| ==> !p(s[j])
  {
    if s == [] then None
    else if p(s[0]) then Some(0)
    else match FindFirst(s[1..], p)
      case None => None
      case Some(j) =>
        assert forall i :: 1 <= i <= j ==> s[i] == s[1..][i - 1];
        Some(j + 1)
  }

  /** `filter`: the elements satisfying `p`, in their order. */
  function Filter<T>(s: seq<T>, p: T -> bool): (r: seq<T>)
    ensures |r| <= |s|
    ensures forall i :: 0 <= i < |r| ==> r[i] in s && p(r[i])
    ensures forall i :: 0 <= i < |s| && p(s[i]) ==> s[i] in r
    ensures |r| == |s| <==> forall i :: 0 <= i < |s| ==> p(s[i])
    ensures |r| == |s| ==> r == s
  {
    if s == [] then [] else (if p(s[0]) then [s[0]] else []) + Filter(s[1..], p)
  }

  /** Filtering a concatenation filters each part. */
  lemma {:induction false} FilterAppend<T>(a: seq<T>, b: seq<T>, p: T -> bool)
    ensures Filter(a + b, p) == Filter(a, p) + Filter(b, p)
  {
    if a != [] {
      FilterUnfoldAppend(a, b, p);
      FilterAppend(a[1..], b, p);
    } else {
      assert a + b == b;
    }
  }

  lemma FilterUnfoldAppend<T>(a: seq<T>, b: seq<T>, p: T -> bool)
    requires a != []
    ensures Filter(a + b, p) == (if p(a[0]) then [a[0]] else []) + Filter(a[1..] + b, p)
    ensures Filter(a, p) == (if p(a[0]) then [a[0]] else []) + Filter(a[1..], p)
  {
    assert (a + b)[0] == a[0] && (a + b)[1..] == a[1..] + b;
  }

  /** `map`: `f` applied to every element, in order. */
  function Map<T, U>(s: seq<T>, f: T -> U): (r: seq<U>)
    ensures |r| == |s|
    ensures forall i :: 0 <= i < |s| ==> r[i] == f(s[i])
  {
    seq(|s|, i requires 0 <= i < |s| => f(s[i]))
  }

  /** Filtering counts the last element once when it passes. */
  lemma FilterLast<T>(s: seq<T>, p: T -> bool)
    requires s != []
    ensures |Filter(s, p)| == |Filter(s[..|s| - 1], p)| + if p(s[|s| - 1]) then 1 else 0
  {
    var x := s[|s| - 1];
    assert s[..|s| - 1] + [x] == s;
    FilterAppend(s[..|s| - 1], [x], p);
    assert [x][1..] == [];
  }

  /** Removing the element at `k` removes one occurrence of it. */
  lemma RemoveAt<T>(b: seq<T>, k: nat)
    requires k < |b|
    ensures multiset(b[..k] + b[k + 1..]) == multiset(b) - multiset{b[k]}
  {
    assert b == b[..k] + [b[k]] + b[k + 1..];
  }

  lemma MapAppend<T, U>(a: seq<T>, b: seq<T>, f: T -> U)
    ensures Map(a + b, f) == Map(a, f) + Map(b, f)
  {
    assert forall i :: 0 <= i < |a| ==> (a + b)[i] == a[i];
    assert forall i :: |a| <= i < |a| + |b| ==> (a + b)[i] == b[i - |a|];
  }

  /** A value found at two positions occurs at least twice. */
  lemma TwoPositionsCountTwice<T>(s: seq<T>, i: nat, j: nat)
    requires i < j < |s| && s[i] == s[j]
    ensures multiset(s)[s[i]] >= 2
  {
    assert s == s[..j] + s[j..];
    assert s[..j][i] == s[i];
    assert s[j..][0] == s[j];
    assert multiset(s) == multiset(s[..j]) + multiset(s[j..]);
  }

  /** Nothing is left exactly when no element satisfies `p`. */
  lemma FilterEmpty<T>(s: seq<T>, p: T -> bool)
    ensures Filter(s, p) == [] <==> forall i :: 0 <= i < |s| ==> !p(s[i])
  {
  }

  /** Filtering twice is filtering once by both tests. */
  lemma {:induction false} FilterFilter<T>(s: seq<T>, p: T -> bool, q: T -> bool, pq: T -> bool)
    requires forall x :: pq(x) == (p(x) && q(x))
    ensures Filter(Filter(s, p), q) == Filter(s, pq)
  {
    if s != [] {
      FilterFilter(s[1..], p, q, pq);
      FilterAppend(if p(s[0]) then [s[0]] else [], Filter(s[1..], p), q);
    }
  }

  /** Two tests that agree everywhere filter alike. */
  lemma {:induction false} FilterExtensional<T>(s: seq<T>, p: T -> bool, q: T -> bool)
    requires forall x :: p(x) == q(x)
    ensures Filter(s, p) == Filter(s, q)
  {
    if s != [] {
      FilterExtensional(s[1..], p, q);
    }
  }

  /** Appending an element moves the first match only when there was none before. */
  lemma {:induction false} FindFirstAppend<T>(s: seq<T>, x: T, p: T -> bool)
    ensures FindFirst(s + [x], p)
            == if FindFirst(s, p).Some? then FindFirst(s, p) else if p(x) then Some(|s|) else None
  {
    if s != [] {
      assert (s + [x])[0] == s[0];
      if !p(s[0]) {
        assert (s + [x])[1..] == s[1..] + [x];
        FindFirstAppend(s[1..], x, p);
      }
    }
  }

  /** No element occurs twice. */
  predicate Distinct<T(==)>(s: seq<T>)
  {
    forall i, j :: 0 <= i < j < |s| ==> s[i] != s[j]
  }

  lemma {:induction false} DistinctOccursOnce<T>(s: seq<T>, x: T)
    requires Distinct(s)
    ensures multiset(s)[x] <= 1
  {
    if s != [] {
      assert s == [s[0]] + s[1..];
      DistinctOccursOnce(s[1..], x);
      if x == s[0] {
        assert x !in s[1..];
      }
    }
  }

  /** A permutation of a sequence without repetitions has none either. */
  lemma DistinctPermutation<T>(a: seq<T>, b: seq<T>)
    requires Distinct(a) && multiset(a) == multiset(b)
    ensures Distinct(b)
  {
    forall i, j | 0 <= i < j < |b| ensures b[i] != b[j] {
      if b[i] == b[j] {
        TwoPositionsCountTwice(b, i, j);
        DistinctOccursOnce(a, b[i]);
        assert false;
      }
    }
  }

  // ------------------------------------------------------- sets of ids as lists

  /** The position of the first occurrence of `x` in `s`. */
  function FirstIndex<T(==)>(s: seq<T>, x: T): (k: nat)
    requires x in s
    ensures k < |s| && s[k] == x && x !in s[..k]
  {
    if s[0] == x then 0
    else
      var k := FirstIndex(s[1..], x);
      assert s[..k + 1] == [s[0]] + s[1..][..k];
      k + 1
  }

  /** In a prefix holding `x`, the first occurrence of `x` is where it is in the whole. */
  lemma FirstIndexInPrefix<T>(s: seq<T>, n: nat, x: T)
    requires n <= |s| && x in s[..n]
    ensures FirstIndex(s, x) == FirstIndex(s[..n], x)
  {
    var k, k' := FirstIndex(s, x), FirstIndex(s[..n], x);
    assert s[..n][..k'] == s[..k'];
    assert s[k'] == x;
    assert forall i :: 0 <= i < k' ==> s[i] != x by {
      assert forall i :: 0 <= i < k' ==> s[..k'][i] == s[i];
    }
    assert forall i :: 0 <= i < k ==> s[i] != x by {
      assert forall i :: 0 <= i < k ==> s[..k][i] == s[i];
    }
  }

  /** The elements of `r` come from `s` and follow the order of their first occurrences there. */
  predicate InFirstOccurrenceOrder<T(==)>(r: seq<T>, s: seq<T>)
  {
    && (forall i :: 0 <= i < |r| ==> r[i] in s)
    && forall i, j :: 0 <= i < j < |r| ==> FirstIndex(s, r[i]) < FirstIndex(s, r[j])
  }

  /** `Array.from(new Set(s))`: the first occurrence of every element, in order. */
  function Dedup<T(==,!new)>(s: seq<T>): (r: seq<T>)
    ensures Distinct(r)
    ensures forall x :: x in r <==> x in s
    ensures |r| <= |s|
    ensures InFirstOccurrenceOrder(r, s)
    decreases |s|
  {
    if s == [] then []
    else
      var rest := Dedup(s[..|s| - 1]);
      var x := s[|s| - 1];
      assert forall y :: y in s <==> y in s[..|s| - 1] || y == x by {
        assert s == s[..|s| - 1] + [x];
      }
      DedupOrderStep(s, rest);
      if x in rest then rest else rest + [x]
  }

  /** Extending the set of a prefix by the last element keeps first-occurrence order. */
  lemma DedupOrderStep<T>(s: seq<T>, rest: seq<T>)
    requires s != []
    requires forall y :: y in rest <==> y in s[..|s| - 1]
    requires InFirstOccurrenceOrder(rest, s[..|s| - 1])
    ensures InFirstOccurrenceOrder(rest, s)
    ensures s[|s| - 1] !in rest ==> InFirstOccurrenceOrder(rest + [s[|s| - 1]], s)
  {
    var prefix, x := s[..|s| - 1], s[|s| - 1];
    assert s == prefix + [x];
    forall y | y in prefix
      ensures y in s && FirstIndex(s, y) == FirstIndex(prefix, y)
    {
      FirstIndexInPrefix(s, |s| - 1, y);
    }
    assert forall i :: 0 <= i < |rest| ==> FirstIndex(s, rest[i]) == FirstIndex(prefix, rest[i]);
    if x !in rest {
      var r := rest + [x];
      assert FirstIndex(s, x) == |s| - 1;
      forall i, j | 0 <= i < j < |r| ensures FirstIndex(s, r[i]) < FirstIndex(s, r[j]) {
        if j == |rest| {
          assert r[i] == rest[i] && r[j] == x;
        } else {
          assert r[i] == rest[i] && r[j] == rest[j];
        }
      }
    }
  }

  /** A list without repetitions is its own set. */
  lemma {:induction false} DedupDistinct<T(!new)>(s: seq<T>)
    requires Distinct(s)
    ensures Dedup(s) == s
    decreases |s|
  {
    if s != [] {
      var prefix := s[..|s| - 1];
      DedupDistinct(prefix);
      assert s[|s| - 1] !in prefix by {
        forall i | 0 <= i < |prefix| ensures prefix[i] != s[|s| - 1] {
          assert prefix[i] == s[i];
        }
      }
      assert prefix + [s[|s| - 1]] == s;
    }
  }

  /** `s.filter(y => y !== x)`. */
  function Without<T(==,!new)>(s: seq<T>, x: T): (r: seq<T>)
    ensures forall y :: y in r <==> y in s && y != x
    ensures Distinct(s) ==> Distinct(r)
    ensures |r| <= |s|
    ensures x !in s ==> r == s
  {
    if s == [] then []
    else
      var rest := Without(s[1..], x);
      assert forall y :: y in s <==> y == s[0] || y in s[1..] by {
        assert s == [s[0]] + s[1..];
      }
      if s[0] == x then rest
      else
        var r := [s[0]] + rest;
        assert Distinct(s) ==> Distinct(r) by {
          if Distinct(s) {
            assert s[0] !in s[1..] by {
              forall i | 0 <= i < |s| - 1 ensures s[1..][i] != s[0] {
                assert s[1..][i] == s[i + 1];
              }
            }
            assert Distinct(s[1..]) by {
              forall i, j | 0 <= i < j < |s| - 1 ensures s[1..][i] != s[1..][j] {
                assert s[1..][i] == s[i + 1] && s[1..][j] == s[j + 1];
              }
            }
            forall i, j | 0 <= i < j < |r| ensures r[i] != r[j] {
              if i == 0 {
                assert r[j] == rest[j - 1] && rest[j - 1] in rest;
              } else {
                assert r[i] == rest[i - 1] && r[j] == rest[j - 1];
              }
            }
          }
        }
        r
  }

  /** The number of elements `Without` drops: the occurrences of `x`. */
  lemma {:induction false} WithoutDistinctLength<T(!new)>(s: seq<T>, x: T)
    requires Distinct(s) && x in s
    ensures |Without(s, x)| == |s| - 1
  {
    if s[0] == x {
      assert x !in s[1..] by {
        forall i | 0 <= i < |s| - 1 ensures s[1..][i] != x {
          assert s[1..][i] == s[i + 1];
        }
      }
    } else {
      assert x in s[1..] by {
        var i :| 0 <= i < |s| && s[i] == x;
        assert s[1..][i - 1] == x;
      }
      WithoutDistinctLength(s[1..], x);
    }
  }

  /**
   * Toggling an id in a list used as a set (`new Set(s)`, then `delete` or `add`,
   * then `Array.from`): the id's membership flips and nothing else changes.
   */
  function Toggle<T(==,!new)>(s: seq<T>, x: T): (r: seq<T>)
    ensures Distinct(r)
    ensures x in r <==> x !in s
    ensures forall y :: y != x ==> (y in r <==> y in s)
  {
    var d := Dedup(s);
    if x in d then Without(d, x)
    else
      assert Distinct(d + [x]) by {
        forall i, j | 0 <= i < j < |d| + 1 ensures (d + [x])[i] != (d + [x])[j] {
          if j == |d| {
            assert (d + [x])[i] == d[i];
          }
        }
      }
      d + [x]
  }

  /** Adding an absent id and toggling it again gives back the very same list. */
  lemma ToggleTwiceRestores<T(!new)>(s: seq<T>, x: T)
    requires Distinct(s) && x !in s
    ensures Toggle(Toggle(s, x), x) == s
  {
    DedupDistinct(s);
    var t := s + [x];
    assert Toggle(s, x) == t;
    DedupDistinct(t);
    WithoutAppended(s, x);
  }

  /** On a list without repetitions, a toggle removes one element or adds one. */
  lemma ToggleLength<T(!new)>(s: seq<T>, x: T)
    requires Distinct(s)
    ensures |Toggle(s, x)| == if x in s then |s| - 1 else |s| + 1
  {
    DedupDistinct(s);
    if x in s {
      WithoutDistinctLength(s, x);
    }
  }

  lemma {:induction false} WithoutAppended<T(!new)>(s: seq<T>, x: T)
    requires x !in s
    ensures Without(s + [x], x) == s
  {
    if s == [] {
      assert [x][1..] == [];
    } else {
      assert (s + [x])[1..] == s[1..] + [x];
      WithoutAppended(s[1..], x);
      assert s == [s[0]] + s[1..];
    }
  }
}

=== FILE: sorting.dfy ===
/**
 * A stable sort by an integer key, the behaviour of Python's `list.sort(key=...)`
 * and of JavaScript's `Array.prototype.sort` with a numeric comparator; and an
 * insertion sort by a string key in code-point order, standing in for a sort
 * with `localeCompare`.
 */
module Sorting {
  import Text

  predicate SortedBy<T>(s: seq<T>, key: T -> int)
  {
    forall i, j :: 0 <= i < j < |s| ==> key(s[i]) <= key(s[j])
  }

  /** The elements of `s` whose key is `k`, in their order in `s`. */
  function WithKey<T>(s: seq<T>, key: T -> int, k: int): (r: seq<T>)
    ensures |r| <= |s|
  {
    if s == [] then []
    else (if key(s[0]) == k then [s[0]] else []) + WithKey(s[1..], key, k)
  }

  /** Insert `x` before the first element whose key is not smaller. */
  function Insert<T>(x: T, s: seq<T>, key: T -> int): (r: seq<T>)
    requires SortedBy(s, key)
    ensures SortedBy(r, key)
    ensures multiset(r) == multiset(s) + multiset{x}
    ensures |r| == |s| + 1
    ensures r[0] == x || (s != [] && r[0] == s[0])
  {
    if s == [] || key(x) <= key(s[0]) then
      var r := [x] + s;
      assert forall j :: 1 <= j < |r| ==> r[j] == s[j - 1];
      r
    else
      var rest := Insert(x, s[1..], key);
      assert s == [s[0]] + s[1..];
      var r := [s[0]] + rest;
      assert forall j :: 1 <= j < |r| ==> r[j] == rest[j - 1];
      r
  }

  lemma {:induction false} InsertKeepsOrder<T>(x: T, s: seq<T>, key: T -> int, k: int)
    requires SortedBy(s, key)
    ensures WithKey(Insert(x, s, key), key, k)
         == (if key(x) == k then [x] else []) + WithKey(s, key, k)
  {
    if s == [] || key(x) <= key(s[0]) {
      assert Insert(x, s, key) == [x] + s;
      WithKeyCons(x, s, key, k);
    } else {
      var rest := Insert(x, s[1..], key);
      InsertLater(x, s, key);
      WithKeyCons(s[0], rest, key, k);
      InsertKeepsOrder(x, s[1..], key, k);
      assert s == [s[0]] + s[1..];
      WithKeyCons(s[0], s[1..], key, k);
      var w := WithKey(s[1..], key, k);
      if key(x) == k {
        assert key(s[0]) != k;
        assert [] + ([x] + w) == [x] + ([] + w);
      }
    }
  }

  /** An element with a larger key than the head goes after it. */
  lemma InsertLater<T>(x: T, s: seq<T>, key: T -> int)
    requires SortedBy(s, key) && s != [] && key(x) > key(s[0])
    ensures Insert(x, s, key) == [s[0]] + Insert(x, s[1..], key)
  {
  }

  /** The elements with key `k` of a sequence, from its first element and the rest. */
  lemma WithKeyCons<T>(h: T, t: seq<T>, key: T -> int, k: int)
    ensures WithKey([h] + t, key, k) == (if key(h) == k then [h] else []) + WithKey(t, key, k)
  {
    assert ([h] + t)[1..] == t;
  }

  /**
   * Stable insertion sort: the result is ordered by key, is a permutation of the
   * input, and keeps the input order among elements with equal keys, which together
   * determine it uniquely.
   */
  function SortBy<T>(s: seq<T>, key: T -> int): (r: seq<T>)
    ensures SortedBy(r, key)
    ensures multiset(r) == multiset(s)
    ensures |r| == |s|
  {
    if s == [] then []
    else
      assert s == [s[0]] + s[1..];
      Insert(s[0], SortBy(s[1..], key), key)
  }

  lemma {:induction false} SortByIsStable<T>(s: seq<T>, key: T -> int, k: int)
    ensures WithKey(SortBy(s, key), key, k) == WithKey(s, key, k)
  {
    if s != [] {
      SortByIsStable(s[1..], key, k);
      InsertKeepsOrder(s[0], SortBy(s[1..], key), key, k);
    }
  }

  // ------------------------------------------------------- ordering by name

  /**
   * Ordered by a string key in code-point order. The source sorts with
   * `localeCompare`, whose locale collation can order keys differently (letter
   * case, accents, punctuation); this model orders by code point instead.
   */
  predicate SortedByName<T>(s: seq<T>, name: T -> string)
  {
    forall i, j :: 0 <= i < j < |s| ==> Text.StrLe(name(s[i]), name(s[j]))
  }

  /** Insert `x` before the first element whose name is not smaller. */
  function InsertByName<T>(x: T, s: seq<T>, name: T -> string): (r: seq<T>)
    requires SortedByName(s, name)
    ensures SortedByName(r, name)
    ensures multiset(r) == multiset(s) + multiset{x}
    ensures |r| == |s| + 1
  {
    if s == [] || Text.StrLe(name(x), name(s[0])) then
      var r := [x] + s;
      InsertedFirst(x, s, name);
      r
    else
      Text.StrLeTotal(name(x), name(s[0]));
      var rest := InsertByName(x, s[1..], name);
      assert s == [s[0]] + s[1..];
      var r := [s[0]] + rest;
      InsertedLater(x, s, rest, name);
      r
  }

  lemma InsertedFirst<T>(x: T, s: seq<T>, name: T -> string)
    requires SortedByName(s, name)
    requires s == [] || Text.StrLe(name(x), name(s[0]))
    ensures SortedByName([x] + s, name)
  {
    var r := [x] + s;
    forall i, j | 0 <= i < j < |r| ensures Text.StrLe(name(r[i]), name(r[j])) {
      if i == 0 {
        assert r[j] == s[j - 1];
        if j > 1 {
          Text.StrLeTransitive(name(x), name(s[0]), name(s[j - 1]));
        }
      } else {
        assert r[i] == s[i - 1] && r[j] == s[j - 1];
      }
    }
  }

  lemma InsertedLater<T>(x: T, s: seq<T>, rest: seq<T>, name: T -> string)
    requires SortedByName(s, name) && s != []
    requires Text.StrLe(name(s[0]), name(x))
    requires SortedByName(rest, name)
    requires multiset(rest) == multiset(s[1..]) + multiset{x}
    ensures SortedByName([s[0]] + rest, name)
  {
    var r := [s[0]] + rest;
    forall i, j | 0 <= i < j < |r| ensures Text.StrLe(name(r[i]), name(r[j])) {
      if i == 0 {
        assert r[j] == rest[j - 1];
        assert rest[j - 1] in multiset(rest);
        if rest[j - 1] != x {
          assert rest[j - 1] in multiset(s[1..]);
          assert rest[j - 1] in s[1..];
        }
      } else {
        assert r[i] == rest[i - 1] && r[j] == rest[j - 1];
      }
    }
  }

  /** Insertion sort by name: ordered, and a permutation of the input. */
  function SortByName<T>(s: seq<T>, name: T -> string): (r: seq<T>)
    ensures SortedByName(r, name)
    ensures multiset(r) == multiset(s)
    ensures |r| == |s|
  {
    if s == [] then []
    else
      assert s == [s[0]] + s[1..];
      InsertByName(s[0], SortByName(s[1..], name), name)
  }
}

=== FILE: sync_war_room.dfy ===
/**
 * `sync_war_room_data.py`: projects the consolidated factories into the dashboard's
 * parent group → subsidiary → factory document. It creates missing subsidiaries,
 * matches or creates a presentation factory per canonical factory, looks up
 * coordinates in a static table, and spreads coincident coordinates apart.
 *
 * Two behaviours of the script as written are modelled next to their corrections:
 * a `None` city aborts the script (`SyncAllAsWritten`, corrected by `SyncAll`), and
 * the jitter pass mutates coordinate objects shared with the lookup table
 * (`JitterRefs` on `Entry` references, corrected by `Jitter` on copies).
 */
module SyncWarRoom {
  import opened Wrappers
  import opened Text
  import opened PipelineData
  import opened Seqs
  import Integrate

  // ---------------------------------------------------------------- clean key

  /** `clean_key`: falsy input gives ""; otherwise lower-cased, stripped, and cut down to `[a-zA-Z0-9]`. */
  function CleanKey(v: Json): (r: string)
    ensures forall i :: 0 <= i < |r| ==> IsSlugChar(r[i])
    ensures !Truthy(v) ==> r == ""
  {
    if !Truthy(v) then ""
    else
      var lowered := Trim(ToLower(PyStr(v)));
      LowerTrimHasNoUpper(PyStr(v));
      LowerAlnumIsSlug(lowered);
      FilterChars(lowered, IsAlnum)
  }

  lemma LowerAlnumIsSlug(s: string)
    requires forall c :: c in s ==> !IsUpper(c)
    ensures forall i :: 0 <= i < |FilterChars(s, IsAlnum)| ==> IsSlugChar(FilterChars(s, IsAlnum)[i])
  {
    var r := FilterChars(s, IsAlnum);
    forall i | 0 <= i < |r| ensures IsSlugChar(r[i]) {
      assert r[i] in r;
    }
  }

  /** A clean key is its own clean key. */
  lemma CleanKeyIdempotent(v: Json)
    ensures CleanKey(Str(CleanKey(v))) == CleanKey(v)
  {
    var k := CleanKey(v);
    if k != [] {
      CleanKeyOfClean(k);
    }
  }

  lemma CleanKeyOfClean(k: string)
    requires k != [] && forall i :: 0 <= i < |k| ==> IsSlugChar(k[i])
    ensures CleanKey(Str(k)) == k
  {
    ToLowerOnLower(k);
    TrimUntrimmed(k);
    FilterKeepsAll(k, IsAlnum);
  }

  // -------------------------------------------------------------- coordinates

  datatype Coord = Coord(latitude: real, longitude: real)

  const Origin := Coord(0.0, 0.0)

  /**
   * Where a presentation factory's coordinates object lives: its own dict (loaded
   * from JSON or built fresh), or the dict of one entry of the lookup table, which
   * the script stores by reference.
   */
  datatype CoordRef = Own(c: Coord) | Entry(key: string)

  /** `coordinate_map`, in its insertion order (lines 18-68). */
  const CoordinateTable: seq<(string, Coord)> := [
    ("winnipeg", Coord(49.8971, -97.0271)),
    ("saint-eustache", Coord(45.5488, -73.9201)),
    ("saint-fran\U{00E7}ois-du-lac", Coord(46.0523, -72.8280)),
    ("saint-francois-du-lac", Coord(46.0523, -72.8280)),
    ("montr\U{00E9}al", Coord(45.5786, -73.5414)),
    ("montreal", Coord(45.5786, -73.5414)),
    ("sainte-claire", Coord(46.5985, -70.8685)),
    ("l\U{00E9}vis", Coord(46.7581, -71.2403)),
    ("levis", Coord(46.7581, -71.2403)),
    ("airdrie", Coord(51.2917, -114.0142)),
    ("richmond", Coord(49.1667, -123.1333)),
    ("mississauga", Coord(43.5890, -79.6441)),
    ("arnprior", Coord(45.4327, -76.3549)),
    ("crookston", Coord(47.7712, -96.6023)),
    ("st. cloud", Coord(45.4677, -94.1198)),
    ("anniston", Coord(33.6063, -85.8459)),
    ("jamestown", Coord(42.1010, -79.2070)),
    ("shepherdsville", Coord(38.0000, -85.7000)),
    ("pembina", Coord(48.9669, -97.2454)),
    ("plattsburgh", Coord(44.6995, -73.4529)),
    ("middlebury", Coord(41.6739, -85.7067)),
    ("blackwood", Coord(39.7578, -75.0503)),
    ("torrance", Coord(33.8358, -118.3406)),
    ("hayward", Coord(37.6688, -122.0808)),
    ("des plaines", Coord(42.0335, -87.8845)),
    ("dallas", Coord(32.7767, -96.7970)),
    ("newark", Coord(37.5255, -122.0355)),
    ("franklin park", Coord(41.9361, -87.8761)),
    ("south plainfield", Coord(40.5793, -74.4115)),
    ("secaucus", Coord(40.7896, -74.0565)),
    ("goodlettsville", Coord(36.3231, -86.7133)),
    ("fort worth", Coord(32.7555, -97.3308)),
    ("houston", Coord(29.7604, -95.3698)),
    ("jacksonville", Coord(30.3322, -81.6557)),
    ("winter garden", Coord(28.4070, -81.3061)),
    ("riverside", Coord(33.9533, -117.3961)),
    ("burlingame", Coord(37.5960, -122.3707)),
    ("orlando", Coord(28.4070, -81.3061)),
    ("maribor", Coord(46.5274, 15.6667)),
    ("nilufer", Coord(40.2311, 28.9328)),
    ("nil\U{00FC}fer", Coord(40.2311, 28.9328)),
    ("adana", Coord(36.9923, 35.1876)),
    ("istanbul", Coord(41.0119, 29.0269)),
    ("china", Coord(35.0000, 105.0000))
  ]

  /** `table.get(key)`: the first entry with that key. */
  function TableGet(table: seq<(string, Coord)>, key: string): (r: Option<Coord>)
    ensures r.Some? <==> exists i :: 0 <= i < |table| && table[i].0 == key
    ensures r.Some? ==> exists i :: 0 <= i < |table| && table[i] == (key, r.value)
  {
    if table == [] then None
    else if table[0].0 == key then Some(table[0].1)
    else
      var r := TableGet(table[1..], key);
      assert forall i :: 0 < i < |table| ==> table[i] == table[1..][i - 1];
      r
  }

  /** The first table key, in table order, that occurs inside `text`. */
  function FirstKeyWithin(table: seq<(string, Coord)>, text: string): (r: Option<nat>)
    ensures r.Some? ==> r.value < |table| && Contains(text, table[r.value].0)
    ensures r.Some? ==> forall j :: 0 <= j < r.value ==> !Contains(text, table[j].0)
    ensures r.None? ==> forall j :: 0 <= j < |table| ==> !Contains(text, table[j].0)
  {
    FindFirst(table, (e: (string, Coord)) => Contains(text, e.0))
  }

  /** The coordinates a reference denotes while the table is still unmodified. */
  function RefCoord(table: seq<(string, Coord)>, ref: CoordRef): Coord
  {
    match ref
    case Own(c) => c
    case Entry(k) => TableGet(table, k).GetOr(Origin)
  }

  /**
   * Lines 145-150: the entry of the lower-cased, stripped city; when that gives no
   * non-zero latitude, the first table key occurring in the lower-cased location
   * name; otherwise a fresh `{0, 0}`.
   */
  function LookupCoords(table: seq<(string, Coord)>, city: string, name: string): (r: CoordRef)
  {
    var cityKey := Trim(ToLower(city));
    var primary := if TableGet(table, cityKey).Some? then Entry(cityKey) else Own(Origin);
    if RefCoord(table, primary).latitude == 0.0 then
      match FirstKeyWithin(table, ToLower(name))
      case Some(j) => Entry(table[j].0)
      case None => primary
    else primary
  }

  /** The three outcomes of the lookup, each with the entry it takes. */
  lemma LookupCoordsCases(table: seq<(string, Coord)>, city: string, name: string)
    ensures var cityKey := Trim(ToLower(city));
            var r := LookupCoords(table, city, name);
            var found := TableGet(table, cityKey);
            var within := FirstKeyWithin(table, ToLower(name));
            && (found.Some? && found.value.latitude != 0.0 ==> r == Entry(cityKey) && RefCoord(table, r) == found.value)
            && ((found.None? || found.value.latitude == 0.0) && within.Some? ==>
                  r == Entry(table[within.value].0)
                  && Contains(ToLower(name), table[within.value].0))
            && ((found.None? || found.value.latitude == 0.0) && within.None? ==> RefCoord(table, r).latitude == 0.0)
  {
  }

  // ------------------------------------------------------------- subsidiaries

  /** `manufacturer_id_map`, in insertion order. */
  const ManufacturerSlugs: seq<(int, string)> := [
    (1, "nova"), (2, "new-flyer"), (3, "arboc"), (4, "tam"), (5, "mci"),
    (6, "prevost"), (7, "enc"), (8, "karsan"), (9, "temsa")
  ]

  /** `manufacturer_id_map.get(m_id)`: only an integer id that the table lists has a slug. */
  function SlugFor(mId: Json): (r: Option<string>)
    ensures r.Some? <==> exists i :: 0 <= i < |ManufacturerSlugs| && mId == Int(ManufacturerSlugs[i].0)
    ensures r.Some? ==> exists i :: 0 <= i < |ManufacturerSlugs| && ManufacturerSlugs[i] == (mId.i, r.value)
  {
    if !mId.Int? then None else SlugIn(ManufacturerSlugs, mId.i)
  }

  function SlugIn(table: seq<(int, string)>, k: int): (r: Option<string>)
    ensures r.Some? <==> exists i :: 0 <= i < |table| && table[i].0 == k
    ensures r.Some? ==> exists i :: 0 <= i < |table| && table[i] == (k, r.value)
  {
    if table == [] then None
    else if table[0].0 == k then Some(table[0].1)
    else
      var r := SlugIn(table[1..], k);
      assert forall i :: 0 < i < |table| ==> table[i] == table[1..][i - 1];
      r
  }

  datatype SubsidiaryDefault = SubsidiaryDefault(name: string, logo: string, description: string)

  /** `subsidiary_defaults` (lines 84-94). */
  const SubsidiaryDefaults: map<string, SubsidiaryDefault> := map[
    "nova" := SubsidiaryDefault("Nova Bus", "/assets/images/Nova-Bus.png", "High-capacity urban transit manufacturing."),
    "new-flyer" := SubsidiaryDefault("New Flyer Industries", "/assets/images/New-Flyer.jpg", "Zero-emission bus manufacturing and retrofits."),
    "arboc" := SubsidiaryDefault("Arboc Specialty Vehicles", "/assets/images/NFI_Logo.png", "Low-floor cutaway bus manufacturing."),
    "tam" := SubsidiaryDefault("TAM", "/assets/images/svgs/user.svg", "European bus and coach manufacturing."),
    "mci" := SubsidiaryDefault("MCI (Motor Coach Industries)", "/assets/images/MCI_Logo.png", "Premium motorcoach manufacturing."),
    "prevost" := SubsidiaryDefault("Prevost", "/assets/images/Prevost_Logo.png", "Luxury coach and motor caravan manufacturing."),
    "enc" := SubsidiaryDefault("ENC", "/assets/images/svgs/user.svg", "Specialized transit bus manufacturing."),
    "karsan" := SubsidiaryDefault("Karsan", "/assets/images/KARSAN.jpg", "European electric bus production."),
    "temsa" := SubsidiaryDefault("TEMSA", "/assets/images/TEMSA_Logo_Black.svg", "Global motorcoach and transit manufacturer.")
  ]

  /** A presentation factory; the metric fields are the constants the script writes. */
  datatype WrFactory = WrFactory(
    id: string,
    parentGroupId: string,
    subsidiaryId: string,
    name: string,
    city: Json,
    country: Json,
    status: string,
    syncStability: real,
    assets: int,
    incidents: int,
    description: Json,
    logo: Json,
    fullAddress: Json,
    facilityType: Json,
    notes: Json,
    coordinates: CoordRef)

  datatype Subsidiary = Subsidiary(
    id: string,
    parentGroupId: string,
    name: string,
    status: string,
    description: string,
    location: string,
    logo: Json,
    factories: seq<WrFactory>)

  datatype ParentGroup = ParentGroup(id: string, subsidiaries: seq<Subsidiary>)

  /** Lines 108-115: a subsidiary built from the defaults, falling back to the upper-cased slug. */
  function NewSubsidiary(slug: string): (s: Subsidiary)
    ensures s.id == slug && s.factories == [] && s.status == "ACTIVE" && s.parentGroupId == "namg"
    ensures slug !in SubsidiaryDefaults ==> s.name == ToUpper(slug) && s.logo == Null && s.description == ""
    ensures slug in SubsidiaryDefaults ==> s.name == SubsidiaryDefaults[slug].name
  {
    if slug in SubsidiaryDefaults then
      var d := SubsidiaryDefaults[slug];
      Subsidiary(slug, "namg", d.name, "ACTIVE", d.description, "", Str(d.logo), [])
    else
      Subsidiary(slug, "namg", ToUpper(slug), "ACTIVE", "", "", Null, [])
  }

  predicate HasSubsidiary(subs: seq<Subsidiary>, slug: string)
  {
    exists i :: 0 <= i < |subs| && subs[i].id == slug
  }

  lemma HasSubsidiaryInPrefix(a: seq<Subsidiary>, b: seq<Subsidiary>, slug: string)
    requires a <= b
    ensures HasSubsidiary(a, slug) ==> HasSubsidiary(b, slug)
  {
    if HasSubsidiary(a, slug) {
      var k :| 0 <= k < |a| && a[k].id == slug;
      assert b[k] == a[k];
    }
  }

  /**
   * Lines 106-117: for each slug in order, append a new subsidiary unless one with
   * that id exists; the subsidiaries already there are kept as they are.
   */
  function EnsureSubsidiaries(subs: seq<Subsidiary>, slugs: seq<string>): (r: seq<Subsidiary>)
    ensures subs <= r
    ensures forall i :: 0 <= i < |slugs| ==> HasSubsidiary(r, slugs[i])
    ensures forall i :: |subs| <= i < |r| ==> r[i] == NewSubsidiary(r[i].id) && !HasSubsidiary(subs, r[i].id)
    ensures forall i :: |subs| <= i < |r| ==> r[i].id in slugs
    decreases |slugs|
  {
    if slugs == [] then subs
    else
      var next := if HasSubsidiary(subs, slugs[0]) then subs else subs + [NewSubsidiary(slugs[0])];
      assert HasSubsidiary(next, slugs[0]) by {
        if !HasSubsidiary(subs, slugs[0]) { assert next[|subs|].id == slugs[0]; }
      }
      var r := EnsureSubsidiaries(next, slugs[1..]);
      assert forall i :: 1 <= i < |slugs| ==> slugs[i] == slugs[1..][i - 1];
      assert HasSubsidiary(r, slugs[0]) by {
        var k :| 0 <= k < |next| && next[k].id == slugs[0];
        assert r[k] == next[k];
      }
      assert forall i :: |subs| <= i < |r| ==> !HasSubsidiary(subs, r[i].id) by {
        forall i | |subs| <= i < |r| ensures !HasSubsidiary(subs, r[i].id) {
          if i >= |next| {
            HasSubsidiaryInPrefix(subs, next, r[i].id);
          }
        }
      }
      r
  }

  /** The slugs of `manufacturer_id_map`, in its order. */
  function Slugs(): (r: seq<string>)
    ensures |r| == |ManufacturerSlugs|
    ensures forall i :: 0 <= i < |r| ==> r[i] == ManufacturerSlugs[i].1
  {
    seq(|ManufacturerSlugs|, i requires 0 <= i < |ManufacturerSlugs| => ManufacturerSlugs[i].1)
  }

  /** Every slug of the manufacturer table has a subsidiary. */
  predicate AllSlugsPresent(subs: seq<Subsidiary>)
  {
    forall i :: 0 <= i < |ManufacturerSlugs| ==> HasSubsidiary(subs, ManufacturerSlugs[i].1)
  }

  /** `subsidiaries_map[s_id]`: the map was built last-wins, so the last subsidiary with that id. */
  function SubsidiaryIndex(subs: seq<Subsidiary>, slug: string): (k: nat)
    requires HasSubsidiary(subs, slug)
    ensures k < |subs| && subs[k].id == slug
    ensures forall j :: k < j < |subs| ==> subs[j].id != slug
  {
    if subs[|subs| - 1].id == slug then |subs| - 1
    else
      var init := subs[..|subs| - 1];
      assert HasSubsidiary(init, slug) by {
        var i :| 0 <= i < |subs| && subs[i].id == slug;
        assert init[i] == subs[i];
      }
      SubsidiaryIndex(init, slug)
  }

  // ------------------------------------------------------------------ matching

  /** Lines 138-140: matched on the clean name, or on an equal non-empty clean city. */
  predicate Matches(wf: WrFactory, nameKey: string, cityKey: string)
  {
    CleanKey(Str(wf.name)) == nameKey || (CleanKey(wf.city) == cityKey && cityKey != "")
  }

  /** Lines 136-142: the first presentation factory that matches. */
  function FindMatch(wfs: seq<WrFactory>, nameKey: string, cityKey: string): (r: Option<nat>)
    ensures r.Some? ==> r.value < |wfs| && Matches(wfs[r.value], nameKey, cityKey)
    ensures r.Some? ==> forall j :: 0 <= j < r.value ==> !Matches(wfs[j], nameKey, cityKey)
    ensures r.None? ==> forall j :: 0 <= j < |wfs| ==> !Matches(wfs[j], nameKey, cityKey)
  {
    FindFirst(wfs, (wf: WrFactory) => Matches(wf, nameKey, cityKey))
  }

  /**
   * `re.sub(r'[^a-zA-Z0-9]', '-', text)`: letters and digits stay where they are,
   * every other character becomes '-'; so only letters, digits and dashes remain, and
   * a text of nothing else comes back unchanged.
   */
  function DashNonAlnum(text: string): (r: string)
    ensures |r| == |text|
    ensures forall i :: 0 <= i < |text| && IsAlnum(text[i]) ==> r[i] == text[i]
    ensures forall i :: 0 <= i < |text| && !IsAlnum(text[i]) ==> r[i] == '-'
    ensures forall i :: 0 <= i < |r| ==> IsAlnum(r[i]) || r[i] == '-'
    ensures r == text <==> forall i :: 0 <= i < |text| ==> IsAlnum(text[i]) || text[i] == '-'
  {
    var r := seq(|text|, i requires 0 <= i < |text| => if IsAlnum(text[i]) then text[i] else '-');
    assert r == text <== forall i :: 0 <= i < |text| ==> IsAlnum(text[i]) || text[i] == '-';
    assert r == text ==> forall i :: 0 <= i < |text| ==> IsAlnum(text[i]) || text[i] == '-' by {
      if r == text {
        forall i | 0 <= i < |text| ensures IsAlnum(text[i]) || text[i] == '-' {
          assert r[i] == text[i];
        }
      }
    }
    r
  }

  /** Replacing twice replaces nothing more. */
  lemma DashNonAlnumIdempotent(text: string)
    ensures DashNonAlnum(DashNonAlnum(text)) == DashNonAlnum(text)
  {
  }

  /**
   * Line 155: "{slug}-{name lower-cased, non-alphanumerics turned into '-'}": the
   * slug, a dash, then one character per character of the name, lower-cased when
   * it is a letter or a digit and '-' otherwise.
   */
  function NewFactoryId(slug: string, name: string): (r: string)
    ensures StartsWith(r, slug + "-") && |r| == |slug| + 1 + |name|
    ensures forall i :: 0 <= i < |name| ==>
              r[|slug| + 1 + i] == if IsAlnum(name[i]) then LowerChar(name[i]) else '-'
  {
    var lower := ToLower(name);
    var r := slug + "-" + DashNonAlnum(lower);
    assert r[..|slug| + 1] == slug + "-";
    assert forall i :: 0 <= i < |name| ==> r[|slug| + 1 + i] == DashNonAlnum(lower)[i];
    assert forall i :: 0 <= i < |name| ==> (IsAlnum(lower[i]) <==> IsAlnum(name[i]));
    r
  }

  /** The part of a new factory id after the slug's dash holds lower-case letters, digits and dashes only. */
  lemma NewFactoryIdIsSlug(slug: string, name: string)
    ensures forall i :: |slug| < i < |NewFactoryId(slug, name)| ==> IdCharIsSlug(NewFactoryId(slug, name)[i])
  {
    forall i | |slug| < i < |NewFactoryId(slug, name)| ensures IdCharIsSlug(NewFactoryId(slug, name)[i]) {
      NewFactoryIdCharIsSlug(slug, name, i);
    }
  }

  /** A lower-case letter, a digit or a dash. */
  predicate IdCharIsSlug(c: char) { IsSlugChar(c) || c == '-' }

  lemma NewFactoryIdCharIsSlug(slug: string, name: string, i: nat)
    requires |slug| < i < |NewFactoryId(slug, name)|
    ensures IdCharIsSlug(NewFactoryId(slug, name)[i])
  {
    var k := i - |slug| - 1;
    var c := name[k];
    assert NewFactoryId(slug, name)[i] == if IsAlnum(c) then LowerChar(c) else '-';
    if IsAlnum(c) {
      LowerAlnumCharIsSlug(c);
    }
  }

  lemma LowerAlnumCharIsSlug(c: char)
    requires IsAlnum(c)
    ensures IsSlugChar(LowerChar(c))
  {
  }

  /** Names that differ only in case get the same factory id. */
  lemma NewFactoryIdIgnoresCase(slug: string, name: string)
    ensures NewFactoryId(slug, name) == NewFactoryId(slug, ToLower(name))
  {
    var r := NewFactoryId(slug, name);
    var q := NewFactoryId(slug, ToLower(name));
    forall i | 0 <= i < |r| ensures r[i] == q[i] {
      if i <= |slug| {
        assert r[..|slug| + 1][i] == q[..|slug| + 1][i];
      } else {
        var k := i - (|slug| + 1);
        assert r[|slug| + 1 + k] == r[i] && q[|slug| + 1 + k] == q[i];
      }
    }
  }

  /**
   * Lines 156-162: the presentation factory created for an unmatched canonical
   * factory; its description is the facility type, or "Manufacturing Facility"
   * without one.
   */
  function NewWrFactory(slug: string, sub: Subsidiary, f: Factory, city: string): (r: WrFactory)
    ensures StartsWith(r.id, slug + "-") && r.subsidiaryId == slug && r.parentGroupId == "namg"
    ensures r.name == f.locationName && r.city == Str(city) && r.country == f.country
    ensures !r.description.Null? && (!f.facilityType.Null? ==> r.description == f.facilityType)
    ensures r.logo == sub.logo && r.status == "ACTIVE"
  {
    WrFactory(NewFactoryId(slug, f.locationName), "namg", slug, f.locationName, Str(city), f.country,
              "ACTIVE", 95.0, 10, 0,
              if f.facilityType.Null? then Str("Manufacturing Facility") else f.facilityType,
              sub.logo, Null, Null, Null, Own(Origin))
  }

  /** Lines 166-169: the fields every sync overwrites; coordinates only when the new ones are non-zero. */
  function Refresh(table: seq<(string, Coord)>, wf: WrFactory, f: Factory, coords: CoordRef): (r: WrFactory)
    ensures r.fullAddress == f.fullAddress && r.facilityType == f.facilityType && r.notes == f.notes
    ensures r.coordinates == if RefCoord(table, coords).latitude != 0.0 then coords else wf.coordinates
    ensures r.(fullAddress := wf.fullAddress, facilityType := wf.facilityType, notes := wf.notes,
               coordinates := wf.coordinates) == wf
  {
    wf.(fullAddress := f.fullAddress, facilityType := f.facilityType, notes := f.notes,
        coordinates := if RefCoord(table, coords).latitude != 0.0 then coords else wf.coordinates)
  }

  /**
   * Lines 125-169 inside the subsidiary `sub` of slug `slug`: the first matching
   * presentation factory is refreshed, or a new one is appended and refreshed.
   */
  function SyncedFactories(table: seq<(string, Coord)>, sub: Subsidiary, slug: string, f: Factory, city: string, coords: CoordRef): (r: seq<WrFactory>)
  {
    var wfs := sub.factories;
    match FindMatch(wfs, CleanKey(Str(f.locationName)), CleanKey(Str(city)))
    case Some(j) => wfs[j := Refresh(table, wfs[j], f, coords)]
    case None => wfs + [Refresh(table, NewWrFactory(slug, sub, f, city), f, coords)]
  }

  /** `subs` with the factories of subsidiary `k` replaced. */
  function WithFactories(subs: seq<Subsidiary>, k: nat, wfs: seq<WrFactory>): (r: seq<Subsidiary>)
    requires k < |subs|
    ensures |r| == |subs| && r[k] == subs[k].(factories := wfs)
    ensures forall i :: 0 <= i < |subs| && i != k ==> r[i] == subs[i]
    ensures forall i :: 0 <= i < |subs| ==> r[i].id == subs[i].id
  {
    subs[k := subs[k].(factories := wfs)]
  }

  lemma SameIdsKeepSlugs(subs: seq<Subsidiary>, r: seq<Subsidiary>)
    requires AllSlugsPresent(subs)
    requires |r| == |subs| && forall i :: 0 <= i < |subs| ==> r[i].id == subs[i].id
    ensures AllSlugsPresent(r)
  {
    forall i | 0 <= i < |ManufacturerSlugs| ensures HasSubsidiary(r, ManufacturerSlugs[i].1) {
      var j :| 0 <= j < |subs| && subs[j].id == ManufacturerSlugs[i].1;
      assert r[j].id == subs[j].id;
    }
  }

  /** The object line 169 stores: the table's own dict as written, a copy when corrected. */
  function StoredCoords(table: seq<(string, Coord)>, city: string, name: string, copyCoords: bool): CoordRef
  {
    var looked := LookupCoords(table, city, name);
    if copyCoords then Own(RefCoord(table, looked)) else looked
  }

  /**
   * The first matching presentation factory is refreshed in place, or else exactly one
   * new factory with id "{slug}-{dashed lower-cased name}" is appended; no other
   * presentation factory changes.
   */
  lemma SyncedFactoriesEffect(table: seq<(string, Coord)>, sub: Subsidiary, slug: string, f: Factory, city: string, coords: CoordRef)
    ensures var old_ := sub.factories;
            var new_ := SyncedFactories(table, sub, slug, f, city, coords);
            var m := FindMatch(old_, CleanKey(Str(f.locationName)), CleanKey(Str(city)));
            && (m.Some? ==> |new_| == |old_|
                            && (forall j :: 0 <= j < |old_| && j != m.value ==> new_[j] == old_[j])
                            && new_[m.value].id == old_[m.value].id
                            && new_[m.value].name == old_[m.value].name
                            && new_[m.value].fullAddress == f.fullAddress
                            && new_[m.value].facilityType == f.facilityType
                            && new_[m.value].notes == f.notes)
            && (m.None? ==> |new_| == |old_| + 1 && old_ <= new_
                            && new_[|old_|].id == NewFactoryId(slug, f.locationName)
                            && new_[|old_|].name == f.locationName
                            && new_[|old_|].fullAddress == f.fullAddress
                            && new_[|old_|].facilityType == f.facilityType
                            && new_[|old_|].notes == f.notes)
  {
  }

  /**
   * Lines 121-169 for one canonical factory whose city reads as `city`. With
   * `copyCoords` the looked-up coordinates are stored as a copy; without it, as a
   * reference to the table entry, which is what the script does.
   */
  function SyncFactory(table: seq<(string, Coord)>, subs: seq<Subsidiary>, f: Factory, city: string, copyCoords: bool): (r: seq<Subsidiary>)
    requires AllSlugsPresent(subs)
    ensures |r| == |subs| && forall i :: 0 <= i < |subs| ==> r[i].id == subs[i].id
    ensures AllSlugsPresent(r)
    ensures SlugFor(f.manufacturerId).None? ==> r == subs
  {
    match SlugFor(f.manufacturerId)
    case None => subs
    case Some(slug) =>
      var k := SubsidiaryIndex(subs, slug);
      var r := WithFactories(subs, k, SyncedFactories(table, subs[k], slug, f, city, StoredCoords(table, city, f.locationName, copyCoords)));
      SameIdsKeepSlugs(subs, r);
      r
  }

  /** A mapped factory changes only the subsidiary its slug names (the last with that id). */
  lemma SyncFactoryEffect(table: seq<(string, Coord)>, subs: seq<Subsidiary>, f: Factory, city: string, copyCoords: bool)
    requires AllSlugsPresent(subs) && SlugFor(f.manufacturerId).Some?
    ensures var slug := SlugFor(f.manufacturerId).value;
            var k := SubsidiaryIndex(subs, slug);
            var r := SyncFactory(table, subs, f, city, copyCoords);
            && (forall i :: 0 <= i < |subs| && i != k ==> r[i] == subs[i])
            && r[k] == subs[k].(factories := SyncedFactories(table, subs[k], slug, f, city, StoredCoords(table, city, f.locationName, copyCoords)))
  {
  }

  /**
   * The factory loop as written: a mapped factory whose city is not a string (JSON
   * `null`) makes `city.lower()` raise, which aborts the script (`None`).
   */
  function SyncAllAsWritten(table: seq<(string, Coord)>, subs: seq<Subsidiary>, fs: seq<Factory>): (r: Option<seq<Subsidiary>>)
    requires AllSlugsPresent(subs)
    ensures r.Some? ==> AllSlugsPresent(r.value) && |r.value| == |subs|
    decreases |fs|
  {
    if fs == [] then Some(subs)
    else if SlugFor(fs[0].manufacturerId).None? then SyncAllAsWritten(table, subs, fs[1..])
    else if !fs[0].city.Str? then None
    else SyncAllAsWritten(table, SyncFactory(table, subs, fs[0], fs[0].city.s, false), fs[1..])
  }

  /** The factory loop corrected: a non-string city reads as "", and coordinates are copied. */
  function SyncAll(table: seq<(string, Coord)>, subs: seq<Subsidiary>, fs: seq<Factory>): (r: seq<Subsidiary>)
    requires AllSlugsPresent(subs)
    ensures AllSlugsPresent(r) && |r| == |subs|
    ensures forall i :: 0 <= i < |subs| ==> r[i].id == subs[i].id
    decreases |fs|
  {
    if fs == [] then subs
    else
      SyncAll(table, SyncFactory(table, subs, fs[0], CityText(fs[0].city), true), fs[1..])
  }

  /** Any mapped factory with a non-string city aborts the loop as written. */
  lemma {:induction false} NonStringCityAborts(table: seq<(string, Coord)>, subs: seq<Subsidiary>, fs: seq<Factory>, i: nat)
    requires AllSlugsPresent(subs)
    requires i < |fs| && SlugFor(fs[i].manufacturerId).Some? && !fs[i].city.Str?
    ensures SyncAllAsWritten(table, subs, fs).None?
    decreases |fs|, 1
  {
    if i > 0 {
      assert fs[1..][i - 1] == fs[i];
      AbortsLater(table, subs, fs, i);
    }
  }

  lemma {:induction false} AbortsLater(table: seq<(string, Coord)>, subs: seq<Subsidiary>, fs: seq<Factory>, i: nat)
    requires AllSlugsPresent(subs)
    requires 0 < i < |fs| && SlugFor(fs[1..][i - 1].manufacturerId).Some? && !fs[1..][i - 1].city.Str?
    ensures SyncAllAsWritten(table, subs, fs).None?
    decreases |fs|, 0
  {
    if SlugFor(fs[0].manufacturerId).Some? && fs[0].city.Str? {
      var next := SyncFactory(table, subs, fs[0], fs[0].city.s, false);
      NonStringCityAborts(table, next, fs[1..], i - 1);
    } else if SlugFor(fs[0].manufacturerId).None? {
      NonStringCityAborts(table, subs, fs[1..], i - 1);
    }
  }

  /**
   * The seed factory list of the integration step holds factory 7 (manufacturer 4,
   * slug "tam", city `None`), so the loop as written aborts on it.
   */
  lemma SeedFactoriesAbortSync(table: seq<(string, Coord)>, subs: seq<Subsidiary>)
    requires AllSlugsPresent(subs)
    ensures SyncAllAsWritten(table, subs, Integrate.SeedFactories).None?
  {
    var tam := Integrate.SeedFactories[4];
    assert tam.manufacturerId == Int(4) && tam.city == Null;
    assert ManufacturerSlugs[3] == (4, "tam");
    NonStringCityAborts(table, subs, Integrate.SeedFactories, 4);
  }

  /** The city a corrected sync reads: the string, or "" for `None`. */
  function CityText(v: Json): string
  {
    if v.Str? then v.s else ""
  }

  lemma SlugHasSubsidiary(subs: seq<Subsidiary>, mId: Json)
    requires AllSlugsPresent(subs) && SlugFor(mId).Some?
    ensures HasSubsidiary(subs, SlugFor(mId).value)
  {
    var i :| 0 <= i < |ManufacturerSlugs| && ManufacturerSlugs[i] == (mId.i, SlugFor(mId).value);
  }

  /** The subsidiary of a mapped factory holds a presentation factory that matches it. */
  predicate Covers(subs: seq<Subsidiary>, f: Factory, city: string)
    requires AllSlugsPresent(subs)
  {
    if SlugFor(f.manufacturerId).None? then true
    else
      SlugHasSubsidiary(subs, f.manufacturerId);
      var wfs := subs[SubsidiaryIndex(subs, SlugFor(f.manufacturerId).value)].factories;
      exists j :: 0 <= j < |wfs| && Matches(wfs[j], CleanKey(Str(f.locationName)), CleanKey(Str(city)))
  }

  /** `r` keeps the subsidiaries of `subs` and every presentation factory's name and city, appending only. */
  predicate Grows(subs: seq<Subsidiary>, r: seq<Subsidiary>)
  {
    && |r| == |subs|
    && (forall i :: 0 <= i < |subs| ==> r[i].id == subs[i].id)
    && (forall i :: 0 <= i < |subs| ==> |subs[i].factories| <= |r[i].factories|)
    && (forall i, j :: 0 <= i < |subs| && 0 <= j < |subs[i].factories| ==>
          r[i].factories[j].name == subs[i].factories[j].name
          && r[i].factories[j].city == subs[i].factories[j].city)
  }

  lemma GrowsTransitive(a: seq<Subsidiary>, b: seq<Subsidiary>, c: seq<Subsidiary>)
    requires Grows(a, b) && Grows(b, c)
    ensures Grows(a, c)
  {
  }

  lemma {:induction false} SameIdsSameIndex(a: seq<Subsidiary>, b: seq<Subsidiary>, slug: string)
    requires |a| == |b| && forall i :: 0 <= i < |a| ==> a[i].id == b[i].id
    requires HasSubsidiary(a, slug) && HasSubsidiary(b, slug)
    ensures SubsidiaryIndex(a, slug) == SubsidiaryIndex(b, slug)
  {
    var ka, kb := SubsidiaryIndex(a, slug), SubsidiaryIndex(b, slug);
    assert b[ka].id == slug;
    assert a[kb].id == slug;
  }

  lemma CoversAfterGrows(subs: seq<Subsidiary>, r: seq<Subsidiary>, f: Factory, city: string)
    requires AllSlugsPresent(subs) && AllSlugsPresent(r)
    requires Covers(subs, f, city) && Grows(subs, r)
    ensures Covers(r, f, city)
  {
    if SlugFor(f.manufacturerId).Some? {
      var slug := SlugFor(f.manufacturerId).value;
      SlugHasSubsidiary(subs, f.manufacturerId);
      SlugHasSubsidiary(r, f.manufacturerId);
      SameIdsSameIndex(subs, r, slug);
      var k := SubsidiaryIndex(subs, slug);
      var j :| 0 <= j < |subs[k].factories|
        && Matches(subs[k].factories[j], CleanKey(Str(f.locationName)), CleanKey(Str(city)));
      assert Matches(r[k].factories[j], CleanKey(Str(f.locationName)), CleanKey(Str(city)));
    }
  }

  /** One sync only appends presentation factories and leaves the synced factory covered. */
  lemma SyncFactoryCovers(table: seq<(string, Coord)>, subs: seq<Subsidiary>, f: Factory, city: string, copyCoords: bool)
    requires AllSlugsPresent(subs)
    ensures Grows(subs, SyncFactory(table, subs, f, city, copyCoords))
    ensures Covers(SyncFactory(table, subs, f, city, copyCoords), f, city)
  {
    if SlugFor(f.manufacturerId).Some? {
      SyncFactoryGrows(table, subs, f, city, copyCoords);
      SyncFactoryMatches(table, subs, f, city, copyCoords);
    }
  }

  lemma SyncFactoryGrows(table: seq<(string, Coord)>, subs: seq<Subsidiary>, f: Factory, city: string, copyCoords: bool)
    requires AllSlugsPresent(subs) && SlugFor(f.manufacturerId).Some?
    ensures Grows(subs, SyncFactory(table, subs, f, city, copyCoords))
  {
    var r := SyncFactory(table, subs, f, city, copyCoords);
    var slug := SlugFor(f.manufacturerId).value;
    SlugHasSubsidiary(subs, f.manufacturerId);
    var k := SubsidiaryIndex(subs, slug);
    var coords := StoredCoords(table, city, f.locationName, copyCoords);
    var wfs := SyncedFactories(table, subs[k], slug, f, city, coords);
    assert r == WithFactories(subs, k, wfs);
    SyncedFactoriesKeepNames(table, subs[k], slug, f, city, coords);
    GrowsWithFactories(subs, k, wfs);
  }

  lemma GrowsWithFactories(subs: seq<Subsidiary>, k: nat, wfs: seq<WrFactory>)
    requires k < |subs| && |subs[k].factories| <= |wfs|
    requires forall j :: 0 <= j < |subs[k].factories| ==>
               wfs[j].name == subs[k].factories[j].name && wfs[j].city == subs[k].factories[j].city
    ensures Grows(subs, WithFactories(subs, k, wfs))
  {
  }

  /** Syncing into one subsidiary keeps its presentation factories' names and cities, appending only. */
  lemma SyncedFactoriesKeepNames(table: seq<(string, Coord)>, sub: Subsidiary, slug: string, f: Factory, city: string, coords: CoordRef)
    ensures var old_ := sub.factories;
            var new_ := SyncedFactories(table, sub, slug, f, city, coords);
            && |old_| <= |new_|
            && forall j :: 0 <= j < |old_| ==> new_[j].name == old_[j].name && new_[j].city == old_[j].city
  {
    SyncedFactoriesEffect(table, sub, slug, f, city, coords);
    var old_ := sub.factories;
    var new_ := SyncedFactories(table, sub, slug, f, city, coords);
    var m := FindMatch(old_, CleanKey(Str(f.locationName)), CleanKey(Str(city)));
    forall j | 0 <= j < |old_|
      ensures new_[j].name == old_[j].name && new_[j].city == old_[j].city
    {
      if m.Some? && j == m.value {
        assert new_[j] == Refresh(table, old_[j], f, coords);
      }
    }
  }

  lemma SyncFactoryMatches(table: seq<(string, Coord)>, subs: seq<Subsidiary>, f: Factory, city: string, copyCoords: bool)
    requires AllSlugsPresent(subs) && SlugFor(f.manufacturerId).Some?
    ensures Covers(SyncFactory(table, subs, f, city, copyCoords), f, city)
  {
    var r := SyncFactory(table, subs, f, city, copyCoords);
    var slug := SlugFor(f.manufacturerId).value;
    SlugHasSubsidiary(subs, f.manufacturerId);
    SlugHasSubsidiary(r, f.manufacturerId);
    SameIdsSameIndex(subs, r, slug);
    var k := SubsidiaryIndex(subs, slug);
    var coords := StoredCoords(table, city, f.locationName, copyCoords);
    SyncFactoryEffect(table, subs, f, city, copyCoords);
    SyncedFactoriesEffect(table, subs[k], slug, f, city, coords);
    var old_ := subs[k].factories;
    var new_ := r[k].factories;
    var nameKey, cityKey := CleanKey(Str(f.locationName)), CleanKey(Str(city));
    var m := FindMatch(old_, nameKey, cityKey);
    if m.Some? {
      assert new_[m.value] == Refresh(table, old_[m.value], f, coords);
      assert Matches(new_[m.value], nameKey, cityKey);
    } else {
      assert Matches(new_[|old_|], nameKey, cityKey);
    }
  }

  lemma {:induction false} SyncAllGrows(table: seq<(string, Coord)>, subs: seq<Subsidiary>, fs: seq<Factory>)
    requires AllSlugsPresent(subs)
    ensures Grows(subs, SyncAll(table, subs, fs))
    decreases |fs|
  {
    if fs != [] {
      var next := SyncFactory(table, subs, fs[0], CityText(fs[0].city), true);
      SyncFactoryCovers(table, subs, fs[0], CityText(fs[0].city), true);
      SyncAllGrows(table, next, fs[1..]);
      GrowsTransitive(subs, next, SyncAll(table, next, fs[1..]));
    }
  }

  /**
   * Corrected, the loop syncs every mapped factory, a `None` city included: afterwards
   * the factory's subsidiary holds a presentation factory matching it by clean name or
   * by clean city.
   */
  lemma {:induction false} SyncAllCoversMapped(table: seq<(string, Coord)>, subs: seq<Subsidiary>, fs: seq<Factory>)
    requires AllSlugsPresent(subs)
    ensures forall i :: 0 <= i < |fs| ==> Covers(SyncAll(table, subs, fs), fs[i], CityText(fs[i].city))
    decreases |fs|
  {
    if fs != [] {
      var next := SyncFactory(table, subs, fs[0], CityText(fs[0].city), true);
      var r := SyncAll(table, next, fs[1..]);
      assert SyncAll(table, subs, fs) == r;
      SyncFactoryCovers(table, subs, fs[0], CityText(fs[0].city), true);
      SyncAllGrows(table, next, fs[1..]);
      CoversAfterGrows(next, r, fs[0], CityText(fs[0].city));
      SyncAllCoversMapped(table, next, fs[1..]);
      forall i | 1 <= i < |fs| ensures Covers(r, fs[i], CityText(fs[i].city)) {
        assert fs[i] == fs[1..][i - 1];
      }
    }
  }

  // -------------------------------------------------------------------- jitter

  /**
   * The jitter pass's mutable state: the table's coordinate objects, each factory's
   * own coordinate object (meaningful where its reference is `Own`), and
   * `city_factory_counts`.
   */
  datatype JitterState = JitterState(table: map<string, Coord>, owns: seq<Coord>, counts: map<Coord, int>)

  function Deref(st: JitterState, refs: seq<CoordRef>, i: nat): Coord
    requires i < |refs| && |st.owns| == |refs|
  {
    match refs[i]
    case Own(_) => st.owns[i]
    case Entry(k) => if k in st.table then st.table[k] else Origin
  }

  function Shift(c: Coord, d: real): Coord
  {
    Coord(c.latitude + d, c.longitude + d)
  }

  /**
   * Lines 177-188 for the `i`-th factory: a non-zero pair seen before is shifted on
   * both axes by 0.005 times its count, written into whichever object holds it, and
   * counted; a new pair is counted once.
   */
  function JitterStep(st: JitterState, refs: seq<CoordRef>, i: nat): (r: JitterState)
    requires i < |refs| && |st.owns| == |refs|
    ensures |r.owns| == |refs|
  {
    var c := Deref(st, refs, i);
    if c == Origin then st
    else if c in st.counts then
      var moved := Shift(c, 0.005 * st.counts[c] as real);
      var written := match refs[i]
        case Own(_) => st.(owns := st.owns[i := moved])
        case Entry(k) => st.(table := st.table[k := moved]);
      written.(counts := st.counts[c := st.counts[c] + 1])
    else st.(counts := st.counts[c := 1])
  }

  function JitterFrom(st: JitterState, refs: seq<CoordRef>, i: nat): (r: JitterState)
    requires i <= |refs| && |st.owns| == |refs|
    ensures |r.owns| == |refs|
    decreases |refs| - i
  {
    if i == |refs| then st else JitterFrom(JitterStep(st, refs, i), refs, i + 1)
  }

  function InitialOwns(refs: seq<CoordRef>): (r: seq<Coord>)
    ensures |r| == |refs|
  {
    seq(|refs|, i requires 0 <= i < |refs| => if refs[i].Own? then refs[i].c else Origin)
  }

  /**
   * The jitter pass as written, over the factories' coordinate references in
   * document order: the final coordinates each factory shows, read through the
   * objects after all mutations.
   */
  function JitterRefs(refs: seq<CoordRef>, table: map<string, Coord>): (r: seq<Coord>)
    ensures |r| == |refs|
  {
    var st := JitterFrom(JitterState(table, InitialOwns(refs), map[]), refs, 0);
    seq(|refs|, i requires 0 <= i < |refs| => Deref(st, refs, i))
  }

  /** The jitter pass on factories that each own a copy of their coordinates. */
  function Jitter(cs: seq<Coord>): (r: seq<Coord>)
    ensures |r| == |cs|
  {
    JitterRefs(seq(|cs|, i requires 0 <= i < |cs| => Own(cs[i])), map[])
  }

  /** The intended result for the `i`-th factory: shifted by 0.005 per earlier factory at the same pair. */
  function Expected(cs: seq<Coord>, i: nat): Coord
    requires i < |cs|
  {
    if cs[i] == Origin then Origin else Shift(cs[i], 0.005 * multiset(cs[..i])[cs[i]] as real)
  }

  predicate OwnsOnly(refs: seq<CoordRef>, cs: seq<Coord>)
  {
    |refs| == |cs| && forall j :: 0 <= j < |cs| ==> refs[j] == Own(cs[j])
  }

  /** After `i` steps on copies: earlier factories hold their result, later ones their input, counts are multiplicities. */
  ghost predicate JitterInv(cs: seq<Coord>, st: JitterState, i: nat)
  {
    && i <= |cs| && |st.owns| == |cs|
    && (forall j :: 0 <= j < i ==> st.owns[j] == Expected(cs, j))
    && (forall j :: i <= j < |cs| ==> st.owns[j] == cs[j])
    && Origin !in st.counts
    && (forall c :: c in st.counts ==> st.counts[c] == multiset(cs[..i])[c])
    && (forall c :: c != Origin && multiset(cs[..i])[c] > 0 ==> c in st.counts)
  }

  lemma JitterStepInv(cs: seq<Coord>, refs: seq<CoordRef>, st: JitterState, i: nat)
    requires OwnsOnly(refs, cs) && JitterInv(cs, st, i) && i < |cs|
    ensures JitterInv(cs, JitterStep(st, refs, i), i + 1)
  {
    var c := cs[i];
    assert cs[..i + 1] == cs[..i] + [c];
    var before := multiset(cs[..i]);
    var after := multiset(cs[..i + 1]);
    assert after == before + multiset{c};
    var r := JitterStep(st, refs, i);
    JitterStepOwns(cs, refs, st, i);
    JitterStepCounts(cs, refs, st, i);
    forall d | d in r.counts ensures r.counts[d] == after[d] {
      if d != c { assert after[d] == before[d]; }
    }
    forall d | d != Origin && after[d] > 0 ensures d in r.counts {
      if d != c { assert after[d] == before[d]; }
    }
  }

  /** One step on copies writes the `i`-th factory's intended result and nothing else. */
  lemma JitterStepOwns(cs: seq<Coord>, refs: seq<CoordRef>, st: JitterState, i: nat)
    requires OwnsOnly(refs, cs) && JitterInv(cs, st, i) && i < |cs|
    ensures JitterStep(st, refs, i).owns == st.owns[i := Expected(cs, i)]
  {
    var c := cs[i];
    var before := multiset(cs[..i]);
    assert Deref(st, refs, i) == c;
    if c != Origin && c in st.counts {
      assert st.counts[c] == before[c];
    } else if c != Origin {
      assert before[c] == 0;
    }
  }

  /** One step on copies counts the `i`-th pair once more, unless it is (0, 0). */
  lemma JitterStepCounts(cs: seq<Coord>, refs: seq<CoordRef>, st: JitterState, i: nat)
    requires OwnsOnly(refs, cs) && JitterInv(cs, st, i) && i < |cs|
    ensures JitterStep(st, refs, i).counts
         == if cs[i] == Origin then st.counts else st.counts[cs[i] := multiset(cs[..i])[cs[i]] + 1]
  {
    var c := cs[i];
    assert Deref(st, refs, i) == c;
    if c != Origin && c !in st.counts {
      assert multiset(cs[..i])[c] == 0;
    }
  }

  lemma {:induction false} JitterFromInv(cs: seq<Coord>, refs: seq<CoordRef>, st: JitterState, i: nat)
    requires OwnsOnly(refs, cs) && JitterInv(cs, st, i)
    ensures JitterInv(cs, JitterFrom(st, refs, i), |cs|)
    decreases |cs| - i
  {
    if i < |cs| {
      JitterStepInv(cs, refs, st, i);
      JitterFromInv(cs, refs, JitterStep(st, refs, i), i + 1);
    }
  }

  /**
   * The corrected jitter pass keeps (0, 0) and the first factory at each pair, and
   * moves the k-th later factory at that pair by 0.005·k on both axes.
   */
  lemma JitterShiftsDuplicates(cs: seq<Coord>)
    ensures forall i :: 0 <= i < |cs| ==> Jitter(cs)[i] == Expected(cs, i)
  {
    var refs := seq(|cs|, i requires 0 <= i < |cs| => Own(cs[i]));
    var st0 := JitterState(map[], InitialOwns(refs), map[]);
    assert cs[..0] == [];
    JitterFromInv(cs, refs, st0, 0);
  }

  const WinnipegCoord := Coord(49.8971, -97.0271)

  /**
   * Three factories whose coordinates all came from the "winnipeg" table entry share
   * one object as written: the second visit shifts the shared object, the third then
   * sees a pair not yet counted, and all three end up at the same shifted point.
   */
  lemma AliasedJitterCollapses()
    ensures JitterRefs([Entry("winnipeg"), Entry("winnipeg"), Entry("winnipeg")], map["winnipeg" := WinnipegCoord])
         == [Coord(49.9021, -97.0221), Coord(49.9021, -97.0221), Coord(49.9021, -97.0221)]
  {
    var refs := [Entry("winnipeg"), Entry("winnipeg"), Entry("winnipeg")];
    var moved := Coord(49.9021, -97.0221);
    var st0 := JitterState(map["winnipeg" := WinnipegCoord], InitialOwns(refs), map[]);
    var st1 := JitterStep(st0, refs, 0);
    assert st1.counts == map[WinnipegCoord := 1];
    var st2 := JitterStep(st1, refs, 1);
    assert st2.table == map["winnipeg" := moved];
    assert st2.counts == map[WinnipegCoord := 2];
    var st3 := JitterStep(st2, refs, 2);
    assert moved !in st2.counts;
    assert st3.table == map["winnipeg" := moved];
    assert JitterFrom(st0, refs, 0) == st3;
  }

  /** With copies the same three factories end up at three distinct points. */
  lemma CopiedJitterSpreads()
    ensures Jitter([WinnipegCoord, WinnipegCoord, WinnipegCoord])
         == [WinnipegCoord, Coord(49.9021, -97.0221), Coord(49.9071, -97.0171)]
  {
    var cs := [WinnipegCoord, WinnipegCoord, WinnipegCoord];
    JitterShiftsDuplicates(cs);
    assert multiset(cs[..1])[WinnipegCoord] == 1 by { assert cs[..1] == [WinnipegCoord]; }
    assert multiset(cs[..2])[WinnipegCoord] == 2 by { assert cs[..2] == [WinnipegCoord, WinnipegCoord]; }
  }

  // ------------------------------------------------------------------ document

  /** The coordinate references of every factory, group by group, subsidiary by subsidiary. */
  function GroupRefs(groups: seq<ParentGroup>): (r: seq<CoordRef>)
  {
    if groups == [] then [] else SubsidiaryRefs(groups[0].subsidiaries) + GroupRefs(groups[1..])
  }

  function SubsidiaryRefs(subs: seq<Subsidiary>): (r: seq<CoordRef>)
  {
    if subs == [] then [] else FactoryRefs(subs[0].factories) + SubsidiaryRefs(subs[1..])
  }

  function FactoryRefs(wfs: seq<WrFactory>): (r: seq<CoordRef>)
    ensures |r| == |wfs|
    ensures forall i :: 0 <= i < |wfs| ==> r[i] == wfs[i].coordinates
  {
    seq(|wfs|, i requires 0 <= i < |wfs| => wfs[i].coordinates)
  }

  /** The table as a dict of coordinate objects. */
  function TableObjects(table: seq<(string, Coord)>): (m: map<string, Coord>)
    ensures forall k :: k in m <==> TableGet(table, k).Some?
    ensures forall k :: k in m ==> m[k] == TableGet(table, k).value
  {
    if table == [] then map[]
    else
      var rest := TableObjects(table[1..]);
      assert forall k :: TableGet(table, k).Some? <==> k == table[0].0 || TableGet(table[1..], k).Some?;
      rest[table[0].0 := table[0].1]
  }

  /** `next(g for g in parentGroups if g['id'] == 'namg')`. */
  function NamgIndex(groups: seq<ParentGroup>): (r: Option<nat>)
    ensures r.Some? ==> r.value < |groups| && groups[r.value].id == "namg"
    ensures r.Some? ==> forall j :: 0 <= j < r.value ==> groups[j].id != "namg"
    ensures r.None? ==> forall j :: 0 <= j < |groups| ==> groups[j].id != "namg"
  {
    FindFirst(groups, (g: ParentGroup) => g.id == "namg")
  }

  /** The synced document and, in document order, the coordinates each factory ends with. */
  datatype Synced = Synced(groups: seq<ParentGroup>, coordinates: seq<Coord>)

  /**
   * The script as written: `None` when there is no "namg" group (it exits) or when a
   * mapped factory's city is `None`; otherwise the document and the coordinates
   * read after the aliased jitter pass.
   */
  function SyncWarRoomAsWritten(table: seq<(string, Coord)>, groups: seq<ParentGroup>, fs: seq<Factory>): (r: Option<Synced>)
    ensures NamgIndex(groups).None? ==> r.None?
    ensures r.Some? ==> NamgIndex(groups).Some? && |r.value.groups| == |groups|
    ensures r.Some? ==> forall j :: 0 <= j < |groups| && j != NamgIndex(groups).value ==> r.value.groups[j] == groups[j]
    ensures r.Some? ==> AllSlugsPresent(r.value.groups[NamgIndex(groups).value].subsidiaries)
  {
    match NamgIndex(groups)
    case None => None
    case Some(g) =>
      var subs := EnsureSubsidiaries(groups[g].subsidiaries, Slugs());
      match SyncAllAsWritten(table, subs, fs)
      case None => None
      case Some(subs') =>
        var groups' := groups[g := groups[g].(subsidiaries := subs')];
        Some(Synced(groups', JitterRefs(GroupRefs(groups'), TableObjects(table))))
  }

  /**
   * The script corrected: fails only without a "namg" group; every mapped slug then
   * has a subsidiary, other groups are untouched, and the coordinates are the
   * corrected jitter of each factory's own coordinates.
   */
  function SyncWarRoom(table: seq<(string, Coord)>, groups: seq<ParentGroup>, fs: seq<Factory>): (r: Option<Synced>)
    ensures r.None? <==> NamgIndex(groups).None?
  {
    match NamgIndex(groups)
    case None => None
    case Some(g) =>
      var subs := EnsureSubsidiaries(groups[g].subsidiaries, Slugs());
      EnsureAllSlugs(groups[g].subsidiaries);
      var groups' := groups[g := groups[g].(subsidiaries := SyncAll(table, subs, fs))];
      Some(Synced(groups', CorrectedCoords(table, groups')))
  }

  /**
   * The corrected document: only the "namg" group changes, and the coordinates are
   * the corrected jitter of the factories' own.
   */
  lemma SyncWarRoomKeepsOtherGroups(table: seq<(string, Coord)>, groups: seq<ParentGroup>, fs: seq<Factory>)
    requires NamgIndex(groups).Some?
    ensures var r := SyncWarRoom(table, groups, fs).value;
            var g := NamgIndex(groups).value;
            && |r.groups| == |groups|
            && (forall j :: 0 <= j < |groups| && j != g ==> r.groups[j] == groups[j])
            && r.coordinates == CorrectedCoords(table, r.groups)
  {
    SyncWarRoomUnfold(table, groups, fs);
  }

  /**
   * The corrected document's "namg" subsidiaries keep their ids and order, gain one
   * per missing slug, and cover every mapped factory.
   */
  lemma SyncWarRoomSyncsNamg(table: seq<(string, Coord)>, groups: seq<ParentGroup>, fs: seq<Factory>)
    requires NamgIndex(groups).Some?
    ensures var r := SyncWarRoom(table, groups, fs).value;
            var g := NamgIndex(groups).value;
            && |r.groups| == |groups|
            && NamgSynced(groups[g].subsidiaries, r.groups[g].subsidiaries, fs)
  {
    var g := NamgIndex(groups).value;
    var before := groups[g].subsidiaries;
    var subs := EnsureSubsidiaries(before, Slugs());
    EnsureAllSlugs(before);
    NamgSubsidiaries(table, before, subs, fs);
    SyncWarRoomUnfold(table, groups, fs);
  }

  lemma SyncWarRoomUnfold(table: seq<(string, Coord)>, groups: seq<ParentGroup>, fs: seq<Factory>)
    requires NamgIndex(groups).Some?
    ensures var g := NamgIndex(groups).value;
            var groups' := groups[g := groups[g].(subsidiaries := SyncAll(table, EnsureSubsidiaries(groups[g].subsidiaries, Slugs()), fs))];
            SyncWarRoom(table, groups, fs) == Some(Synced(groups', CorrectedCoords(table, groups')))
  {
  }

  /**
   * The "namg" subsidiaries after the sync: the old ones keep their ids and order,
   * every mapped slug has one, and every mapped factory is covered.
   */
  predicate NamgSynced(before: seq<Subsidiary>, after: seq<Subsidiary>, fs: seq<Factory>)
  {
    && |before| <= |after|
    && (forall i :: 0 <= i < |before| ==> after[i].id == before[i].id)
    && AllSlugsPresent(after)
    && (forall i :: 0 <= i < |fs| ==> Covers(after, fs[i], CityText(fs[i].city)))
  }

  /** What the corrected pass does to subsidiaries already completed with every slug. */
  lemma NamgSubsidiaries(table: seq<(string, Coord)>, before: seq<Subsidiary>, subs: seq<Subsidiary>, fs: seq<Factory>)
    requires before <= subs && AllSlugsPresent(subs)
    ensures NamgSynced(before, SyncAll(table, subs, fs), fs)
  {
    var after := SyncAll(table, subs, fs);
    SyncAllGrows(table, subs, fs);
    SyncAllCoversMapped(table, subs, fs);
    SameIdsKeepSlugs(subs, after);
    assert forall i :: 0 <= i < |before| ==> subs[i].id == before[i].id;
  }

  lemma EnsureAllSlugs(subs: seq<Subsidiary>)
    ensures AllSlugsPresent(EnsureSubsidiaries(subs, Slugs()))
  {
    var r := EnsureSubsidiaries(subs, Slugs());
    forall i | 0 <= i < |ManufacturerSlugs| ensures HasSubsidiary(r, ManufacturerSlugs[i].1) {
      assert Slugs()[i] == ManufacturerSlugs[i].1;
    }
  }

  /** The corrected jitter of each factory's own coordinates, in document order. */
  function CorrectedCoords(table: seq<(string, Coord)>, groups: seq<ParentGroup>): (r: seq<Coord>)
    ensures |r| == |GroupRefs(groups)|
  {
    var refs := GroupRefs(groups);
    Jitter(seq(|refs|, i requires 0 <= i < |refs| => RefCoord(table, refs[i])))
  }
}

=== FILE: text.dfy ===
/** An optional value: JavaScript's `undefined`/`null` and Python's `None` become `None`. */
module Wrappers {
  datatype Option<T> = None | Some(value: T)
  {
    /** The value, or `default` when absent: the shape of `a ?? b`. */
    function GetOr(default: T): T
    {
      if Some? then value else default
    }
  }
}

/**
 * String helpers shared by the scripts and the services. Strings are sequences of
 * characters; case mapping and whitespace are those of ASCII.
 */
module Text {
  import opened Wrappers

  // ---------------------------------------------------------------- characters

  /** The ASCII characters matched by `\s` in JavaScript and stripped by Python's `strip()`. */
  predicate IsWhitespace(c: char)
  {
    c == ' ' || c == '\t' || c == '\n' || c == '\r' || c == '\U{000B}' || c == '\U{000C}'
  }

  predicate IsUpper(c: char) { 'A' <= c <= 'Z' }
  predicate IsLower(c: char) { 'a' <= c <= 'z' }
  predicate IsDigit(c: char) { '0' <= c <= '9' }

  /** The class `[a-zA-Z0-9]`. */
  predicate IsAlnum(c: char) { IsUpper(c) || IsLower(c) || IsDigit(c) }

  /** The class `[a-z0-9]`. */
  predicate IsSlugChar(c: char) { IsLower(c) || IsDigit(c) }

  function LowerChar(c: char): (r: char)
    ensures !IsUpper(r)
    ensures IsUpper(c) ==> IsLower(r)
    ensures !IsUpper(c) ==> r == c
  {
    if IsUpper(c) then (c as int + 32) as char else c
  }

  function UpperChar(c: char): (r: char)
    ensures !IsLower(r)
    ensures IsLower(c) ==> IsUpper(r)
    ensures !IsLower(c) ==> r == c
  {
    if IsLower(c) then (c as int - 32) as char else c
  }

  // ------------------------------------------------------------------ casing

  function ToLower(s: string): (r: string)
    ensures |r| == |s|
    ensures forall i :: 0 <= i < |s| ==> r[i] == LowerChar(s[i])
  {
    seq(|s|, i requires 0 <= i < |s| => LowerChar(s[i]))
  }

  function ToUpper(s: string): (r: string)
    ensures |r| == |s|
    ensures forall i :: 0 <= i < |s| ==> r[i] == UpperChar(s[i])
  {
    seq(|s|, i requires 0 <= i < |s| => UpperChar(s[i]))
  }

  predicate HasNoUpper(s: string) { forall i :: 0 <= i < |s| ==> !IsUpper(s[i]) }

  lemma UpperOfLower(s: string)
    ensures ToUpper(ToLower(s)) == ToUpper(s)
  {
    assert forall i :: 0 <= i < |s| ==> UpperChar(LowerChar(s[i])) == UpperChar(s[i]);
  }

  lemma UpperOfUpper(s: string)
    ensures ToUpper(ToUpper(s)) == ToUpper(s)
  {
    assert forall i :: 0 <= i < |s| ==> UpperChar(UpperChar(s[i])) == UpperChar(s[i]);
  }

  lemma ToLowerOnLower(s: string)
    requires HasNoUpper(s)
    ensures ToLower(s) == s
  {
  }

  // ---------------------------------------------------------------- trimming

  function TrimStart(s: string): (r: string)
    ensures |r| <= |s| && r == s[|s| - |r|..]
    ensures r == [] || !IsWhitespace(r[0])
    ensures forall i :: 0 <= i < |s| - |r| ==> IsWhitespace(s[i])
    decreases |s|
  {
    if s != [] && IsWhitespace(s[0]) then TrimStart(s[1..]) else s
  }

  function TrimEnd(s: string): (r: string)
    ensures |r| <= |s| && r == s[..|r|]
    ensures r == [] || !IsWhitespace(r[|r| - 1])
    ensures forall i :: |r| <= i < |s| ==> IsWhitespace(s[i])
    decreases |s|
  {
    if s != [] && IsWhitespace(s[|s| - 1]) then TrimEnd(s[..|s| - 1]) else s
  }

  /** `trim()` / `strip()`: leading and trailing whitespace removed. */
  function Trim(s: string): (r: string)
    ensures |r| <= |s|
    ensures r == [] || (!IsWhitespace(r[0]) && !IsWhitespace(r[|r| - 1]))
  {
    TrimEnd(TrimStart(s))
  }

  /** Trimming keeps only characters of the input. */
  lemma TrimKeepsChars(s: string)
    ensures forall c :: c in Trim(s) ==> c in s
  {
    var a := TrimStart(s);
    var r := TrimEnd(a);
    forall c | c in r ensures c in s {
      var i :| 0 <= i < |r| && r[i] == c;
      assert r[i] == a[i];
      assert a[i] == s[|s| - |a| + i];
    }
  }

  /** A lower-cased, trimmed string has no upper-case letter. */
  lemma LowerTrimHasNoUpper(s: string)
    ensures forall c :: c in Trim(ToLower(s)) ==> !IsUpper(c)
  {
    var t := ToLower(s);
    TrimKeepsChars(t);
    assert forall c :: c in t ==> !IsUpper(c);
  }

  lemma TrimUntrimmed(s: string)
    requires s == [] || (!IsWhitespace(s[0]) && !IsWhitespace(s[|s| - 1]))
    ensures Trim(s) == s
  {
    var t := TrimStart(s);
    if s != [] {
      assert |t| == |s|;
    }
  }

  /** A string without outer whitespace. */
  predicate Trimmed(s: string)
  {
    s == [] || (!IsWhitespace(s[0]) && !IsWhitespace(s[|s| - 1]))
  }

  /** Trimming a space in front of a trimmed string gives the string back. */
  lemma TrimAfterSpace(s: string)
    requires Trimmed(s)
    ensures Trim(" " + s) == s
  {
    assert " " + s == [' '] + s;
    TrimStartAfterBlank(' ', s);
    TrimUntrimmed(s);
  }

  lemma TrimStartAfterBlank(c: char, s: string)
    requires IsWhitespace(c)
    ensures TrimStart([c] + s) == TrimStart(s)
  {
    assert ([c] + s)[1..] == s;
  }

  /** A string that is empty once trimmed. */
  predicate IsBlank(s: string) { Trim(s) == [] }

  /** Every character is whitespace. */
  predicate AllWhitespace(s: string) { forall i :: 0 <= i < |s| ==> IsWhitespace(s[i]) }

  /** A string is blank exactly when it is whitespace through and through. */
  lemma BlankIffAllWhitespace(s: string)
    ensures IsBlank(s) <==> AllWhitespace(s)
  {
  }

  // --------------------------------------------------------------- searching

  predicate StartsWith(s: string, prefix: string)
  {
    |prefix| <= |s| && s[..|prefix|] == prefix
  }

  /** `s.includes(sub)` / Python's `sub in s`. */
  predicate Contains(s: string, sub: string)
    decreases |s|
  {
    StartsWith(s, sub) || (|s| > 0 && Contains(s[1..], sub))
  }

  lemma ContainsSelf(s: string)
    ensures Contains(s, s)
  {
  }

  /** `sub` occurs in `s` at position `i`. */
  predicate OccursAt(s: string, sub: string, i: nat)
  {
    i + |sub| <= |s| && s[i..i + |sub|] == sub
  }

  /** Where `sub` occurs in `s`. */
  lemma {:induction false} ContainsWindow(s: string, sub: string)
    requires Contains(s, sub)
    ensures exists i: nat :: OccursAt(s, sub, i)
    decreases |s|
  {
    if StartsWith(s, sub) {
      assert OccursAt(s, sub, 0);
    } else {
      ContainsWindow(s[1..], sub);
      var i: nat :| OccursAt(s[1..], sub, i);
      assert s[1..][i..i + |sub|] == s[i + 1..i + 1 + |sub|];
      assert OccursAt(s, sub, i + 1);
    }
  }

  /** Every character of a contained string is a character of `s`. */
  lemma ContainedChars(s: string, sub: string)
    ensures Contains(s, sub) ==> forall k :: 0 <= k < |sub| ==> sub[k] in s
  {
    if Contains(s, sub) {
      ContainsWindow(s, sub);
      var i: nat :| OccursAt(s, sub, i);
      forall k | 0 <= k < |sub| ensures sub[k] in s {
        assert s[i..i + |sub|][k] == s[i + k];
      }
    }
  }

  /** A string in which `sub` occurs nowhere does not contain it. */
  lemma NoWindowNotContained(s: string, sub: string)
    requires forall i: nat :: !OccursAt(s, sub, i)
    ensures !Contains(s, sub)
  {
    if Contains(s, sub) {
      ContainsWindow(s, sub);
    }
  }

  /** A string lacking one of the characters of `sub` does not contain `sub`. */
  lemma MissingCharNotContained(s: string, sub: string, c: char)
    requires c in sub && c !in s
    ensures !Contains(s, sub)
  {
    ContainedChars(s, sub);
  }

  // ---------------------------------------------------------- split and join

  /** The position of the first `c` in `s`. */
  function IndexOf(s: string, c: char): (i: nat)
    requires c in s
    ensures i < |s| && s[i] == c && c !in s[..i]
  {
    if s[0] == c then 0 else 1 + IndexOf(s[1..], c)
  }

  /** `parts.join(sep)`. */
  function Join(parts: seq<string>, sep: string): string
  {
    if |parts| == 0 then []
    else if |parts| == 1 then parts[0]
    else parts[0] + sep + Join(parts[1..], sep)
  }

  /** `s.split(sep)` for a one-character separator: never empty, and no piece holds `sep`. */
  function Split(s: string, sep: char): (r: seq<string>)
    ensures |r| >= 1
    ensures |r| == 1 <==> sep !in s
    ensures sep !in s ==> r == [s]
    ensures sep in s ==> r[0] == s[..IndexOf(s, sep)]
    ensures forall k :: 0 <= k < |r| ==> sep !in r[k]
    decreases |s|
  {
    if sep !in s then [s]
    else [s[..IndexOf(s, sep)]] + Split(s[IndexOf(s, sep) + 1..], sep)
  }

  /** Joining the pieces with the separator gives back the string. */
  lemma {:induction false} SplitJoin(s: string, sep: char)
    ensures Join(Split(s, sep), [sep]) == s
    decreases |s|
  {
    if sep in s {
      var i := IndexOf(s, sep);
      SplitUnfold(s, sep);
      JoinCons(s[..i], Split(s[i + 1..], sep), [sep]);
      SplitJoin(s[i + 1..], sep);
      Around(s, i);
    }
  }

  /** Splitting pieces joined by a separator none of them holds gives back the pieces. */
  lemma {:induction false} JoinSplit(parts: seq<string>, sep: char)
    requires parts != [] && forall k :: 0 <= k < |parts| ==> sep !in parts[k]
    ensures Split(Join(parts, [sep]), sep) == parts
    decreases |parts|
  {
    if |parts| > 1 {
      var rest := Join(parts[1..], [sep]);
      JoinSplit(parts[1..], sep);
      SplitAfterPiece(parts[0], rest, sep);
      assert [parts[0]] + parts[1..] == parts;
    }
  }

  /** A piece without the separator, the separator, and the rest split apart at that separator. */
  lemma SplitAfterPiece(a: string, rest: string, sep: char)
    requires sep !in a
    ensures Split(a + [sep] + rest, sep) == [a] + Split(rest, sep)
  {
    var s := a + [sep] + rest;
    assert s[|a|] == sep;
    assert IndexOf(s, sep) == |a| by {
      assert s[..|a|] == a;
    }
    assert s[..|a|] == a && s[|a| + 1..] == rest;
    SplitUnfold(s, sep);
  }

  lemma JoinCons(a: string, rest: seq<string>, sep: string)
    requires rest != []
    ensures Join([a] + rest, sep) == a + sep + Join(rest, sep)
  {
    assert ([a] + rest)[1..] == rest;
  }

  /** A string is what comes before position `i`, the character there, and what follows. */
  lemma Around(s: string, i: nat)
    requires i < |s|
    ensures s == s[..i] + [s[i]] + s[i + 1..]
  {
  }

  /** Where the text after the last `sep` of `s` starts: 0 without one. */
  function AfterLastSep(s: string, sep: char): (n: nat)
    ensures n <= |s|
    ensures n == 0 || s[n - 1] == sep
    ensures forall k :: n <= k < |s| ==> s[k] != sep
  {
    if s == [] then 0
    else if s[|s| - 1] == sep then |s|
    else AfterLastSep(s[..|s| - 1], sep)
  }

  /** `s.split(sep).pop()`: what follows the last separator, or all of `s` without one. */
  function LastPiece(s: string, sep: char): (r: string)
    ensures sep !in r
    ensures |r| <= |s| && r == s[|s| - |r|..]
    ensures sep !in s ==> r == s
    ensures sep in s ==> |r| < |s| && s[|s| - |r| - 1] == sep
  {
    var n := AfterLastSep(s, sep);
    assert n > 0 ==> s[n - 1] in s;
    s[n..]
  }

  /** A `sep`-free suffix that starts the string or follows a `sep` is the last piece. */
  lemma LastPieceUnique(s: string, sep: char, r: string)
    requires |r| <= |s| && r == s[|s| - |r|..] && sep !in r
    requires |r| == |s| || s[|s| - |r| - 1] == sep
    ensures r == LastPiece(s, sep)
  {
    var p := LastPiece(s, sep);
    if |p| < |r| {
      Member(r, |r| - |p| - 1);
      assert false;
    } else if |r| < |p| {
      Member(p, |p| - |r| - 1);
      assert false;
    }
  }

  lemma Member<T>(s: seq<T>, i: int)
    ensures 0 <= i < |s| ==> s[i] in s
  {
  }

  lemma SplitUnfold(s: string, sep: char)
    requires sep in s
    ensures Split(s, sep) == [s[..IndexOf(s, sep)]] + Split(s[IndexOf(s, sep) + 1..], sep)
  {
  }

  /** The length of the run of whitespace at the start of `s`. */
  function WhitespaceRun(s: string): (n: nat)
    ensures n <= |s|
    ensures forall i :: 0 <= i < n ==> IsWhitespace(s[i])
    ensures n == |s| || !IsWhitespace(s[n])
  {
    if s != [] && IsWhitespace(s[0]) then 1 + WhitespaceRun(s[1..]) else 0
  }

  /** The length of the prefix of `s` without whitespace. */
  function WordRun(s: string): (n: nat)
    ensures n <= |s|
    ensures forall i :: 0 <= i < n ==> !IsWhitespace(s[i])
    ensures n == |s| || IsWhitespace(s[n])
  {
    if s != [] && !IsWhitespace(s[0]) then 1 + WordRun(s[1..]) else 0
  }

  /** The word run is the first `n` characters when they hold no whitespace and what follows does. */
  lemma WordRunIs(s: string, n: nat)
    requires n <= |s| && forall i :: 0 <= i < n ==> !IsWhitespace(s[i])
    requires n == |s| || IsWhitespace(s[n])
    ensures WordRun(s) == n
  {
  }

  /**
   * `s.split(/\s+/)`: cut at every maximal run of whitespace, so a leading or
   * trailing run gives an empty first or last piece.
   */
  function SplitWhitespace(s: string): (r: seq<string>)
    ensures |r| >= 1
    ensures forall k :: 0 <= k < |r| ==> forall i :: 0 <= i < |r[k]| ==> !IsWhitespace(r[k][i])
    decreases |s|
  {
    var n := WordRun(s);
    if n == |s| then [s]
    else
      var m := WhitespaceRun(s[n..]);
      [s[..n]] + SplitWhitespace(s[n + m..])
  }

  /** No character of the string is whitespace. */
  predicate NoWhitespace(s: string) { forall i :: 0 <= i < |s| ==> !IsWhitespace(s[i]) }

  /** A string without whitespace is one word. */
  lemma OneWordSplit(a: string)
    requires NoWhitespace(a)
    ensures SplitWhitespace(a) == [a]
  {
    WordRunIs(a, |a|);
  }

  /** A word, one space and more text: the word, then the words of the rest. */
  lemma SplitTwoWords(a: string, b: string)
    requires a != [] && b != [] && NoWhitespace(a) && NoWhitespace(b)
    ensures SplitWhitespace(a + " " + b) == [a] + SplitWhitespace(b)
  {
    var s := a + " " + b;
    FirstWordRun(a, b);
    SpaceRun(b);
    assert s[|a|..] == " " + b && s[|a| + 1..] == b && s[..|a|] == a;
  }

  lemma FirstWordRun(a: string, b: string)
    requires NoWhitespace(a)
    ensures WordRun(a + " " + b) == |a|
  {
    var s := a + " " + b;
    assert forall i :: 0 <= i < |a| ==> s[i] == a[i];
    assert IsWhitespace(s[|a|]);
    WordRunIs(s, |a|);
  }

  lemma SpaceRun(b: string)
    requires b != [] && NoWhitespace(b)
    ensures WhitespaceRun(" " + b) == 1
  {
    assert (" " + b)[1] == b[0];
  }

  /** Every character of every word is a character of the string. */
  lemma {:induction false} SplitWhitespaceKeepsChars(s: string)
    ensures forall k, i :: 0 <= k < |SplitWhitespace(s)| && 0 <= i < |SplitWhitespace(s)[k]| ==> SplitWhitespace(s)[k][i] in s
    decreases |s|
  {
    var n := WordRun(s);
    if n < |s| {
      var m := WhitespaceRun(s[n..]);
      var rest := s[n + m..];
      SplitWhitespaceKeepsChars(rest);
      assert forall c :: c in rest ==> c in s;
      assert forall c :: c in s[..n] ==> c in s;
    }
  }

  /** `s.replace(/\s+/g, rep)`. */
  function ReplaceWhitespaceRuns(s: string, rep: string): string
  {
    Join(SplitWhitespace(s), rep)
  }

  /** Keep the elements satisfying `p`: `filter` in both languages. */
  function FilterChars(s: string, p: char -> bool): (r: string)
    ensures |r| <= |s|
    ensures forall i :: 0 <= i < |r| ==> p(r[i])
    ensures forall c :: c in r <==> c in s && p(c)
  {
    if s == [] then []
    else (if p(s[0]) then [s[0]] else []) + FilterChars(s[1..], p)
  }

  // ----------------------------------------------------------------- slugify

  lemma {:induction false} FilterKeepsAll(s: string, p: char -> bool)
    requires forall i :: 0 <= i < |s| ==> p(s[i])
    ensures FilterChars(s, p) == s
  {
    if s != [] {
      FilterKeepsAll(s[1..], p);
      assert s == [s[0]] + s[1..];
    }
  }

  /** A slug: `[a-z0-9-]` only, no `-` at either end and no `--`. */
  predicate IsSlug(s: string)
  {
    && (forall i :: 0 <= i < |s| ==> IsSlugChar(s[i]) || s[i] == '-')
    && (s != [] ==> s[0] != '-' && s[|s| - 1] != '-')
    && (forall i :: 0 <= i < |s| - 1 ==> !(s[i] == '-' && s[i + 1] == '-'))
  }

  /** Drop the leading characters outside `[a-z0-9]`. */
  function DropNonSlugChars(s: string): (r: string)
    ensures |r| <= |s| && r == s[|s| - |r|..]
    ensures r == [] || IsSlugChar(r[0])
    decreases |s|
  {
    if s != [] && !IsSlugChar(s[0]) then DropNonSlugChars(s[1..]) else s
  }

  /** `replace(/[^a-z0-9]+/g, '-')`: every maximal run outside `[a-z0-9]` becomes one `-`. */
  function CollapseNonSlugRuns(s: string): (r: string)
    ensures forall i :: 0 <= i < |r| ==> IsSlugChar(r[i]) || r[i] == '-'
    ensures forall i :: 0 <= i < |r| - 1 ==> !(r[i] == '-' && r[i + 1] == '-')
    ensures s == [] <==> r == []
    ensures s != [] && IsSlugChar(s[0]) ==> r[0] == s[0]
    decreases |s|
  {
    if s == [] then []
    else if IsSlugChar(s[0]) then
      var rest := CollapseNonSlugRuns(s[1..]);
      var r := [s[0]] + rest;
      assert forall i :: 1 <= i < |r| ==> r[i] == rest[i - 1];
      r
    else
      var t := DropNonSlugChars(s[1..]);
      var rest := CollapseNonSlugRuns(t);
      var r := "-" + rest;
      assert forall i :: 1 <= i < |r| ==> r[i] == rest[i - 1];
      assert rest == [] || IsSlugChar(rest[0]);
      r
  }

  function TrimLeadingDashes(s: string): (r: string)
    ensures |r| <= |s| && r == s[|s| - |r|..]
    ensures r == [] || r[0] != '-'
    decreases |s|
  {
    if s != [] && s[0] == '-' then TrimLeadingDashes(s[1..]) else s
  }

  function TrimTrailingDashes(s: string): (r: string)
    ensures |r| <= |s| && r == s[..|r|]
    ensures r == [] || r[|r| - 1] != '-'
    decreases |s|
  {
    if s != [] && s[|s| - 1] == '-' then TrimTrailingDashes(s[..|s| - 1]) else s
  }

  /**
   * `s.toLowerCase().replace(/[^a-z0-9]+/g, '-').replace(/^-+|-+$/g, '')`, the slug
   * used for company, subsidiary and location ids.
   */
  function Slugify(s: string): (r: string)
    ensures IsSlug(r)
  {
    var c := CollapseNonSlugRuns(ToLower(s));
    TrimmedIsSlug(c);
    TrimTrailingDashes(TrimLeadingDashes(c))
  }

  /** Slug characters and single dashes, dashes allowed at either end. */
  predicate SlugText(s: string)
  {
    && (forall i :: 0 <= i < |s| ==> IsSlugChar(s[i]) || s[i] == '-')
    && (forall i :: 0 <= i < |s| - 1 ==> !(s[i] == '-' && s[i + 1] == '-'))
  }

  lemma TrimmedIsSlug(c: string)
    requires SlugText(c)
    ensures IsSlug(TrimTrailingDashes(TrimLeadingDashes(c)))
  {
    var a := TrimLeadingDashes(c);
    SliceOfSlugText(c, |c| - |a|, |c|);
    TrailingTrimmedIsSlug(a);
  }

  lemma TrailingTrimmedIsSlug(a: string)
    requires SlugText(a) && (a == [] || a[0] != '-')
    ensures IsSlug(TrimTrailingDashes(a))
  {
    var b := TrimTrailingDashes(a);
    SliceOfSlugText(a, 0, |b|);
    assert b != [] ==> b[0] == a[0];
  }

  /** A slice of text made of slug characters and single dashes is such text too. */
  lemma SliceOfSlugText(c: string, lo: nat, hi: nat)
    requires lo <= hi <= |c|
    requires SlugText(c)
    ensures SlugText(c[lo..hi])
  {
    var a := c[lo..hi];
    forall i | 0 <= i < hi - lo - 1 ensures !(a[i] == '-' && a[i + 1] == '-') {
      assert a[i] == c[lo + i] && a[i + 1] == c[lo + i + 1];
    }
  }

  lemma {:induction false} CollapseOnSlugChars(s: string)
    requires forall i :: 0 <= i < |s| ==> IsSlugChar(s[i]) || s[i] == '-'
    requires forall i :: 0 <= i < |s| - 1 ==> !(s[i] == '-' && s[i + 1] == '-')
    ensures CollapseNonSlugRuns(s) == s
    decreases |s|
  {
    if s != [] {
      if IsSlugChar(s[0]) {
        CollapseOnSlugChars(s[1..]);
      } else {
        var t := s[1..];
        assert t == [] || IsSlugChar(t[0]);
        assert DropNonSlugChars(t) == t;
        CollapseOnSlugChars(t);
      }
    }
  }

  /** A slug is its own slug, so `Slugify` is idempotent. */
  lemma {:induction false} SlugifyFixesSlugs(s: string)
    requires IsSlug(s)
    ensures Slugify(s) == s
  {
    ToLowerOnLower(s);
    assert ToLower(s) == s;
    CollapseOnSlugChars(s);
    assert CollapseNonSlugRuns(s) == s;
    assert TrimLeadingDashes(s) == s;
    assert TrimTrailingDashes(s) == s;
  }

  lemma SlugifyIdempotent(s: string)
    ensures Slugify(Slugify(s)) == Slugify(s)
  {
    SlugifyFixesSlugs(Slugify(s));
  }

  // ----------------------------------------------------------------- numbers

  function DigitChar(d: nat): (c: char)
    requires d < 10
    ensures IsDigit(c)
  {
    ('0' as int + d) as char
  }

  function DigitValue(c: char): nat
    requires IsDigit(c)
  {
    c as int - '0' as int
  }

  /** The value of a string of decimal digits. */
  function DecimalValue(s: string): nat
    requires forall i :: 0 <= i < |s| ==> IsDigit(s[i])
  {
    if s == [] then 0 else 10 * DecimalValue(s[..|s| - 1]) + DigitValue(s[|s| - 1])
  }

  /** The decimal rendering of a natural number, as `String(n)` and `str(n)` give it. */
  function NatToString(n: nat): (r: string)
    ensures |r| >= 1
    ensures forall i :: 0 <= i < |r| ==> IsDigit(r[i])
  {
    if n < 10 then [DigitChar(n)] else NatToString(n / 10) + [DigitChar(n % 10)]
  }

  lemma {:induction false} NatToStringRoundTrip(n: nat)
    ensures DecimalValue(NatToString(n)) == n
  {
    if n >= 10 {
      var r := NatToString(n);
      assert r[..|r| - 1] == NatToString(n / 10);
      NatToStringRoundTrip(n / 10);
    }
  }

  function IntToString(n: int): (r: string)
    ensures |r| >= 1
    ensures n < 0 <==> r[0] == '-'
  {
    if n < 0 then "-" + NatToString(-n) else NatToString(n)
  }

  // -------------------------------------------------------------- truthiness

  /** JavaScript truthiness of an optional string: present and non-empty. */
  predicate Filled(o: Option<string>) { o.Some? && o.value != [] }

  /** `a || b` on optional strings. */
  function Or(a: Option<string>, b: Option<string>): (r: Option<string>)
    ensures Filled(a) ==> r == a
    ensures !Filled(a) ==> r == b
  {
    if Filled(a) then a else b
  }

  // ---------------------------------------------------------------- ordering

  /** Code-point lexicographic order, JavaScript's default string comparison. */
  predicate StrLe(a: string, b: string)
    decreases |a|
  {
    a == [] || (b != [] && (a[0] < b[0] || (a[0] == b[0] && StrLe(a[1..], b[1..]))))
  }

  lemma {:induction false} StrLeTotal(a: string, b: string)
    ensures StrLe(a, b) || StrLe(b, a)
    decreases |a|
  {
    if a != [] && b != [] && a[0] == b[0] {
      StrLeTotal(a[1..], b[1..]);
    }
  }

  lemma {:induction false} StrLeTransitive(a: string, b: string, c: string)
    requires StrLe(a, b) && StrLe(b, c)
    ensures StrLe(a, c)
    decreases |a|
  {
    if a != [] && a[0] == b[0] && b[0] == c[0] {
      StrLeTransitive(a[1..], b[1..], c[1..]);
    }
  }
}

=== FILE: ticket_report.dfy ===
/**
 * The paging, validation and search of `VehicleTicketReportComponent`
 * (src/app/components/admin/reports/vehicle-ticket-report/vehicle-ticket-report.component.ts).
 * The report itself is fetched from a server; here only the request the component
 * builds and the page state it keeps are modelled.
 */
module TicketReport {
  import opened Wrappers
  import opened Text
  import Seqs

  /** The component's fixed page size. */
  const PageSize: nat := 10

  /** At most this many consecutive page numbers are shown. */
  const MaxPagesToShow: nat := 5

  /** The ellipsis entry of the page list. */
  const Gap: int := -1

  // ------------------------------------------------------------ pages

  /** `getTotalPages`: `Math.ceil(totalCount / pageSize)`, the fewest pages holding every ticket. */
  function TotalPages(totalCount: nat): (r: nat)
    ensures r * PageSize >= totalCount
    ensures r == 0 || (r - 1) * PageSize < totalCount
    ensures r == 0 <==> totalCount == 0
  {
    (totalCount + PageSize - 1) / PageSize
  }

  /** The integers `lo..hi`, in order. */
  function Range(lo: int, hi: int): (r: seq<int>)
    ensures |r| == if lo <= hi then hi - lo + 1 else 0
    ensures forall k :: 0 <= k < |r| ==> r[k] == lo + k
    decreases if lo <= hi then hi - lo + 1 else 0
  {
    if lo > hi then [] else [lo] + Range(lo + 1, hi)
  }

  function Max(a: int, b: int): int { if a < b then b else a }
  function Min(a: int, b: int): int { if a < b then a else b }

  /** The first page of the window of consecutive pages: two before the current one, at least 1. */
  function WindowStart(currentPage: int): int { Max(1, currentPage - 2) }

  /** The last page of the window: five pages on from its start, at most the last page. */
  function WindowEnd(totalPages: nat, currentPage: int): int
  {
    Min(totalPages, WindowStart(currentPage) + MaxPagesToShow - 1)
  }

  /**
   * `getPageNumbers`: every page when there are at most five; otherwise page 1, a
   * window of up to five pages from two before the current page, and the last page,
   * with `-1` standing for the pages skipped between them.
   */
  function PageNumbers(totalPages: nat, currentPage: int): (r: seq<int>)
    ensures totalPages <= MaxPagesToShow ==> |r| == totalPages && forall k :: 0 <= k < |r| ==> r[k] == k + 1
    ensures |r| <= MaxPagesToShow + 4
  {
    if totalPages <= MaxPagesToShow then Range(1, totalPages)
    else
      var start := WindowStart(currentPage);
      var end := WindowEnd(totalPages, currentPage);
      Lead(start) + Range(start, end) + Tail(totalPages, end)
  }

  /** What comes before the window: page 1 when the window starts later, and a gap when it skips pages. */
  function Lead(start: int): (r: seq<int>)
    ensures start <= 1 ==> r == []
    ensures start == 2 ==> r == [1]
    ensures start > 2 ==> r == [1, Gap]
  {
    (if start > 1 then [1] else []) + (if start > 2 then [Gap] else [])
  }

  /** What comes after the window: a gap when it skips pages, and the last page when the window stops earlier. */
  function Tail(totalPages: nat, end: int): (r: seq<int>)
    ensures end >= totalPages ==> r == []
    ensures end == totalPages - 1 ==> r == [totalPages]
    ensures end < totalPages - 1 ==> r == [Gap, totalPages]
  {
    (if end < totalPages - 1 then [Gap] else []) + (if end < totalPages then [totalPages] else [])
  }

  /** The page list read as pages: each entry a page or a gap, starting at 1 and ending at the last page. */
  predicate Bracketed(r: seq<int>, totalPages: nat)
  {
    && r != []
    && r[0] == 1
    && r[|r| - 1] == totalPages
    && (forall k :: 0 <= k < |r| ==> r[k] == Gap || 1 <= r[k] <= totalPages)
  }

  /** Neighbouring pages are consecutive unless a gap stands between them, and a gap hides at least one page. */
  predicate GapsMarkSkips(r: seq<int>)
  {
    && (forall k :: 0 <= k < |r| - 1 && r[k] != Gap && r[k + 1] != Gap ==> r[k + 1] == r[k] + 1)
    && (forall k :: 0 < k < |r| - 1 && r[k] == Gap ==> r[k - 1] != Gap && r[k + 1] != Gap && r[k + 1] > r[k - 1] + 1)
  }

  /**
   * With more than five pages and the current page in range, the list starts at 1,
   * ends at the last page, contains the current page, and marks every run of skipped
   * pages with exactly one gap; so its pages are strictly increasing.
   */
  lemma PageNumbersShape(totalPages: nat, currentPage: int)
    requires totalPages > MaxPagesToShow && 1 <= currentPage <= totalPages
    ensures Bracketed(PageNumbers(totalPages, currentPage), totalPages)
    ensures GapsMarkSkips(PageNumbers(totalPages, currentPage))
    ensures currentPage in PageNumbers(totalPages, currentPage)
  {
    var start := WindowStart(currentPage);
    var end := WindowEnd(totalPages, currentPage);
    var lead, tail := Lead(start), Tail(totalPages, end);
    var r := PageNumbers(totalPages, currentPage);
    PageNumbersFramed(totalPages, currentPage);
    AssembledBracketed(r, lead, start, end, tail, totalPages);
    AssembledSteps(r, lead, start, end, tail, totalPages);
    AssembledGaps(r, lead, start, end, tail, totalPages);
    AssembledContains(r, lead, start, end, tail, totalPages, currentPage);
  }

  lemma AssembledContains(r: seq<int>, lead: seq<int>, start: int, end: int, tail: seq<int>, totalPages: nat, page: int)
    requires Framed(lead, start, end, tail, totalPages) && r == lead + Range(start, end) + tail
    requires start <= page <= end
    ensures page in r
  {
    Locate(lead, Range(start, end), tail, |lead| + page - start);
  }

  lemma PageNumbersFramed(totalPages: nat, currentPage: int)
    requires totalPages > MaxPagesToShow && 1 <= currentPage <= totalPages
    ensures var start, end := WindowStart(currentPage), WindowEnd(totalPages, currentPage);
            && start <= currentPage <= end
            && Framed(Lead(start), start, end, Tail(totalPages, end), totalPages)
            && PageNumbers(totalPages, currentPage) == Lead(start) + Range(start, end) + Tail(totalPages, end)
  {
  }

  /** The pieces before and after the window of pages `start..end` out of `totalPages`. */
  predicate Framed(lead: seq<int>, start: int, end: int, tail: seq<int>, totalPages: nat)
  {
    && 1 <= start <= end <= totalPages
    && ((start == 1 && lead == []) || (start == 2 && lead == [1]) || (start > 2 && lead == [1, Gap]))
    && ((end == totalPages && tail == []) || (end == totalPages - 1 && tail == [totalPages])
        || (end < totalPages - 1 && tail == [Gap, totalPages]))
  }

  lemma AssembledBracketed(r: seq<int>, lead: seq<int>, start: int, end: int, tail: seq<int>, totalPages: nat)
    requires Framed(lead, start, end, tail, totalPages) && r == lead + Range(start, end) + tail
    ensures Bracketed(r, totalPages)
  {
    var window := Range(start, end);
    Locate(lead, window, tail, 0);
    Locate(lead, window, tail, |r| - 1);
    forall k | 0 <= k < |r|
      ensures r[k] == Gap || 1 <= r[k] <= totalPages
    {
      Locate(lead, window, tail, k);
    }
  }

  lemma AssembledSteps(r: seq<int>, lead: seq<int>, start: int, end: int, tail: seq<int>, totalPages: nat)
    requires Framed(lead, start, end, tail, totalPages) && r == lead + Range(start, end) + tail
    ensures forall k :: 0 <= k < |r| - 1 && r[k] != Gap && r[k + 1] != Gap ==> r[k + 1] == r[k] + 1
  {
    var window := Range(start, end);
    forall k | 0 <= k < |r| - 1 && r[k] != Gap && r[k + 1] != Gap
      ensures r[k + 1] == r[k] + 1
    {
      Locate(lead, window, tail, k);
      Locate(lead, window, tail, k + 1);
    }
  }

  lemma AssembledGaps(r: seq<int>, lead: seq<int>, start: int, end: int, tail: seq<int>, totalPages: nat)
    requires Framed(lead, start, end, tail, totalPages) && r == lead + Range(start, end) + tail
    ensures forall k :: 0 < k < |r| - 1 && r[k] == Gap ==> r[k - 1] != Gap && r[k + 1] != Gap && r[k + 1] > r[k - 1] + 1
  {
    var window := Range(start, end);
    forall k | 0 < k < |r| - 1 && r[k] == Gap
      ensures r[k - 1] != Gap && r[k + 1] != Gap && r[k + 1] > r[k - 1] + 1
    {
      Locate(lead, window, tail, k - 1);
      Locate(lead, window, tail, k);
      Locate(lead, window, tail, k + 1);
    }
  }

  /** Where an index of a three-part concatenation falls. */
  lemma Locate(a: seq<int>, b: seq<int>, c: seq<int>, k: int)
    requires 0 <= k < |a| + |b| + |c|
    ensures (a + b + c)[k] == if k < |a| then a[k] else if k < |a| + |b| then b[k - |a|] else c[k - |a| - |b|]
  {
  }

  /** The pages of the list, gaps aside, rise strictly from left to right. */
  lemma PageNumbersIncrease(totalPages: nat, currentPage: int, i: nat, j: nat)
    requires totalPages > MaxPagesToShow && 1 <= currentPage <= totalPages
    requires var r := PageNumbers(totalPages, currentPage); i < j < |r| && r[i] != Gap && r[j] != Gap
    ensures PageNumbers(totalPages, currentPage)[i] < PageNumbers(totalPages, currentPage)[j]
  {
    PageNumbersShape(totalPages, currentPage);
    PagesIncrease(PageNumbers(totalPages, currentPage), i, j);
  }

  /** Pages of a list whose gaps mark skips rise strictly from left to right. */
  lemma {:induction false} PagesIncrease(r: seq<int>, i: nat, j: nat)
    requires GapsMarkSkips(r) && (forall k :: 0 <= k < |r| ==> r[k] == Gap || r[k] >= 1)
    requires i < j < |r| && r[i] != Gap && r[j] != Gap
    ensures r[i] < r[j]
    decreases j - i
  {
    if j == i + 1 {
    } else if r[i + 1] != Gap {
      PagesIncrease(r, i + 1, j);
    } else if i + 2 < j {
      PagesIncrease(r, i + 2, j);
    }
  }

  // ------------------------------------------------------------ moving between pages

  /** The page state: the page shown and the ticket count the server reported. */
  datatype Pager = Pager(currentPage: int, totalCount: nat)

  /** A page move: the new state, and whether the report is fetched again. */
  datatype Move = Move(pager: Pager, reloads: bool)

  /** `nextPage`: one page on, and a new fetch, unless already on the last page. */
  function NextPage(p: Pager): (r: Move)
    ensures r.reloads <==> p.currentPage < TotalPages(p.totalCount)
    ensures r.pager.totalCount == p.totalCount
    ensures r.reloads ==> r.pager.currentPage == p.currentPage + 1 <= TotalPages(p.totalCount)
    ensures !r.reloads ==> r.pager == p
  {
    if p.currentPage < TotalPages(p.totalCount) then Move(p.(currentPage := p.currentPage + 1), true)
    else Move(p, false)
  }

  /** `previousPage`: one page back, and a new fetch, unless already on page 1. */
  function PreviousPage(p: Pager): (r: Move)
    ensures r.reloads <==> p.currentPage > 1
    ensures r.pager.totalCount == p.totalCount
    ensures r.reloads ==> 1 <= r.pager.currentPage == p.currentPage - 1
    ensures !r.reloads ==> r.pager == p
  {
    if p.currentPage > 1 then Move(p.(currentPage := p.currentPage - 1), true)
    else Move(p, false)
  }

  /** `goToPage`: the given page and a new fetch when it exists; otherwise nothing happens. */
  function GoToPage(p: Pager, page: int): (r: Move)
    ensures r.reloads <==> 1 <= page <= TotalPages(p.totalCount)
    ensures r.reloads ==> r.pager == p.(currentPage := page)
    ensures !r.reloads ==> r.pager == p
  {
    if 1 <= page <= TotalPages(p.totalCount) then Move(p.(currentPage := page), true)
    else Move(p, false)
  }

  /** The current page is page 1 or an existing page. */
  predicate OnAPage(p: Pager)
  {
    1 <= p.currentPage && (p.currentPage == 1 || p.currentPage <= TotalPages(p.totalCount))
  }

  /** No page move takes the current page off the pages that exist. */
  lemma MovesStayOnAPage(p: Pager, page: int)
    requires OnAPage(p)
    ensures OnAPage(NextPage(p).pager) && OnAPage(PreviousPage(p).pager) && OnAPage(GoToPage(p, page).pager)
  {
  }

  /** Going one page on and one page back returns to the same page. */
  lemma NextThenPrevious(p: Pager)
    requires OnAPage(p) && NextPage(p).reloads
    ensures PreviousPage(NextPage(p).pager) == Move(p, true)
  {
  }

  // ------------------------------------------------------------ running a report

  /** `VehicleTicketReportRequest`. An empty project name or vehicle number means every one. */
  datatype ReportRequest = ReportRequest(
    projectName: string,
    vehicleNumber: string,
    searchTerm: Option<string>,
    page: int,
    pageSize: nat)

  /** What `runReport` does: show a message, or fetch with a request. */
  datatype RunOutcome = Rejected(message: string) | Fetch(request: ReportRequest)

  const AllChoice: string := "all"
  const ProjectMissing: string := "Please select a Project or \"All Projects\""
  const VehicleMissing: string := "Please select a Vehicle or \"All Vehicles\""

  /** `loadReport`'s request for the given page: the choice `all` becomes the empty filter. */
  function Request(project: string, vehicle: string, searchTerm: string, page: int): (r: ReportRequest)
    ensures r.projectName == (if project == AllChoice then [] else project)
    ensures r.vehicleNumber == (if vehicle == AllChoice then [] else vehicle)
    ensures r.searchTerm.None? <==> searchTerm == []
    ensures r.page == page && r.pageSize == PageSize
  {
    ReportRequest(if project == AllChoice then [] else project,
                  if vehicle == AllChoice then [] else vehicle,
                  if searchTerm == [] then None else Some(searchTerm),
                  page, PageSize)
  }

  /**
   * `runReport`: a message when no project, and then when no vehicle, is chosen;
   * otherwise a fetch of page 1.
   */
  function RunReport(project: string, vehicle: string, searchTerm: string): (r: RunOutcome)
    ensures r.Rejected? <==> project == [] || vehicle == []
    ensures project == [] ==> r == Rejected(ProjectMissing)
    ensures project != [] && vehicle == [] ==> r == Rejected(VehicleMissing)
    ensures r.Fetch? ==> r.request.page == 1
  {
    if project == [] then Rejected(ProjectMissing)
    else if vehicle == [] then Rejected(VehicleMissing)
    else Fetch(Request(project, vehicle, searchTerm, 1))
  }

  /** A fetched report filters by a project exactly when one project, not `all`, was chosen. */
  lemma RunReportFilters(project: string, vehicle: string, searchTerm: string)
    requires RunReport(project, vehicle, searchTerm).Fetch?
    ensures RunReport(project, vehicle, searchTerm).request.projectName == [] <==> project == AllChoice
    ensures RunReport(project, vehicle, searchTerm).request.vehicleNumber == [] <==> vehicle == AllChoice
  {
  }

  // ------------------------------------------------------------ search

  /** The fields of `VehicleTicket` the search looks at. */
  datatype VehicleTicket = VehicleTicket(ticketNumber: string, description: string, defectType: string)

  /** A ticket matches a lower-cased search when its number, description or defect type contains it, ignoring case. */
  predicate MatchesSearch(t: VehicleTicket, search: string)
  {
    || Contains(ToLower(t.ticketNumber), search)
    || Contains(ToLower(t.description), search)
    || Contains(ToLower(t.defectType), search)
  }

  /** `filterTickets`: every ticket for an empty search, else the matching ones in their order. */
  function FilterTickets(tickets: seq<VehicleTicket>, searchTerm: string): (r: seq<VehicleTicket>)
    ensures searchTerm == [] ==> r == tickets
    ensures forall i :: 0 <= i < |r| ==> r[i] in tickets && MatchesSearch(r[i], ToLower(searchTerm))
    ensures forall i :: 0 <= i < |tickets| && MatchesSearch(tickets[i], ToLower(searchTerm)) ==> tickets[i] in r
  {
    if searchTerm == [] then
      assert forall i :: 0 <= i < |tickets| ==> MatchesSearch(tickets[i], []) by {
        forall i | 0 <= i < |tickets| { ContainsEmpty(ToLower(tickets[i].ticketNumber)); }
      }
      tickets
    else
      var search := ToLower(searchTerm);
      Seqs.Filter(tickets, t => MatchesSearch(t, search))
  }

  lemma ContainsEmpty(s: string)
    ensures Contains(s, [])
  {
    assert OccursAt(s, [], 0);
  }

  /** The search ignores the case of the search text. */
  lemma FilterIgnoresSearchCase(tickets: seq<VehicleTicket>, a: string, b: string)
    requires a != [] && b != [] && ToLower(a) == ToLower(b)
    ensures FilterTickets(tickets, a) == FilterTickets(tickets, b)
  {
  }
}

=== FILE: war_room_component.dfy ===
/**
 * The war-room page (src/app/shared/features/war-room/war-room.component.ts): the
 * filter panel and the panels it toggles, the status and region predicates the
 * filters apply, the location parser of the factory editor and the hub code given to
 * a new company.
 */
module WarRoomComponent {
  import opened Wrappers
  import opened Text
  import Seqs
  import FM = FluorescenceMap
  import WarRoomService

  // ----------------------------------------------------------------- filters

  /** `FilterStatus`: `'all' | 'active' | 'inactive'`. */
  datatype FilterStatus = All | ActiveOnly | InactiveOnly

  /** `WarRoomFilters`. */
  datatype Filters = Filters(parentCompanyIds: seq<string>, status: FilterStatus, regions: seq<string>)

  /** `createDefaultFilters`: no company, no region, every status. */
  function DefaultFilters(): Filters
  {
    Filters([], All, [])
  }

  /**
   * `activeFilterCount`: one per selected company and per selected region, and one
   * for a status other than 'all'. It is zero exactly for the default filters.
   */
  function ActiveFilterCount(f: Filters): (r: nat)
    ensures r == 0 <==> f == DefaultFilters()
  {
    |f.parentCompanyIds| + |f.regions| + (if f.status != All then 1 else 0)
  }

  // -------------------------------------------------------------- page state

  /** The signals of the page that the toggles and the filter buttons write. */
  datatype Page = Page(
    activityLogVisible: bool,
    hubStatusVisible: bool,
    filtersPanelVisible: bool,
    draft: Filters,
    applied: Filters)

  /** `toggleActivityLog`: the activity log shows or hides; nothing else changes. */
  function ToggleActivityLog(p: Page): (r: Page)
    ensures r.activityLogVisible != p.activityLogVisible
    ensures r.(activityLogVisible := p.activityLogVisible) == p
  {
    p.(activityLogVisible := !p.activityLogVisible)
  }

  /** `toggleHubStatus`: the hub status panel shows or hides; nothing else changes. */
  function ToggleHubStatus(p: Page): (r: Page)
    ensures r.hubStatusVisible != p.hubStatusVisible
    ensures r.(hubStatusVisible := p.hubStatusVisible) == p
  {
    p.(hubStatusVisible := !p.hubStatusVisible)
  }

  /** Either visibility toggle, done twice, gives the page back. */
  lemma TogglesUndo(p: Page)
    ensures ToggleActivityLog(ToggleActivityLog(p)) == p
    ensures ToggleHubStatus(ToggleHubStatus(p)) == p
  {
  }

  /**
   * `toggleFiltersPanel`: opening the panel starts the draft over from the applied
   * filters, closing it leaves the draft as it is; the applied filters never change.
   */
  function ToggleFiltersPanel(p: Page): (r: Page)
    ensures r.filtersPanelVisible != p.filtersPanelVisible
    ensures !p.filtersPanelVisible ==> r.draft == p.applied
    ensures p.filtersPanelVisible ==> r.draft == p.draft
    ensures r.applied == p.applied
    ensures r.activityLogVisible == p.activityLogVisible && r.hubStatusVisible == p.hubStatusVisible
  {
    var wasOpen := p.filtersPanelVisible;
    var draft := if !wasOpen then Filters(p.applied.parentCompanyIds, p.applied.status, p.applied.regions) else p.draft;
    p.(draft := draft, filtersPanelVisible := !wasOpen)
  }

  /**
   * Opening the panel and closing it again throws away the unapplied edits: the
   * draft is back to the applied filters and the panel is closed as before.
   */
  lemma OpenCloseDiscardsDraft(p: Page)
    requires !p.filtersPanelVisible
    ensures ToggleFiltersPanel(ToggleFiltersPanel(p)) == p.(draft := p.applied)
  {
  }

  /**
   * `toggleParentCompany`: the company's membership in the draft flips and the list
   * holds no duplicate afterwards; the other draft lists, the applied filters and the
   * panels are left alone.
   */
  function ToggleParentCompany(p: Page, id: string): (r: Page)
    ensures Seqs.Distinct(r.draft.parentCompanyIds)
    ensures id in r.draft.parentCompanyIds <==> id !in p.draft.parentCompanyIds
    ensures forall x :: x != id ==> (x in r.draft.parentCompanyIds <==> x in p.draft.parentCompanyIds)
    ensures r.draft.status == p.draft.status && r.draft.regions == p.draft.regions
    ensures r.(draft := p.draft) == p
  {
    p.(draft := p.draft.(parentCompanyIds := Seqs.Toggle(p.draft.parentCompanyIds, id)))
  }

  /** `toggleRegion`: as `toggleParentCompany`, on the region list. */
  function ToggleRegion(p: Page, region: string): (r: Page)
    ensures Seqs.Distinct(r.draft.regions)
    ensures region in r.draft.regions <==> region !in p.draft.regions
    ensures forall x :: x != region ==> (x in r.draft.regions <==> x in p.draft.regions)
    ensures r.draft.status == p.draft.status && r.draft.parentCompanyIds == p.draft.parentCompanyIds
    ensures r.(draft := p.draft) == p
  {
    p.(draft := p.draft.(regions := Seqs.Toggle(p.draft.regions, region)))
  }

  /**
   * On a draft without duplicates, a toggle moves the count of the draft's filters by
   * one: down when the value was selected, up when it was not.
   */
  lemma ToggleCountsOne(p: Page, id: string)
    requires Seqs.Distinct(p.draft.parentCompanyIds) && Seqs.Distinct(p.draft.regions)
    ensures ActiveFilterCount(ToggleParentCompany(p, id).draft)
            == ActiveFilterCount(p.draft) + (if id in p.draft.parentCompanyIds then -1 else 1)
    ensures ActiveFilterCount(ToggleRegion(p, id).draft)
            == ActiveFilterCount(p.draft) + (if id in p.draft.regions then -1 else 1)
  {
    Seqs.ToggleLength(p.draft.parentCompanyIds, id);
    Seqs.ToggleLength(p.draft.regions, id);
  }

  /** `setStatusFilter`: the draft's status is set; nothing else changes. */
  function SetStatusFilter(p: Page, status: FilterStatus): (r: Page)
    ensures r.draft.status == status
    ensures r.draft.(status := p.draft.status) == p.draft
    ensures r.(draft := p.draft) == p
  {
    p.(draft := p.draft.(status := status))
  }

  /** Choosing 'all' takes the status out of the count; any other status puts it in. */
  lemma SetStatusCount(p: Page, status: FilterStatus)
    ensures ActiveFilterCount(SetStatusFilter(p, status).draft)
            == |p.draft.parentCompanyIds| + |p.draft.regions| + (if status == All then 0 else 1)
  {
  }

  /** `applyFilters`: the applied filters become a copy of the draft and the panel closes. */
  function ApplyFilters(p: Page): (r: Page)
    ensures r.applied == p.draft && r.draft == p.draft
    ensures !r.filtersPanelVisible
    ensures r.activityLogVisible == p.activityLogVisible && r.hubStatusVisible == p.hubStatusVisible
  {
    var copy := Filters(p.draft.parentCompanyIds, p.draft.status, p.draft.regions);
    p.(applied := copy, filtersPanelVisible := false)
  }

  /** Opening the panel and applying it without an edit leaves the applied filters as they were. */
  lemma ApplyUneditedKeepsFilters(p: Page)
    requires !p.filtersPanelVisible
    ensures ApplyFilters(ToggleFiltersPanel(p)).applied == p.applied
    ensures ActiveFilterCount(ApplyFilters(ToggleFiltersPanel(p)).applied) == ActiveFilterCount(p.applied)
  {
  }

  /** `resetFilters`: draft and applied filters go back to the defaults, so no filter is active. */
  function ResetFilters(p: Page): (r: Page)
    ensures ActiveFilterCount(r.draft) == 0 && ActiveFilterCount(r.applied) == 0
    ensures r.filtersPanelVisible == p.filtersPanelVisible
    ensures r.activityLogVisible == p.activityLogVisible && r.hubStatusVisible == p.hubStatusVisible
  {
    p.(draft := DefaultFilters(), applied := DefaultFilters())
  }

  // ---------------------------------------------------------------- statuses

  /** The node status that counts as inactive. */
  const Offline: string := "OFFLINE"

  /** The operational status that counts as active. */
  const ActiveWord: string := "ACTIVE"

  /**
   * `matchesStatus`, on a node status that may be missing: 'all' keeps every node;
   * otherwise a node without a status is kept by neither filter, and a status is
   * active unless it is 'OFFLINE'.
   */
  predicate MatchesStatus(status: Option<string>, filter: FilterStatus)
  {
    if filter == All then true
    else if !Filled(status) then false
    else
      var isActive := status.value != Offline;
      if filter == ActiveOnly then isActive else !isActive
  }

  /**
   * 'all' keeps every status; a missing status fails both 'active' and 'inactive';
   * a present one passes exactly one of them; and 'inactive' keeps 'OFFLINE' alone.
   */
  lemma MatchesStatusCases(status: Option<string>)
    ensures MatchesStatus(status, All)
    ensures !Filled(status) ==> !MatchesStatus(status, ActiveOnly) && !MatchesStatus(status, InactiveOnly)
    ensures Filled(status) ==> (MatchesStatus(status, ActiveOnly) <==> !MatchesStatus(status, InactiveOnly))
    ensures MatchesStatus(status, InactiveOnly) <==> status == Some(Offline)
  {
  }

  /** `matchesOperationalStatus`, on the status of a subsidiary or a parent group. */
  predicate MatchesOperationalStatus(status: string, filter: FilterStatus)
  {
    if filter == All then true
    else if filter == ActiveOnly then status == ActiveWord
    else status != ActiveWord
  }

  /** 'active' keeps exactly the status 'ACTIVE' and 'inactive' exactly the others. */
  lemma MatchesOperationalStatusCases(status: string)
    ensures MatchesOperationalStatus(status, All)
    ensures MatchesOperationalStatus(status, ActiveOnly) <==> status == ActiveWord
    ensures MatchesOperationalStatus(status, InactiveOnly) <==> !MatchesOperationalStatus(status, ActiveOnly)
  {
  }

  // ----------------------------------------------------------------- regions

  const NorthAmericaTokens: seq<string> := ["canada", "united states", "usa", "u.s.", "us", "mexico"]

  const EuropeTokens: seq<string> :=
    ["france", "turkey", "germany", "italy", "spain", "sweden", "norway", "finland",
     "united kingdom", "uk", "england", "scotland", "wales", "ireland", "netherlands",
     "belgium", "poland", "czech", "austria", "switzerland", "romania", "greece", "portugal"]

  const AsiaPacificTokens: seq<string> :=
    ["china", "japan", "korea", "south korea", "north korea", "india", "singapore", "malaysia",
     "indonesia", "philippines", "vietnam", "thailand", "australia", "new zealand", "taiwan", "hong kong"]

  const LatamTokens: seq<string> :=
    ["brazil", "argentina", "chile", "colombia", "peru", "ecuador", "venezuela", "uruguay",
     "paraguay", "bolivia", "guatemala", "honduras", "el salvador", "nicaragua", "costa rica",
     "panama", "dominican", "puerto rico"]

  /** The page's token list of a region. */
  function Tokens(region: FM.Region): seq<string>
  {
    match region
    case NorthAmerica => NorthAmericaTokens
    case Europe => EuropeTokens
    case AsiaPacific => AsiaPacificTokens
    case Latam => LatamTokens
  }

  /** Some token of the list occurs somewhere in the text. */
  predicate HasToken(text: string, tokens: seq<string>)
  {
    exists k :: 0 <= k < |tokens| && Contains(text, tokens[k])
  }

  /** No region tried before position `n` has a token in the text. */
  predicate NoHitBefore(text: string, tokens: FM.Region -> seq<string>, n: nat)
  {
    (n > 0 ==> !HasToken(text, tokens(FM.NorthAmerica)))
    && (n > 1 ==> !HasToken(text, tokens(FM.Europe)))
    && (n > 2 ==> !HasToken(text, tokens(FM.AsiaPacific)))
    && (n > 3 ==> !HasToken(text, tokens(FM.Latam)))
  }

  /**
   * `getRegionForCountry` as the page has it: the lower-cased value is searched for
   * every token as a plain substring, region by region in the order North America,
   * Europe, Asia Pacific, LATAM; a missing or empty value, or one without a token,
   * has no region. The token lists are a parameter; the page's are `Tokens`.
   */
  function RegionForCountryAsWritten(value: Option<string>, tokens: FM.Region -> seq<string>): (r: Option<FM.Region>)
    ensures r.Some? ==> Filled(value) && HasToken(ToLower(value.value), tokens(r.value))
    ensures r.Some? ==> NoHitBefore(ToLower(value.value), tokens, r.value.Rank())
    ensures r.None? ==> !Filled(value) || NoHitBefore(ToLower(value.value), tokens, 4)
  {
    if !Filled(value) then None
    else
      var normalized := ToLower(value.value);
      if HasToken(normalized, tokens(FM.NorthAmerica)) then Some(FM.NorthAmerica)
      else if HasToken(normalized, tokens(FM.Europe)) then Some(FM.Europe)
      else if HasToken(normalized, tokens(FM.AsiaPacific)) then Some(FM.AsiaPacific)
      else if HasToken(normalized, tokens(FM.Latam)) then Some(FM.Latam)
      else None
  }

  /** A value with a North American token is North American, whatever else it holds. */
  lemma AsWrittenFirst(value: Option<string>, tokens: FM.Region -> seq<string>)
    requires Filled(value) && HasToken(ToLower(value.value), tokens(FM.NorthAmerica))
    ensures RegionForCountryAsWritten(value, tokens) == Some(FM.NorthAmerica)
  {
  }

  /**
   * 'Austria' is on the European list, yet the page files it under North America:
   * its lower-cased form holds 'us', and North America is tried first.
   */
  lemma AustriaAsWritten()
    ensures "austria" in Tokens(FM.Europe)
    ensures RegionForCountryAsWritten(Some("Austria"), Tokens) == Some(FM.NorthAmerica)
  {
    AustriaListed();
    AustriaLower();
    AustriaHoldsUs();
    AsWrittenFirst(Some("Austria"), Tokens);
  }

  lemma AustriaListed()
    ensures "austria" in Tokens(FM.Europe)
  {
    assert EuropeTokens[18] == "austria";
  }

  lemma AustriaLower()
    ensures ToLower("Austria") == "austria"
  {
  }

  lemma AustriaHoldsUs()
    ensures HasToken("austria", NorthAmericaTokens)
  {
    assert "austria"[1..] == "ustria" && StartsWith("ustria", "us");
    assert NorthAmericaTokens[4] == "us";
  }

  /**
   * `getRegionForCountry` with the short tokens 'us' and 'uk' matched only as the
   * whole value or as the text after its last comma, the rule the fluorescence map's
   * copy of the function follows; longer tokens are still found anywhere.
   */
  function RegionForCountry(value: Option<string>): (r: Option<FM.Region>)
    ensures r.Some? ==> Filled(value) && FM.MatchesTokens(FM.Normalize(value.value), Tokens(r.value))
    ensures r.Some? ==> FM.NoneBefore(FM.Normalize(value.value), Tokens, r.value.Rank())
    ensures r.None? ==> !Filled(value) || FM.NoneBefore(FM.Normalize(value.value), Tokens, 4)
  {
    FM.RegionForCountry(value, Tokens)
  }

  /** With the short tokens kept whole, 'Austria' is European. */
  lemma AustriaIsEurope()
    ensures RegionForCountry(Some("Austria")) == Some(FM.Europe)
  {
    AustriaFacts();
    FM.SecondRegion(Some("Austria"), Tokens);
    assert RegionForCountry(Some("Austria")) == FM.RegionForCountry(Some("Austria"), Tokens);
  }

  lemma AustriaFacts()
    ensures FM.Normalize("Austria") == "austria"
    ensures !FM.MatchesTokens("austria", NorthAmericaTokens) && FM.MatchesTokens("austria", EuropeTokens)
  {
    AustriaNormal();
    AustriaNotNorthAmerican();
    AustriaEuropean();
  }

  /** A value whose normal form matches no North American token but a European one is European. */
  lemma EuropeanOf(value: string, normal: string)
    requires value != [] && FM.Normalize(value) == normal
    requires !FM.MatchesTokens(normal, NorthAmericaTokens) && FM.MatchesTokens(normal, EuropeTokens)
    ensures RegionForCountry(Some(value)) == Some(FM.Europe)
  {
    FM.SecondRegion(Some(value), Tokens);
  }

  lemma AustriaNormal()
    ensures FM.Normalize("Austria") == "austria"
  {
    AustriaLower();
    TrimUntrimmed("austria");
  }

  lemma AustriaNotNorthAmerican()
    ensures !FM.MatchesTokens("austria", NorthAmericaTokens)
  {
    FM.AustriaLastPart();
    FM.AustriaLetters();
    FM.UsaNotInAustria();
    NoNorthAmericanToken("austria");
    FM.NoTokenMatches("austria", NorthAmericaTokens);
  }

  /**
   * No North American token of the page matches a value, its own last part, that is
   * not 'us', lacks a letter of every other token but 'usa' and does not hold 'usa'.
   */
  lemma NoNorthAmericanToken(a: string)
    requires a != "us" && 'c' !in a && 'n' !in a && '.' !in a && 'm' !in a
    requires !Contains(a, "usa")
    ensures forall k :: 0 <= k < |NorthAmericaTokens| ==> !FM.TokenMatches(a, a, NorthAmericaTokens[k])
  {
    var t := NorthAmericaTokens;
    FM.LongTokenAbsent(a, t[0], 'c');
    FM.LongTokenAbsent(a, t[1], 'n');
    FM.LongTokenAbsent(a, t[3], '.');
    FM.LongTokenAbsent(a, t[5], 'm');
  }

  lemma AustriaEuropean()
    ensures FM.MatchesTokens("austria", EuropeTokens)
  {
    assert EuropeTokens[18] == "austria";
    FM.ExactTokenMatches("austria", EuropeTokens);
  }

  /** The value `getRegionForFactory` classifies: `factory.country || factory.city`. */
  function FactoryPlace(f: WarRoomService.FactoryLocation): (r: Option<string>)
    ensures Filled(f.country) ==> r == f.country
    ensures !Filled(f.country) ==> r == Some(f.city)
  {
    Or(f.country, Some(f.city))
  }

  /**
   * `getRegionForFactory` as the page has it: the substring rule of
   * `getRegionForCountry` applied to the factory's country, or to its city without one.
   */
  function RegionForFactory(f: WarRoomService.FactoryLocation): (r: Option<FM.Region>)
    ensures r.Some? ==> Filled(FactoryPlace(f)) && HasToken(ToLower(FactoryPlace(f).value), Tokens(r.value))
    ensures r.Some? ==> NoHitBefore(ToLower(FactoryPlace(f).value), Tokens, r.value.Rank())
    ensures Filled(f.country) && HasToken(ToLower(f.country.value), NorthAmericaTokens) ==> r == Some(FM.NorthAmerica)
  {
    RegionForCountryAsWritten(FactoryPlace(f), Tokens)
  }

  /**
   * `matchesRegionsForFactory` as the page has it: no selected region keeps everything;
   * otherwise a missing factory, or one without a region, is dropped, and a factory is
   * kept when the name of its region is selected.
   */
  predicate MatchesRegionsForFactory(f: Option<WarRoomService.FactoryLocation>, selected: seq<string>)
    ensures |selected| == 0 ==> MatchesRegionsForFactory(f, selected)
    ensures |selected| > 0 ==>
              (MatchesRegionsForFactory(f, selected) <==>
                 f.Some? && RegionForFactory(f.value).Some? && RegionForFactory(f.value).value.Name() in selected)
  {
    if |selected| == 0 then true
    else if f.None? then false
    else
      var region := RegionForFactory(f.value);
      if region.Some? then region.value.Name() in selected else false
  }

  /**
   * A factory whose country is Austria passes the North America region filter and
   * fails the Europe one, though 'austria' is on the European list.
   */
  lemma AustrianFactoryIsNorthAmerican(f: WarRoomService.FactoryLocation)
    requires f.country == Some("Austria")
    ensures MatchesRegionsForFactory(Some(f), ["North America"])
    ensures !MatchesRegionsForFactory(Some(f), ["Europe"])
  {
    AustriaLower();
    AustriaHoldsUs();
    assert RegionForFactory(f) == Some(FM.NorthAmerica);
  }

  /** `getRegionForFactory` with the corrected `RegionForCountry`. */
  function RegionForFactoryCorrected(f: WarRoomService.FactoryLocation): (r: Option<FM.Region>)
    ensures r.Some? ==> Filled(FactoryPlace(f)) && FM.MatchesTokens(FM.Normalize(FactoryPlace(f).value), Tokens(r.value))
    ensures r.Some? ==> FM.NoneBefore(FM.Normalize(FactoryPlace(f).value), Tokens, r.value.Rank())
  {
    RegionForCountry(FactoryPlace(f))
  }

  /** `matchesRegionsForFactory` with the corrected `RegionForCountry`. */
  predicate MatchesRegionsForFactoryCorrected(f: Option<WarRoomService.FactoryLocation>, selected: seq<string>)
    ensures |selected| == 0 ==> MatchesRegionsForFactoryCorrected(f, selected)
    ensures |selected| > 0 ==>
              (MatchesRegionsForFactoryCorrected(f, selected) <==>
                 f.Some? && RegionForFactoryCorrected(f.value).Some? && RegionForFactoryCorrected(f.value).value.Name() in selected)
  {
    if |selected| == 0 then true
    else if f.None? then false
    else
      var region := RegionForFactoryCorrected(f.value);
      if region.Some? then region.value.Name() in selected else false
  }

  /**
   * Under the corrected rule a factory whose country is Austria passes the Europe
   * region filter and fails the North America one.
   */
  lemma AustrianFactoryIsEuropean(f: WarRoomService.FactoryLocation)
    requires f.country == Some("Austria")
    ensures MatchesRegionsForFactoryCorrected(Some(f), ["Europe"])
    ensures !MatchesRegionsForFactoryCorrected(Some(f), ["North America"])
  {
    AustriaIsEurope();
    assert RegionForFactoryCorrected(f) == Some(FM.Europe);
  }

  // --------------------------------------------------------- location parts

  /** The city and the optional country `parseLocationParts` returns. */
  datatype CityCountry = CityCountry(city: string, country: Option<string>)

  /** `.map((part) => part.trim()).filter(Boolean)`: the trimmed pieces that are not empty. */
  function NonBlank(pieces: seq<string>): (r: seq<string>)
    ensures |r| <= |pieces|
    ensures forall k :: 0 <= k < |r| ==> r[k] != [] && Trimmed(r[k])
  {
    if pieces == [] then []
    else
      var t := Trim(pieces[0]);
      if t == [] then NonBlank(pieces[1..]) else [t] + NonBlank(pieces[1..])
  }

  /** The comma-separated parts of an input, trimmed, without the empty ones. */
  function Parts(input: string): seq<string>
  {
    NonBlank(Split(input, ','))
  }

  /**
   * `parseLocationParts`: the first non-empty comma part is the city, and the other
   * parts, joined with ', ', are the country; with a single part there is no
   * country. An input without any part has its trimmed self as the city, so a blank
   * input has the empty city.
   */
  function ParseLocationParts(input: string): (r: CityCountry)
    ensures input == [] ==> r == CityCountry([], None)
    ensures Trimmed(r.city)
    ensures r.city == [] <==> IsBlank(input)
    ensures r.country.Some? <==> |Parts(input)| > 1
  {
    if input == [] then CityCountry([], None)
    else
      var parts := Parts(input);
      BlankHasNoParts(input);
      var city := if |parts| > 0 then parts[0] else Trim(input);
      var country := if |parts| > 1 then Some(Join(parts[1..], ", ")) else None;
      CityCountry(city, country)
  }

  /** A blank input has no part. */
  lemma BlankHasNoParts(input: string)
    ensures IsBlank(input) ==> Parts(input) == []
  {
    if IsBlank(input) {
      BlankIffAllWhitespace(input);
      NoCommaInWhitespace(input);
      BlankPieceDropped(input);
    }
  }

  lemma NoCommaInWhitespace(s: string)
    requires AllWhitespace(s)
    ensures ',' !in s
  {
  }

  lemma BlankPieceDropped(input: string)
    requires IsBlank(input) && ',' !in input
    ensures Parts(input) == []
  {
    assert Split(input, ',') == [input];
  }

  /**
   * Non-empty, trimmed parts without commas, joined with ', ', parse back into the
   * first part as the city and the rest, joined again, as the country.
   */
  lemma ParseLocationPartsRoundTrip(parts: seq<string>)
    requires parts != [] && CleanParts(parts)
    ensures ParseLocationParts(Join(parts, ", "))
            == CityCountry(parts[0], if |parts| > 1 then Some(Join(parts[1..], ", ")) else None)
  {
    JoinedParts(parts);
    JoinStartsWithFirst(parts);
  }

  /** A joined list starts with its first element. */
  lemma JoinStartsWithFirst(parts: seq<string>)
    requires parts != []
    ensures |Join(parts, ", ")| >= |parts[0]| && Join(parts, ", ")[..|parts[0]|] == parts[0]
  {
    if |parts| > 1 {
      JoinCons(parts[0], parts[1..], ", ");
      assert [parts[0]] + parts[1..] == parts;
    }
  }

  /** The parts of a joined list: the list itself. */
  lemma JoinedParts(q: seq<string>)
    requires q != [] && CleanParts(q)
    ensures Parts(Join(q, ", ")) == q
  {
    var none: string := [];
    if |q| == 1 {
      CleanHead(q);
      PartsOfJoinedOne(none, q);
    } else {
      CleanTail(q);
      SpacedParts(q[1..]);
      JoinedPartsStep(none, q);
    }
    NothingBefore(Join(q, ", "));
  }

  /** The parts of a joined list after a space: the list itself. */
  lemma {:induction false} SpacedParts(q: seq<string>)
    requires q != [] && CleanParts(q)
    ensures Parts(" " + Join(q, ", ")) == q
    decreases |q|
  {
    if |q| == 1 {
      CleanHead(q);
      PartsOfJoinedOne(" ", q);
    } else {
      CleanTail(q);
      SpacedParts(q[1..]);
      JoinedPartsStep(" ", q);
    }
  }

  lemma NothingBefore(s: string)
    ensures [] + s == s
  {
  }

  /** Given the parts of the joined tail, the parts of the whole joined list. */
  lemma JoinedPartsStep(h: string, q: seq<string>)
    requires h == [] || h == " "
    requires |q| > 1 && CleanParts(q)
    requires Parts(" " + Join(q[1..], ", ")) == q[1..]
    ensures Parts(h + Join(q, ", ")) == q
  {
    CleanHead(q);
    PartsOfJoinedStep(h, q);
    HeadThenTail(q);
  }

  lemma HeadThenTail(q: seq<string>)
    requires q != []
    ensures [q[0]] + q[1..] == q
  {
  }

  /** Parts as `parseLocationParts` produces them: non-empty, trimmed, without a comma. */
  predicate CleanParts(q: seq<string>)
  {
    forall k :: 0 <= k < |q| ==> q[k] != [] && Trimmed(q[k]) && ',' !in q[k]
  }

  lemma CleanHead(q: seq<string>)
    requires q != [] && CleanParts(q)
    ensures q[0] != [] && Trimmed(q[0]) && ',' !in q[0]
  {
  }

  lemma CleanTail(q: seq<string>)
    requires q != [] && CleanParts(q)
    ensures CleanParts(q[1..])
  {
    forall k | 0 <= k < |q| - 1 ensures q[1..][k] == q[k + 1] {
    }
  }

  lemma PartsOfJoinedOne(h: string, q: seq<string>)
    requires h == [] || h == " "
    requires |q| == 1 && q[0] != [] && Trimmed(q[0]) && ',' !in q[0]
    ensures Parts(h + Join(q, ", ")) == q
  {
    TrimOfHead(h, q[0]);
    assert h + Join(q, ", ") == h + q[0];
    PartsOfOne(h + q[0]);
  }

  lemma PartsOfJoinedStep(h: string, q: seq<string>)
    requires h == [] || h == " "
    requires |q| > 1 && q[0] != [] && Trimmed(q[0]) && ',' !in q[0]
    ensures Parts(h + Join(q, ", ")) == [q[0]] + Parts(" " + Join(q[1..], ", "))
  {
    TrimOfHead(h, q[0]);
    JoinedStep(h, q);
    PartsStep(h + q[0], " " + Join(q[1..], ", "));
  }

  lemma JoinedStep(h: string, q: seq<string>)
    requires |q| > 1
    ensures h + Join(q, ", ") == (h + q[0]) + [','] + (" " + Join(q[1..], ", "))
  {
    JoinCons(q[0], q[1..], ", ");
    assert [q[0]] + q[1..] == q;
  }

  /** A piece without a comma is the only part. */
  lemma PartsOfOne(head: string)
    requires Trim(head) != [] && ',' !in head
    ensures Parts(head) == [Trim(head)]
  {
    assert Split(head, ',') == [head];
    NonBlankCons(head, []);
  }

  /** A non-blank piece before the first comma is the first part. */
  lemma PartsStep(head: string, rest: string)
    requires Trim(head) != [] && ',' !in head
    ensures Parts(head + [','] + rest) == [Trim(head)] + Parts(rest)
  {
    SplitAfterPiece(head, rest, ',');
    NonBlankCons(head, Split(rest, ','));
  }

  lemma TrimOfHead(h: string, x: string)
    requires h == [] || h == " "
    requires Trimmed(x) && x != [] && ',' !in x
    ensures Trim(h + x) == x && ',' !in h + x
  {
    if h == [] {
      assert h + x == x;
      TrimUntrimmed(x);
    } else {
      TrimAfterSpace(x);
    }
  }

  lemma NonBlankCons(a: string, rest: seq<string>)
    requires Trim(a) != []
    ensures NonBlank([a] + rest) == [Trim(a)] + NonBlank(rest)
  {
    assert ([a] + rest)[0] == a && ([a] + rest)[1..] == rest;
  }

  // ---------------------------------------------------------------- hub code

  /** `w[0] ?? ''` and `w.charAt(0)`: the first character, or nothing for an empty word. */
  function Initial(w: string): (r: string)
    ensures |r| <= 1 && (w != [] ==> r == [w[0]])
  {
    if w == [] then [] else [w[0]]
  }

  /** `substring(0, n)`. */
  function Take(s: string, n: nat): (r: string)
    ensures |r| <= n && r == s[..if |s| <= n then |s| else n]
  {
    if |s| <= n then s else s[..n]
  }

  /** `padEnd(n, c)`: the string, then `c` until it is `n` long. */
  function PadEnd(s: string, n: nat, c: char): (r: string)
    ensures |r| == if |s| < n then n else |s|
    ensures forall i :: 0 <= i < |r| ==> r[i] == if i < |s| then s[i] else c
  {
    if |s| < n then s + seq(n - |s|, _ => c) else s
  }

  /** No lower-case letter in the string. */
  predicate NoLower(s: string) { forall i :: 0 <= i < |s| ==> !IsLower(s[i]) }

  /**
   * `generateHubCode`: for a name of several words, the first letter of the first
   * word and the first two letters of the second (its only letter twice when it has
   * one); for a single word, its first three letters padded with 'X'. Always
   * upper-case and at most three characters; exactly three for a single word.
   */
  function HubCode(companyName: string): (r: string)
    ensures |r| <= 3 && NoLower(r)
    ensures NoWhitespace(companyName) ==>
              |r| == 3 && forall i :: 0 <= i < 3 ==> r[i] == if i < |companyName| then UpperChar(companyName[i]) else 'X'
  {
    var upper := ToUpper(companyName);
    var words := SplitWhitespace(upper);
    UpperWordsNoLower(companyName);
    OneWord(companyName);
    if |words| >= 2 then WordsCode(words[0], words[1]) else WordCode(upper)
  }

  /** The code of a name of several words, from its first two words. */
  function WordsCode(first: string, second: string): (r: string)
    requires NoLower(first) && NoLower(second)
    ensures |r| <= 3 && NoLower(r)
    ensures first != [] && second != [] ==> r == [first[0], second[0], if |second| > 1 then second[1] else second[0]]
  {
    var third := if |second| > 1 then [second[1]] else Initial(second);
    Take(Initial(first) + Initial(second) + third, 3)
  }

  /** The code of a single word: its first three characters, then 'X' up to three. */
  function WordCode(word: string): (r: string)
    ensures |r| == 3
    ensures forall i :: 0 <= i < 3 ==> r[i] == if i < |word| then word[i] else 'X'
    ensures NoLower(word) ==> NoLower(r)
  {
    PadEnd(Take(word, 3), 3, 'X')
  }

  /** The words of an upper-cased name hold no lower-case letter. */
  lemma UpperWordsNoLower(name: string)
    ensures forall k :: 0 <= k < |SplitWhitespace(ToUpper(name))| ==> NoLower(SplitWhitespace(ToUpper(name))[k])
  {
    var u := ToUpper(name);
    SplitWhitespaceKeepsChars(u);
    assert forall c :: c in u ==> !IsLower(c);
  }

  /** A name without whitespace is a single word, upper-cased. */
  lemma OneWord(name: string)
    ensures NoWhitespace(name) ==> SplitWhitespace(ToUpper(name)) == [ToUpper(name)]
  {
    var u := ToUpper(name);
    if NoWhitespace(name) {
      assert forall i :: 0 <= i < |u| ==> !IsWhitespace(u[i]);
    }
  }

  /**
   * Two words separated by one space: the first letter of the first, then the first
   * two letters of the second, or its one letter twice.
   */
  lemma HubCodeOfTwoWords(a: string, b: string)
    requires a != [] && b != [] && NoWhitespace(a) && NoWhitespace(b)
    ensures HubCode(a + " " + b) == [UpperChar(a[0]), UpperChar(b[0]), UpperChar(if |b| > 1 then b[1] else b[0])]
  {
    var u := ToUpper(a + " " + b);
    var ua := ToUpper(a);
    var ub := ToUpper(b);
    assert u == ua + " " + ub;
    SplitTwoWords(ua, ub);
    OneWord(b);
    UpperWordsNoLower(a + " " + b);
  }
}

=== FILE: war_room_service.dfy ===
/**
 * The state operations of `WarRoomService` (src/app/shared/services/war-room.service.ts):
 * the parent group → subsidiary → factory hierarchy, its metrics, the selection and
 * view mode, deletions and updates, and the capped activity log. Angular signals
 * become fields of an immutable `State`; every method is a function from state to state.
 */
module WarRoomService {
  import opened Wrappers
  import opened Text
  import Seqs
  import Sorting

  // -------------------------------------------------------------------- data

  /** `FleetLevel`. */
  datatype Level = Parent | Subsidiary | Factory | Client

  /** `MapViewMode`: the levels a map can show. */
  datatype ViewMode = ParentView | SubsidiaryView | FactoryView
  {
    function Level(): Level
    {
      match this
      case ParentView => Parent
      case SubsidiaryView => Subsidiary
      case FactoryView => Factory
    }
  }

  datatype Coordinates = Coordinates(latitude: real, longitude: real)

  /** `FleetMetrics`. */
  datatype Metrics = Metrics(assetCount: int, incidentCount: int, syncStability: real)

  datatype FactoryLocation = FactoryLocation(
    id: string,
    parentGroupId: string,
    subsidiaryId: string,
    name: string,
    city: string,
    country: Option<string>,
    description: Option<string>,
    coordinates: Coordinates,
    status: string,
    syncStability: real,
    assets: int,
    incidents: int)

  datatype SubsidiaryCompany = SubsidiaryCompany(
    id: string,
    parentGroupId: string,
    name: string,
    metrics: Metrics,
    factories: seq<FactoryLocation>)

  datatype ParentGroup = ParentGroup(
    id: string,
    name: string,
    metrics: Metrics,
    subsidiaries: seq<SubsidiaryCompany>)

  /** `ActivityLog`, with the timestamp as milliseconds since the epoch. */
  datatype ActivityLog = ActivityLog(
    id: string,
    timestamp: int,
    parentGroupId: string,
    subsidiaryId: string,
    factoryId: string,
    description: string,
    location: Option<string>)

  /** `FleetSelection`. */
  datatype Selection = Selection(
    level: Level,
    id: string,
    parentGroupId: Option<string>,
    subsidiaryId: Option<string>,
    factoryId: Option<string>)

  /** The service's signals that these operations read and write. */
  datatype State = State(
    groups: seq<ParentGroup>,
    logs: seq<ActivityLog>,
    viewMode: ViewMode,
    selection: Option<Selection>,
    factoryFilter: Option<string>)

  // ----------------------------------------------------------------- metrics

  /** `x || 1` on a count: zero (falsy) weighs 1. */
  function Weight(n: int): int { if n == 0 then 1 else n }

  function SumAssets(ms: seq<Metrics>): int
  {
    if ms == [] then 0 else ms[0].assetCount + SumAssets(ms[1..])
  }

  function SumIncidents(ms: seq<Metrics>): int
  {
    if ms == [] then 0 else ms[0].incidentCount + SumIncidents(ms[1..])
  }

  function TotalWeight(ms: seq<Metrics>): int
  {
    if ms == [] then 0 else Weight(ms[0].assetCount) + TotalWeight(ms[1..])
  }

  function WeightedStability(ms: seq<Metrics>): real
  {
    if ms == [] then 0.0
    else ms[0].syncStability * Weight(ms[0].assetCount) as real + WeightedStability(ms[1..])
  }

  /** `Math.round(x * 10) / 10`: rounding half up to one decimal. */
  function RoundTenth(x: real): real
  {
    (x * 10.0 + 0.5).Floor as real / 10.0
  }

  /**
   * `computeMetricsFromFactories` and `computeMetricsFromSubsidiaries`: summed counts
   * and the count-weighted mean stability, rounded to a tenth.
   */
  function Aggregate(ms: seq<Metrics>): (r: Metrics)
    ensures ms == [] ==> r == Metrics(0, 0, 0.0)
  {
    var total := TotalWeight(ms);
    Metrics(SumAssets(ms), SumIncidents(ms),
            if total > 0 then RoundTenth(WeightedStability(ms) / total as real) else 0.0)
  }

  /** The counts of a concatenation are the sums of the counts of its parts. */
  lemma {:induction false} AggregateCountsAdd(a: seq<Metrics>, b: seq<Metrics>)
    ensures Aggregate(a + b).assetCount == Aggregate(a).assetCount + Aggregate(b).assetCount
    ensures Aggregate(a + b).incidentCount == Aggregate(a).incidentCount + Aggregate(b).incidentCount
  {
    if a == [] {
      assert a + b == b;
    } else {
      assert (a + b)[0] == a[0] && (a + b)[1..] == a[1..] + b;
      AggregateCountsAdd(a[1..], b);
    }
  }

  predicate IsPercentage(x: real) { 0.0 <= x <= 100.0 }

  lemma {:induction false} WeightedBounds(ms: seq<Metrics>)
    requires forall i :: 0 <= i < |ms| ==> ms[i].assetCount >= 0 && IsPercentage(ms[i].syncStability)
    ensures TotalWeight(ms) >= |ms|
    ensures 0.0 <= WeightedStability(ms) <= 100.0 * TotalWeight(ms) as real
  {
    if ms != [] {
      WeightedBounds(ms[1..]);
      var w := Weight(ms[0].assetCount);
      assert w >= 1;
      assert 0.0 <= ms[0].syncStability * w as real <= 100.0 * w as real;
      assert TotalWeight(ms) as real == w as real + TotalWeight(ms[1..]) as real;
    }
  }

  /** With non-negative counts and percentage stabilities, the mean stability is a percentage. */
  lemma AggregateStabilityIsPercentage(ms: seq<Metrics>)
    requires forall i :: 0 <= i < |ms| ==> ms[i].assetCount >= 0 && IsPercentage(ms[i].syncStability)
    ensures IsPercentage(Aggregate(ms).syncStability)
  {
    WeightedBounds(ms);
    var total := TotalWeight(ms);
    if total > 0 {
      var x := WeightedStability(ms) / total as real;
      assert 0.0 <= x <= 100.0;
      assert 0 <= (x * 10.0 + 0.5).Floor <= 1000;
    }
  }

  function FactoryMetrics(f: FactoryLocation): Metrics
  {
    Metrics(f.assets, f.incidents, f.syncStability)
  }

  function MetricsOfFactories(fs: seq<FactoryLocation>): (r: seq<Metrics>)
    ensures |r| == |fs|
    ensures forall i :: 0 <= i < |fs| ==> r[i] == FactoryMetrics(fs[i])
  {
    seq(|fs|, i requires 0 <= i < |fs| => FactoryMetrics(fs[i]))
  }

  function MetricsOfSubsidiaries(ss: seq<SubsidiaryCompany>): (r: seq<Metrics>)
    ensures |r| == |ss|
    ensures forall i :: 0 <= i < |ss| ==> r[i] == ss[i].metrics
  {
    seq(|ss|, i requires 0 <= i < |ss| => ss[i].metrics)
  }

  /** `computeMetricsFromFactories`. */
  function FactoriesMetrics(fs: seq<FactoryLocation>): Metrics
  {
    Aggregate(MetricsOfFactories(fs))
  }

  /** `computeMetricsFromSubsidiaries`. */
  function SubsidiariesMetrics(ss: seq<SubsidiaryCompany>): Metrics
  {
    Aggregate(MetricsOfSubsidiaries(ss))
  }

  // --------------------------------------------------------------- hierarchy

  /** The `subsidiaries` signal: every group's subsidiaries, in order. */
  function AllSubsidiaries(gs: seq<ParentGroup>): seq<SubsidiaryCompany>
  {
    if gs == [] then [] else gs[0].subsidiaries + AllSubsidiaries(gs[1..])
  }

  function FactoriesOf(ss: seq<SubsidiaryCompany>): seq<FactoryLocation>
  {
    if ss == [] then [] else ss[0].factories + FactoriesOf(ss[1..])
  }

  /** The `factories` signal: every subsidiary's factories, in order. */
  function AllFactories(gs: seq<ParentGroup>): seq<FactoryLocation>
  {
    FactoriesOf(AllSubsidiaries(gs))
  }

  function FindGroup(gs: seq<ParentGroup>, id: string): (r: Option<ParentGroup>)
    ensures r.Some? ==> r.value in gs && r.value.id == id
    ensures r.None? <==> forall i :: 0 <= i < |gs| ==> gs[i].id != id
  {
    match Seqs.FindFirst(gs, (g: ParentGroup) => g.id == id)
    case Some(i) => Some(gs[i])
    case None => None
  }

  function FindSubsidiary(gs: seq<ParentGroup>, id: string): (r: Option<SubsidiaryCompany>)
    ensures r.Some? ==> r.value in AllSubsidiaries(gs) && r.value.id == id
    ensures r.None? <==> forall s :: s in AllSubsidiaries(gs) ==> s.id != id
  {
    var ss := AllSubsidiaries(gs);
    match Seqs.FindFirst(ss, (s: SubsidiaryCompany) => s.id == id)
    case Some(i) => Some(ss[i])
    case None => None
  }

  function FindFactory(gs: seq<ParentGroup>, id: string): (r: Option<FactoryLocation>)
    ensures r.Some? ==> r.value in AllFactories(gs) && r.value.id == id
    ensures r.None? <==> forall f :: f in AllFactories(gs) ==> f.id != id
  {
    var fs := AllFactories(gs);
    match Seqs.FindFirst(fs, (f: FactoryLocation) => f.id == id)
    case Some(i) => Some(fs[i])
    case None => None
  }

  // --------------------------------------------------------------- selection

  /**
   * `normalizeSelection`: the selection rebuilt from the entity it names, with the
   * ids of its ancestors filled in; a client selection is kept as it is.
   */
  function NormalizeSelection(gs: seq<ParentGroup>, s: Selection): (r: Option<Selection>)
    ensures r.Some? ==> r.value.level == s.level && r.value.id == s.id
    ensures r.None? <==>
      || (s.level == Parent && forall i :: 0 <= i < |gs| ==> gs[i].id != s.id)
      || (s.level == Subsidiary && forall x :: x in AllSubsidiaries(gs) ==> x.id != s.id)
      || (s.level == Factory && forall f :: f in AllFactories(gs) ==> f.id != s.id)
    ensures r.Some? && s.level == Parent ==> r.value.parentGroupId == Some(s.id)
    ensures r.Some? && s.level == Subsidiary ==> r.value.subsidiaryId == Some(s.id)
    ensures r.Some? && s.level == Factory ==> r.value.factoryId == Some(s.id)
  {
    match s.level
    case Parent =>
      (match FindGroup(gs, s.id)
       case Some(g) => Some(Selection(Parent, g.id, Some(g.id), None, None))
       case None => None)
    case Subsidiary =>
      (match FindSubsidiary(gs, s.id)
       case Some(x) => Some(Selection(Subsidiary, x.id, Some(x.parentGroupId), Some(x.id), None))
       case None => None)
    case Factory =>
      (match FindFactory(gs, s.id)
       case Some(f) => Some(Selection(Factory, f.id, Some(f.parentGroupId), Some(f.subsidiaryId), Some(f.id)))
       case None => None)
    case Client => Some(Selection(Client, s.id, None, None, None))
  }

  /** A normalised selection normalises to itself. */
  lemma NormalizeSelectionIdempotent(gs: seq<ParentGroup>, s: Selection)
    requires NormalizeSelection(gs, s).Some?
    ensures NormalizeSelection(gs, NormalizeSelection(gs, s).value) == NormalizeSelection(gs, s)
  {
  }

  /**
   * `selectEntity`: clearing, or selecting the normalised entity and switching the view
   * to its level. A subsidiary can only be selected in the subsidiary view, and
   * selecting a factory from the subsidiary view keeps that view.
   */
  function SelectEntity(st: State, sel: Option<Selection>): (r: State)
    ensures r.groups == st.groups && r.logs == st.logs && r.factoryFilter == st.factoryFilter
    ensures sel.None? ==> r == st.(selection := None)
    ensures sel.Some? && sel.value.level == Subsidiary && st.viewMode != SubsidiaryView ==> r == st
    ensures sel.Some? && !(sel.value.level == Subsidiary && st.viewMode != SubsidiaryView) ==>
      r.selection == NormalizeSelection(st.groups, sel.value)
    ensures r.viewMode != st.viewMode ==>
      && r.selection.Some?
      && r.viewMode.Level() == r.selection.value.level
      && !(r.selection.value.level == Factory && st.viewMode == SubsidiaryView)
  {
    match sel
    case None => st.(selection := None)
    case Some(s) =>
      if s.level == Subsidiary && st.viewMode != SubsidiaryView then st
      else
        var n := NormalizeSelection(st.groups, s);
        if n.Some? && n.value.level != Client && !(n.value.level == Factory && st.viewMode == SubsidiaryView) then
          st.(selection := n, viewMode := ViewOf(n.value.level))
        else
          st.(selection := n)
  }

  function ViewOf(l: Level): (v: ViewMode)
    requires l != Client
    ensures v.Level() == l
  {
    match l
    case Parent => ParentView
    case Subsidiary => SubsidiaryView
    case Factory => FactoryView
  }

  /** Selecting the same entity twice is the same as selecting it once. */
  lemma SelectEntityIdempotent(st: State, sel: Option<Selection>)
    ensures SelectEntity(SelectEntity(st, sel), sel) == SelectEntity(st, sel)
  {
    if sel.Some? && !(sel.value.level == Subsidiary && st.viewMode != SubsidiaryView) {
      var n := NormalizeSelection(st.groups, sel.value);
      var once := SelectEntity(st, sel);
      assert once.selection == n;
    }
  }

  /** `getFirstFactoryForSelection`: the first factory of the selected subsidiary or of the selected group's first subsidiary. */
  function FirstFactoryForSelection(gs: seq<ParentGroup>, s: Selection): (r: Option<FactoryLocation>)
    ensures r.Some? ==> s.level == Subsidiary || s.level == Parent
  {
    match s.level
    case Subsidiary =>
      (match FindSubsidiary(gs, s.id)
       case Some(x) => if x.factories != [] then Some(x.factories[0]) else None
       case None => None)
    case Parent =>
      var parentId := if Filled(s.parentGroupId) then s.parentGroupId.value else s.id;
      (match FindGroup(gs, parentId)
       case Some(g) =>
         if g.subsidiaries != [] && g.subsidiaries[0].factories != [] then Some(g.subsidiaries[0].factories[0])
         else None
       case None => None)
    case _ => None
  }

  /** The selection `setMapViewMode` moves to when the view changes to `mode`. */
  function SelectionForView(gs: seq<ParentGroup>, s: Selection, mode: ViewMode): (r: Option<Selection>)
    requires s.level != mode.Level()
    ensures r.Some? ==> r.value.level == mode.Level()
  {
    match mode
    case ParentView =>
      var parentId := Or(s.parentGroupId, Some(s.id));
      if Filled(parentId) then Some(Selection(Parent, parentId.value, parentId, None, None)) else None
    case SubsidiaryView =>
      var subsidiaryId := Or(s.subsidiaryId, if s.level == Subsidiary then Some(s.id) else None);
      if Filled(subsidiaryId) then
        var found := match FindSubsidiary(gs, subsidiaryId.value)
          case Some(x) => Some(x.parentGroupId)
          case None => None;
        var parentId := Or(s.parentGroupId, found);
        Some(Selection(Subsidiary, subsidiaryId.value, if Filled(parentId) then parentId else None, subsidiaryId, None))
      else None
    case FactoryView =>
      if s.level == Subsidiary then None
      else if Filled(s.factoryId) then
        Some(Selection(Factory, s.factoryId.value, s.parentGroupId, s.subsidiaryId, s.factoryId))
      else
        match FirstFactoryForSelection(gs, s)
        case Some(f) => Some(Selection(Factory, f.id, Some(f.parentGroupId), Some(f.subsidiaryId), Some(f.id)))
        case None => None
  }

  /**
   * `setMapViewMode`: switch the view, clear the factory filter, and move a selection
   * of another level to the matching entity of the new level when there is one.
   */
  function SetMapViewMode(st: State, mode: ViewMode): (r: State)
    ensures r.viewMode == mode && r.factoryFilter == None
    ensures r.groups == st.groups && r.logs == st.logs
    ensures st.selection.None? || st.selection.value.level == mode.Level() ==> r.selection == st.selection
    ensures r.selection != st.selection ==> r.selection.Some? && r.selection.value.level == mode.Level()
  {
    var cleared := st.(viewMode := mode, factoryFilter := None);
    match st.selection
    case None => cleared
    case Some(s) =>
      if s.level == mode.Level() then cleared
      else
        match SelectionForView(st.groups, s, mode)
        case Some(moved) => cleared.(selection := Some(moved))
        case None => cleared
  }

  /** Switching to the same view twice is the same as switching once. */
  lemma SetMapViewModeIdempotent(st: State, mode: ViewMode)
    ensures SetMapViewMode(SetMapViewMode(st, mode), mode) == SetMapViewMode(st, mode)
  {
    var once := SetMapViewMode(st, mode);
    if once.selection != st.selection {
      assert once.selection.value.level == mode.Level();
    }
  }

  // ------------------------------------------------------- flattening lemmas

  lemma {:induction false} AllSubsidiariesAppend(a: seq<ParentGroup>, b: seq<ParentGroup>)
    ensures AllSubsidiaries(a + b) == AllSubsidiaries(a) + AllSubsidiaries(b)
  {
    if a == [] {
      assert a + b == b;
    } else {
      assert (a + b)[0] == a[0] && (a + b)[1..] == a[1..] + b;
      AllSubsidiariesAppend(a[1..], b);
    }
  }

  /** Rewriting every group's subsidiaries with `f` rewrites the flattened subsidiaries with `f`. */
  lemma {:induction false} AllSubsidiariesMapped(gs: seq<ParentGroup>, hs: seq<ParentGroup>, f: SubsidiaryCompany -> SubsidiaryCompany)
    requires |gs| == |hs|
    requires forall i :: 0 <= i < |gs| ==> hs[i].subsidiaries == Seqs.Map(gs[i].subsidiaries, f)
    ensures AllSubsidiaries(hs) == Seqs.Map(AllSubsidiaries(gs), f)
  {
    if gs != [] {
      AllSubsidiariesMapped(gs[1..], hs[1..], f);
      Seqs.MapAppend(gs[0].subsidiaries, AllSubsidiaries(gs[1..]), f);
    }
  }

  /** Rewriting every group's subsidiaries by a filter filters the flattened subsidiaries. */
  lemma {:induction false} AllSubsidiariesFiltered(gs: seq<ParentGroup>, hs: seq<ParentGroup>, p: SubsidiaryCompany -> bool)
    requires |gs| == |hs|
    requires forall i :: 0 <= i < |gs| ==> hs[i].subsidiaries == Seqs.Filter(gs[i].subsidiaries, p)
    ensures AllSubsidiaries(hs) == Seqs.Filter(AllSubsidiaries(gs), p)
  {
    if gs != [] {
      AllSubsidiariesFiltered(gs[1..], hs[1..], p);
      Seqs.FilterAppend(gs[0].subsidiaries, AllSubsidiaries(gs[1..]), p);
    }
  }

  // -------------------------------------------------------------- deleteFactory

  function OtherFactory(id: string): FactoryLocation -> bool { (f: FactoryLocation) => f.id != id }

  function OtherFactoryLog(id: string): ActivityLog -> bool { (l: ActivityLog) => l.factoryId != id }

  predicate HasFactory(gs: seq<ParentGroup>, id: string)
  {
    exists f :: f in AllFactories(gs) && f.id == id
  }

  /** A subsidiary without the factory, with its metrics recomputed when a factory went. */
  function RemoveFactoryFrom(x: SubsidiaryCompany, id: string): (r: SubsidiaryCompany)
    ensures r.id == x.id && r.parentGroupId == x.parentGroupId
    ensures r.factories == Seqs.Filter(x.factories, OtherFactory(id))
  {
    var remaining := Seqs.Filter(x.factories, OtherFactory(id));
    if |remaining| == |x.factories| then x
    else x.(factories := remaining, metrics := FactoriesMetrics(remaining))
  }

  function RemovingFactory(id: string): SubsidiaryCompany -> SubsidiaryCompany
  {
    (x: SubsidiaryCompany) => RemoveFactoryFrom(x, id)
  }

  /** A group is replaced only when one of its subsidiaries lost a factory. */
  function RemoveFactoryFromGroup(g: ParentGroup, id: string): (r: ParentGroup)
    ensures r.id == g.id
    ensures r.subsidiaries == Seqs.Map(g.subsidiaries, RemovingFactory(id))
  {
    var subs := Seqs.Map(g.subsidiaries, RemovingFactory(id));
    if subs == g.subsidiaries then g
    else g.(subsidiaries := subs, metrics := SubsidiariesMetrics(subs))
  }

  function RemovingFactoryFromGroup(id: string): ParentGroup -> ParentGroup
  {
    (g: ParentGroup) => RemoveFactoryFromGroup(g, id)
  }

  lemma {:induction false} FactoriesOfRemoved(ss: seq<SubsidiaryCompany>, id: string)
    ensures FactoriesOf(Seqs.Map(ss, RemovingFactory(id))) == Seqs.Filter(FactoriesOf(ss), OtherFactory(id))
  {
    if ss != [] {
      var m := Seqs.Map(ss, RemovingFactory(id));
      assert m[1..] == Seqs.Map(ss[1..], RemovingFactory(id));
      FactoriesOfRemoved(ss[1..], id);
      Seqs.FilterAppend(ss[0].factories, FactoriesOf(ss[1..]), OtherFactory(id));
    }
  }

  /** Removing a factory from every group filters it out of the flattened factory list. */
  lemma RemovedFactories(gs: seq<ParentGroup>, id: string)
    ensures AllFactories(Seqs.Map(gs, RemovingFactoryFromGroup(id))) == Seqs.Filter(AllFactories(gs), OtherFactory(id))
  {
    var hs := Seqs.Map(gs, RemovingFactoryFromGroup(id));
    AllSubsidiariesMapped(gs, hs, RemovingFactory(id));
    FactoriesOfRemoved(AllSubsidiaries(gs), id);
  }

  /** Where the factory lives: the ids of the group and subsidiary that last hold it. */
  datatype Holder = Holder(groupId: string, subsidiaryId: string)

  predicate SubsidiaryHolds(x: SubsidiaryCompany, id: string)
  {
    exists k :: 0 <= k < |x.factories| && x.factories[k].id == id
  }

  function LastHolderIn(gid: string, ss: seq<SubsidiaryCompany>, id: string): (r: Option<Holder>)
    ensures r.Some? <==> exists j :: 0 <= j < |ss| && SubsidiaryHolds(ss[j], id)
    ensures r.Some? ==> r.value.groupId == gid
  {
    if ss == [] then None
    else if SubsidiaryHolds(ss[|ss| - 1], id) then Some(Holder(gid, ss[|ss| - 1].id))
    else LastHolderIn(gid, ss[..|ss| - 1], id)
  }

  /** The last group and subsidiary, in hierarchy order, holding a factory with the id. */
  function LastHolder(gs: seq<ParentGroup>, id: string): Option<Holder>
  {
    if gs == [] then None
    else match LastHolderIn(gs[|gs| - 1].id, gs[|gs| - 1].subsidiaries, id)
      case Some(h) => Some(h)
      case None => LastHolder(gs[..|gs| - 1], id)
  }

  predicate SelectsFactory(sel: Option<Selection>, id: string)
  {
    sel.Some? && (sel.value.factoryId == Some(id) || sel.value.id == id)
  }

  /** The groups with the factory removed everywhere. */
  function RemoveFactoryFromGroups(gs: seq<ParentGroup>, id: string): (r: seq<ParentGroup>)
    ensures |r| == |gs|
    ensures forall i :: 0 <= i < |r| ==> r[i].id == gs[i].id
    ensures AllFactories(r) == Seqs.Filter(AllFactories(gs), OtherFactory(id))
    ensures !HasFactory(r, id)
  {
    RemovedFactories(gs, id);
    Seqs.Map(gs, RemovingFactoryFromGroup(id))
  }

  /** The selection and view mode together. */
  datatype Focus = Focus(selection: Option<Selection>, viewMode: ViewMode)

  /** Where a selection of a deleted factory moves: its subsidiary, else its group, else nowhere. */
  function FocusAfterFactoryDeleted(st: State, id: string): (r: Focus)
    ensures !SelectsFactory(st.selection, id) ==> r == Focus(st.selection, st.viewMode)
    ensures SelectsFactory(st.selection, id) ==>
      r.selection.None? || (r.selection.value.level in {Parent, Subsidiary} && r.viewMode.Level() == r.selection.value.level)
  {
    if !SelectsFactory(st.selection, id) then Focus(st.selection, st.viewMode)
    else match LastHolder(st.groups, id)
      case None => Focus(None, st.viewMode)
      case Some(h) =>
        if h.subsidiaryId != [] then
          var parent := if h.groupId != [] then Some(h.groupId) else None;
          Focus(Some(Selection(Subsidiary, h.subsidiaryId, parent, Some(h.subsidiaryId), None)), SubsidiaryView)
        else if h.groupId != [] then
          Focus(Some(Selection(Parent, h.groupId, Some(h.groupId), None, None)), ParentView)
        else
          Focus(None, st.viewMode)
  }

  /**
   * `deleteFactory`: nothing happens unless a factory has the id. Otherwise it goes
   * from every subsidiary, its logs go, and a selection of it moves up to the
   * subsidiary (or else the group) that held it.
   */
  function DeleteFactory(st: State, id: string): (r: State)
    ensures !HasFactory(st.groups, id) ==> r == st
    ensures !HasFactory(r.groups, id)
    ensures AllFactories(r.groups) == Seqs.Filter(AllFactories(st.groups), OtherFactory(id))
    ensures |r.groups| == |st.groups|
    ensures forall i :: 0 <= i < |r.groups| ==> r.groups[i].id == st.groups[i].id
    ensures HasFactory(st.groups, id) ==> forall i :: 0 <= i < |r.logs| ==> r.logs[i].factoryId != id
    ensures forall i :: 0 <= i < |r.logs| ==> r.logs[i] in st.logs
    ensures forall i :: 0 <= i < |st.logs| && st.logs[i].factoryId != id ==> st.logs[i] in r.logs
    ensures !SelectsFactory(st.selection, id) ==> r.selection == st.selection && r.viewMode == st.viewMode
    ensures SelectsFactory(st.selection, id) && HasFactory(st.groups, id) ==>
      r.selection.None? || (r.selection.value.level in {Parent, Subsidiary} && r.viewMode.Level() == r.selection.value.level)
  {
    var gs := RemoveFactoryFromGroups(st.groups, id);
    if !HasFactory(st.groups, id) then
      assert AllFactories(gs) == AllFactories(st.groups);
      st
    else
      var focus := FocusAfterFactoryDeleted(st, id);
      st.(groups := gs, logs := Seqs.Filter(st.logs, OtherFactoryLog(id)),
          selection := focus.selection, viewMode := focus.viewMode)
  }

  /** Deleting a factory twice is the same as deleting it once. */
  lemma DeleteFactoryIdempotent(st: State, id: string)
    ensures DeleteFactory(DeleteFactory(st, id), id) == DeleteFactory(st, id)
  {
  }

  // ----------------------------------------------------------- deleteSubsidiary

  function OtherSubsidiary(id: string): SubsidiaryCompany -> bool { (x: SubsidiaryCompany) => x.id != id }

  function FactoryIds(fs: seq<FactoryLocation>): (r: seq<string>)
    ensures forall f :: f in fs ==> f.id in r
  {
    Seqs.Map(fs, (f: FactoryLocation) => f.id)
  }

  /** A log that survives deleting subsidiary `id` whose factories have ids `removed`. */
  function UnrelatedLog(id: string, removed: seq<string>): ActivityLog -> bool
  {
    (l: ActivityLog) => l.subsidiaryId != id && l.factoryId !in removed
  }

  /** A group is replaced only when it held the subsidiary. */
  function RemoveSubsidiaryFromGroup(g: ParentGroup, id: string): (r: ParentGroup)
    ensures r.id == g.id
    ensures r.subsidiaries == Seqs.Filter(g.subsidiaries, OtherSubsidiary(id))
  {
    var remaining := Seqs.Filter(g.subsidiaries, OtherSubsidiary(id));
    if |remaining| == |g.subsidiaries| then g
    else g.(subsidiaries := remaining, metrics := SubsidiariesMetrics(remaining))
  }

  function RemovingSubsidiary(id: string): ParentGroup -> ParentGroup
  {
    (g: ParentGroup) => RemoveSubsidiaryFromGroup(g, id)
  }

  lemma RemovedSubsidiaries(gs: seq<ParentGroup>, id: string)
    ensures AllSubsidiaries(Seqs.Map(gs, RemovingSubsidiary(id))) == Seqs.Filter(AllSubsidiaries(gs), OtherSubsidiary(id))
  {
    AllSubsidiariesFiltered(gs, Seqs.Map(gs, RemovingSubsidiary(id)), OtherSubsidiary(id));
  }

  predicate SelectsSubsidiary(sel: Option<Selection>, id: string)
  {
    sel.Some? && (sel.value.subsidiaryId == Some(id) || sel.value.id == id)
  }

  /** The groups without the subsidiary. */
  function RemoveSubsidiaryFromGroups(gs: seq<ParentGroup>, id: string): (r: seq<ParentGroup>)
    ensures |r| == |gs|
    ensures forall i :: 0 <= i < |r| ==> r[i].id == gs[i].id
    ensures AllSubsidiaries(r) == Seqs.Filter(AllSubsidiaries(gs), OtherSubsidiary(id))
    ensures forall x :: x in AllSubsidiaries(r) ==> x.id != id
  {
    RemovedSubsidiaries(gs, id);
    Seqs.Map(gs, RemovingSubsidiary(id))
  }

  /** Where a selection of a deleted subsidiary moves: its parent group, else nowhere. */
  function FocusAfterSubsidiaryDeleted(st: State, removed: SubsidiaryCompany): (r: Focus)
    ensures !SelectsSubsidiary(st.selection, removed.id) ==> r == Focus(st.selection, st.viewMode)
    ensures SelectsSubsidiary(st.selection, removed.id) ==>
      r.selection.None? || (r.selection.value.level == Parent && r.viewMode == ParentView)
  {
    if !SelectsSubsidiary(st.selection, removed.id) then Focus(st.selection, st.viewMode)
    else if removed.parentGroupId != [] then
      Focus(Some(Selection(Parent, removed.parentGroupId, Some(removed.parentGroupId), None, None)), ParentView)
    else
      Focus(None, st.viewMode)
  }

  /** The logs that survive: neither of the subsidiary nor of one of its factories. */
  function LogsAfterSubsidiaryDeleted(logs: seq<ActivityLog>, removed: SubsidiaryCompany): (r: seq<ActivityLog>)
    ensures forall i :: 0 <= i < |r| ==> r[i] in logs && r[i].subsidiaryId != removed.id
    ensures forall i, k :: 0 <= i < |r| && 0 <= k < |removed.factories| ==> r[i].factoryId != removed.factories[k].id
    ensures forall i :: 0 <= i < |logs| && logs[i].subsidiaryId != removed.id && logs[i].factoryId !in FactoryIds(removed.factories)
              ==> logs[i] in r
  {
    var ids := FactoryIds(removed.factories);
    var r := Seqs.Filter(logs, UnrelatedLog(removed.id, ids));
    assert forall k :: 0 <= k < |removed.factories| ==> removed.factories[k].id in ids;
    r
  }

  /**
   * `deleteSubsidiary`: nothing happens unless a subsidiary has the id. Otherwise every
   * subsidiary with the id goes, with the logs of the first one's subsidiary id and
   * factories, and a selection of it moves up to its parent group.
   */
  function DeleteSubsidiary(st: State, id: string): (r: State)
    ensures FindSubsidiary(st.groups, id).None? ==> r == st
    ensures forall x :: x in AllSubsidiaries(r.groups) ==> x.id != id
    ensures AllSubsidiaries(r.groups) == Seqs.Filter(AllSubsidiaries(st.groups), OtherSubsidiary(id))
    ensures |r.groups| == |st.groups|
    ensures forall i :: 0 <= i < |r.groups| ==> r.groups[i].id == st.groups[i].id
    ensures FindSubsidiary(st.groups, id).Some? ==>
      r.logs == LogsAfterSubsidiaryDeleted(st.logs, FindSubsidiary(st.groups, id).value)
    ensures !SelectsSubsidiary(st.selection, id) ==> r.selection == st.selection && r.viewMode == st.viewMode
    ensures SelectsSubsidiary(st.selection, id) && FindSubsidiary(st.groups, id).Some? ==>
      r.selection.None? || (r.selection.value.level == Parent && r.viewMode == ParentView)
  {
    var gs := RemoveSubsidiaryFromGroups(st.groups, id);
    match FindSubsidiary(st.groups, id)
    case None =>
      assert AllSubsidiaries(gs) == AllSubsidiaries(st.groups);
      st
    case Some(removed) =>
      var focus := FocusAfterSubsidiaryDeleted(st, removed);
      st.(groups := gs, logs := LogsAfterSubsidiaryDeleted(st.logs, removed),
          selection := focus.selection, viewMode := focus.viewMode)
  }

  /** Deleting a subsidiary twice is the same as deleting it once. */
  lemma DeleteSubsidiaryIdempotent(st: State, id: string)
    ensures DeleteSubsidiary(DeleteSubsidiary(st, id), id) == DeleteSubsidiary(st, id)
  {
    var once := DeleteSubsidiary(st, id);
    assert FindSubsidiary(once.groups, id).None?;
  }

  // ------------------------------------------------------- updateFactoryDetails

  /** The optional fields of an `updateFactoryDetails` call; `None` is `undefined`. */
  datatype FactoryUpdate = FactoryUpdate(
    name: Option<string>,
    city: Option<string>,
    country: Option<string>,
    description: Option<string>,
    coordinates: Option<Coordinates>,
    locationLabel: Option<string>,
    status: Option<string>)

  /** `updates.x ?? existing.x` for every field the update can carry. */
  function ApplyUpdate(f: FactoryLocation, u: FactoryUpdate): (r: FactoryLocation)
    ensures r.id == f.id && r.parentGroupId == f.parentGroupId && r.subsidiaryId == f.subsidiaryId
    ensures r.assets == f.assets && r.incidents == f.incidents && r.syncStability == f.syncStability
    ensures u.name.None? ==> r.name == f.name
    ensures u.city.None? ==> r.city == f.city
    ensures u.country.None? ==> r.country == f.country
    ensures u.description.None? ==> r.description == f.description
    ensures u.coordinates.None? ==> r.coordinates == f.coordinates
    ensures u.status.None? ==> r.status == f.status
  {
    f.(name := u.name.GetOr(f.name),
       city := u.city.GetOr(f.city),
       country := if u.country.Some? then u.country else f.country,
       description := if u.description.Some? then u.description else f.description,
       coordinates := u.coordinates.GetOr(f.coordinates),
       status := u.status.GetOr(f.status))
  }

  /** Applying the same update twice is applying it once. */
  lemma ApplyUpdateIdempotent(f: FactoryLocation, u: FactoryUpdate)
    ensures ApplyUpdate(ApplyUpdate(f, u), u) == ApplyUpdate(f, u)
  {
  }

  function IsFactoryId(id: string): FactoryLocation -> bool { (f: FactoryLocation) => f.id == id }

  /** The first factory with the id is updated and the metrics recomputed; a subsidiary without it is kept. */
  function UpdateIn(x: SubsidiaryCompany, id: string, u: FactoryUpdate): (r: SubsidiaryCompany)
    ensures r.id == x.id && r.parentGroupId == x.parentGroupId
    ensures !SubsidiaryHolds(x, id) ==> r == x
    ensures UpdatedFrom(x.factories, r.factories, id, u)
    ensures SubsidiaryHolds(x, id) ==>
      exists k :: 0 <= k < |x.factories| && x.factories[k].id == id && r.factories[k] == ApplyUpdate(x.factories[k], u)
  {
    match Seqs.FindFirst(x.factories, IsFactoryId(id))
    case None => x
    case Some(k) =>
      var fs := x.factories[k := ApplyUpdate(x.factories[k], u)];
      x.(factories := fs, metrics := FactoriesMetrics(fs))
  }

  function Updating(id: string, u: FactoryUpdate): SubsidiaryCompany -> SubsidiaryCompany
  {
    (x: SubsidiaryCompany) => UpdateIn(x, id, u)
  }

  predicate GroupHolds(g: ParentGroup, id: string)
  {
    exists j :: 0 <= j < |g.subsidiaries| && SubsidiaryHolds(g.subsidiaries[j], id)
  }

  function UpdateInGroup(g: ParentGroup, id: string, u: FactoryUpdate): (r: ParentGroup)
    ensures r.id == g.id
    ensures r.subsidiaries == Seqs.Map(g.subsidiaries, Updating(id, u))
  {
    var subs := Seqs.Map(g.subsidiaries, Updating(id, u));
    if !GroupHolds(g, id) then
      assert subs == g.subsidiaries;
      g
    else g.(subsidiaries := subs, metrics := SubsidiariesMetrics(subs))
  }

  function UpdatingGroup(id: string, u: FactoryUpdate): ParentGroup -> ParentGroup
  {
    (g: ParentGroup) => UpdateInGroup(g, id, u)
  }

  /** `b` is `a` with some factories having the id replaced by their updated version. */
  predicate UpdatedFrom(a: seq<FactoryLocation>, b: seq<FactoryLocation>, id: string, u: FactoryUpdate)
  {
    && |a| == |b|
    && forall k :: 0 <= k < |a| ==> b[k] == a[k] || (a[k].id == id && b[k] == ApplyUpdate(a[k], u))
  }

  lemma UpdatedFromAppend(a1: seq<FactoryLocation>, b1: seq<FactoryLocation>, a2: seq<FactoryLocation>, b2: seq<FactoryLocation>, id: string, u: FactoryUpdate)
    requires UpdatedFrom(a1, b1, id, u) && UpdatedFrom(a2, b2, id, u)
    ensures UpdatedFrom(a1 + a2, b1 + b2, id, u)
  {
    forall k | 0 <= k < |a1 + a2|
      ensures (b1 + b2)[k] == (a1 + a2)[k] || ((a1 + a2)[k].id == id && (b1 + b2)[k] == ApplyUpdate((a1 + a2)[k], u))
    {
      if k >= |a1| {
        assert (a1 + a2)[k] == a2[k - |a1|] && (b1 + b2)[k] == b2[k - |a1|];
      }
    }
  }

  lemma {:induction false} FactoriesOfUpdated(ss: seq<SubsidiaryCompany>, id: string, u: FactoryUpdate)
    ensures UpdatedFrom(FactoriesOf(ss), FactoriesOf(Seqs.Map(ss, Updating(id, u))), id, u)
  {
    var m := Seqs.Map(ss, Updating(id, u));
    if ss != [] {
      assert m[1..] == Seqs.Map(ss[1..], Updating(id, u));
      FactoriesOfUpdated(ss[1..], id, u);
      assert UpdatedFrom(ss[0].factories, m[0].factories, id, u);
      UpdatedFromAppend(ss[0].factories, m[0].factories, FactoriesOf(ss[1..]), FactoriesOf(m[1..]), id, u);
    }
  }

  function UpdateLog(l: ActivityLog, id: string, u: FactoryUpdate): ActivityLog
  {
    if l.factoryId != id then l
    else l.(description := u.description.GetOr(l.description),
            location := if u.locationLabel.Some? then u.locationLabel else l.location)
  }

  function UpdatingLog(id: string, u: FactoryUpdate): ActivityLog -> ActivityLog
  {
    (l: ActivityLog) => UpdateLog(l, id, u)
  }

  /**
   * `updateFactoryDetails`: the factory with the id takes the fields the update
   * carries; the logs of that factory take a new description or location when the
   * update has a description or a non-empty location label.
   */
  function UpdateFactoryDetails(st: State, id: string, u: FactoryUpdate): (r: State)
    ensures r.viewMode == st.viewMode && r.selection == st.selection && r.factoryFilter == st.factoryFilter
    ensures |r.groups| == |st.groups|
    ensures forall i :: 0 <= i < |r.groups| ==> r.groups[i].id == st.groups[i].id
    ensures UpdatedFrom(AllFactories(st.groups), AllFactories(r.groups), id, u)
    ensures |AllSubsidiaries(r.groups)| == |AllSubsidiaries(st.groups)|
    ensures forall j :: 0 <= j < |AllSubsidiaries(st.groups)| ==>
      AllSubsidiaries(r.groups)[j] == UpdateIn(AllSubsidiaries(st.groups)[j], id, u)
    ensures |r.logs| == |st.logs|
    ensures forall i :: 0 <= i < |st.logs| && st.logs[i].factoryId != id ==> r.logs[i] == st.logs[i]
    ensures u.description.None? && !Filled(u.locationLabel) ==> r.logs == st.logs
    ensures u.description.Some? || Filled(u.locationLabel) ==>
              forall i :: 0 <= i < |st.logs| && st.logs[i].factoryId == id ==>
                && r.logs[i].description == u.description.GetOr(st.logs[i].description)
                && r.logs[i].location == (if u.locationLabel.Some? then u.locationLabel else st.logs[i].location)
                && r.logs[i] == st.logs[i].(description := r.logs[i].description, location := r.logs[i].location)
  {
    var hs := Seqs.Map(st.groups, UpdatingGroup(id, u));
    AllSubsidiariesMapped(st.groups, hs, Updating(id, u));
    FactoriesOfUpdated(AllSubsidiaries(st.groups), id, u);
    var logs := if u.description.Some? || Filled(u.locationLabel) then Seqs.Map(st.logs, UpdatingLog(id, u)) else st.logs;
    st.(groups := hs, logs := logs)
  }

  // ----------------------------------------------------------- addActivityLog

  /** The most entries the activity log keeps. */
  const LogCap := 40

  /** The sort key that puts the newest log first. */
  function NewestFirst(): ActivityLog -> int { (l: ActivityLog) => -l.timestamp }

  /**
   * `addActivityLog`: drop the factory's earlier entries, put the new one in front,
   * sort newest first (stably, so the new entry leads its timestamp) and keep 40.
   */
  function AddActivityLog(logs: seq<ActivityLog>, log: ActivityLog): (r: seq<ActivityLog>)
    ensures |r| <= LogCap
    ensures forall i, j :: 0 <= i < j < |r| ==> r[i].timestamp >= r[j].timestamp
    ensures forall i :: 0 <= i < |r| ==> r[i] == log || (r[i] in logs && r[i].factoryId != log.factoryId)
    ensures forall i, j :: 0 <= i < j < |r| && r[i].factoryId == log.factoryId ==> r[j].factoryId != log.factoryId
    ensures |logs| < LogCap ==> log in r
    ensures |logs| < LogCap ==> forall i :: 0 <= i < |logs| && logs[i].factoryId != log.factoryId ==> logs[i] in r
    ensures var others := |Seqs.Filter(logs, OtherFactoryLog(log.factoryId))|;
            |r| == if others < LogCap then others + 1 else LogCap
    ensures log !in r ==> |r| == LogCap && forall j :: 0 <= j < |r| ==> r[j].timestamp >= log.timestamp
    ensures forall i :: 0 <= i < |logs| && logs[i].factoryId != log.factoryId && logs[i] !in r ==>
              |r| == LogCap && forall j :: 0 <= j < |r| ==> r[j].timestamp >= logs[i].timestamp
  {
    var kept := Seqs.Filter(logs, OtherFactoryLog(log.factoryId));
    var sorted := Sorting.SortBy([log] + kept, NewestFirst());
    var r := Take(sorted, LogCap);
    NewestFirstOrder(sorted, r);
    AddedLogOnce(log, kept, sorted, r);
    AddedLogKeepsAll(logs, log, kept, sorted);
    CapDropsOldest(logs, log, kept, sorted, r);
    r
  }

  /** The cap keeps one more than the other factories' entries, up to 40, and drops only the oldest. */
  lemma CapDropsOldest(logs: seq<ActivityLog>, log: ActivityLog, kept: seq<ActivityLog>, sorted: seq<ActivityLog>,
                       r: seq<ActivityLog>)
    requires kept == Seqs.Filter(logs, OtherFactoryLog(log.factoryId))
    requires |sorted| == |kept| + 1
    requires Sorting.SortedBy(sorted, NewestFirst())
    requires log in sorted
    requires forall i :: 0 <= i < |logs| && logs[i].factoryId != log.factoryId ==> logs[i] in sorted
    requires r == Take(sorted, LogCap)
    ensures |r| == if |kept| < LogCap then |kept| + 1 else LogCap
    ensures log !in r ==> |r| == LogCap && forall j :: 0 <= j < |r| ==> r[j].timestamp >= log.timestamp
    ensures forall i :: 0 <= i < |logs| && logs[i].factoryId != log.factoryId && logs[i] !in r ==>
              |r| == LogCap && forall j :: 0 <= j < |r| ==> r[j].timestamp >= logs[i].timestamp
  {
    DroppedAreOlder(sorted, r);
  }

  /** What the cap drops from a newest-first list is no newer than anything it keeps. */
  lemma DroppedAreOlder(sorted: seq<ActivityLog>, r: seq<ActivityLog>)
    requires Sorting.SortedBy(sorted, NewestFirst())
    requires r == Take(sorted, LogCap)
    ensures forall x :: x in sorted && x !in r ==>
              |r| == LogCap && forall j :: 0 <= j < |r| ==> r[j].timestamp >= x.timestamp
  {
    forall x | x in sorted && x !in r
      ensures |r| == LogCap && forall j :: 0 <= j < |r| ==> r[j].timestamp >= x.timestamp
    {
      var k :| 0 <= k < |sorted| && sorted[k] == x;
      assert forall i :: 0 <= i < |r| ==> r[i] == sorted[i];
      forall j | 0 <= j < |r| ensures r[j].timestamp >= x.timestamp {
        assert r[j] == sorted[j];
        assert NewestFirst()(sorted[j]) <= NewestFirst()(sorted[k]);
      }
    }
  }

  /** `slice(0, n)`. */
  function Take<T>(s: seq<T>, n: nat): (r: seq<T>)
    ensures |r| <= n && r <= s
    ensures |s| <= n ==> r == s
  {
    if |s| <= n then s else s[..n]
  }

  lemma NewestFirstOrder(sorted: seq<ActivityLog>, r: seq<ActivityLog>)
    requires Sorting.SortedBy(sorted, NewestFirst())
    requires r <= sorted
    ensures forall i, j :: 0 <= i < j < |r| ==> r[i].timestamp >= r[j].timestamp
  {
    forall i, j | 0 <= i < j < |r| ensures r[i].timestamp >= r[j].timestamp {
      assert r[i] == sorted[i] && r[j] == sorted[j];
      assert NewestFirst()(sorted[i]) <= NewestFirst()(sorted[j]);
    }
  }

  lemma AddedLogOnce(log: ActivityLog, kept: seq<ActivityLog>, sorted: seq<ActivityLog>, r: seq<ActivityLog>)
    requires forall i :: 0 <= i < |kept| ==> kept[i].factoryId != log.factoryId
    requires multiset(sorted) == multiset([log] + kept)
    requires r <= sorted
    ensures forall i :: 0 <= i < |r| ==> r[i] == log || (r[i] in kept && r[i].factoryId != log.factoryId)
    ensures forall i, j :: 0 <= i < j < |r| && r[i].factoryId == log.factoryId ==> r[j].factoryId != log.factoryId
  {
    forall i | 0 <= i < |r|
      ensures r[i] == log || (r[i] in kept && r[i].factoryId != log.factoryId)
    {
      assert r[i] == sorted[i];
      assert r[i] in multiset([log] + kept);
    }
    forall i, j | 0 <= i < j < |r| && r[i].factoryId == log.factoryId
      ensures r[j].factoryId != log.factoryId
    {
      if r[j].factoryId == log.factoryId {
        assert r[i] == sorted[i] && r[j] == sorted[j];
        Seqs.TwoPositionsCountTwice(sorted, i, j);
      }
    }
  }

  lemma AddedLogKeepsAll(logs: seq<ActivityLog>, log: ActivityLog, kept: seq<ActivityLog>, sorted: seq<ActivityLog>)
    requires kept == Seqs.Filter(logs, OtherFactoryLog(log.factoryId))
    requires multiset(sorted) == multiset([log] + kept)
    ensures log in sorted
    ensures forall i :: 0 <= i < |logs| && logs[i].factoryId != log.factoryId ==> logs[i] in sorted
  {
    assert log in multiset(sorted);
    forall i | 0 <= i < |logs| && logs[i].factoryId != log.factoryId
      ensures logs[i] in sorted
    {
      assert logs[i] in kept;
      assert logs[i] in multiset(sorted);
    }
  }

  // ------------------------------------------------------------ identifiers

  /** Non-empty slugs joined with `-` form a slug. */
  lemma {:induction false} JoinedSlugsAreSlug(ss: seq<string>)
    requires forall i :: 0 <= i < |ss| ==> ss[i] != [] && IsSlug(ss[i])
    ensures ss != [] ==> Join(ss, "-") != [] && IsSlug(Join(ss, "-"))
  {
    if |ss| >= 2 {
      JoinedSlugsAreSlug(ss[1..]);
      var a := ss[0];
      var b := Join(ss[1..], "-");
      var j := a + "-" + b;
      assert Join(ss, "-") == j;
      forall i | 0 <= i < |j| - 1 ensures !(j[i] == '-' && j[i + 1] == '-')
      {
        if i < |a| - 1 {
          assert j[i] == a[i] && j[i + 1] == a[i + 1];
        } else if i == |a| - 1 {
          assert j[i] == a[|a| - 1];
        } else if i == |a| {
          assert j[i + 1] == b[0];
        } else {
          assert j[i] == b[i - |a| - 1] && j[i + 1] == b[i - |a|];
        }
      }
      assert forall i :: 0 <= i < |a| ==> j[i] == a[i];
      assert forall i :: |a| < i < |j| ==> j[i] == b[i - |a| - 1];
    }
  }

  /**
   * `parts.filter(Boolean).map(slugify).filter(Boolean)`: the non-empty slugs of the
   * parts, in order (an empty part has an empty slug, so the first filter changes nothing).
   */
  function PartSlugs(parts: seq<string>): (r: seq<string>)
    ensures forall i :: 0 <= i < |r| ==> r[i] != [] && IsSlug(r[i])
    ensures r == [] <==> forall i :: 0 <= i < |parts| ==> Slugify(parts[i]) == []
  {
    var slugs := Seqs.Map(parts, Slugify);
    var r := Seqs.Filter(slugs, NonEmpty());
    KeptSlugsAreSlugs(parts, r);
    Seqs.FilterEmpty(slugs, NonEmpty());
    r
  }

  lemma KeptSlugsAreSlugs(parts: seq<string>, r: seq<string>)
    requires forall i :: 0 <= i < |r| ==> r[i] in Seqs.Map(parts, Slugify) && r[i] != []
    ensures forall i :: 0 <= i < |r| ==> r[i] != [] && IsSlug(r[i])
  {
    var slugs := Seqs.Map(parts, Slugify);
    forall i | 0 <= i < |r| ensures IsSlug(r[i]) {
      assert r[i] in slugs;
      var k :| 0 <= k < |slugs| && slugs[k] == r[i];
      assert r[i] == Slugify(parts[k]);
    }
  }

  function NonEmpty(): string -> bool { (s: string) => s != [] }

  /** `generateManufacturerLocationId`, with `Date.now()` given as `now`. */
  function GenerateManufacturerLocationId(parts: seq<string>, now: int): (r: string)
    ensures (forall i :: 0 <= i < |parts| ==> Slugify(parts[i]) == []) ==> r == "factory-" + IntToString(now)
    ensures (exists i :: 0 <= i < |parts| && Slugify(parts[i]) != []) ==>
      r == Join(PartSlugs(parts), "-") && IsSlug(r) && r != []
  {
    var slugs := PartSlugs(parts);
    JoinedSlugsAreSlug(slugs);
    if slugs != [] then Join(slugs, "-") else "factory-" + IntToString(now)
  }
}
